=== FILE: README.md ===
# narrator core in Dafny

A model of the core of e2audiobook's "narrator", the service that turns EPUB
books into chaptered M4B audiobooks with a text-to-speech server, together
with the proofs of what that core promises. It covers:

- the sentence-safe chunker, the chapter request list and its rest/cooldown
  pacing, and the bounded retry of one speech request (`Chunker`, `TtsClient`);
- the chapter segmentation pipeline of the EPUB extractor: the table of
  contents walk and grouping, the heading, chapter-marker and fixed-size
  fallbacks, text clean-up, title stripping, the front-matter heuristics and
  the word-count filter (`Toc`, `Extract`, `Markers`, `FixedSplit`,
  `PostProcess`, `Heuristics`, `Sections`);
- the chapter timeline and metadata file of the M4B builder, `duration_str`
  and the error rule of `validate` (`M4b`);
- the job table and the worker's job lifecycle: enqueue, updates, listings,
  the start-up reset, the selection step, and `_process_job` as a trace of
  table writes and published events (`Jobs`, `Worker`);
- file naming: `sanitize_filename`, the skip-title rule and the defaults
  (`Config`), the output layout (`Output`), the library folder scan, search,
  lookup and EPUB path (`Folder`), with `pathlib` joining in `Paths`;
- the book listing of the REST API (`Books`) and the health verdict (`Health`);
- the single-file prototype `poc.py`, related to the narrator model member by
  member (`Poc`).

`Text` holds the string helpers the modules share (Python's `strip`, `split`,
`join`, `lower`, `in`, `rfind`, decimal rendering) and `Wrappers` the
`Option`/`Result` types. Every operation is a pure function over immutable
data, or a method with a loop proved against such a function. Whatever the
source reads from the outside world (files, the DOM of an EPUB, the sentence
tokenizer, the speech server, ffmpeg/ffprobe, clocks, the pause and stop
flags) is a parameter.

## Model

| member | source | states |
|---|---|---|
| Chunker.LimitsExact | narrator/core/tts_client.py:24-46 | the integer character thresholds decide the source's float token comparisons (`len / cpt > limit`, `< floor`) exactly, for every length |
| Chunker.DefaultLimits | narrator/config.py:14-16 | with limit 250, floor 80 and 3.5 characters per token a request holds 875 characters, the floor is 280 and cuts fall within 787 |
| Chunker.CutIndexPrefers | narrator/core/tts_client.py:59-76 | the cut is after the last "; " inside the target zone, else after the last ", ", else at the last space, else hard at the zone's end |
| Chunker.SplitLongFits | narrator/core/tts_client.py:59-83 | every part of a split sentence is within the limit and every part but the last within the target zone |
| Chunker.ZeroLimitStalls | narrator/core/tts_client.py:59-80 | with limit 0 the target is 0 and a sentence with non-blank text is always over the limit; every round of the split loop appends an empty part and keeps the same stripped remainder, so the loop never ends |
| Chunker.SplitLongLossless | narrator/core/tts_client.py:59-83 | the parts spell the sentence, whitespace aside |
| Chunker.PackInvariant | narrator/core/tts_client.py:30-46 | every closed group is non-empty and its estimate fits below limit + floor; a group closed only when the next sentence would exceed the limit and the group held at least the floor |
| Chunker.PackStructure | narrator/core/tts_client.py:30-46 | read left to right, the chunks hold every sentence within the limit whole and every oversize sentence as its own cut parts, in input order |
| Chunker.ChunkTextLossless | narrator/core/tts_client.py:24-56 | the chunks spell the sentences in order, whitespace aside, including the merge of a short tail into the previous chunk |
| Chunker.ChunkTextEmpty | narrator/core/tts_client.py:48-56 | there are no chunks exactly when there are no sentences |
| TtsClient.TitleCaseSpec | narrator/core/tts_client.py:166 | title-casing changes letter case only and capitalises exactly the letters that begin a word |
| TtsClient.SpokenTitleCase | narrator/core/tts_client.py:166 | the spoken title is the title when it is not all capitals, and its title-cased form otherwise |
| TtsClient.ChapterRequestsLossless | narrator/core/tts_client.py:166-172 | the first request is the spoken title with a full stop, the rest spell the chapter text, and there is one request only when there is no sentence |
| TtsClient.PaceRequests | narrator/core/tts_client.py:176-185 | request k is preceded by a rest exactly when k > 1 and k - 1 is a multiple of the rest interval, and followed by a cooldown exactly when it is not the last; a zero interval fails at the second request |
| TtsClient.PaceCounts | narrator/core/tts_client.py:176-185 | n requests take n - 1 cooldowns and (n - 1) div interval rests |
| TtsClient.Request | narrator/core/tts_client.py:210-224 | at most max_retries POSTs; the audio of the first that succeeds, a synthesis error after the last failure, the readiness wait's failure in between, and every earlier attempt failed and was followed by a recovery |
| Extract.DetectOneLevel | narrator/core/epub_extractor.py:79-85 | the detected sections are the first non-empty level of table of contents, headings, markers and fixed split, never a mix, and empty only when all four are |
| Extract.TocFirst | narrator/core/epub_extractor.py:79-80 | a non-empty table-of-contents result is used as it is |
| Extract.SomeWordsSomeSections | narrator/core/epub_extractor.py:79-85 | a book with at least one word always yields sections |
| Extract.HeadingNumbering | narrator/core/epub_extractor.py:297-302 | a document without headings becomes "Section k" with k counting the sections found so far |
| Extract.FilterMembers | narrator/core/epub_extractor.py:87-96 | a chapter is kept exactly when some detected section yields it |
| Extract.FilterSound | narrator/core/epub_extractor.py:87-96 | every kept chapter has at least 50 words and is not skippable |
| Extract.FilterAppend | narrator/core/epub_extractor.py:87-96 | the filter works section by section, so kept chapters stay in detection order |
| Extract.ExtractOutcome | narrator/core/epub_extractor.py:53-106 | a missing file is reported before a parse failure; otherwise `extract` returns chapters exactly when some detected section survives the filter, and then exactly the chapters the sections yield, each with at least 50 words and not skippable |
| Extract.OutcomeSpec | narrator/core/epub_extractor.py:87-99 | for any detected sections, chapters come back exactly when some section survives the filter, and then exactly the chapters the sections yield, each with at least 50 words and not skippable |
| Extract.KepubSuffixes | narrator/core/epub_extractor.py:58-60 | the Kobo default holds for names ending in ".kepub" or ".kepub.epub" in any case, and not for a plain ".epub" |
| Sections.KeepAppend | narrator/core/epub_extractor.py:273 | dropping the empty slots keeps the filled ones in slot order |
| Sections.KeepMembers | narrator/core/epub_extractor.py:273 | a value is kept exactly when some slot holds it |
| Toc.Walk | narrator/core/epub_extractor.py:276-286 | the explicit work-list walk yields the pre-order flattening of the table of contents |
| Toc.FlattenGroup | narrator/core/epub_extractor.py:279-283 | a section's own entry comes before its children's |
| Toc.FlattenAppend | narrator/core/epub_extractor.py:278 | siblings are flattened in order |
| Text.LastPieceOfSplit | narrator/core/epub_extractor.py:192 | the piece after the last separator occurrence, found by skipping first occurrences, is the last element of the split |
| Text.LastPieceClean | narrator/core/epub_extractor.py:198 | the last piece holds no separator |
| Text.LastPieceSuffix | narrator/core/epub_extractor.py:198 | the last piece is a suffix of the string |
| Toc.BaseHrefIsComponent | narrator/core/epub_extractor.py:197-198 | entries are keyed on the last path component of the href, before any "#" |
| Toc.ItemMap | narrator/core/epub_extractor.py:188-192 | the item map answers for an item's full name and for its last component, the later item winning |
| Toc.GroupEntries | narrator/core/epub_extractor.py:195-202 | each key's group lists the entries with that key in order, and the keys are visited once each, in order of first appearance |
| Toc.FillByGroups | narrator/core/epub_extractor.py:204-216 | filling file by file leaves in every slot the value of its own entry, or nothing when its file is not in the spine |
| Toc.AssembleToc | narrator/core/epub_extractor.py:184-273 | the table-of-contents detector returns the filled slots in table-of-contents order |
| Toc.TocDropped | narrator/core/epub_extractor.py:206-216 | an entry whose file is missing from the spine or whose text is empty yields nothing, and a kept entry keeps its own title |
| Markers.ScanSound | narrator/core/epub_extractor.py:331-335 | every reported span is a marker match at a line start |
| Markers.ScanComplete | narrator/core/epub_extractor.py:331-335 | no marker at a line start is missed: each is reported or lies inside a reported match |
| Markers.RegexEmpty | narrator/core/epub_extractor.py:335-337 | there are no regex sections exactly when no line starts with a marker |
| Markers.RegexTitle | narrator/core/epub_extractor.py:340-348 | section i is titled with the text of match i |
| Markers.RegexCovers | narrator/core/epub_extractor.py:340-344 | the sections' raw slices tile the text from the first marker to the end |
| Markers.BodyKeepsRest | narrator/core/epub_extractor.py:344-347 | dropping the marker line loses nothing but that line |
| Markers.BodySingleLine | narrator/core/epub_extractor.py:344-347 | a one-line slice is kept whole |
| FixedSplit.GroupsSpec | narrator/core/epub_extractor.py:353-382 | the parts lose and reorder no paragraph, a part over 5000 words holds one paragraph, and a part was closed only when the next paragraph would pass 5000 |
| FixedSplit.FixedTitles | narrator/core/epub_extractor.py:358-382 | parts are titled "Part 1" to "Part n" in order, and a text without words yields none |
| FixedSplit.FixedKeepsText | narrator/core/epub_extractor.py:353-382 | the parts carry every non-blank character of the text in order |
| PostProcess.CollapseNoTriple | narrator/core/epub_extractor.py:174 | after collapsing no three newlines follow each other |
| PostProcess.CollapseKeepsNonBlank | narrator/core/epub_extractor.py:174 | collapsing deletes newlines only |
| PostProcess.JoinUnchangedIff | narrator/core/epub_extractor.py:175 | the drop-cap join changes the text exactly when some line starts with a capital alone on its line followed by a lower-case letter |
| PostProcess.JoinNoTriple | narrator/core/epub_extractor.py:175 | joining drop caps creates no run of three newlines |
| PostProcess.CleanTextNoTriple | narrator/core/epub_extractor.py:174-176 | the cleaned text has no run of three newlines |
| PostProcess.CleanTextKeepsNonBlank | narrator/core/epub_extractor.py:174-176 | cleaning deletes whitespace only |
| Heuristics.StripTitle | narrator/core/epub_extractor.py:385-396 | the text comes back unchanged or stripped after a cut within the first three title-lengths |
| Heuristics.StripLeadingTitle | narrator/core/epub_extractor.py:385-396 | a text that opens with its title, in any case, loses exactly that title |
| Heuristics.StripTitleNoWords | narrator/core/epub_extractor.py:386-388 | a title without words leaves the text alone |
| Heuristics.TocShapedGrows | narrator/core/epub_extractor.py:411-421 | adding a chapter-like line keeps a table-of-contents-shaped list so |
| Heuristics.LongTextIgnoresSignatures | narrator/core/epub_extractor.py:399-404 | from 500 words on, the front-matter signatures play no part: skippable means a skip title or a table of contents |
| M4b.ChapterMarks | narrator/core/m4b_builder.py:99-108 | the offset loop computes the reference timeline |
| M4b.TimelineSpans | narrator/core/m4b_builder.py:100-106 | chapter i lasts its own duration and carries its own title |
| M4b.TimelineContiguous | narrator/core/m4b_builder.py:101-108 | each chapter ends where the next begins |
| M4b.TimelineBounds | narrator/core/m4b_builder.py:99-108 | the first chapter starts at 0 and the last ends at the total duration |
| M4b.StartsOrdered | narrator/core/m4b_builder.py:99-108 | STARTs never decrease, and strictly increase when every duration is positive |
| M4b.HeaderLines | narrator/core/m4b_builder.py:90-97 | the header has five lines, six when there is a date |
| M4b.DateLine | narrator/core/m4b_builder.py:95-96 | the date line is written exactly when the date is non-empty |
| M4b.MetadataRoundTrip | narrator/core/m4b_builder.py:88-108 | reading the written lines back gives one chapter mark per input, in order |
| M4b.MetadataFileRoundTrip | narrator/core/m4b_builder.py:88-108 | reading the written file text back gives the chapter marks, when no field holds a newline |
| M4b.NewlineCutsTitle | narrator/core/m4b_builder.py:106 | a title holding a newline is read back cut at the newline |
| M4b.OutputFileName | narrator/core/m4b_builder.py:110 | the output is one file in the work directory named after the sanitized title |
| M4b.DecomposeSums | narrator/core/m4b_builder.py:32-36 | hours, minutes and seconds recompose the whole seconds, with minutes and seconds below 60 |
| M4b.Validate | narrator/core/m4b_builder.py:147-176 | validation fails exactly when the file is missing or empty, and records both chapter counts otherwise |
| M4b.BuiltBookValidates | narrator/core/m4b_builder.py:147-176 | a non-empty book built from one-line fields validates, and the chapter count probed from the metadata file written for the tracks equals the expected count |
| Jobs.StatusNameInjective | narrator/job_queue.py:103-121 | distinct statuses are stored under distinct names |
| Jobs.Enqueue | narrator/job_queue.py:14-33 | a duplicate book is rejected; otherwise the job gets the next id, pending status and no chapters |
| Jobs.EnqueueSpec | narrator/job_queue.py:14-33 | enqueue keeps the table invariant, the new job reads back and comes last in the listing, and every other job is kept |
| Jobs.GetJob | narrator/job_queue.py:48-52 | the stored job, or the not-found error exactly when the id is unknown |
| Jobs.StartJob | narrator/job_queue.py:54-60 | writes status, started_at and chapters_total only, and nothing for an unknown id |
| Jobs.UpdateProgress | narrator/job_queue.py:62-67 | writes status and chapters_done only, and nothing for an unknown id |
| Jobs.CompleteJob | narrator/job_queue.py:69-76 | writes status complete, output_path and completed_at only |
| Jobs.FailJob | narrator/job_queue.py:78-85 | writes status failed, error_message and completed_at only |
| Jobs.UpdatesValid | narrator/job_queue.py:54-85 | the four updates keep the table invariant |
| Jobs.ListJobsSpec | narrator/job_queue.py:94-101 | the listing holds exactly the stored jobs with the requested status, ascending by id |
| Jobs.ResumableJobsSpec | narrator/job_queue.py:87-92 | the resumable jobs are exactly the extracting, synthesizing and building ones, ascending by id |
| Jobs.NextPendingSpec | narrator/job_queue.py:41-46 | the pending job with the smallest id, none exactly when nothing is pending |
| Worker.InQuietHours | narrator/worker.py:86-90 | an unset or empty bound switches quiet hours off |
| Worker.QuietHoursByMinutes | narrator/worker.py:86-97 | the string comparisons decide the minute-of-day rule: inclusive range, wrapping past midnight when start > end |
| Worker.ResumeInterrupted | narrator/worker.py:78-84 | every in-progress job goes back to pending with no chapters done, nothing else changes, and nothing is left resumable |
| Worker.SelectStepSpec | narrator/worker.py:52-70 | the loop takes a job exactly when running, not paused, outside quiet hours and some job is pending, and then the oldest pending one |
| Worker.Publish | narrator/worker.py:38-43 | an event is always recorded and a callback's exception never escapes |
| Worker.ProcessJob | narrator/worker.py:99-199 | the current job is cleared afterwards and no other job's row changes |
| Worker.RunTrace | narrator/worker.py:106-159 | writes: extracting with total 0, synthesizing with total n, one progress per completed chapter from 1, then the ending; events: job_started, then chapter_started before chapter_completed for each chapter |
| Worker.ProgressBounded | narrator/worker.py:123-159 | chapters_done is never written above n, nor chapters_total other than 0 or n |
| Worker.HappyPath | narrator/worker.py:99-189 | with every chapter synthesized and the book written, the job ends complete with all chapters done and job_completed published |
| Worker.PauseCheckpoint | narrator/worker.py:128-133 | paused before chapter k, the job is pending with k - 1 chapters done and nothing more is published |
| Worker.StopKeepsStatus | narrator/worker.py:124-126 | stopped before chapter k, the job stays synthesizing with its total and k - 1 chapters done |
| Worker.FailureMarksFailed | narrator/worker.py:191-197 | whenever a run publishes job_failed, the stored job is failed with that message |
| Worker.ExtractionFailure | narrator/worker.py:191-197 | an extraction error fails the job with its message right after the extracting write |
| Worker.RunIgnoresDone | narrator/worker.py:123 | a stored chapters_done never influences a run |
| Worker.RunIgnoresCallback | narrator/worker.py:38-43 | the callback, and whether it raises, changes no write and no event |
| Worker.ProcessJobAsWritten | narrator/worker.py:181-185 | the run as written, with the four-argument complete_job call |
| Worker.AsWrittenFailsAtEnd | narrator/worker.py:181-185 | as written, a job whose chapters all synthesize and whose book is written ends failed with the arity error |
| Worker.AsWrittenNeverCompletes | narrator/worker.py:181-185 | as written, no run leaves its job complete |
| Config.SanitizeFilename | narrator/config.py:58-59 | the result has no forbidden character, no surrounding whitespace, is no longer than the name, and whitespace aside is the name with each forbidden character replaced |
| Config.SanitizeIdempotent | narrator/config.py:58-59 | sanitizing twice is sanitizing once |
| Config.SkipTitleAnchored | narrator/config.py:33-42 | a title not beginning with a letter is never a skip title |
| Config.SkipTitleExtends | narrator/config.py:33-42 | a skip title stays one whatever follows it |
| Output.Write | narrator/core/output_manager.py:18-56 | returns the book directory; the audiobook is written first and reader.txt last |
| Output.BookDirJoins | narrator/core/output_manager.py:27-34 | the book directory is root / a' / s' / t' with a series and root / a' / t' without |
| Output.Layout | narrator/core/output_manager.py:27-34 | with usable names the book directory is exactly two or three levels below the root |
| Output.M4bFileName | narrator/core/output_manager.py:36 | the audiobook is t' + ".m4b" inside the book directory |
| Output.WriteThenExists | narrator/core/output_manager.py:58-68 | after a write, already_exists with the same author, title and series holds |
| Output.DescOnlyWhenGiven | narrator/core/output_manager.py:45-48 | desc.txt is written exactly when the description is non-empty |
| Output.ReaderNamesVoice | narrator/core/output_manager.py:50-53 | reader.txt holds "AI Narration (" + voice + ")" |
| Output.ComponentsClean | narrator/core/output_manager.py:27-36 | no level below the root contains "/", "\\" or another forbidden character |
| Folder.Title | narrator/core/folder_reader.py:36-38 | the title is the stem, less a trailing ".kepub" in any case |
| Folder.TitleOfKepubEpub | narrator/core/folder_reader.py:33-38 | "base.kepub.epub" in any case scans as a Kobo book titled "base" |
| Folder.TitleOfEpub | narrator/core/folder_reader.py:26-38 | "base.epub" in any case is listed and scans as an EPUB titled "base" |
| Folder.SelectMembers | narrator/core/folder_reader.py:26-29 | a file is selected exactly when its suffix is ".epub" or ".kepub", or its name ends in ".kepub.epub" |
| Folder.SelectSorted | narrator/core/folder_reader.py:26-29 | selection keeps the sorted order |
| Folder.PathLeTotal | narrator/core/folder_reader.py:26-29 | any two relative paths compare one way or the other, as `sorted` on paths needs |
| Folder.PathLeTransitive | narrator/core/folder_reader.py:26-29 | the path ordering is transitive |
| Folder.PathLeAntisymmetric | narrator/core/folder_reader.py:26-29 | two paths at or below each other are the same path |
| Folder.InsertPath | narrator/core/folder_reader.py:26-29 | inserting a path adds exactly that path to the list |
| Folder.InsertPathSorted | narrator/core/folder_reader.py:26-29 | inserting into a path-sorted list keeps it sorted |
| Folder.SortPaths | narrator/core/folder_reader.py:26-29 | sorting keeps every path, as often as it occurs, and nothing else |
| Folder.SortPathsSorted | narrator/core/folder_reader.py:26-29 | the sorted list is in path order |
| Folder.Ordered | narrator/core/folder_reader.py:26-29 | the files the scan numbers are the selected files, each as often as selected, in path order |
| Folder.SortedUnique | narrator/core/folder_reader.py:26-29 | two path-sorted lists of the same files are equal, so the scan's order is fixed by the files alone |
| Folder.SelectCount | narrator/core/folder_reader.py:26-29 | selection keeps a listed file as often as the walk yields it and drops an unlisted one |
| Folder.Scan | narrator/core/folder_reader.py:17-58 | a missing library gives no book; otherwise one book per listed file, numbered from 1 |
| Folder.ScanIgnoresWalkOrder | narrator/core/folder_reader.py:26-52 | two walks that yield the same files in any order scan to the same books with the same ids |
| Folder.OrderedOfSorted | narrator/core/folder_reader.py:26-29 | when the walk already yields the files in path order, the books are numbered in that order |
| Folder.ListingCached | narrator/core/folder_reader.py:17-19 | once scanned, later listings return the first result whatever the folder holds |
| Folder.SearchMembers | narrator/core/folder_reader.py:63-68 | a book is found exactly when its title or author contains the query, ignoring case |
| Folder.SearchIdempotent | narrator/core/folder_reader.py:63-68 | searching again with the same query finds the same books |
| Folder.GetBook | narrator/core/folder_reader.py:70-74 | the book with that id, or the not-found error exactly when none has it |
| Folder.GetScanned | narrator/core/folder_reader.py:70-74 | after a scan, book k is found for k in 1..n and no other id is |
| Folder.EpubPathAsWritten | narrator/core/folder_reader.py:76-83 | the rebuilt path is returned only when it exists, and reported in the error otherwise |
| Folder.AsWrittenFindsEpub | narrator/core/folder_reader.py:76-83 | a book scanned from a lowercase ".epub" file is rebuilt to that file |
| Folder.AsWrittenMissesKepub | narrator/core/folder_reader.py:76-83 | a Kobo book is never rebuilt to the file it was scanned from |
| Folder.AsWrittenKepubExample | narrator/core/folder_reader.py:76-83 | the book scanned from "Author/Book.kepub" is not found although its file is there |
| Folder.EpubPathFindsScanned | narrator/core/folder_reader.py:76-83 | the corrected lookup leads every scanned book back to its own file |
| Books.FilteredMembers | narrator/api/routes_books.py:26-30 | a book survives exactly when it matches the search, if any, and has the author, if any |
| Books.OrderedSpec | narrator/api/routes_books.py:32-35 | the sorted list is a permutation of the filtered one, ordered by lower-cased title, or by author then title |
| Books.TotalPagesCover | narrator/api/routes_books.py:37-38 | the page count is the least positive count whose pages hold every book |
| Books.PagesCoverAll | narrator/api/routes_books.py:38-40 | pages 1 to total_pages laid end to end are the whole sorted list |
| Books.ListBooks | narrator/api/routes_books.py:11-72 | the total is the filtered count, the page is clamped into 1..total_pages, and a page holds at most per_page books |
| Books.ListBooksRows | narrator/api/routes_books.py:40-64 | row i of the page is the book at (page - 1) * per_page + i of the sorted list, with its status |
| Books.StatusReadsBack | narrator/api/routes_books.py:48-55 | the job's status when there is a job, else "converted" exactly when the audiobook exists, else "" |
| Books.JobForQueue | narrator/api/routes_books.py:44-49 | over the job table's listing, the job found for a book is the table's one job for it |
| Health.OverallCases | narrator/health.py:24-29 | healthy iff all three checks pass, degraded iff the library is reachable but another check fails, unhealthy iff the library is not reachable |
| Health.ToDict | narrator/health.py:35-49 | the status field is the verdict and the uptime is the elapsed whole seconds |
| Health.ReportReadsBack | narrator/health.py:35-49 | the report carries back every flag and count of the state |
| Health.CheckLibrary | narrator/health.py:81-83 | the library is accessible exactly when it exists and is a directory; a raising `exists`, or a raising `is_dir` on an existing path, ends the check with the flag unchanged |
| Health.CheckOutput | narrator/health.py:86-94 | the output is writable exactly when it existed or was created, is a directory and passes the write probe; a raising `exists` or `is_dir` ends the check with the flag unchanged, a failed `mkdir` does not |
| Health.RoundVerdict | narrator/health.py:55-94 | when no file-system query raises, the verdict after a round depends only on what the checks observed; the worker flags are kept either way |
| Health.RoundLibraryRaised | narrator/health.py:55-62 | when a library query raises, the output check is skipped and both file-system flags keep their previous values, so the verdict depends on the state before the round |
| Health.RoundOutputRaised | narrator/health.py:55-62 | when only an output query raises, the library flag is the new observation and the output flag keeps its previous value |
| Poc.SameConstants | poc.py:25-37 | the prototype's constants are the narrator's defaults |
| Poc.SplitLongSentence | poc.py:463-487 | every part within 875 characters, all but the last within 787, and nothing lost |
| Poc.ParseChapters | poc.py:85-103 | the narrator's detection chain and filter, with an empty list where the narrator raises |
| Poc.MainStart | poc.py:857-870 | the run stops on a missing file, ends with the uncaught parse error when `read_epub` fails, stops when no chapter survives, and converts otherwise; each outcome matches the extractor's for the same inputs |
| Poc.StepOf | poc.py:494-507 | a cached chapter is reused, one before the start chapter is skipped, and others send the spoken title then their chunks |
| Poc.SynthesizeMembers | poc.py:494-530 | a chapter is in wav_paths exactly when it is cached or not before the start chapter, under its own title |
| Poc.SynthesizeOrdered | poc.py:494-530 | wav_paths follows chapter order |
| Poc.SynthesizeFromFirst | poc.py:490-530 | from the first chapter on, every chapter is in wav_paths in order |
| Poc.CollectMembers | poc.py:825-834 | a chapter is collected exactly when its wav exists, in chapter order |
| Poc.CollectIsCachedOnly | poc.py:825-834 | collecting is synthesizing with a start chapter past the end |
| Poc.PaceChapter | poc.py:511-520 | rests when k > 1 and k - 1 is a multiple of 10, cooldown after every request but the last |
| Poc.TtsRequest | poc.py:604-616 | at most five POSTs, ending in audio or in an exit |
| Poc.ChapterOffsets | poc.py:668-677 | the first chapter starts at 0, each lasts its duration and ends where the next starts |
| Poc.WriteOutputLayout | poc.py:763-768 | the audiobook goes to output / a' / t' / t'.m4b, with no series level |
| Poc.PrototypeOutputRecognised | poc.py:765-768 | the narrator's already_exists without a series finds the prototype's audiobook |

## Left out

- Heuristics.StripTitle: word tokens (`\w`) and lower-casing cover ASCII letters and digits only, so a title like "é" is not stripped where Python would strip it.
- Heuristics.StripLeadingTitle: ASCII-only for the same reason as StripTitle.
- TtsClient.SpokenTitleCase: `isupper` and `title` are modelled on ASCII letters; other letters are left as they are, so "ÉCOLE" is read "ÉCole" here and "École" by Python.
- TtsClient.TitleCaseSpec: ASCII-only, as SpokenTitleCase.
- Markers.ScanSound: the `\d` and `\w` classes of the chapter-marker pattern cover ASCII digits and letters only.
- Markers.ScanComplete: ASCII-only, as ScanSound.
- Config.SkipTitleAnchored: the IGNORECASE match of SKIP_TITLES folds ASCII letters only.
- Config.SkipTitleExtends: ASCII-only case folding, as SkipTitleAnchored.
- Folder.Title: the ".kepub" suffix test lower-cases ASCII letters only.
- Folder.SearchMembers: case-insensitive matching lower-cases ASCII letters only.
- Markers.MarkerEnd: ASCII-only `\d` and `\w`, as ScanSound.
- Config.IsSkipTitle: ASCII-only case folding, as SkipTitleAnchored.
- Folder.Listed: the suffix tests lower-case ASCII letters only.
- Folder.Search: ASCII-only lower-casing, as SearchMembers.
- TtsClient.SpokenTitle: ASCII-only, as SpokenTitleCase.
- Heuristics.LooksLikeToc: the `^(chapter|part|...)\b` test runs under IGNORECASE and the `^\d+[\.\)]\s` test uses `\d`. Python applies both to all of Unicode, but here case folding, the word boundary and the digits are ASCII-only. So five lines of "Chapterä" count as a table of contents here but not in Python, and five lines of "١. x" count in Python but not here. Heuristics.OpensWith, Heuristics.Numbered, Heuristics.ChapterLike and Heuristics.IsSkippable inherit the same limit, and so does which sections the filter drops.
- Text.Lower: maps "A"-"Z" only; every other character, accented capitals included, is left as it is.
- Books.OrderedSpec: sort keys are lower-cased on ASCII letters only and compared by code point. The sort is an insertion that keeps equal keys in order, but stability is not stated as a property.
- Chunker.SplitLongFits: holds only for settings whose target `int(limit * chars_per_token * 0.9)` is at least 1. When the target is 0 (limit 0, or limit 1 with one character per token), `_split_long_sentence` never returns: the cut is at 0 and the remainder never shrinks (`Chunker.ZeroLimitStalls`). A function that does not return has no parts to state anything about, so `SplitLong` and `ChunkText` require `ValidLimits`.
- Chunker.LimitsExact: `chars_per_token` is the rational 7/2 and the 0.9 factor is exact integer arithmetic; floating-point rounding is not modelled.
- Config.SanitizeFilename: `strip` uses Python's whitespace set but no Unicode normalisation.
- M4b.MetadataFileRoundTrip: holds only when no field holds a newline. NewlineCutsTitle shows what a newline does. FFmpeg's escaping of "=", ";", "#" and "\\" in metadata values is not modelled.
- HTML parsing: the DOM work of the EPUB extractor (soup text, heading detection, anchor sibling walks, cover and metadata reading) is an input. `Toc.AnchorWalk` is the text of an anchored entry, and `Extract.HeadingView` the headings of one document.
- Worker.Run: the message of the TypeError that `Path(None)` raises for a job without an EPUB path is an input (`Env.noPath`), because its wording changed between Python versions.
- Sentence splitting: `nltk.sent_tokenize` is an input; the chunker takes the sentence list.
- Front-matter signatures: FRONT_MATTER_SIGNATURES is a regular expression with a bounded wildcard. It is a predicate parameter of `Heuristics.IsSkippable`.
- Audio and images: pydub, ffmpeg, ffprobe and PIL are out of scope. Chapter durations, file sizes and probed chapter counts are given naturals, and cover conversion is reduced to whether a cover exists.
- Network: speech requests, `wait_until_ready`/`_warmup` and `_check_kokoro`'s HTTP call are replaced by their outcomes (`delivered`, `recovers`, `VoicesReply`).
- Concurrency and time: asyncio sleeps, threads, the `health_monitor` loop, the watcher, SSE subscribers and wall-clock readings are out of scope. Clock readings, the pause and stop flags and the settings are inputs, and the worker is a sequential step function.
- Retry backoff: `retry_backoff` is stored but no code uses it.
- Storage: SQLite and the migrations are out of scope. The job table is a map from id to row, with the book-id uniqueness the schema enforces as an invariant. Timestamps are strings passed in.
- Worker.ProcessJob: the temporary directory and the wav file names are chapter indices. `build`, `validate` and `write` collapse into one output outcome, a directory or an error message.
- Folder.Scan: `rglob("*")` also yields directories. The model lists files only, as entries, because a directory named like "x.epub" would need a file-system model the core does not otherwise use.
- Folder: `get_cover_path` is not modelled; the scan records only whether cover.jpg exists.
- Books.ListBooks: `series_index`, `has_cover` and `created_at` pass through unexamined; the row keeps the book and its status.
- Output.Write: the cover thumbnail and the HTML-to-text step for desc.txt are inputs (`hasCover`, `descText`).
- Health.CheckKokoro: `kokoro_last_check` is a clock reading and is not modelled.
- REST glue, CLI entry points, notifications and the Audiobookshelf client are out of scope.
- poc.py's `serve_output`, `_wait_for_tts`, cover and metadata readers and its progress printing are left out, for the same I/O reasons as the narrator's.

## Findings

| source | as written | input that shows it | evidently intended | confidence | as-written member | corrected member |
|---|---|---|---|---|---|---|
| narrator/worker.py:181-185 | `_process_job` calls `complete_job` with four arguments, but narrator/job_queue.py:69 accepts two, so the call raises TypeError; the except branch then marks the job failed | any job whose chapters all synthesize and whose book is written | the job is marked complete with its output path | high, not executed | Worker.AsWrittenFailsAtEnd | Worker.HappyPath |
| narrator/core/folder_reader.py:76-83 | `get_epub_path` rebuilds the name as stem + "." + lower-cased format. For a Kobo book the stem of "Book.kepub" is "Book", which is rebuilt to "Book.kepub.epub"; the stem of "Book.kepub.epub" is "Book.kepub", which is rebuilt to "Book.kepub.kepub.epub" | a library holding only "Author/Book.kepub" | the path of the file the scan found | high, not executed | Folder.AsWrittenMissesKepub | Folder.EpubPathFindsScanned |

=== FILE: books.dfy ===
/**
 * The book listing of narrator/api/routes_books.py (`list_books`): the
 * search and author filters, the sort by title or by author then title
 * (an insertion sort that keeps equal keys in order; stability is not stated
 * as a property), the page arithmetic, and the status shown for each book. The
 * reader's book list, the job list and the existing output files are inputs.
 */
module Books {
  import opened Text
  import opened Wrappers
  import Jobs
  import Folder
  import Output
  import Paths

  type Book = Folder.Book

  // ---------------------------------------------------------------- filters

  /** The books whose author is exactly `author`, in order. */
  function WithAuthor(books: seq<Book>, author: string): (r: seq<Book>)
    ensures |r| <= |books|
  {
    if books == [] then []
    else (if books[0].author == author then [books[0]] else []) + WithAuthor(books[1..], author)
  }

  lemma {:induction false} WithAuthorMembers(books: seq<Book>, author: string, b: Book)
    ensures b in WithAuthor(books, author) <==> b in books && b.author == author
  {
    if books != [] {
      WithAuthorMembers(books[1..], author, b);
      assert books == [books[0]] + books[1..];
    }
  }

  /** The search filter, when `search` is non-empty, then the exact author filter, when `author` is non-empty. */
  function Filtered(books: seq<Book>, search: string, author: string): (r: seq<Book>)
    ensures |r| <= |books|
  {
    var found := if search != [] then Folder.Search(books, search) else books;
    if author != [] then WithAuthor(found, author) else found
  }

  /** A book survives the filters exactly when it matches the search (if any) and has the author (if any). */
  lemma FilteredMembers(books: seq<Book>, search: string, author: string, b: Book)
    ensures b in Filtered(books, search, author) <==>
      b in books && (search == [] || Folder.Matches(b, search)) && (author == [] || b.author == author)
  {
    var found := if search != [] then Folder.Search(books, search) else books;
    Folder.SearchMembers(books, search, b);
    WithAuthorMembers(found, author, b);
  }

  // ---------------------------------------------------------------- sorting

  /** `sort="author"` orders by (lower author, lower title); anything else by lower title. */
  datatype SortOrder = ByTitle | ByAuthor

  function OrderOf(sort: string): SortOrder {
    if sort == "author" then ByAuthor else ByTitle
  }

  /** Python's `<` on `str`. */
  predicate StrLt(a: string, b: string) {
    !LexLe(b, a)
  }

  /** `key(a) <= key(b)`: the sort key of `a` is not above that of `b`. */
  predicate KeyLe(o: SortOrder, a: Book, b: Book) {
    match o
    case ByTitle => LexLe(Lower(a.title), Lower(b.title))
    case ByAuthor =>
      StrLt(Lower(a.author), Lower(b.author)) ||
      (Lower(a.author) == Lower(b.author) && LexLe(Lower(a.title), Lower(b.title)))
  }

  /** `key(a) < key(b)`, the only comparison `list.sort` makes. */
  predicate KeyLt(o: SortOrder, a: Book, b: Book) {
    !KeyLe(o, b, a)
  }

  lemma KeyTotal(o: SortOrder, a: Book, b: Book)
    ensures KeyLe(o, a, b) || KeyLe(o, b, a)
  {
    LexLeTotal(Lower(a.title), Lower(b.title));
    if o.ByAuthor? && Lower(a.author) != Lower(b.author) {
      if LexLe(Lower(a.author), Lower(b.author)) && LexLe(Lower(b.author), Lower(a.author)) {
        LexLeAntisymmetric(Lower(a.author), Lower(b.author));
      }
    }
  }

  lemma KeyTransitive(o: SortOrder, a: Book, b: Book, c: Book)
    requires KeyLe(o, a, b) && KeyLe(o, b, c)
    ensures KeyLe(o, a, c)
  {
    var (x, y, z) := (Lower(a.author), Lower(b.author), Lower(c.author));
    var (s, t, u) := (Lower(a.title), Lower(b.title), Lower(c.title));
    if o.ByTitle? {
      LexLeTransitive(s, t, u);
    } else {
      LexLeTotal(x, y);
      LexLeTotal(y, z);
      if StrLt(x, y) && StrLt(y, z) {
        if LexLe(z, x) { LexLeTransitive(z, x, y); }
      } else if StrLt(x, y) {
        assert y == z;
      } else if StrLt(y, z) {
        assert x == y;
      } else {
        LexLeTransitive(s, t, u);
      }
    }
  }

  /** No book is ranked before an earlier one with a larger key. */
  predicate SortedBy(o: SortOrder, s: seq<Book>) {
    forall i, j | 0 <= i < j < |s| :: KeyLe(o, s[i], s[j])
  }

  /** `x` goes after every book whose key is not above its own: the equal keys it meets stay before it. */
  function Insert(o: SortOrder, x: Book, s: seq<Book>): (r: seq<Book>)
    ensures multiset(r) == multiset(s) + multiset{x}
    ensures |r| == |s| + 1
  {
    if s == [] then [x]
    else if KeyLt(o, x, s[0]) then [x] + s
    else
      var rest := Insert(o, x, s[1..]);
      assert s == [s[0]] + s[1..];
      [s[0]] + rest
  }

  /** Every book of `s` has a key at least that of `y`. */
  predicate AllAbove(o: SortOrder, y: Book, s: seq<Book>) {
    forall k | 0 <= k < |s| :: KeyLe(o, y, s[k])
  }

  lemma AboveInsert(o: SortOrder, y: Book, x: Book, s: seq<Book>)
    requires AllAbove(o, y, s) && KeyLe(o, y, x)
    ensures AllAbove(o, y, Insert(o, x, s))
  {
    var r := Insert(o, x, s);
    forall k | 0 <= k < |r|
      ensures KeyLe(o, y, r[k])
    {
      assert r[k] in multiset(s) + multiset{x};
      if r[k] != x {
        assert r[k] in s;
      }
    }
  }

  lemma {:induction false} InsertSorted(o: SortOrder, x: Book, s: seq<Book>)
    requires SortedBy(o, s)
    ensures SortedBy(o, Insert(o, x, s))
  {
    if s == [] {
    } else if KeyLt(o, x, s[0]) {
      KeyTotal(o, x, s[0]);
      var r := [x] + s;
      forall i, j | 0 <= i < j < |r|
        ensures KeyLe(o, r[i], r[j])
      {
        if i == 0 && j > 1 {
          KeyTransitive(o, x, s[0], s[j - 1]);
        }
      }
    } else {
      KeyTotal(o, x, s[0]);
      var rest := Insert(o, x, s[1..]);
      InsertSorted(o, x, s[1..]);
      assert AllAbove(o, s[0], s[1..]) by {
        forall k | 0 <= k < |s[1..]| ensures KeyLe(o, s[0], s[1..][k]) { assert s[1..][k] == s[k + 1]; }
      }
      AboveInsert(o, s[0], x, s[1..]);
      var r := [s[0]] + rest;
      forall i, j | 0 <= i < j < |r|
        ensures KeyLe(o, r[i], r[j])
      {
        if i > 0 {
          assert r[i] == rest[i - 1] && r[j] == rest[j - 1];
        }
      }
    }
  }

  /** `books.sort(key=...)`: each book inserted, left to right, into the sorted prefix after any equal keys. */
  function Sort(o: SortOrder, s: seq<Book>): (r: seq<Book>)
    ensures multiset(r) == multiset(s)
    ensures |r| == |s|
  {
    if s == [] then []
    else
      var r := Insert(o, s[|s| - 1], Sort(o, s[..|s| - 1]));
      assert s == s[..|s| - 1] + [s[|s| - 1]];
      r
  }

  /** The sort's output is ordered by the key. */
  lemma {:induction false} SortSorted(o: SortOrder, s: seq<Book>)
    ensures SortedBy(o, Sort(o, s))
  {
    if s != [] {
      SortSorted(o, s[..|s| - 1]);
      InsertSorted(o, s[|s| - 1], Sort(o, s[..|s| - 1]));
    }
  }

  // ---------------------------------------------------------------- paging

  /** `max(1, (total + per_page - 1) // per_page)`. */
  function TotalPages(total: nat, perPage: nat): (r: nat)
    requires perPage >= 1
    ensures r >= 1
  {
    var q := (total + perPage - 1) / perPage;
    if q < 1 then 1 else q
  }

  /** The page count is the least positive count whose pages hold every book. */
  lemma TotalPagesCover(total: nat, perPage: nat)
    requires perPage >= 1
    ensures TotalPages(total, perPage) * perPage >= total
    ensures total > 0 ==> (TotalPages(total, perPage) - 1) * perPage < total
  {
    var n := total + perPage - 1;
    var q := n / perPage;
    assert q * perPage + n % perPage == n;
    assert 0 <= n % perPage < perPage;
    if q < 1 {
      assert q == 0;
    } else {
      assert (q - 1) * perPage == q * perPage - perPage;
    }
  }

  /** Python's `s[a:b]` for non-negative bounds: both clamped to the length. */
  function PySlice(s: seq<Book>, a: nat, b: nat): (r: seq<Book>)
    ensures |r| <= if b >= a then b - a else 0
  {
    var lo := if a <= |s| then a else |s|;
    var hi := if b <= |s| then b else |s|;
    if hi <= lo then [] else s[lo..hi]
  }

  /** Page `page` of `per_page` books: `books[(page - 1) * per_page : page * per_page]`. */
  function Page(s: seq<Book>, page: nat, perPage: nat): (r: seq<Book>)
    requires page >= 1
    ensures |r| <= perPage
  {
    assert page * perPage - (page - 1) * perPage == perPage;
    PySlice(s, (page - 1) * perPage, page * perPage)
  }

  /** The position in the whole list of entry i of a page: (page - 1) * per_page + i. */
  function Offset(page: nat, perPage: nat, i: nat): nat
    requires page >= 1
  {
    (page - 1) * perPage + i
  }

  /** Entry i of a page is entry (page - 1) * per_page + i of the list. */
  lemma PageAt(s: seq<Book>, page: nat, perPage: nat, i: nat)
    requires page >= 1 && i < |Page(s, page, perPage)|
    ensures Offset(page, perPage, i) < |s| && Page(s, page, perPage)[i] == s[Offset(page, perPage, i)]
  {
  }

  /** Pages 1..n laid end to end. */
  function PagesUpTo(s: seq<Book>, n: nat, perPage: nat): seq<Book> {
    if n == 0 then [] else PagesUpTo(s, n - 1, perPage) + Page(s, n, perPage)
  }

  function Min(a: nat, b: nat): nat { if a <= b then a else b }

  /** The first n pages are the first n * per_page books. */
  lemma {:induction false} PagesPrefix(s: seq<Book>, n: nat, perPage: nat)
    ensures PagesUpTo(s, n, perPage) == s[..Min(n * perPage, |s|)]
  {
    if n > 0 {
      PagesPrefix(s, n - 1, perPage);
      assert (n - 1) * perPage + perPage == n * perPage;
      var a, b := Min((n - 1) * perPage, |s|), Min(n * perPage, |s|);
      assert s[..a] + s[a..b] == s[..b];
    }
  }

  /** Pages 1..total_pages concatenate back to the whole sorted list. */
  lemma PagesCoverAll(s: seq<Book>, perPage: nat)
    requires perPage >= 1
    ensures PagesUpTo(s, TotalPages(|s|, perPage), perPage) == s
  {
    TotalPagesCover(|s|, perPage);
    PagesPrefix(s, TotalPages(|s|, perPage), perPage);
  }

  // ---------------------------------------------------------------- status

  /** `{j.calibre_book_id: j for j in jobs}.get(book_id)`: the last job for that book, as the dict keeps the last one. */
  function JobFor(jobs: seq<Jobs.Job>, bookId: int): (r: Option<Jobs.Job>)
    ensures r.None? <==> forall k | 0 <= k < |jobs| :: jobs[k].bookId != bookId
    ensures r.Some? ==> r.value in jobs && r.value.bookId == bookId
  {
    if jobs == [] then None
    else if jobs[|jobs| - 1].bookId == bookId then Some(jobs[|jobs| - 1])
    else
      var r := JobFor(jobs[..|jobs| - 1], bookId);
      assert forall k | 0 <= k < |jobs| - 1 :: jobs[..|jobs| - 1][k] == jobs[k];
      r
  }

  /** Over the job table's listing, the job found for a book is the table's one job for that book. */
  lemma JobForQueue(q: Jobs.Queue, bookId: int)
    requires Jobs.Valid(q)
    ensures var r := JobFor(Jobs.ListJobs(q, None), bookId);
      (r.Some? <==> exists id | id in q.jobs :: q.jobs[id].bookId == bookId) &&
      (r.Some? ==> r.value.id in q.jobs && q.jobs[r.value.id] == r.value)
  {
    var jobs := Jobs.ListJobs(q, None);
    Jobs.ListJobsSpec(q, None);
    var r := JobFor(jobs, bookId);
    if id :| id in q.jobs && q.jobs[id].bookId == bookId {
      assert q.jobs[id] in jobs;
      var k :| 0 <= k < |jobs| && jobs[k] == q.jobs[id];
    }
  }

  /** The status column: the job's status, else "converted" when the audiobook is already there, else "". */
  function StatusOf(b: Book, jobs: seq<Jobs.Job>, existing: set<Paths.Path>, root: Paths.Path): string {
    match JobFor(jobs, b.id)
    case Some(j) => Jobs.StatusName(j.status)
    case None =>
      if Output.AlreadyExists(existing, root, Output.Metadata(b.title, b.author, ""), b.series) then "converted" else ""
  }

  /** The three outcomes cannot be confused: no job status is spelled "converted" or "". */
  lemma StatusReadsBack(b: Book, jobs: seq<Jobs.Job>, existing: set<Paths.Path>, root: Paths.Path)
    ensures var s := StatusOf(b, jobs, existing, root);
      var there := Output.AlreadyExists(existing, root, Output.Metadata(b.title, b.author, ""), b.series);
      (s == "converted" <==> JobFor(jobs, b.id).None? && there) &&
      (s == "" <==> JobFor(jobs, b.id).None? && !there) &&
      (JobFor(jobs, b.id).Some? ==> s == Jobs.StatusName(JobFor(jobs, b.id).value.status))
  {
    var j := JobFor(jobs, b.id);
    if j.Some? {
      var st := j.value.status;
      assert Jobs.StatusName(st) != "converted" by {
        match st
        case Pending => assert "pending"[0] != "converted"[0];
        case Extracting => assert "extracting"[0] != "converted"[0];
        case Synthesizing => assert "synthesizing"[0] != "converted"[0];
        case Building => assert "building"[0] != "converted"[0];
        case Complete => assert "complete"[2] != "converted"[2];
        case Failed => assert "failed"[0] != "converted"[0];
      }
    }
  }

  // ---------------------------------------------------------------- the listing

  /** One entry of the response's `books`. */
  datatype Row = Row(id: int, title: string, author: string, series: Option<string>, hasCover: bool, status: string)

  /** The response: the page of rows, the filtered total, the clamped page, the page size and the page count. */
  datatype Listing = Listing(books: seq<Row>, total: nat, page: nat, perPage: nat, totalPages: nat)

  function RowOf(b: Book, jobs: seq<Jobs.Job>, existing: set<Paths.Path>, root: Paths.Path): Row {
    Row(b.id, b.title, b.author, b.series, b.hasCover, StatusOf(b, jobs, existing, root))
  }

  /** The books behind the listing: filtered, then sorted. */
  function Ordered(books: seq<Book>, search: string, author: string, sort: string): seq<Book> {
    Sort(OrderOf(sort), Filtered(books, search, author))
  }

  /**
   * `list_books`. `page >= 1` and `1 <= per_page <= 100` are enforced by the
   * query validation before the handler runs.
   */
  function ListBooks(books: seq<Book>, search: string, author: string, sort: string, page: nat, perPage: nat,
                     jobs: seq<Jobs.Job>, existing: set<Paths.Path>, root: Paths.Path): (r: Listing)
    requires page >= 1 && 1 <= perPage <= 100
    ensures r.total == |Filtered(books, search, author)|
    ensures 1 <= r.page <= r.totalPages && (page <= r.totalPages ==> r.page == page)
    ensures r.perPage == perPage && |r.books| <= perPage
    ensures r.totalPages == TotalPages(r.total, perPage)
  {
    var sorted := Ordered(books, search, author, sort);
    var pg := ShownPage(sorted, page, perPage);
    Listing(Rows(Page(sorted, pg, perPage), jobs, existing, root), |sorted|, pg, perPage, TotalPages(|sorted|, perPage))
  }

  /** The rows of a page: each book with its status. */
  function Rows(shown: seq<Book>, jobs: seq<Jobs.Job>, existing: set<Paths.Path>, root: Paths.Path): (r: seq<Row>)
    ensures |r| == |shown|
  {
    seq(|shown|, i requires 0 <= i < |shown| => RowOf(shown[i], jobs, existing, root))
  }

  /** The page `list_books` shows, after clamping the requested page to the page count. */
  function ShownPage(sorted: seq<Book>, page: nat, perPage: nat): nat
    requires page >= 1 && perPage >= 1
  {
    var tp := TotalPages(|sorted|, perPage);
    if page <= tp then page else tp
  }

  /** Row i of a page's rows is the book at position (page - 1) * per_page + i, with its status. */
  lemma RowsAt(sorted: seq<Book>, pg: nat, perPage: nat, jobs: seq<Jobs.Job>, existing: set<Paths.Path>, root: Paths.Path, i: nat)
    requires pg >= 1 && i < |Page(sorted, pg, perPage)|
    ensures Offset(pg, perPage, i) < |sorted|
    ensures Rows(Page(sorted, pg, perPage), jobs, existing, root)[i] == RowOf(sorted[Offset(pg, perPage, i)], jobs, existing, root)
  {
    PageAt(sorted, pg, perPage, i);
  }

  /**
   * Row i of the listing is the book at position (page - 1) * per_page + i of
   * the filtered, sorted list, with its status.
   */
  lemma ListBooksRows(books: seq<Book>, search: string, author: string, sort: string, page: nat, perPage: nat,
                      jobs: seq<Jobs.Job>, existing: set<Paths.Path>, root: Paths.Path, i: nat)
    requires page >= 1 && 1 <= perPage <= 100
    requires i < |ListBooks(books, search, author, sort, page, perPage, jobs, existing, root).books|
    ensures var r := ListBooks(books, search, author, sort, page, perPage, jobs, existing, root);
      var sorted := Ordered(books, search, author, sort);
      var k := Offset(r.page, perPage, i);
      k < |sorted| && r.books[i] == RowOf(sorted[k], jobs, existing, root)
  {
    var sorted := Ordered(books, search, author, sort);
    var pg := ShownPage(sorted, page, perPage);
    var r := ListBooks(books, search, author, sort, page, perPage, jobs, existing, root);
    assert r.page == pg && r.books == Rows(Page(sorted, pg, perPage), jobs, existing, root);
    RowsAt(sorted, pg, perPage, jobs, existing, root, i);
  }

  /** The listed books, over all pages, are exactly the filtered books, ordered by the requested key. */
  lemma OrderedSpec(books: seq<Book>, search: string, author: string, sort: string)
    ensures multiset(Ordered(books, search, author, sort)) == multiset(Filtered(books, search, author))
    ensures SortedBy(OrderOf(sort), Ordered(books, search, author, sort))
  {
    SortSorted(OrderOf(sort), Filtered(books, search, author));
  }
}

=== FILE: chunker.dfy ===
/**
 * Sentence-safe chunking of narrator/core/tts_client.py: `chunk_text` and
 * `_split_long_sentence`. The sentence tokenizer's output is the input; the
 * token estimate `len / chars_per_token` is compared by cross-multiplication
 * with the rational ratio `cpt = num/den`.
 */
module Chunker {
  import opened Text
  import opened Config

  /**
   * The token estimate `len / cpt` compared against the limit and the floor,
   * turned once into character thresholds so the chunker itself works on
   * lengths only.
   */
  datatype Limits = Limits(maxChars: nat, floorChars: nat, target: nat)

  /** `len / cpt > limit` exactly when `len > maxChars`. */
  function MaxChars(limit: nat, cpt: Ratio): nat
    requires ValidRatio(cpt)
  {
    var a: nat := limit * cpt.num;
    a / cpt.den
  }

  /** `len / cpt < floor` exactly when `len < floorChars`. */
  function FloorChars(floor: nat, cpt: Ratio): nat
    requires ValidRatio(cpt)
  {
    var a: nat := floor * cpt.num;
    if a == 0 then 0 else (a - 1) / cpt.den + 1
  }

  /** `int(limit * cpt * 0.9)`, the zone an oversize sentence is cut within. */
  function TargetChars(limit: nat, cpt: Ratio): nat
    requires ValidRatio(cpt)
  {
    var a: nat := limit * cpt.num;
    (a * 9 / cpt.den) / 10
  }

  function LimitsOf(limit: nat, floor: nat, cpt: Ratio): Limits
    requires ValidRatio(cpt)
  {
    Limits(MaxChars(limit, cpt), FloorChars(floor, cpt), TargetChars(limit, cpt))
  }

  /**
   * The settings the model covers: a cut zone that is not empty and not over
   * the limit. A zero target (limit 0, say) is left out because the source's
   * split loop never ends on it; `ZeroLimitStalls` shows the stall.
   */
  predicate ValidLimits(lim: Limits) {
    1 <= lim.target <= lim.maxChars
  }

  predicate Over(len: nat, lim: Limits) { len > lim.maxChars }

  predicate BelowFloor(len: nat, lim: Limits) { len < lim.floorChars }

  lemma MulMono(a: nat, b: nat, d: nat)
    requires a <= b
    ensures a * d <= b * d
  {
    assert b * d == a * d + (b - a) * d;
  }

  /** Floor division decides a strict comparison of a product exactly. */
  lemma DivExact(a: nat, d: nat, len: nat)
    requires d > 0
    ensures len > a / d <==> len * d > a
  {
    var q := a / d;
    assert q * d + a % d == a;
    if len > q {
      MulMono(q + 1, len, d);
      assert (q + 1) * d == q * d + d;
    } else {
      MulMono(len, q, d);
    }
  }

  /** The thresholds agree with the source's token estimates for every length. */
  lemma LimitsExact(limit: nat, floor: nat, cpt: Ratio, len: nat)
    requires ValidRatio(cpt)
    ensures Over(len, LimitsOf(limit, floor, cpt)) <==> len * cpt.den > limit * cpt.num
    ensures BelowFloor(len, LimitsOf(limit, floor, cpt)) <==> len * cpt.den < floor * cpt.num
  {
    DivExact(limit * cpt.num, cpt.den, len);
    var a: nat := floor * cpt.num;
    if a > 0 {
      DivExact(a - 1, cpt.den, len);
    }
  }

  /** The cut zone never exceeds the limit, so a cut piece fits in one request. */
  lemma TargetWithinMax(limit: nat, cpt: Ratio)
    requires ValidRatio(cpt)
    ensures TargetChars(limit, cpt) <= MaxChars(limit, cpt)
  {
    var a: nat := limit * cpt.num;
    var d := cpt.den;
    var q := a * 9 / d;
    var t := q / 10;
    assert t * 10 <= q;
    assert q * d <= a * 9;
    MulMono(t * 10, q, d);
    assert t * 10 * d == (t * d) * 10;
    assert t * d <= a;
    DivExact(a, d, t);
  }

  /** The shipped settings: 875 characters per request, 280 at the floor, cuts within 787. */
  lemma DefaultLimits()
    ensures LimitsOf(250, 80, Ratio(7, 2)) == Limits(875, 280, 787)
    ensures ValidLimits(LimitsOf(250, 80, Ratio(7, 2)))
  {
  }

  /** `i` is the last occurrence of `sub` in `zone` and it is not at index 0 (`rfind(sub) > 0`). */
  ghost predicate LastInside(zone: string, sub: string, i: int) {
    0 < i && OccursAt(zone, sub, i) && forall j :: i < j ==> !OccursAt(zone, sub, j)
  }

  /** The zone offers a cut at `sub`. */
  ghost predicate HasCut(zone: string, sub: string) {
    exists i :: LastInside(zone, sub, i)
  }

  /** `rfind(sub) > 0` decides whether a cut at `sub` is taken. */
  lemma RFindInside(zone: string, sub: string)
    requires sub != []
    ensures RFind(zone, sub) > 0 <==> HasCut(zone, sub)
    ensures RFind(zone, sub) > 0 ==> LastInside(zone, sub, RFind(zone, sub))
  {
    var r := RFind(zone, sub);
    if r > 0 {
      assert LastInside(zone, sub, r);
    }
    if HasCut(zone, sub) {
      var i :| LastInside(zone, sub, i);
      assert OccursAt(zone, sub, i);
    }
  }

  /**
   * Where `_split_long_sentence` cuts: after the last "; " of the zone, else
   * after its last ", ", else at its last space, else hard at the zone's end.
   * A zero target leaves the zone empty and the cut at 0.
   */
  function CutIndex(s: string, target: nat): (k: nat)
    requires target <= |s|
    ensures k <= target
    ensures 1 <= target ==> 1 <= k
  {
    var zone := s[..target];
    var semi := RFind(zone, "; ");
    if semi > 0 then semi + 2
    else
      var comma := RFind(zone, ", ");
      if comma > 0 then comma + 2
      else
        var space := RFind(zone, " ");
        if space > 0 then space else target
  }

  /** The cut is at the preferred boundary the zone offers: clause, then word, then hard. */
  lemma CutIndexPrefers(s: string, target: nat)
    requires 1 <= target <= |s|
    ensures var zone := s[..target];
      var k := CutIndex(s, target);
      if HasCut(zone, "; ") then LastInside(zone, "; ", k - 2)
      else if HasCut(zone, ", ") then LastInside(zone, ", ", k - 2)
      else if HasCut(zone, " ") then LastInside(zone, " ", k)
      else k == target
  {
    var zone := s[..target];
    RFindInside(zone, "; ");
    RFindInside(zone, ", ");
    RFindInside(zone, " ");
  }

  /** One round of the loop of `_split_long_sentence`: the part it appends and the remainder it keeps. */
  function Round(s: string, target: nat): (string, string)
    requires target <= |s|
  {
    var k := CutIndex(s, target);
    (Strip(s[..k]), Strip(s[k..]))
  }

  /**
   * With limit 0 the loop of `_split_long_sentence` never ends: a sentence
   * with any non-blank text is over the limit, the target is 0, and every
   * round appends an empty part and keeps the stripped sentence as it was.
   */
  lemma ZeroLimitStalls(s: string, floor: nat, cpt: Ratio)
    requires ValidRatio(cpt) && Strip(s) != []
    ensures var lim := LimitsOf(0, floor, cpt);
      && lim.target == 0 && !ValidLimits(lim)
      && Over(|s|, lim) && Over(|Strip(s)|, lim)
      && Round(s, lim.target) == ([], Strip(s))
      && Round(Strip(s), lim.target) == ([], Strip(s))
  {
    ZeroLimits(floor, cpt);
    ZeroRound(s);
    ZeroRound(Strip(s));
    StripIdempotent(s);
  }

  lemma ZeroLimits(floor: nat, cpt: Ratio)
    requires ValidRatio(cpt)
    ensures LimitsOf(0, floor, cpt).maxChars == 0 && LimitsOf(0, floor, cpt).target == 0
  {
    var a: nat := 0 * cpt.num;
    assert a == 0;
    assert a / cpt.den == 0 && (a * 9 / cpt.den) / 10 == 0;
  }

  /** With a zero target the round cuts at 0: an empty part, and the remainder is the whole string stripped. */
  lemma ZeroRound(s: string)
    ensures Round(s, 0) == ([], Strip(s))
  {
    assert s[..0] == [] && s[0..] == s;
    assert CutIndex(s, 0) == 0;
  }

  /**
   * `_split_long_sentence`: while the remainder is over the limit, cut it
   * inside the target zone and strip both sides; a non-empty remainder is
   * the last part.
   */
  function SplitLong(s: string, lim: Limits): (parts: seq<string>)
    requires ValidLimits(lim)
    ensures Over(|s|, lim) ==> parts != []
    decreases |s|
  {
    if Over(|s|, lim) then
      var k := CutIndex(s, lim.target);
      [Strip(s[..k])] + SplitLong(Strip(s[k..]), lim)
    else if s == [] then []
    else [s]
  }

  lemma SplitLongUnfold(s: string, lim: Limits)
    requires ValidLimits(lim) && Over(|s|, lim)
    ensures lim.target <= |s|
    ensures var k := CutIndex(s, lim.target);
      SplitLong(s, lim) == [Strip(s[..k])] + SplitLong(Strip(s[k..]), lim)
  {
  }

  /** Every part is within the limit, and every part but the last fits in the cut zone. */
  predicate PartsFit(parts: seq<string>, lim: Limits) {
    && (forall i :: 0 <= i < |parts| ==> !Over(|parts[i]|, lim))
    && (forall i :: 0 <= i < |parts| - 1 ==> |parts[i]| <= lim.target)
  }

  lemma PartsFitCons(head: string, tail: seq<string>, lim: Limits)
    requires ValidLimits(lim) && |head| <= lim.target && PartsFit(tail, lim)
    ensures PartsFit([head] + tail, lim)
  {
    var parts := [head] + tail;
    forall i | 0 < i < |parts|
      ensures parts[i] == tail[i - 1]
    {
    }
  }

  lemma {:induction false} SplitLongFits(s: string, lim: Limits)
    requires ValidLimits(lim)
    ensures PartsFit(SplitLong(s, lim), lim)
    decreases |s|
  {
    if Over(|s|, lim) {
      SplitLongUnfold(s, lim);
      var k := CutIndex(s, lim.target);
      var rest := Strip(s[k..]);
      SplitLongFits(rest, lim);
      PartsFitCons(Strip(s[..k]), SplitLong(rest, lim), lim);
    } else if s != [] {
      assert SplitLong(s, lim) == [s];
    }
  }

  /** Cutting loses nothing but whitespace. */
  lemma {:induction false} SplitLongLossless(s: string, lim: Limits)
    requires ValidLimits(lim)
    ensures NoWs(Concat(SplitLong(s, lim))) == NoWs(s)
    decreases |s|
  {
    if Over(|s|, lim) {
      SplitLongUnfold(s, lim);
      var k := CutIndex(s, lim.target);
      var head, rest := Strip(s[..k]), SplitLong(Strip(s[k..]), lim);
      SplitLongLossless(Strip(s[k..]), lim);
      assert ([head] + rest)[1..] == rest;
      NoWsAppend(head, Concat(rest));
      StripBothLossless(s, k);
    } else if s != [] {
      ConcatSingle(s);
    }
  }

  /** Stripping both sides of a cut loses only whitespace. */
  lemma StripBothLossless(s: string, k: nat)
    requires k <= |s|
    ensures NoWs(s) == NoWs(Strip(s[..k])) + NoWs(Strip(s[k..]))
  {
    assert s == s[..k] + s[k..];
    StripPairLossless(s[..k], s[k..]);
  }

  lemma StripPairLossless(a: string, b: string)
    ensures NoWs(a + b) == NoWs(Strip(a)) + NoWs(Strip(b))
  {
    NoWsAppend(a, b);
    StripKeepsNonBlank(a);
    StripKeepsNonBlank(b);
  }

  /** A request body in the making: a group of whole sentences, or one piece of an oversize sentence. */
  datatype Piece = Packed(sentences: seq<string>) | Cut(text: string)

  /** The state of `chunk_text`'s loop: the chunks closed so far and the open group. */
  datatype Plan = Plan(closed: seq<Piece>, open: seq<string>)

  /** Total character length of a group, the numerator of `current_tokens`. */
  function SumLen(xs: seq<string>): nat {
    if xs == [] then 0 else SumLen(xs[..|xs| - 1]) + |xs[|xs| - 1]|
  }

  function Cuts(parts: seq<string>): (r: seq<Piece>)
    ensures |r| == |parts|
    ensures forall i :: 0 <= i < |r| ==> r[i] == Cut(parts[i])
  {
    seq(|parts|, i requires 0 <= i < |parts| => Cut(parts[i]))
  }

  /** Closing the open group, if any (`if current_chunk: chunks.append(...)`). */
  function Flush(p: Plan): seq<Piece> {
    if p.open != [] then p.closed + [Packed(p.open)] else p.closed
  }

  /** One iteration of `chunk_text`'s loop over sentence `s`. */
  function Step(p: Plan, s: string, lim: Limits): Plan
    requires ValidLimits(lim)
  {
    if Over(|s|, lim) then
      Plan(Flush(p) + Cuts(SplitLong(s, lim)), [])
    else if Over(SumLen(p.open) + |s|, lim) && !BelowFloor(SumLen(p.open), lim) then
      Plan(p.closed + [Packed(p.open)], [s])
    else
      Plan(p.closed, p.open + [s])
  }

  /** The loop of `chunk_text` run over the sentences. */
  function Pack(ss: seq<string>, lim: Limits): Plan
    requires ValidLimits(lim)
  {
    if ss == [] then Plan([], [])
    else Step(Pack(ss[..|ss| - 1], lim), ss[|ss| - 1], lim)
  }

  /** The text sent for a piece: a group's sentences joined with single spaces. */
  function Render(p: Piece): string {
    match p
    case Packed(xs) => Join(" ", xs)
    case Cut(t) => t
  }

  function RenderAll(ps: seq<Piece>): (r: seq<string>)
    ensures |r| == |ps|
  {
    seq(|ps|, i requires 0 <= i < |ps| => Render(ps[i]))
  }

  /** The tail step of `chunk_text`: the open group becomes a last chunk, or is glued onto the previous one. */
  function Finish(chunks: seq<string>, open: seq<string>, lim: Limits): seq<string> {
    if open == [] then chunks
    else
      var tail := Join(" ", open);
      if chunks != [] && BelowFloor(|tail|, lim) then
        chunks[..|chunks| - 1] + [chunks[|chunks| - 1] + " " + tail]
      else
        chunks + [tail]
  }

  /**
   * `chunk_text`: pack the sentences, then append the open group as a last
   * chunk, or glue it with a space onto the previous chunk when its
   * estimate is below the floor and a previous chunk exists.
   */
  function ChunkText(ss: seq<string>, lim: Limits): seq<string>
    requires ValidLimits(lim)
  {
    var plan := Pack(ss, lim);
    Finish(RenderAll(plan.closed), plan.open, lim)
  }

  /** What a plan has consumed so far, whitespace aside. */
  ghost function Spelled(p: Plan): string {
    NoWs(Concat(RenderAll(p.closed))) + NoWs(Concat(p.open))
  }

  lemma RenderAllAppend(a: seq<Piece>, b: seq<Piece>)
    ensures RenderAll(a + b) == RenderAll(a) + RenderAll(b)
  {
  }

  lemma RenderCuts(parts: seq<string>)
    ensures RenderAll(Cuts(parts)) == parts
  {
  }

  lemma ClosePackedLossless(closed: seq<Piece>, open: seq<string>)
    ensures NoWs(Concat(RenderAll(closed + [Packed(open)])))
         == NoWs(Concat(RenderAll(closed))) + NoWs(Concat(open))
  {
    var c := RenderAll(closed);
    var j := Join(" ", open);
    RenderAllAppend(closed, [Packed(open)]);
    assert RenderAll([Packed(open)]) == [j];
    ConcatAppend(c, [j]);
    ConcatSingle(j);
    NoWsAppend(Concat(c), j);
    NoWsJoin(" ", open);
  }

  lemma FlushLossless(p: Plan)
    ensures NoWs(Concat(RenderAll(Flush(p)))) == Spelled(p)
  {
    if p.open != [] {
      ClosePackedLossless(p.closed, p.open);
    } else {
      assert Concat(p.open) == [];
    }
  }

  lemma AppendCutsLossless(f: seq<Piece>, parts: seq<string>)
    ensures NoWs(Concat(RenderAll(f + Cuts(parts)))) == NoWs(Concat(RenderAll(f))) + NoWs(Concat(parts))
  {
    RenderAllAppend(f, Cuts(parts));
    RenderCuts(parts);
    ConcatAppend(RenderAll(f), parts);
    NoWsAppend(Concat(RenderAll(f)), Concat(parts));
  }

  lemma SnocLossless(open: seq<string>, s: string)
    ensures NoWs(Concat(open + [s])) == NoWs(Concat(open)) + NoWs(s)
  {
    ConcatAppend(open, [s]);
    ConcatSingle(s);
    NoWsAppend(Concat(open), s);
  }

  lemma CutStepLossless(p: Plan, parts: seq<string>)
    ensures Spelled(Plan(Flush(p) + Cuts(parts), [])) == Spelled(p) + NoWs(Concat(parts))
  {
    AppendCutsLossless(Flush(p), parts);
    FlushLossless(p);
    assert Concat([]) == [];
  }

  lemma CloseStepLossless(p: Plan, s: string)
    ensures Spelled(Plan(p.closed + [Packed(p.open)], [s])) == Spelled(p) + NoWs(s)
  {
    ClosePackedLossless(p.closed, p.open);
    ConcatSingle(s);
  }

  lemma AppendStepLossless(p: Plan, s: string)
    ensures Spelled(Plan(p.closed, p.open + [s])) == Spelled(p) + NoWs(s)
  {
    SnocLossless(p.open, s);
    Assoc(NoWs(Concat(RenderAll(p.closed))), NoWs(Concat(p.open)), NoWs(s));
  }

  /** One loop iteration consumes exactly its sentence. */
  lemma StepLossless(p: Plan, s: string, lim: Limits)
    requires ValidLimits(lim)
    ensures Spelled(Step(p, s, lim)) == Spelled(p) + NoWs(s)
  {
    if Over(|s|, lim) {
      SplitLongLossless(s, lim);
      CutStepLossless(p, SplitLong(s, lim));
    } else if Over(SumLen(p.open) + |s|, lim) && !BelowFloor(SumLen(p.open), lim) {
      CloseStepLossless(p, s);
    } else {
      AppendStepLossless(p, s);
    }
  }

  lemma PackNilLossless(lim: Limits)
    requires ValidLimits(lim)
    ensures Spelled(Pack([], lim)) == NoWs(Concat([]))
  {
    assert Pack([], lim) == Plan([], []);
    assert RenderAll([]) == [];
  }

  lemma PackUnfold(ss: seq<string>, lim: Limits)
    requires ValidLimits(lim) && ss != []
    ensures Pack(ss, lim) == Step(Pack(ss[..|ss| - 1], lim), ss[|ss| - 1], lim)
  {
  }

  lemma ConcatSnocLossless(ss: seq<string>)
    requires ss != []
    ensures NoWs(Concat(ss)) == NoWs(Concat(ss[..|ss| - 1])) + NoWs(ss[|ss| - 1])
  {
    var init := ss[..|ss| - 1];
    var s := ss[|ss| - 1];
    assert init + [s] == ss;
    SnocLossless(init, s);
  }

  lemma PackSnocLossless(ss: seq<string>, lim: Limits)
    requires ValidLimits(lim) && ss != []
    requires Spelled(Pack(ss[..|ss| - 1], lim)) == NoWs(Concat(ss[..|ss| - 1]))
    ensures Spelled(Pack(ss, lim)) == NoWs(Concat(ss))
  {
    PackUnfold(ss, lim);
    ConcatSnocLossless(ss);
    StepLossless(Pack(ss[..|ss| - 1], lim), ss[|ss| - 1], lim);
  }

  /** The loop state loses nothing but whitespace: closed chunks then the open group spell the input so far. */
  lemma {:induction false} PackLossless(ss: seq<string>, lim: Limits)
    requires ValidLimits(lim)
    ensures Spelled(Pack(ss, lim)) == NoWs(Concat(ss))
  {
    if ss == [] {
      PackNilLossless(lim);
    } else {
      PackLossless(ss[..|ss| - 1], lim);
      PackSnocLossless(ss, lim);
    }
  }

  lemma MergeTailLossless(chunks: seq<string>, tail: string)
    requires chunks != []
    ensures NoWs(Concat(chunks[..|chunks| - 1] + [chunks[|chunks| - 1] + " " + tail]))
         == NoWs(Concat(chunks)) + NoWs(tail)
  {
    var n := |chunks| - 1;
    var init := chunks[..n];
    var last := chunks[n];
    var c := NoWs(Concat(init));
    SnocLossless(init, last + " " + tail);
    NoWsAppend(last + " ", tail);
    NoWsAppend(last, " ");
    assert NoWs(" ") == [];
    assert NoWs(last + " ") == NoWs(last);
    assert init + [last] == chunks;
    SnocLossless(init, last);
    Assoc(c, NoWs(last), NoWs(tail));
  }

  lemma FinishLossless(chunks: seq<string>, open: seq<string>, lim: Limits)
    ensures NoWs(Concat(Finish(chunks, open, lim))) == NoWs(Concat(chunks)) + NoWs(Concat(open))
  {
    if open == [] {
      assert Concat(open) == [];
    } else {
      var tail := Join(" ", open);
      NoWsJoin(" ", open);
      if chunks != [] && BelowFloor(|tail|, lim) {
        MergeTailLossless(chunks, tail);
      } else {
        SnocLossless(chunks, tail);
      }
    }
  }

  /** `chunk_text` loses no text: its chunks spell the sentences, whitespace aside. */
  lemma ChunkTextLossless(ss: seq<string>, lim: Limits)
    requires ValidLimits(lim)
    ensures NoWs(Concat(ChunkText(ss, lim))) == NoWs(Concat(ss))
  {
    var plan := Pack(ss, lim);
    PackLossless(ss, lim);
    FinishLossless(RenderAll(plan.closed), plan.open, lim);
  }

  lemma {:induction false} PackEmpty(ss: seq<string>, lim: Limits)
    requires ValidLimits(lim)
    ensures var p := Pack(ss, lim);
      (p.closed == [] && p.open == []) <==> ss == []
  {
    if ss != [] {
      PackEmpty(ss[..|ss| - 1], lim);
    }
  }

  /** `chunk_text` yields no chunk exactly when there is no sentence. */
  lemma ChunkTextEmpty(ss: seq<string>, lim: Limits)
    requires ValidLimits(lim)
    ensures ChunkText(ss, lim) == [] <==> ss == []
  {
    PackEmpty(ss, lim);
  }

  /** A unit of the input as it reaches a request: a whole sentence, or a piece of a cut one. */
  datatype Atom = Whole(sentence: string) | Part(text: string)

  function Wholes(xs: seq<string>): (r: seq<Atom>)
    ensures |r| == |xs| && forall i :: 0 <= i < |xs| ==> r[i] == Whole(xs[i])
  {
    seq(|xs|, i requires 0 <= i < |xs| => Whole(xs[i]))
  }

  function Parts(xs: seq<string>): (r: seq<Atom>)
    ensures |r| == |xs| && forall i :: 0 <= i < |xs| ==> r[i] == Part(xs[i])
  {
    seq(|xs|, i requires 0 <= i < |xs| => Part(xs[i]))
  }

  /** The units a plan's closed pieces carry, in order. */
  function Atoms(ps: seq<Piece>): seq<Atom> {
    if ps == [] then []
    else
      var last := ps[|ps| - 1];
      Atoms(ps[..|ps| - 1]) + (match last case Packed(xs) => Wholes(xs) case Cut(t) => [Part(t)])
  }

  /** Reference for what `chunk_text` sends: every sentence within the limit whole, every oversize one as its cut parts. */
  function Expand(ss: seq<string>, lim: Limits): seq<Atom>
    requires ValidLimits(lim)
  {
    if ss == [] then []
    else
      var s := ss[|ss| - 1];
      Expand(ss[..|ss| - 1], lim) + (if Over(|s|, lim) then Parts(SplitLong(s, lim)) else [Whole(s)])
  }

  lemma AtomsSnoc(ps: seq<Piece>, q: Piece)
    ensures Atoms(ps + [q]) == Atoms(ps) + Atoms([q])
  {
    assert (ps + [q])[..|ps|] == ps;
    assert [q][..0] == [];
  }

  lemma {:induction false} AtomsCuts(ps: seq<Piece>, parts: seq<string>)
    ensures Atoms(ps + Cuts(parts)) == Atoms(ps) + Parts(parts)
    decreases |parts|
  {
    if parts == [] {
      assert ps + Cuts(parts) == ps;
    } else {
      var n := |parts| - 1;
      var init := parts[..n];
      assert Cuts(parts) == Cuts(init) + [Cut(parts[n])];
      Assoc(ps, Cuts(init), [Cut(parts[n])]);
      AtomsCuts(ps, init);
      AtomsSnoc(ps + Cuts(init), Cut(parts[n]));
      assert Atoms([Cut(parts[n])]) == [Part(parts[n])] by {
        assert [Cut(parts[n])][..0] == [];
      }
      assert Parts(parts) == Parts(init) + [Part(parts[n])];
      Assoc(Atoms(ps), Parts(init), [Part(parts[n])]);
    }
  }

  lemma AtomsPacked(ps: seq<Piece>, xs: seq<string>)
    ensures Atoms(ps + [Packed(xs)]) == Atoms(ps) + Wholes(xs)
  {
    AtomsSnoc(ps, Packed(xs));
    assert [Packed(xs)][..0] == [];
  }

  lemma FlushAtoms(p: Plan)
    ensures Atoms(Flush(p)) == Atoms(p.closed) + Wholes(p.open)
  {
    if p.open != [] {
      AtomsPacked(p.closed, p.open);
    } else {
      assert Wholes(p.open) == [];
    }
  }

  lemma StepAtoms(p: Plan, s: string, lim: Limits)
    requires ValidLimits(lim)
    ensures var q := Step(p, s, lim);
      Atoms(q.closed) + Wholes(q.open)
        == Atoms(p.closed) + Wholes(p.open) + (if Over(|s|, lim) then Parts(SplitLong(s, lim)) else [Whole(s)])
  {
    if Over(|s|, lim) {
      AtomsCuts(Flush(p), SplitLong(s, lim));
      FlushAtoms(p);
      assert Wholes([]) == [];
    } else if Over(SumLen(p.open) + |s|, lim) && !BelowFloor(SumLen(p.open), lim) {
      AtomsPacked(p.closed, p.open);
    } else {
      assert Wholes(p.open + [s]) == Wholes(p.open) + [Whole(s)];
      Assoc(Atoms(p.closed), Wholes(p.open), [Whole(s)]);
    }
  }

  /**
   * Order and integrity of the packing: read left to right, the plan holds
   * every sentence within the limit whole and every oversize sentence as
   * its own cut parts, in input order.
   */
  lemma {:induction false} PackStructure(ss: seq<string>, lim: Limits)
    requires ValidLimits(lim)
    ensures var p := Pack(ss, lim); Atoms(p.closed) + Wholes(p.open) == Expand(ss, lim)
  {
    if ss == [] {
      assert Wholes([]) == [];
    } else {
      var init := ss[..|ss| - 1];
      PackStructure(init, lim);
      StepAtoms(Pack(init, lim), ss[|ss| - 1], lim);
    }
  }

  /** A group's summed estimate is within the limit, or below limit + floor. */
  predicate Fits(n: nat, lim: Limits) {
    n <= lim.maxChars || n < lim.maxChars + lim.floorChars
  }

  /** Closing group `g` before sentence `s` was forced: `s` would overflow it and `g` had reached the floor. */
  predicate Justified(g: seq<string>, s: string, lim: Limits) {
    Over(SumLen(g) + |s|, lim) && !BelowFloor(SumLen(g), lim)
  }

  /** Two adjacent groups were split only because they had to be. */
  predicate Linked(a: Piece, b: Piece, lim: Limits) {
    a.Packed? && b.Packed? && b.sentences != [] ==> Justified(a.sentences, b.sentences[0], lim)
  }

  /** The invariant of `chunk_text`'s loop. */
  predicate PlanInv(p: Plan, lim: Limits) {
    && (forall i :: 0 <= i < |p.closed| && p.closed[i].Packed? ==>
          p.closed[i].sentences != [] && Fits(SumLen(p.closed[i].sentences), lim))
    && (forall i :: 0 <= i < |p.closed| - 1 ==> Linked(p.closed[i], p.closed[i + 1], lim))
    && (p.closed != [] && p.open != [] ==> Linked(p.closed[|p.closed| - 1], Packed(p.open), lim))
    && (p.closed != [] && p.open == [] ==> p.closed[|p.closed| - 1].Cut?)
    && Fits(SumLen(p.open), lim)
  }

  lemma SumLenSnoc(xs: seq<string>, s: string)
    ensures SumLen(xs + [s]) == SumLen(xs) + |s|
  {
    assert (xs + [s])[..|xs|] == xs;
  }

  lemma CutStepInv(p: Plan, parts: seq<string>, lim: Limits)
    requires PlanInv(p, lim) && parts != []
    ensures PlanInv(Plan(Flush(p) + Cuts(parts), []), lim)
  {
    var f := Flush(p);
    var c := f + Cuts(parts);
    forall i | 0 <= i < |c| - 1
      ensures Linked(c[i], c[i + 1], lim)
    {
      if i + 1 < |p.closed| {
        assert c[i] == p.closed[i] && c[i + 1] == p.closed[i + 1];
      } else if i + 1 == |p.closed| && p.open != [] {
        assert c[i] == p.closed[i] && c[i + 1] == Packed(p.open);
      }
    }
  }

  lemma CloseStepInv(p: Plan, s: string, lim: Limits)
    requires PlanInv(p, lim) && p.open != [] && !Over(|s|, lim)
    requires Justified(p.open, s, lim)
    ensures PlanInv(Plan(p.closed + [Packed(p.open)], [s]), lim)
  {
    var c := p.closed + [Packed(p.open)];
    assert SumLen([s]) == |s| by { SumLenSnoc([], s); }
    forall i | 0 <= i < |c| - 1
      ensures Linked(c[i], c[i + 1], lim)
    {
      if i + 1 < |p.closed| {
        assert c[i] == p.closed[i] && c[i + 1] == p.closed[i + 1];
      }
    }
  }

  lemma AppendStepInv(p: Plan, s: string, lim: Limits)
    requires PlanInv(p, lim) && !Over(|s|, lim)
    requires !Justified(p.open, s, lim)
    ensures PlanInv(Plan(p.closed, p.open + [s]), lim)
  {
    SumLenSnoc(p.open, s);
  }

  lemma StepInv(p: Plan, s: string, lim: Limits)
    requires ValidLimits(lim) && PlanInv(p, lim)
    ensures PlanInv(Step(p, s, lim), lim)
  {
    if Over(|s|, lim) {
      CutStepInv(p, SplitLong(s, lim), lim);
    } else if Over(SumLen(p.open) + |s|, lim) && !BelowFloor(SumLen(p.open), lim) {
      CloseStepInv(p, s, lim);
    } else {
      AppendStepInv(p, s, lim);
    }
  }

  /**
   * The packing rules of `chunk_text`: every closed group is non-empty with a
   * summed estimate within the limit or below limit + floor, and a group was
   * closed before the next one only when that next sentence would overflow it
   * and it had reached the floor.
   */
  lemma {:induction false} PackInvariant(ss: seq<string>, lim: Limits)
    requires ValidLimits(lim)
    ensures PlanInv(Pack(ss, lim), lim)
  {
    if ss != [] {
      PackInvariant(ss[..|ss| - 1], lim);
      StepInv(Pack(ss[..|ss| - 1], lim), ss[|ss| - 1], lim);
    }
  }
}

=== FILE: config.dfy ===
/**
 * Configuration defaults, file-name sanitising and the skip-title rule of
 * narrator/config.py.
 */
module Config {
  import opened Text

  /** A positive rational, used for the characters-per-token ratio (3.5 is 7/2). */
  datatype Ratio = Ratio(num: nat, den: nat)

  predicate ValidRatio(r: Ratio) { r.num > 0 && r.den > 0 }

  /**
   * The numeric configuration. Durations are whole seconds except the
   * cooldown, which is kept in milliseconds (the source stores 1.0 s).
   */
  datatype Settings = Settings(
    tokenLimit: nat,
    tokenFloor: nat,
    charsPerToken: Ratio,
    minChapterWords: nat,
    fallbackChapterWords: nat,
    crossfadeMs: nat,
    maxRetries: nat,
    retryBackoff: seq<nat>,
    startupTimeout: nat,
    cooldownMs: nat,
    restInterval: nat,
    restDuration: nat)

  function Defaults(): Settings {
    Settings(
      tokenLimit := 250,
      tokenFloor := 80,
      charsPerToken := Ratio(7, 2),
      minChapterWords := 50,
      fallbackChapterWords := 5000,
      crossfadeMs := 50,
      maxRetries := 5,
      retryBackoff := [5, 10, 20, 40, 60],
      startupTimeout := 300,
      cooldownMs := 1000,
      restInterval := 10,
      restDuration := 5)
  }

  /** The defaults satisfy the relations the chunker and the request loop rely on. */
  lemma DefaultsConsistent()
    ensures var d := Defaults();
      && d.tokenFloor < d.tokenLimit
      && d.restInterval > 0
      && d.maxRetries >= 1
      && ValidRatio(d.charsPerToken)
      && |d.retryBackoff| == d.maxRetries
  {
  }

  /** The characters `SANITIZE_CHARS` matches. */
  predicate Forbidden(c: char) {
    c == '/' || c == '\\' || c == ':' || c == '*' || c == '?' || c == '"' || c == '<' || c == '>' || c == '|'
  }

  /** One character after the substitution. */
  function Scrub(c: char): (r: char)
    ensures !Forbidden(r)
    ensures Forbidden(c) <==> r == '_' && c != '_'
  {
    if Forbidden(c) then '_' else c
  }

  /** `SANITIZE_CHARS.sub("_", name)`: every forbidden character becomes one underscore. */
  function ReplaceForbidden(name: string): (r: string)
    ensures |r| == |name|
  {
    seq(|name|, i requires 0 <= i < |name| => Scrub(name[i]))
  }

  lemma StrippedIsClean(s: string)
    requires forall i :: 0 <= i < |s| ==> !Forbidden(s[i])
    ensures forall i :: 0 <= i < |Strip(s)| ==> !Forbidden(Strip(s)[i])
  {
    var a, b := StripIsSlice(s);
    var r := Strip(s);
    forall i | 0 <= i < |r|
      ensures !Forbidden(r[i])
    {
      assert r[i] == s[a + i];
    }
  }

  /** `sanitize_filename`: forbidden characters replaced, then surrounding whitespace stripped. */
  function SanitizeFilename(name: string): (r: string)
    ensures forall i :: 0 <= i < |r| ==> !Forbidden(r[i])
    ensures |r| <= |name|
    ensures r == [] || (!IsSpace(r[0]) && !IsSpace(r[|r| - 1]))
    ensures NoWs(r) == NoWs(ReplaceForbidden(name))
  {
    var replaced := ReplaceForbidden(name);
    StripKeepsNonBlank(replaced);
    StrippedIsClean(replaced);
    StripEnds(replaced);
    Strip(replaced)
  }

  /** A name without forbidden characters passes the replacement untouched. */
  lemma ReplaceClean(name: string)
    requires forall i :: 0 <= i < |name| ==> !Forbidden(name[i])
    ensures ReplaceForbidden(name) == name
  {
  }

  /** Sanitising twice is the same as sanitising once. */
  lemma SanitizeIdempotent(name: string)
    ensures SanitizeFilename(SanitizeFilename(name)) == SanitizeFilename(name)
  {
    var once := SanitizeFilename(name);
    ReplaceClean(once);
    StripIdempotent(ReplaceForbidden(name));
  }

  /** The literal alternatives of `SKIP_TITLES`, in lower case. */
  const SkipTitleWords: seq<string> := [
    "copyright", "legal", "disclaimer", "dedication", "epigraph",
    "acknowledgm", "table of contents", "contents", "title page",
    "about the author", "about the publisher", "also by", "other books",
    "cover", "frontispiece", "colophon", "imprint",
    "praise", "acclaim", "blurb", "reviews",
    "notes", "endnotes", "footnotes", "index", "bibliography",
    "references", "glossary", "further reading", "sources"]

  /** Some word of `words` is a prefix of `t`. */
  predicate StartsWithAny(t: string, words: seq<string>) {
    words != [] && (StartsWith(t, words[0]) || StartsWithAny(t, words[1..]))
  }

  /** The `half.?title` alternative: `.` is any character but a newline. */
  predicate HalfTitlePrefix(t: string) {
    StartsWith(t, "halftitle")
    || (|t| >= 10 && t[..4] == "half" && t[4] != '\n' && t[5..10] == "title")
  }

  /**
   * `SKIP_TITLES.search(title)`: the pattern is anchored with `^` and compiled
   * without MULTILINE, so it only matches at the very start of the title.
   */
  predicate IsSkipTitle(title: string) {
    var t := Lower(title);
    StartsWithAny(t, SkipTitleWords) || HalfTitlePrefix(t)
  }

  lemma {:induction false} StartsWithAnyExtends(t: string, u: string, words: seq<string>)
    requires StartsWithAny(t, words)
    ensures StartsWithAny(t + u, words)
  {
    if StartsWith(t, words[0]) {
      assert (t + u)[..|words[0]|] == t[..|words[0]|];
    } else {
      StartsWithAnyExtends(t, u, words[1..]);
    }
  }

  lemma {:induction false} StartsWithAnyFirst(t: string, words: seq<string>)
    requires t != [] && !IsLowerAscii(t[0])
    requires forall k :: 0 <= k < |words| ==> words[k] != [] && IsLowerAscii(words[k][0])
    ensures !StartsWithAny(t, words)
  {
    if words != [] {
      StartsWithAnyFirst(t, words[1..]);
    }
  }

  /** Every listed word begins with a lower-case letter. */
  lemma SkipWordsInitials()
    ensures forall k :: 0 <= k < |SkipTitleWords| ==> SkipTitleWords[k] != [] && IsLowerAscii(SkipTitleWords[k][0])
  {
  }

  /** A skip title stays a skip title whatever follows it. */
  lemma SkipTitleExtends(title: string, more: string)
    requires IsSkipTitle(title)
    ensures IsSkipTitle(title + more)
  {
    LowerAppend(title, more);
    var t := Lower(title);
    var t' := Lower(title + more);
    assert t' == t + Lower(more);
    if StartsWithAny(t, SkipTitleWords) {
      StartsWithAnyExtends(t, Lower(more), SkipTitleWords);
    } else if StartsWith(t, "halftitle") {
      assert t'[..9] == t[..9];
    } else {
      assert t'[..4] == t[..4] && t'[4] == t[4] && t'[5..10] == t[5..10];
    }
  }

  /** Because of the anchor, a title that does not begin with a letter is never a skip title. */
  lemma SkipTitleAnchored(title: string)
    requires title != [] && !IsLetter(title[0])
    ensures !IsSkipTitle(title)
  {
    var t := Lower(title);
    assert t[0] == title[0];
    SkipWordsInitials();
    StartsWithAnyFirst(t, SkipTitleWords);
  }
}

=== FILE: extract.dfy ===
/**
 * `extract` of narrator/core/epub_extractor.py: the fixed-priority chain of
 * chapter detectors, the heading detector's numbering, and the filter that
 * turns detected sections into chapters.
 */
module Extract {
  import opened Text
  import opened Wrappers
  import opened Sections
  import Toc
  import Markers
  import FixedSplit
  import Heuristics
  import PostProcess

  /** `MIN_CHAPTER_WORDS`. */
  const MinChapterWords: nat := 50

  /** A kept chapter; `wordCount` is the word count of `text`. */
  datatype Chapter = Chapter(title: string, text: string, wordCount: nat)

  /** The reasons `extract` raises `EpubExtractionError`. */
  datatype ExtractError = FileNotFound | ParseFailed | NoChapters

  /**
   * What the heading detector's soup shows of one spine item: no `h1`/`h2`
   * at all and the item's text, or for each heading in document order its
   * stripped text and the joined text of the elements up to the next heading.
   */
  datatype HeadingView = NoHeadings(text: string) | Headed(parts: seq<Section>)

  // ---------------------------------------------------------------------
  // Detection chain
  // ---------------------------------------------------------------------

  /** The first non-empty level, or `[]` when every level is empty. */
  function FirstNonEmpty(levels: seq<seq<Section>>): (r: seq<Section>)
    ensures r == [] <==> forall i | 0 <= i < |levels| :: levels[i] == []
    ensures r != [] ==> exists i | 0 <= i < |levels| :: r == levels[i] && forall j | 0 <= j < i :: levels[j] == []
  {
    if levels == [] then []
    else if levels[0] != [] then levels[0]
    else
      var r := FirstNonEmpty(levels[1..]);
      assert forall i | 1 <= i < |levels| :: levels[i] == levels[1..][i - 1];
      r
  }

  /** The headed parts of one item: those with a non-empty heading text, newline runs collapsed. */
  function HeadedSections(parts: seq<Section>): (r: seq<Section>)
    ensures forall k | 0 <= k < |r| :: r[k].title != []
  {
    var slots := seq(|parts|, i requires 0 <= i < |parts| =>
      if parts[i].title == [] then None else Some(Section(parts[i].title, PostProcess.Collapse(parts[i].text))));
    forall c | c in Keep(slots) ensures c.title != [] {
      KeepMembers(slots, c);
    }
    Keep(slots)
  }

  /** The title a heading-less item receives: `Section n`, numbered over all sections so far. */
  function SectionTitle(n: nat): string {
    "Section " + NatToString(n)
  }

  /** `_detect_chapters_headings` over the items' views. */
  function HeadingSections(views: seq<HeadingView>): seq<Section> {
    if views == [] then []
    else
      var prev := HeadingSections(views[..|views| - 1]);
      match views[|views| - 1]
      case NoHeadings(t) =>
        var text := PostProcess.Collapse(Strip(t));
        if text == [] then prev else prev + [Section(SectionTitle(|prev| + 1), text)]
      case Headed(parts) => prev + HeadedSections(parts)
  }

  /** Which heading sections came from a heading-less item. */
  function Untitled(views: seq<HeadingView>): seq<bool> {
    if views == [] then []
    else
      var prev := Untitled(views[..|views| - 1]);
      match views[|views| - 1]
      case NoHeadings(t) =>
        if PostProcess.Collapse(Strip(t)) == [] then prev else prev + [true]
      case Headed(parts) => prev + seq(|HeadedSections(parts)|, _ => false)
  }

  /**
   * A heading-less item's section is numbered by its own position among all
   * the heading sections; every other section has a non-empty heading text.
   */
  lemma {:induction false} HeadingNumbering(views: seq<HeadingView>)
    ensures |Untitled(views)| == |HeadingSections(views)|
    ensures forall k | 0 <= k < |HeadingSections(views)| ::
      if Untitled(views)[k] then HeadingSections(views)[k].title == SectionTitle(k + 1)
      else HeadingSections(views)[k].title != []
  {
    if views != [] {
      var init := views[..|views| - 1];
      HeadingNumbering(init);
      var prev := HeadingSections(init);
      var marks := Untitled(init);
      var r := HeadingSections(views);
      var u := Untitled(views);
      match views[|views| - 1]
      case NoHeadings(t) =>
      case Headed(parts) =>
        var hs := HeadedSections(parts);
        assert r == prev + hs;
        forall k | |prev| <= k < |r|
          ensures !u[k] && r[k].title != []
        {
          assert r[k] == hs[k - |prev|];
        }
    }
  }

  /**
   * The text both fallbacks scan: each spine item's cleaned text followed
   * by a blank line.
   */
  function BookText(spine: seq<Toc.SpineItem>): string {
    FullText(seq(|spine|, i requires 0 <= i < |spine| => Toc.WholeText(spine[i])))
  }

  /** The four detectors, in priority order. */
  function Levels(toc: seq<Toc.TocNode>, spine: seq<Toc.SpineItem>, anchor: Toc.AnchorWalk, views: seq<HeadingView>): (r: seq<seq<Section>>)
    ensures |r| == 4
  {
    var full := BookText(spine);
    [Toc.TocSections(toc, spine, anchor),
     HeadingSections(views),
     Markers.RegexSections(full),
     FixedSplit.FixedSections(full)]
  }

  /** The detected sections: the first detector that finds any. */
  function Detect(toc: seq<Toc.TocNode>, spine: seq<Toc.SpineItem>, anchor: Toc.AnchorWalk, views: seq<HeadingView>): seq<Section> {
    FirstNonEmpty(Levels(toc, spine, anchor, views))
  }

  /** Detection never mixes levels: it is one detector's whole output, and every earlier detector found nothing. */
  lemma DetectOneLevel(toc: seq<Toc.TocNode>, spine: seq<Toc.SpineItem>, anchor: Toc.AnchorWalk, views: seq<HeadingView>)
    ensures var d := Detect(toc, spine, anchor, views); var ls := Levels(toc, spine, anchor, views);
      && (d == [] <==> forall i | 0 <= i < 4 :: ls[i] == [])
      && (d != [] ==> exists i | 0 <= i < 4 :: d == ls[i] && forall j | 0 <= j < i :: ls[j] == [])
  {
  }

  /** A non-empty table-of-contents result is used as it is. */
  lemma TocFirst(toc: seq<Toc.TocNode>, spine: seq<Toc.SpineItem>, anchor: Toc.AnchorWalk, views: seq<HeadingView>)
    requires Toc.TocSections(toc, spine, anchor) != []
    ensures Detect(toc, spine, anchor, views) == Toc.TocSections(toc, spine, anchor)
  {
  }

  /** A book with some words always yields sections: the fixed split is the last resort. */
  lemma SomeWordsSomeSections(toc: seq<Toc.TocNode>, spine: seq<Toc.SpineItem>, anchor: Toc.AnchorWalk, views: seq<HeadingView>)
    requires WordCount(BookText(spine)) > 0
    ensures Detect(toc, spine, anchor, views) != []
  {
    FixedSplit.FixedNonEmpty(BookText(spine));
    assert Levels(toc, spine, anchor, views)[3] != [];
  }

  // ---------------------------------------------------------------------
  // Filter
  // ---------------------------------------------------------------------

  /** One detected section after title stripping: a chapter, or nothing when too short or skippable. */
  function Candidate(s: Section, frontMatter: string -> bool): (r: Option<Chapter>)
    ensures r.Some? ==> r.value.title == s.title && r.value.wordCount == WordCount(r.value.text)
  {
    var text := Heuristics.StripTitle(s.title, s.text);
    var n := WordCount(text);
    if n < MinChapterWords || Heuristics.IsSkippable(s.title, text, frontMatter) then None
    else Some(Chapter(s.title, text, n))
  }

  function Candidates(ss: seq<Section>, frontMatter: string -> bool): (r: seq<Option<Chapter>>)
    ensures |r| == |ss|
    ensures forall i | 0 <= i < |ss| :: r[i] == Candidate(ss[i], frontMatter)
  {
    Each(Judge(frontMatter), ss)
  }

  /** The verdict on one section, as a function value. */
  function Judge(frontMatter: string -> bool): Section -> Option<Chapter> {
    s => Candidate(s, frontMatter)
  }

  /** `f` applied to every element, in order. */
  function Each<A, B>(f: A -> B, xs: seq<A>): (r: seq<B>)
    ensures |r| == |xs|
    ensures forall i | 0 <= i < |xs| :: r[i] == f(xs[i])
  {
    seq(|xs|, i requires 0 <= i < |xs| => f(xs[i]))
  }

  lemma EachAppend<A, B>(f: A -> B, a: seq<A>, b: seq<A>)
    ensures Each(f, a + b) == Each(f, a) + Each(f, b)
  {
    var l, r := Each(f, a + b), Each(f, a) + Each(f, b);
    forall i | 0 <= i < |l|
      ensures l[i] == r[i]
    {
      if i >= |a| {
        assert (a + b)[i] == b[i - |a|];
      }
    }
  }

  /** The `filtered` list of `extract`. */
  function Filter(ss: seq<Section>, frontMatter: string -> bool): seq<Chapter> {
    Keep(Candidates(ss, frontMatter))
  }

  /**
   * A section yields a chapter exactly when, its title stripped, it has at
   * least 50 words and is not skippable; the chapter keeps the title.
   */
  lemma CandidateSpec(s: Section, frontMatter: string -> bool, c: Chapter)
    ensures Candidate(s, frontMatter) == Some(c) <==>
      var text := Heuristics.StripTitle(s.title, s.text);
      && c == Chapter(s.title, text, WordCount(text))
      && WordCount(text) >= MinChapterWords
      && !Heuristics.IsSkippable(s.title, text, frontMatter)
  {
  }

  /** A chapter is kept exactly when some section yields it. */
  lemma FilterMembers(ss: seq<Section>, frontMatter: string -> bool, c: Chapter)
    ensures c in Filter(ss, frontMatter) <==> exists i | 0 <= i < |ss| :: Candidate(ss[i], frontMatter) == Some(c)
  {
    var slots := Candidates(ss, frontMatter);
    KeepMembers(slots, c);
    if i :| 0 <= i < |ss| && Candidate(ss[i], frontMatter) == Some(c) {
      assert slots[i] == Some(c);
    }
  }

  /** Every kept chapter has at least 50 words, counts them exactly, and is not skippable. */
  lemma FilterSound(ss: seq<Section>, frontMatter: string -> bool)
    ensures forall c | c in Filter(ss, frontMatter) ::
      c.wordCount == WordCount(c.text) && c.wordCount >= MinChapterWords
      && !Heuristics.IsSkippable(c.title, c.text, frontMatter)
  {
    forall c | c in Filter(ss, frontMatter)
      ensures c.wordCount == WordCount(c.text) && c.wordCount >= MinChapterWords
      ensures !Heuristics.IsSkippable(c.title, c.text, frontMatter)
    {
      FilterMembers(ss, frontMatter, c);
      var i :| 0 <= i < |ss| && Candidate(ss[i], frontMatter) == Some(c);
      CandidateSpec(ss[i], frontMatter, c);
    }
  }

  /** Filtering works section by section, so kept chapters stay in detection order. */
  lemma FilterAppend(a: seq<Section>, b: seq<Section>, frontMatter: string -> bool)
    ensures Filter(a + b, frontMatter) == Filter(a, frontMatter) + Filter(b, frontMatter)
  {
    CandidatesAppend(a, b, frontMatter);
    KeepAppend(Candidates(a, frontMatter), Candidates(b, frontMatter));
  }

  /** Candidates are judged section by section. */
  lemma CandidatesAppend(a: seq<Section>, b: seq<Section>, frontMatter: string -> bool)
    ensures Candidates(a + b, frontMatter) == Candidates(a, frontMatter) + Candidates(b, frontMatter)
  {
    EachAppend(Judge(frontMatter), a, b);
  }

  // ---------------------------------------------------------------------
  // extract
  // ---------------------------------------------------------------------

  /**
   * `extract`, given whether the file exists and parses, the book's table
   * of contents, its spine documents, the DOM-derived inputs of the
   * detectors, and the front-matter signature search.
   */
  function ExtractChapters(present: bool, parsed: bool, toc: seq<Toc.TocNode>, spine: seq<Toc.SpineItem>,
                           anchor: Toc.AnchorWalk, views: seq<HeadingView>, frontMatter: string -> bool): (r: Result<seq<Chapter>, ExtractError>)
    ensures r.Ok? ==> r.value != []
  {
    Outcome(present, parsed, Detect(toc, spine, anchor, views), frontMatter)
  }

  /** The checks and the filter of `extract`, given the detected sections. */
  function Outcome(present: bool, parsed: bool, ss: seq<Section>, frontMatter: string -> bool): (r: Result<seq<Chapter>, ExtractError>)
    ensures r.Ok? ==> r.value != []
  {
    if !present then Err(FileNotFound)
    else if !parsed then Err(ParseFailed)
    else
      var chapters := Filter(ss, frontMatter);
      if chapters == [] then Err(NoChapters) else Ok(chapters)
  }

  /**
   * `extract` returns chapters exactly when the file exists, parses, and
   * some detected section survives the filter; it then returns exactly the
   * chapters the sections yield, each with at least 50 words and not
   * skippable. A missing file is reported before a parse failure.
   */
  lemma ExtractOutcome(present: bool, parsed: bool, toc: seq<Toc.TocNode>, spine: seq<Toc.SpineItem>,
                       anchor: Toc.AnchorWalk, views: seq<HeadingView>, frontMatter: string -> bool)
    ensures var r := ExtractChapters(present, parsed, toc, spine, anchor, views, frontMatter);
      var ss := Detect(toc, spine, anchor, views);
      && (r == Err(FileNotFound) <==> !present)
      && (r == Err(ParseFailed) <==> present && !parsed)
      && (r.Ok? <==> present && parsed && exists i | 0 <= i < |ss| :: Candidate(ss[i], frontMatter).Some?)
      && (r.Ok? ==> forall c :: c in r.value <==> exists i | 0 <= i < |ss| :: Candidate(ss[i], frontMatter) == Some(c))
      && (r.Ok? ==> forall c | c in r.value :: c.wordCount >= MinChapterWords && !Heuristics.IsSkippable(c.title, c.text, frontMatter))
  {
    OutcomeSpec(present, parsed, Detect(toc, spine, anchor, views), frontMatter);
  }

  /** The outcome for any detected sections. */
  lemma OutcomeSpec(present: bool, parsed: bool, ss: seq<Section>, frontMatter: string -> bool)
    ensures var r := Outcome(present, parsed, ss, frontMatter);
      && (r == Err(FileNotFound) <==> !present)
      && (r == Err(ParseFailed) <==> present && !parsed)
      && (r.Ok? <==> present && parsed && exists i | 0 <= i < |ss| :: Candidate(ss[i], frontMatter).Some?)
      && (r.Ok? ==> forall c :: c in r.value <==> exists i | 0 <= i < |ss| :: Candidate(ss[i], frontMatter) == Some(c))
      && (r.Ok? ==> forall c | c in r.value :: c.wordCount >= MinChapterWords && !Heuristics.IsSkippable(c.title, c.text, frontMatter))
  {
    var kept := Filter(ss, frontMatter);
    FilterSound(ss, frontMatter);
    forall c
      ensures c in kept <==> exists i | 0 <= i < |ss| :: Candidate(ss[i], frontMatter) == Some(c)
    {
      FilterMembers(ss, frontMatter, c);
    }
    if kept != [] {
      assert kept[0] in kept;
    } else {
      forall i | 0 <= i < |ss|
        ensures Candidate(ss[i], frontMatter).None?
      {
        if Candidate(ss[i], frontMatter).Some? {
          FilterMembers(ss, frontMatter, Candidate(ss[i], frontMatter).value);
        }
      }
    }
  }

  /** The two Kobo endings and the plain one. */
  const KepubEpubEnding: string := ".kepub.epub"
  const KepubEnding: string := ".kepub"
  const EpubEnding: string := ".epub"

  /** `extract`'s is_kepub default: the lower-cased path ends in ".kepub.epub" or ".kepub". */
  function KepubDefault(path: string, isKepub: Option<bool>): (r: bool)
    ensures isKepub.Some? ==> r == isKepub.value
  {
    match isKepub
    case Some(b) => b
    case None => EndsWith(Lower(path), KepubEpubEnding) || EndsWith(Lower(path), KepubEnding)
  }

  /** Both kepub spellings are recognised whatever the case of the stem; a plain ".epub" stem is not. */
  lemma KepubSuffixes(stem: string)
    requires !EndsWith(Lower(stem), KepubEnding)
    ensures KepubDefault(stem + KepubEnding, None)
    ensures KepubDefault(stem + KepubEpubEnding, None)
    ensures !KepubDefault(stem + EpubEnding, None)
  {
    LowerAppend(stem, KepubEnding);
    LowerAppend(stem, KepubEpubEnding);
    LowerAppend(stem, EpubEnding);
    LowerEndings();
    EndsWithAppended(Lower(stem), KepubEnding);
    EndsWithAppended(Lower(stem), KepubEpubEnding);
    PlainEpubNotKepub(Lower(stem));
  }

  /** The endings are already lower case. */
  lemma LowerEndings()
    ensures Lower(KepubEpubEnding) == KepubEpubEnding
    ensures Lower(KepubEnding) == KepubEnding
    ensures Lower(EpubEnding) == EpubEnding
  {
  }

  lemma EndsWithAppended(l: string, x: string)
    ensures EndsWith(l + x, x)
  {
    assert (l + x)[|l|..] == x;
  }

  /** ".kepub.epub" is ".kepub" followed by ".epub". */
  lemma KepubEpubSplits()
    ensures KepubEpubEnding == KepubEnding + EpubEnding
  {
  }

  /** Appending ".epub" to a name that does not end in ".kepub" gives neither Kobo ending. */
  lemma PlainEpubNotKepub(l: string)
    requires !EndsWith(l, KepubEnding)
    ensures !EndsWith(l + EpubEnding, KepubEpubEnding)
    ensures !EndsWith(l + EpubEnding, KepubEnding)
  {
    var e := l + EpubEnding;
    KepubEpubSplits();
    if |e| >= 11 {
      assert e[|e| - 11..|e| - 5] == l[|l| - 6..];
    }
    assert e[|e| - 5] == '.';
    if |e| >= 6 {
      assert e[|e| - 6..][1] == e[|e| - 5];
      assert KepubEnding[1] == 'k';
    }
  }
}

=== FILE: fixed_split.dfy ===
/**
 * The last fallback of narrator/core/epub_extractor.py
 * (`_detect_chapters_fixed`): the book text's non-blank paragraphs packed
 * in order into parts of about 5000 words, titled "Part 1" .. "Part n".
 */
module FixedSplit {
  import opened Text
  import opened Sections

  /** FALLBACK_CHAPTER_WORDS. */
  const PartWords: nat := 5000

  /** `[p.strip() for p in full.split("\n\n") if p.strip()]`. */
  function Paragraphs(full: string): seq<string> {
    NonBlank(Split(full, "\n\n"))
  }

  /** The paragraphs carry every non-blank character of the text, in order. */
  lemma ParagraphsKeepText(full: string)
    ensures NoWs(Concat(Paragraphs(full))) == NoWs(full)
  {
    var parts := Split(full, "\n\n");
    JoinSplit(full, "\n\n");
    NoWsJoin("\n\n", parts);
    NonBlankKeepsText(parts);
  }

  /** Words in a group of paragraphs, the running `current_word_count`. */
  function Words(group: seq<string>): nat {
    if group == [] then 0 else Words(group[..|group| - 1]) + WordCount(group[|group| - 1])
  }

  lemma WordsSnoc(group: seq<string>, p: string)
    ensures Words(group + [p]) == Words(group) + WordCount(p)
  {
    assert (group + [p])[..|group|] == group;
  }

  /** Closed parts, the open part, and its word count. */
  datatype Grouping = Grouping(closed: seq<seq<string>>, current: seq<string>, count: nat)

  /** One paragraph: a new part starts only when the open one is non-empty and would pass the limit. */
  function GroupStep(g: Grouping, p: string): Grouping {
    var w := WordCount(p);
    if g.count + w > PartWords && g.current != [] then Grouping(g.closed + [g.current], [p], w)
    else Grouping(g.closed, g.current + [p], g.count + w)
  }

  function GroupAll(ps: seq<string>): Grouping {
    if ps == [] then Grouping([], [], 0)
    else GroupStep(GroupAll(ps[..|ps| - 1]), ps[|ps| - 1])
  }

  lemma GroupAllUnfold(ps: seq<string>, p: string)
    ensures GroupAll(ps + [p]) == GroupStep(GroupAll(ps), p)
  {
    assert (ps + [p])[..|ps|] == ps;
  }

  /** The parts: the closed ones and the open one when it holds anything. */
  function Groups(ps: seq<string>): seq<seq<string>> {
    var g := GroupAll(ps);
    if g.current != [] then g.closed + [g.current] else g.closed
  }

  /** All paragraphs of all parts, in order. */
  function Flat(gs: seq<seq<string>>): seq<string> {
    if gs == [] then [] else Flat(gs[..|gs| - 1]) + gs[|gs| - 1]
  }

  lemma FlatSnoc(gs: seq<seq<string>>, g: seq<string>)
    ensures Flat(gs + [g]) == Flat(gs) + g
  {
    assert (gs + [g])[..|gs|] == gs;
  }

  /** Every part is non-empty; a part of more than `PartWords` words is a single paragraph. */
  predicate WellSized(g: seq<string>) {
    g != [] && (Words(g) > PartWords ==> |g| == 1)
  }

  /** Part `k` was closed only because the next part's first paragraph would have passed the limit. */
  predicate Justified(gs: seq<seq<string>>) {
    forall k | 1 <= k < |gs| :: gs[k] != [] && Words(gs[k - 1]) + WordCount(gs[k][0]) > PartWords
  }

  /** The grouping invariant: parts so far plus the open part are the paragraphs so far. */
  predicate GroupInv(g: Grouping, ps: seq<string>) {
    g.count == Words(g.current) &&
    Flat(g.closed) + g.current == ps &&
    (forall k | 0 <= k < |g.closed| :: WellSized(g.closed[k])) &&
    (g.current != [] ==> WellSized(g.current)) &&
    (g.closed != [] ==> g.current != []) &&
    Justified(g.closed + (if g.current != [] then [g.current] else []))
  }

  lemma StepCloses(g: Grouping, ps: seq<string>, p: string)
    requires GroupInv(g, ps)
    requires g.count + WordCount(p) > PartWords && g.current != []
    ensures GroupInv(GroupStep(g, p), ps + [p])
  {
    var h := GroupStep(g, p);
    FlatSnoc(g.closed, g.current);
    WordsSnoc([], p);
    assert [] + [p] == [p];
    var old_all := g.closed + [g.current];
    var all := h.closed + [h.current];
    assert all == old_all + [[p]];
    forall k | 1 <= k < |all|
      ensures all[k] != [] && Words(all[k - 1]) + WordCount(all[k][0]) > PartWords
    {
      if k < |old_all| {
        assert all[k - 1] == old_all[k - 1] && all[k] == old_all[k];
      }
    }
  }

  lemma StepAppends(g: Grouping, ps: seq<string>, p: string)
    requires GroupInv(g, ps)
    requires !(g.count + WordCount(p) > PartWords && g.current != [])
    ensures GroupInv(GroupStep(g, p), ps + [p])
  {
    var h := GroupStep(g, p);
    WordsSnoc(g.current, p);
    assert Flat(g.closed) + (g.current + [p]) == (Flat(g.closed) + g.current) + [p];
    assert h.current == g.current + [p];
    assert h.current[0] == (if g.current != [] then g.current[0] else p);
    var old_all := g.closed + (if g.current != [] then [g.current] else []);
    var all := h.closed + [h.current];
    forall k | 1 <= k < |all|
      ensures all[k] != [] && Words(all[k - 1]) + WordCount(all[k][0]) > PartWords
    {
      assert all[k - 1] == old_all[k - 1];
      if k < |g.closed| {
        assert all[k] == old_all[k];
      } else {
        assert all[k] == h.current && old_all[k] == g.current;
      }
    }
  }

  lemma {:induction false} GroupAllInv(ps: seq<string>)
    ensures GroupInv(GroupAll(ps), ps)
  {
    if ps == [] {
    } else {
      var front := ps[..|ps| - 1];
      var p := ps[|ps| - 1];
      GroupAllInv(front);
      assert front + [p] == ps;
      var g := GroupAll(front);
      if g.count + WordCount(p) > PartWords && g.current != [] {
        StepCloses(g, front, p);
      } else {
        StepAppends(g, front, p);
      }
    }
  }

  /**
   * The parts lose and reorder no paragraph, are non-empty, hold a single
   * paragraph whenever they pass the limit, and each was closed only when
   * the next paragraph would have passed it.
   */
  lemma GroupsSpec(ps: seq<string>)
    ensures Flat(Groups(ps)) == ps
    ensures forall k | 0 <= k < |Groups(ps)| :: WellSized(Groups(ps)[k])
    ensures Justified(Groups(ps))
    ensures Groups(ps) == [] <==> ps == []
  {
    var g := GroupAll(ps);
    GroupAllInv(ps);
    if g.current != [] {
      FlatSnoc(g.closed, g.current);
    } else {
      assert g.closed + [] == g.closed;
    }
  }

  /** `_detect_chapters_fixed` over the concatenated text. */
  function FixedSections(full: string): (r: seq<Section>)
  {
    if WordCount(full) == 0 then []
    else
      var gs := Groups(Paragraphs(full));
      seq(|gs|, i requires 0 <= i < |gs| => Section("Part " + NatToString(i + 1), Join("\n\n", gs[i])))
  }

  /** The parts' texts, before titling. */
  function PartTexts(gs: seq<seq<string>>): (r: seq<string>)
    ensures |r| == |gs|
  {
    seq(|gs|, i requires 0 <= i < |gs| => Join("\n\n", gs[i]))
  }

  lemma {:induction false} PartTextsKeepText(gs: seq<seq<string>>)
    ensures NoWs(Concat(PartTexts(gs))) == NoWs(Concat(Flat(gs)))
  {
    if gs != [] {
      var n := |gs| - 1;
      PartTextsKeepText(gs[..n]);
      assert PartTexts(gs) == PartTexts(gs[..n]) + [Join("\n\n", gs[n])];
      ConcatAppend(PartTexts(gs[..n]), [Join("\n\n", gs[n])]);
      ConcatSingle(Join("\n\n", gs[n]));
      NoWsAppend(Concat(PartTexts(gs[..n])), Join("\n\n", gs[n]));
      NoWsJoin("\n\n", gs[n]);
      assert gs == gs[..n] + [gs[n]];
      FlatSnoc(gs[..n], gs[n]);
      ConcatAppend(Flat(gs[..n]), gs[n]);
      NoWsAppend(Concat(Flat(gs[..n])), Concat(gs[n]));
    }
  }

  /** A text without words yields no parts; otherwise the parts are titled "Part 1" .. "Part n" in order. */
  lemma FixedTitles(full: string)
    ensures WordCount(full) == 0 ==> FixedSections(full) == []
    ensures forall i | 0 <= i < |FixedSections(full)| :: FixedSections(full)[i].title == "Part " + NatToString(i + 1)
  {
  }

  /** A text with a word has at least one part. */
  lemma FixedNonEmpty(full: string)
    requires WordCount(full) > 0
    ensures FixedSections(full) != []
  {
    var ps := Paragraphs(full);
    ParagraphsKeepText(full);
    WordHasChar(full);
    NoWsEmpty(full);
    GroupsSpec(ps);
    assert ps != [];
  }

  /** The parts together carry every non-blank character of the text, in order. */
  lemma FixedKeepsText(full: string)
    requires WordCount(full) > 0
    ensures NoWs(Concat(Texts(FixedSections(full)))) == NoWs(full)
  {
    var ps := Paragraphs(full);
    var gs := Groups(ps);
    assert Texts(FixedSections(full)) == PartTexts(gs);
    PartTextsKeepText(gs);
    GroupsSpec(ps);
    ParagraphsKeepText(full);
  }
}

=== FILE: folder.dfy ===
/**
 * narrator/core/folder_reader.py: a library that is a plain folder tree of
 * EPUB files. The scan turns the files below the root, in whatever order the
 * walk yields them, into books: which files count, their format, title and
 * author, ids 1..n in path order; then `search`, `get_book`, the cached
 * scan and `get_epub_path`. The file system is an input: whether the root
 * exists, the files under it and the existing paths.
 */
module Folder {
  import opened Text
  import opened Wrappers
  import Paths

  /** A file below the library root: the components of its relative path, the file name last. */
  type Entry = seq<string>

  /** What `rglob` yields: at least a name, and every component a real one. */
  predicate WellFormed(e: Entry) {
    e != [] && forall k | 0 <= k < |e| :: e[k] != [] && e[k] != "." && '/' !in e[k]
  }

  /** `Path.name`. */
  function Name(e: Entry): string {
    if e == [] then "" else e[|e| - 1]
  }

  /** The relative directory of the file: `rel.parent`, empty at the root. */
  function Parent(e: Entry): Paths.Path {
    if e == [] then [] else e[..|e| - 1]
  }

  /** A one-character occurrence of "." is a dot. */
  lemma DotAt(name: string, i: int)
    requires OccursAt(name, ".", i)
    ensures name[i] == '.'
  {
    assert name[i..i + 1][0] == name[i];
  }

  lemma NoDotAt(name: string, k: int)
    requires 0 <= k < |name| && !OccursAt(name, ".", k)
    ensures name[k] != '.'
  {
    assert name[k..k + 1] == [name[k]];
  }

  /** The last "." of a name as `str.rfind` finds it: it is one, and no later character is. */
  lemma LastDot(name: string)
    ensures var i := RFind(name, ".");
      (i >= 0 ==> name[i] == '.') && forall k | i < k < |name| :: name[k] != '.'
  {
    var i := RFind(name, ".");
    if i >= 0 {
      DotAt(name, i);
    }
    forall k | i < k < |name|
      ensures name[k] != '.'
    {
      NoDotAt(name, k);
    }
  }

  /** Where `Path.suffix` starts: the last ".", when it is neither the first nor the last character; -1 otherwise. */
  function SuffixDot(name: string): (r: int)
    ensures r == -1 || 0 < r < |name| - 1
    ensures r >= 0 ==> name[r] == '.' && forall k | r < k < |name| :: name[k] != '.'
  {
    LastDot(name);
    var i := RFind(name, ".");
    if 0 < i < |name| - 1 then i else -1
  }

  /** A dot placed as `Path.suffix` needs it is the one `SuffixDot` finds. */
  lemma SuffixDotAt(name: string, j: int)
    requires 0 < j < |name| - 1 && name[j] == '.'
    requires forall k | j < k < |name| :: name[k] != '.'
    ensures SuffixDot(name) == j
  {
    var i := RFind(name, ".");
    LastDot(name);
    assert name[j..j + 1] == ".";
    assert OccursAt(name, ".", j);
  }

  /** `Path.suffix`. */
  function Suffix(name: string): string {
    var i := SuffixDot(name);
    if i < 0 then "" else name[i..]
  }

  /** `Path.stem`. */
  function Stem(name: string): string {
    var i := SuffixDot(name);
    if i < 0 then name else name[..i]
  }

  /** The stem and the suffix make up the name, and a suffix is "" or a "." followed by no other ".". */
  lemma StemSuffix(name: string)
    ensures Stem(name) + Suffix(name) == name
    ensures Suffix(name) == [] || (|Suffix(name)| >= 2 && Suffix(name)[0] == '.')
  {
  }

  /** The file filter of the scan: suffix ".epub" or ".kepub" in any case, or a name ending ".kepub.epub" in any case. */
  predicate Listed(name: string) {
    var s := Lower(Suffix(name));
    s == ".epub" || s == ".kepub" || EndsWith(Lower(name), ".kepub.epub")
  }

  /** Whether the scan marks a name as a Kobo EPUB. */
  predicate IsKepub(name: string) {
    EndsWith(Lower(name), ".kepub.epub") || EndsWith(Lower(name), ".kepub")
  }

  /** The `format_name` the scan records. */
  function FormatOf(name: string): string {
    if IsKepub(name) then "KEPUB" else "EPUB"
  }

  /** The scanned title: the stem, less a trailing ".kepub" in any case. */
  function Title(name: string): (r: string)
    ensures StartsWith(Stem(name), r)
    ensures r == Stem(name) || (|Stem(name)| == |r| + 6 && Lower(Stem(name)[|r|..]) == ".kepub")
  {
    var st := Stem(name);
    if EndsWith(Lower(st), ".kepub") then
      assert Lower(st[|st| - 6..]) == Lower(st)[|st| - 6..];
      st[..|st| - 6]
    else st
  }

  /** The author: the first directory below the root, or "Unknown Author" for a file at the root. */
  function Author(e: Entry): string {
    if |e| >= 2 then e[0] else "Unknown Author"
  }

  /**
   * A book as the readers report it. `fileName` is the name of the scanned
   * file; the scan has it but the shared book record does not keep it (see
   * `EpubPathAsWritten`).
   */
  datatype Book = Book(
    id: int,
    title: string,
    author: string,
    series: Option<string>,
    path: Paths.Path,
    formatName: string,
    formatFilename: string,
    hasCover: bool,
    fileName: string)

  /** The book the scan makes of the `id`-th listed file; `covers` are the existing files. */
  function MakeBook(id: nat, e: Entry, covers: set<Entry>): Book {
    Book(id, Title(Name(e)), Author(e), None, Parent(e), FormatOf(Name(e)), Stem(Name(e)),
         Parent(e) + ["cover.jpg"] in covers, Name(e))
  }

  /** The listed files, in their given order. */
  function Select(es: seq<Entry>): (r: seq<Entry>)
    ensures |r| <= |es|
  {
    if es == [] then []
    else (if Listed(Name(es[0])) then [es[0]] else []) + Select(es[1..])
  }

  /** A file is selected exactly when it is among the files and listed. */
  lemma {:induction false} SelectMembers(es: seq<Entry>, e: Entry)
    ensures e in Select(es) <==> e in es && Listed(Name(e))
  {
    if es != [] {
      SelectMembers(es[1..], e);
      assert es == [es[0]] + es[1..];
    }
  }

  /** `pathlib`'s ordering of relative paths: component by component, each compared as `str`. */
  predicate PathLe(a: Entry, b: Entry) {
    a == [] || (b != [] && if a[0] != b[0] then LexLe(a[0], b[0]) else PathLe(a[1..], b[1..]))
  }

  predicate Sorted(es: seq<Entry>) {
    forall i, j | 0 <= i < j < |es| :: PathLe(es[i], es[j])
  }

  /** Selecting files keeps a sorted list sorted. */
  lemma {:induction false} SelectSorted(es: seq<Entry>)
    requires Sorted(es)
    ensures Sorted(Select(es))
  {
    if es != [] {
      var rest := Select(es[1..]);
      SortedTail(es);
      SelectSorted(es[1..]);
      if Listed(Name(es[0])) {
        assert Select(es) == [es[0]] + rest;
        forall x | x in rest
          ensures PathLe(es[0], x)
        {
          SelectMembers(es[1..], x);
          HeadBelow(es, x);
        }
        SortedCons(es[0], rest);
      } else {
        assert Select(es) == [] + rest;
      }
    }
  }

  lemma SortedTail(es: seq<Entry>)
    requires Sorted(es) && es != []
    ensures Sorted(es[1..])
  {
    var t := es[1..];
    forall i, j | 0 <= i < j < |t|
      ensures PathLe(t[i], t[j])
    {
      assert t[i] == es[i + 1] && t[j] == es[j + 1];
    }
  }

  /** The first of a sorted list is at or below everything after it. */
  lemma HeadBelow(es: seq<Entry>, x: Entry)
    requires Sorted(es) && es != [] && x in es[1..]
    ensures PathLe(es[0], x)
  {
    var j :| 0 <= j < |es[1..]| && es[1..][j] == x;
    assert es[j + 1] == x;
  }

  /** An entry at or below everything in a sorted list keeps it sorted in front. */
  lemma SortedCons(h: Entry, rest: seq<Entry>)
    requires Sorted(rest) && forall x | x in rest :: PathLe(h, x)
    ensures Sorted([h] + rest)
  {
    var r := [h] + rest;
    forall i, j | 0 <= i < j < |r|
      ensures PathLe(r[i], r[j])
    {
      if i == 0 {
        assert r[j] == rest[j - 1];
        assert rest[j - 1] in rest;
      } else {
        assert r[i] == rest[i - 1] && r[j] == rest[j - 1];
      }
    }
  }

  lemma {:induction false} PathLeTotal(a: Entry, b: Entry)
    ensures PathLe(a, b) || PathLe(b, a)
    decreases |a|
  {
    if a != [] && b != [] {
      if a[0] != b[0] {
        LexLeTotal(a[0], b[0]);
      } else {
        PathLeTotal(a[1..], b[1..]);
      }
    }
  }

  lemma {:induction false} PathLeTransitive(a: Entry, b: Entry, c: Entry)
    requires PathLe(a, b) && PathLe(b, c)
    ensures PathLe(a, c)
    decreases |a|
  {
    if a != [] {
      if a[0] == b[0] && b[0] == c[0] {
        PathLeTransitive(a[1..], b[1..], c[1..]);
      } else if a[0] != b[0] && b[0] != c[0] {
        LexLeTransitive(a[0], b[0], c[0]);
        if a[0] == c[0] {
          LexLeAntisymmetric(a[0], b[0]);
        }
      }
    }
  }

  lemma {:induction false} PathLeAntisymmetric(a: Entry, b: Entry)
    requires PathLe(a, b) && PathLe(b, a)
    ensures a == b
    decreases |a|
  {
    if a != [] {
      if a[0] != b[0] {
        LexLeAntisymmetric(a[0], b[0]);
      } else {
        PathLeAntisymmetric(a[1..], b[1..]);
        assert a == [a[0]] + a[1..];
        assert b == [b[0]] + b[1..];
      }
    }
  }

  /** Two sorted lists holding the same paths are the same list: the sorted order is determined by the paths alone. */
  lemma {:induction false} SortedUnique(s: seq<Entry>, t: seq<Entry>)
    requires Sorted(s) && Sorted(t) && multiset(s) == multiset(t)
    ensures s == t
    decreases |s|
  {
    if s != [] {
      assert s[0] in multiset(t);
      assert t != [];
      assert t[0] in multiset(s);
      if s[0] != t[0] {
        assert t[0] in s[1..] by {
          assert s == [s[0]] + s[1..];
        }
        assert s[0] in t[1..] by {
          assert t == [t[0]] + t[1..];
        }
        HeadBelow(s, t[0]);
        HeadBelow(t, s[0]);
        PathLeAntisymmetric(s[0], t[0]);
      }
      assert s == [s[0]] + s[1..] && t == [t[0]] + t[1..];
      assert multiset(s) == multiset{s[0]} + multiset(s[1..]);
      assert multiset(t) == multiset{t[0]} + multiset(t[1..]);
      assert multiset(s[1..]) == multiset(s) - multiset{s[0]} == multiset(t) - multiset{t[0]} == multiset(t[1..]);
      SortedTail(s);
      SortedTail(t);
      SortedUnique(s[1..], t[1..]);
    }
  }

  /** Selection counts each file as often as the walk yields it, when it is listed. */
  lemma {:induction false} SelectCount(es: seq<Entry>, e: Entry)
    ensures multiset(Select(es))[e] == if Listed(Name(e)) then multiset(es)[e] else 0
  {
    if es != [] {
      SelectCount(es[1..], e);
      CountStep(es, Select(es[1..]), Select(es), e, Listed(Name(es[0])), Listed(Name(e)));
    }
  }

  /** One step of `SelectCount`, with the filter's verdicts on the head and on `e` as plain booleans. */
  lemma CountStep(es: seq<Entry>, selRest: seq<Entry>, sel: seq<Entry>, e: Entry, keepX: bool, keepE: bool)
    requires es != [] && sel == (if keepX then [es[0]] else []) + selRest
    requires es[0] == e ==> keepX == keepE
    requires multiset(selRest)[e] == if keepE then multiset(es[1..])[e] else 0
    ensures multiset(sel)[e] == if keepE then multiset(es)[e] else 0
  {
    assert es == [es[0]] + es[1..];
    assert multiset(es) == multiset{es[0]} + multiset(es[1..]);
    assert multiset(sel) == multiset(if keepX then [es[0]] else []) + multiset(selRest);
  }

  /** `sorted` on one more path: it goes before the first path it is at or below. */
  function InsertPath(x: Entry, s: seq<Entry>): (r: seq<Entry>)
    ensures multiset(r) == multiset(s) + multiset{x}
  {
    if s == [] then [x]
    else if PathLe(x, s[0]) then [x] + s
    else
      assert s == [s[0]] + s[1..];
      [s[0]] + InsertPath(x, s[1..])
  }

  /** Inserting into a sorted list keeps it sorted. */
  lemma {:induction false} InsertPathSorted(x: Entry, s: seq<Entry>)
    requires Sorted(s)
    ensures Sorted(InsertPath(x, s))
  {
    if s != [] {
      if PathLe(x, s[0]) {
        forall y | y in s
          ensures PathLe(x, y)
        {
          if y != s[0] {
            HeadBelow(s, y);
            PathLeTransitive(x, s[0], y);
          }
        }
        SortedCons(x, s);
      } else {
        var rest := InsertPath(x, s[1..]);
        SortedTail(s);
        InsertPathSorted(x, s[1..]);
        PathLeTotal(x, s[0]);
        forall y | y in rest
          ensures PathLe(s[0], y)
        {
          assert y in multiset(rest);
          if y != x {
            assert y in s[1..];
            HeadBelow(s, y);
          }
        }
        SortedCons(s[0], rest);
      }
    }
  }

  /** Python's `sorted` on paths, by insertion. */
  function SortPaths(es: seq<Entry>): (r: seq<Entry>)
    ensures multiset(r) == multiset(es)
  {
    if es == [] then []
    else
      assert es == es[..|es| - 1] + [es[|es| - 1]];
      InsertPath(es[|es| - 1], SortPaths(es[..|es| - 1]))
  }

  lemma {:induction false} SortPathsSorted(es: seq<Entry>)
    ensures Sorted(SortPaths(es))
  {
    if es != [] {
      SortPathsSorted(es[..|es| - 1]);
      InsertPathSorted(es[|es| - 1], SortPaths(es[..|es| - 1]));
    }
  }

  /**
   * The files the scan numbers, in its order: the listed files, sorted as
   * paths, whatever order the walk yielded them in.
   */
  function Ordered(files: seq<Entry>): (r: seq<Entry>)
    ensures Sorted(r)
    ensures multiset(r) == multiset(Select(files))
    ensures |r| == |Select(files)|
  {
    var sel := Select(files);
    SortPathsSorted(sel);
    assert |SortPaths(sel)| == |multiset(SortPaths(sel))| == |multiset(sel)| == |sel|;
    SortPaths(sel)
  }

  /** The file system the scan sees; `files` in the order the walk yields them. */
  datatype Library = Library(present: bool, files: seq<Entry>, covers: set<Entry>)

  /** `FolderReader._scan` without the cache: [] when the root is missing, else one book per listed file in path order, ids from 1. */
  function Scan(lib: Library): (r: seq<Book>)
    ensures !lib.present ==> r == []
    ensures lib.present ==> |r| == |Select(lib.files)|
    ensures forall i | 0 <= i < |r| :: r[i].id == i + 1
  {
    if !lib.present then [] else Number(Ordered(lib.files), lib.covers)
  }

  /** One book per file, numbered from 1 in the order given. */
  function Number(sel: seq<Entry>, covers: set<Entry>): (r: seq<Book>)
    ensures |r| == |sel|
    ensures forall i | 0 <= i < |r| :: r[i] == MakeBook(i + 1, sel[i], covers)
  {
    seq(|sel|, i requires 0 <= i < |sel| => MakeBook(i + 1, sel[i], covers))
  }

  /** The walk's order does not matter: two walks yielding the same files in any order scan to the same books. */
  lemma ScanIgnoresWalkOrder(lib: Library, files: seq<Entry>)
    requires multiset(files) == multiset(lib.files)
    ensures Scan(lib.(files := files)) == Scan(lib)
  {
    forall e
      ensures multiset(Select(files))[e] == multiset(Select(lib.files))[e]
    {
      SelectCount(files, e);
      SelectCount(lib.files, e);
    }
    assert multiset(Select(files)) == multiset(Select(lib.files));
    SortedUnique(Ordered(files), Ordered(lib.files));
  }

  /** A walk that already yields the files in path order is numbered in that order. */
  lemma OrderedOfSorted(files: seq<Entry>)
    requires Sorted(files)
    ensures Ordered(files) == Select(files)
  {
    SelectSorted(files);
    SortedUnique(Ordered(files), Select(files));
  }

  /** A name whose only "." opens it has no suffix. */
  lemma OnlyLeadingDot(n: string)
    requires forall k | 0 < k < |n| :: n[k] != '.'
    ensures SuffixDot(n) == -1 && Suffix(n) == [] && Stem(n) == n
  {
  }

  /** A name split after its last "." into a non-empty head and a dotted tail: the tail is the suffix. */
  lemma SuffixOfTail(head: string, tail: string)
    requires head != [] && |tail| >= 2 && tail[0] == '.'
    requires forall k | 1 <= k < |tail| :: tail[k] != '.'
    ensures Stem(head + tail) == head && Suffix(head + tail) == tail
  {
    var n := head + tail;
    assert n[|head|] == '.';
    forall k | |head| < k < |n|
      ensures n[k] != '.'
    {
      assert n[k] == tail[k - |head|];
    }
    SuffixDotAt(n, |head|);
  }

  /** The dots of a recognised ending, whatever its case. */
  lemma EndingDots(ending: string, dots: string)
    requires Lower(ending) == dots
    ensures forall k | 0 <= k < |ending| :: ending[k] == '.' <==> dots[k] == '.'
  {
    LowerDots(ending);
  }

  /** A name ending in a piece that lowercases to `lit` ends, lowercased, in `lit`. */
  lemma EndsWithLower(x: string, y: string, lit: string)
    requires Lower(y) == lit
    ensures EndsWith(Lower(x + y), lit)
  {
    LowerAppend(x, y);
    assert Lower(x + y)[|x + y| - |lit|..] == Lower(y);
  }

  /** A name of a dotless base and a dotted ending does not end, lowercased, in `lit` when `lit` has a dot where the base is. */
  lemma NotEndsWithLower(base: string, ending: string, lit: string, k: nat)
    requires '.' !in base && |ending| < |lit| <= |base| + |ending|
    requires k < |lit| - |ending| && lit[k] == '.'
    ensures !EndsWith(Lower(base + ending), lit)
  {
    var n := base + ending;
    var j := |n| - |lit| + k;
    assert n[j] == base[j];
    LowerDots(n);
  }

  /** The two literal pieces of ".kepub.epub". */
  lemma KepubEpubPieces()
    ensures ".kepub.epub"[..6] == ".kepub" && ".kepub.epub"[6..] == ".epub"
  {
  }

  /** Lower-casing commutes with cutting a string in two. */
  lemma LowerSlices(s: string, k: nat)
    requires k <= |s|
    ensures Lower(s[..k]) == Lower(s)[..k] && Lower(s[k..]) == Lower(s)[k..]
  {
  }

  /** "base.epub", in any case, scans to the title "base" as an EPUB. */
  lemma TitleOfEpub(base: string, ending: string)
    requires base != [] && '.' !in base && Lower(ending) == ".epub"
    ensures Listed(base + ending) && Title(base + ending) == base && FormatOf(base + ending) == "EPUB"
  {
    EndingDots(ending, ".epub");
    SuffixOfTail(base, ending);
    DotlessTitle(base + ending, base);
    EpubNotKepub(base, ending);
  }

  /** A name whose stem has no dot keeps the whole stem as its title. */
  lemma DotlessTitle(n: string, base: string)
    requires Stem(n) == base && '.' !in base
    ensures Title(n) == base
  {
    if |base| >= 6 {
      NotEndsWithLower(base, [], ".kepub", 0);
      assert base + [] == base;
    }
  }

  /** A dotless base with an ".epub" ending, in any case, is not a Kobo name. */
  lemma EpubNotKepub(base: string, ending: string)
    requires '.' !in base && Lower(ending) == ".epub"
    ensures !IsKepub(base + ending)
  {
    if |base| + 5 >= 6 {
      NotEndsWithLower(base, ending, ".kepub", 0);
    }
    if |base| + 5 >= 11 {
      NotEndsWithLower(base, ending, ".kepub.epub", 0);
    }
  }

  /** "base.kepub", in any case, scans to the title "base" as a Kobo EPUB. */
  lemma TitleOfKepub(base: string, ending: string)
    requires base != [] && '.' !in base && Lower(ending) == ".kepub"
    ensures Listed(base + ending) && Title(base + ending) == base && FormatOf(base + ending) == "KEPUB"
  {
    EndingDots(ending, ".kepub");
    SuffixOfTail(base, ending);
    EndsWithLower(base, ending, ".kepub");
    DotlessTitle(base + ending, base);
  }

  /** "base.kepub.epub", in any case, scans to the title "base" as a Kobo EPUB. */
  lemma TitleOfKepubEpub(base: string, ending: string)
    requires base != [] && '.' !in base && Lower(ending) == ".kepub.epub"
    ensures Listed(base + ending) && Title(base + ending) == base && FormatOf(base + ending) == "KEPUB"
  {
    var h, t := ending[..6], ending[6..];
    LowerSlices(ending, 6);
    KepubEpubPieces();
    EndingDots(t, ".epub");
    assert ending == h + t;
    assert base + ending == (base + h) + t;
    SuffixOfTail(base + h, t);
    EndsWithLower(base, ending, ".kepub.epub");
    KepubStemTitle(base + ending, base, h);
  }

  /** A stem made of a dotless base and a piece lowercasing to ".kepub" yields the base as the title. */
  lemma KepubStemTitle(n: string, base: string, h: string)
    requires Stem(n) == base + h && Lower(h) == ".kepub"
    ensures Title(n) == base
  {
    EndsWithLower(base, h, ".kepub");
    assert (base + h)[..|base + h| - 6] == base;
  }

  /** Lower-casing keeps exactly the dots where they are. */
  lemma LowerDots(s: string)
    ensures forall k | 0 <= k < |s| :: Lower(s)[k] == '.' <==> s[k] == '.'
  {
  }

  /** The cached reader: `_books` is filled by the first scan. */
  datatype Reader = Reader(books: Option<seq<Book>>)

  /** `list_books` through the cache: the first call scans, later calls return what it found. */
  function Listing(rd: Reader, lib: Library): (r: (Reader, seq<Book>))
    ensures r.0.books == Some(r.1)
    ensures rd.books.Some? ==> r == (rd, rd.books.value)
  {
    if rd.books.Some? then (rd, rd.books.value) else (Reader(Some(Scan(lib))), Scan(lib))
  }

  /** Once scanned, the listing no longer follows the file system: a later call sees the first result whatever the folder holds. */
  lemma ListingCached(lib1: Library, lib2: Library)
    ensures var (rd, first) := Listing(Reader(None), lib1);
      first == Scan(lib1) && Listing(rd, lib2).1 == first
  {
  }

  /** `search`'s test: the lowercased query occurs in the lowercased title or author. */
  predicate Matches(b: Book, query: string) {
    Contains(Lower(b.title), Lower(query)) || Contains(Lower(b.author), Lower(query))
  }

  /** `FolderReader.search`: the matching books, in order. */
  function Search(books: seq<Book>, query: string): (r: seq<Book>)
    ensures |r| <= |books|
  {
    if books == [] then []
    else (if Matches(books[0], query) then [books[0]] else []) + Search(books[1..], query)
  }

  /** A book is found exactly when it is listed and matches. */
  lemma {:induction false} SearchMembers(books: seq<Book>, query: string, b: Book)
    ensures b in Search(books, query) <==> b in books && Matches(b, query)
  {
    if books != [] {
      SearchMembers(books[1..], query, b);
      assert books == [books[0]] + books[1..];
    }
  }

  /** Searching again with the same query finds the same books. */
  lemma {:induction false} SearchIdempotent(books: seq<Book>, query: string)
    ensures Search(Search(books, query), query) == Search(books, query)
  {
    if books != [] {
      SearchIdempotent(books[1..], query);
      var rest := Search(books[1..], query);
      if Matches(books[0], query) {
        assert Search(books, query) == [books[0]] + rest;
        assert ([books[0]] + rest)[1..] == rest;
      } else {
        assert Search(books, query) == rest;
      }
    }
  }

  /** The empty query matches every book. */
  lemma {:induction false} SearchEmptyQuery(books: seq<Book>)
    ensures Search(books, "") == books
  {
    if books != [] {
      var b := books[0];
      assert OccursAt(Lower(b.title), Lower(""), 0);
      SearchEmptyQuery(books[1..]);
    }
  }

  /** `str(book_id)` for the error message. */
  function IntString(i: int): string {
    if i < 0 then "-" + NatToString(-i) else NatToString(i)
  }

  /** The message of `get_book`'s error for an unknown id. */
  function NotFound(id: int): string {
    "Book with id " + IntString(id) + " not found"
  }

  /** `FolderReader.get_book`: the first book with that id, or the not-found error. */
  function GetBook(books: seq<Book>, id: int): (r: Result<Book, string>)
    ensures r.Ok? <==> exists i | 0 <= i < |books| :: books[i].id == id
    ensures r.Ok? ==> r.value.id == id && r.value in books
    ensures r.Err? ==> r.error == NotFound(id)
  {
    if books == [] then Err(NotFound(id))
    else if books[0].id == id then Ok(books[0])
    else
      var r := GetBook(books[1..], id);
      assert forall i | 1 <= i < |books| :: books[i] == books[1..][i - 1];
      r
  }

  /** After a scan, `get_book(k)` finds the k-th book for k in 1..n and fails otherwise. */
  lemma GetScanned(lib: Library, id: int)
    ensures GetBook(Scan(lib), id) == if 1 <= id <= |Scan(lib)| then Ok(Scan(lib)[id - 1]) else Err(NotFound(id))
  {
    GetNumbered(Scan(lib), id);
  }

  /** In a list numbered 1..n, `get_book(k)` is the k-th entry. */
  lemma GetNumbered(books: seq<Book>, id: int)
    requires forall i | 0 <= i < |books| :: books[i].id == i + 1
    ensures GetBook(books, id) == if 1 <= id <= |books| then Ok(books[id - 1]) else Err(NotFound(id))
  {
    var r := GetBook(books, id);
    if r.Ok? {
      var i :| 0 <= i < |books| && books[i] == r.value;
      assert books[id - 1] == r.value;
    }
  }

  /** The extension `get_epub_path` appends: the lowercased format, "kepub.epub" for Kobo books. */
  function Extension(formatName: string): string {
    var ext := Lower(formatName);
    if ext == "kepub" then "kepub.epub" else ext
  }

  /** The extensions of the two scanned formats. */
  lemma ExtensionOfFormats()
    ensures Extension("EPUB") == "epub" && Extension("KEPUB") == "kepub.epub"
  {
    var a := Lower("EPUB");
    assert a[0] == 'e' && a[1] == 'p' && a[2] == 'u' && a[3] == 'b';
    assert a == "epub";
    var b := Lower("KEPUB");
    assert b[0] == 'k' && b[1] == 'e' && b[2] == 'p' && b[3] == 'u' && b[4] == 'b';
    assert b == "kepub";
  }

  /**
   * `get_epub_path` as written: it rebuilds the name from the stem and the
   * format, `format_filename + "." + ext`, and fails with the rebuilt path
   * when no such file exists.
   */
  function EpubPathAsWritten(root: Paths.Path, book: Book, existing: set<Paths.Path>): (r: Result<Paths.Path, Paths.Path>)
    ensures r.Ok? ==> r.value in existing
    ensures r.Err? ==> r.error !in existing
  {
    var p := Paths.Join(root + book.path, book.formatFilename + "." + Extension(book.formatName));
    if p in existing then Ok(p) else Err(p)
  }

  /** The book at position i of a scan is made from the i-th listed file in path order. */
  lemma ScanAt(lib: Library, i: nat)
    requires lib.present && i < |Select(lib.files)|
    ensures i < |Scan(lib)| && i < |Ordered(lib.files)|
    ensures Scan(lib)[i] == MakeBook(i + 1, Ordered(lib.files)[i], lib.covers)
  {
  }

  /** A well-formed file is its directory joined with its name. */
  lemma NameJoin(root: Paths.Path, e: Entry)
    requires WellFormed(e)
    ensures Paths.Join(root + Parent(e), Name(e)) == root + e
  {
    assert e[|e| - 1] == Name(e);
    Paths.PartsSingle(Name(e));
    assert e == Parent(e) + [Name(e)];
  }

  /** A file the scan numbers is listed. */
  lemma OrderedListed(files: seq<Entry>, i: nat)
    requires i < |Ordered(files)|
    ensures Listed(Name(Ordered(files)[i]))
  {
    assert Ordered(files)[i] in multiset(Select(files));
    SelectMembers(files, Ordered(files)[i]);
  }

  /** Names of five or six characters ending in ".epub" or ".kepub" are not listed: there is no stem before the dot. */
  lemma BareEndingNotListed(n: string, ending: string)
    requires ending == ".epub" || ending == ".kepub"
    requires |n| == |ending| && Lower(n) == ending
    ensures !Listed(n)
  {
    EndingDots(n, ending);
    OnlyLeadingDot(n);
  }

  /** A listed name ending in a lowercase ".epub" is its stem and ".epub". */
  lemma EpubStem(n: string)
    requires Listed(n) && EndsWith(n, ".epub")
    ensures Stem(n) + ".epub" == n
  {
    if |n| == 5 {
      assert n == ".epub";
      BareEndingNotListed(n, ".epub");
    } else {
      EpubTail(n);
    }
  }

  lemma EpubTail(n: string)
    requires |n| > 5 && EndsWith(n, ".epub")
    ensures Stem(n) + ".epub" == n
  {
    SuffixOfTail(n[..|n| - 5], ".epub");
    assert n == n[..|n| - 5] + ".epub";
  }

  /** The stem of a listed Kobo name is 5 (".kepub.epub") or 6 (".kepub") characters shorter than the name. */
  lemma KepubStemLength(n: string)
    requires Listed(n) && IsKepub(n)
    ensures |Stem(n)| == |n| - 5 || |Stem(n)| == |n| - 6
  {
    if EndsWith(Lower(n), ".kepub.epub") {
      LowerSuffix(n, 5);
      StemBeforeEnding(n, ".epub");
    } else {
      KepubBareStem(n);
    }
  }

  /** A listed name ending in ".kepub" alone has the name without those six characters as its stem. */
  lemma KepubBareStem(n: string)
    requires Listed(n) && EndsWith(Lower(n), ".kepub")
    ensures |Stem(n)| == |n| - 6
  {
    LowerSuffix(n, 6);
    if |n| == 6 {
      assert n == n[|n| - 6..];
      BareEndingNotListed(n, ".kepub");
    } else {
      StemBeforeEnding(n, ".kepub");
    }
  }

  /** The last k characters of a name, lowercased, are the last k of its lowercased form. */
  lemma LowerSuffix(n: string, k: nat)
    requires k <= |n|
    ensures Lower(n[|n| - k..]) == Lower(n)[|n| - k..]
  {
    assert n == n[..|n| - k] + n[|n| - k..];
    LowerAppend(n[..|n| - k], n[|n| - k..]);
  }

  /** A name longer than a recognised ending it ends in, whatever its case, has the rest as its stem. */
  lemma StemBeforeEnding(n: string, ending: string)
    requires ending == ".epub" || ending == ".kepub"
    requires |n| > |ending| && Lower(n[|n| - |ending|..]) == ending
    ensures Stem(n) == n[..|n| - |ending|]
  {
    var t := n[|n| - |ending|..];
    EndingDots(t, ending);
    assert t[0] == '.';
    assert forall k | 1 <= k < |t| :: t[k] != '.';
    assert n == n[..|n| - |ending|] + t;
    SuffixOfTail(n[..|n| - |ending|], t);
  }

  /** A listed, non-Kobo name ending in a lowercase ".epub" is rebuilt from its stem and format. */
  lemma EpubRebuilt(n: string)
    requires Listed(n) && EndsWith(n, ".epub") && !IsKepub(n)
    ensures Stem(n) + "." + Extension(FormatOf(n)) == n
  {
    EpubStem(n);
    ExtensionOfFormats();
    DotEpub();
    Assoc(Stem(n), ".", "epub");
  }

  lemma DotEpub()
    ensures "." + "epub" == ".epub"
  {
    var d := "." + "epub";
    assert d[0] == '.' && d[1] == 'e' && d[2] == 'p' && d[3] == 'u' && d[4] == 'b';
  }

  /** The fields of a scanned book that locate its file. */
  lemma BookLocation(id: nat, e: Entry, covers: set<Entry>)
    ensures var b := MakeBook(id, e, covers);
      b.path == Parent(e) && b.formatFilename == Stem(Name(e)) && b.formatName == FormatOf(Name(e)) && b.fileName == Name(e)
  {
  }

  /** A book scanned from a lowercase ".epub" file is rebuilt to that file. */
  lemma AsWrittenFindsEpub(root: Paths.Path, id: nat, e: Entry, covers: set<Entry>)
    requires WellFormed(e) && Listed(Name(e))
    requires EndsWith(Name(e), ".epub") && !IsKepub(Name(e))
    ensures EpubPathAsWritten(root, MakeBook(id, e, covers), {root + e}) == Ok(root + e)
  {
    NameJoin(root, e);
    EpubRebuilt(Name(e));
    BookLocation(id, e, covers);
  }

  /** The path a lookup reports, found or not, is not `file`. */
  predicate Misses(r: Result<Paths.Path, Paths.Path>, file: Paths.Path) {
    (r.Ok? ==> r.value != file) && (r.Err? ==> r.error != file)
  }

  /** A Kobo book is never looked up under the name of its file: the rebuilt name is 5 or 6 characters longer. */
  lemma AsWrittenMissesKepub(root: Paths.Path, id: nat, e: Entry, covers: set<Entry>, existing: set<Paths.Path>)
    requires WellFormed(e) && Listed(Name(e)) && IsKepub(Name(e))
    ensures Misses(EpubPathAsWritten(root, MakeBook(id, e, covers), existing), root + e)
  {
    var n := Name(e);
    var rebuilt := Stem(n) + "." + Extension(FormatOf(n));
    assert e[|e| - 1] == n;
    KepubRebuiltName(n, rebuilt);
    JoinOtherName(root, e, rebuilt);
    BookLocation(id, e, covers);
  }

  /** The name a Kobo book is rebuilt to: a single component, longer than the name of its file. */
  lemma KepubRebuiltName(n: string, r: string)
    requires Listed(n) && IsKepub(n) && '/' !in n
    requires r == Stem(n) + "." + Extension(FormatOf(n))
    ensures '/' !in r && r != "." && |r| > |n|
  {
    ExtensionOfFormats();
    KepubStemLength(n);
    StemSuffix(n);
    assert r == Stem(n) + "." + "kepub.epub";
    CharNotInLeft(Stem(n), Suffix(n), '/');
    KepubEndingShape(Stem(n), |n|, r);
  }

  /** A stem at most six characters shorter than the name, followed by "." and "kepub.epub". */
  lemma KepubEndingShape(st: string, len: nat, r: string)
    requires r == st + "." + "kepub.epub" && |st| + 6 >= len && '/' !in st
    ensures '/' !in r && r != "." && |r| > len
  {
    var ext := "kepub.epub";
    assert '/' !in ext by {
      assert ext[0] == 'k' && ext[1] == 'e' && ext[2] == 'p' && ext[3] == 'u' && ext[4] == 'b';
      assert ext[5] == '.' && ext[6] == 'e' && ext[7] == 'p' && ext[8] == 'u' && ext[9] == 'b';
    }
    CharNotInBoth(st, ".", '/');
    CharNotInBoth(st + ".", ext, '/');
  }

  lemma CharNotInLeft(a: string, b: string, c: char)
    requires c !in a + b
    ensures c !in a
  {
    forall k | 0 <= k < |a|
      ensures a[k] != c
    {
      assert a[k] == (a + b)[k];
    }
  }

  lemma CharNotInBoth(a: string, b: string, c: char)
    requires c !in a && c !in b
    ensures c !in a + b
  {
  }

  /** Joining a file's directory with another single-component name does not give the file. */
  lemma JoinOtherName(root: Paths.Path, e: Entry, name: string)
    requires WellFormed(e) && '/' !in name && name != [] && name != "." && name != Name(e)
    ensures Paths.Join(root + Parent(e), name) != root + e
  {
    Paths.PartsSingle(name);
    var p := root + Parent(e) + [name];
    assert e[|e| - 1] == Name(e);
    assert p[|p| - 1] != (root + e)[|root + e| - 1];
  }

  /** The name "Book.kepub": a listed Kobo book. */
  lemma BookKepubName()
    ensures Listed("Book.kepub") && IsKepub("Book.kepub") && FormatOf("Book.kepub") == "KEPUB"
  {
    assert "Book" + ".kepub" == "Book.kepub";
    TitleOfKepub("Book", ".kepub");
  }

  /** The concrete case: the book scanned from "Author/Book.kepub" is not found even though its file is there. */
  lemma AsWrittenKepubExample()
    ensures MakeBook(1, KoboExample, {}).formatName == "KEPUB"
    ensures EpubPathAsWritten([], MakeBook(1, KoboExample, {}), {KoboExample}).Err?
  {
    KoboExampleListed();
    AsWrittenKepubFails(KoboExample);
  }

  /** Any Kobo file at the top of the library is missed when it is the only file there. */
  lemma AsWrittenKepubFails(e: Entry)
    requires WellFormed(e) && Listed(Name(e)) && IsKepub(Name(e))
    ensures MakeBook(1, e, {}).formatName == "KEPUB"
    ensures EpubPathAsWritten([], MakeBook(1, e, {}), {e}).Err?
  {
    AsWrittenMissesKepub([], 1, e, {}, {e});
    assert [] + e == e;
  }

  lemma KoboExampleListed()
    ensures WellFormed(KoboExample) && Listed(Name(KoboExample)) && IsKepub(Name(KoboExample))
  {
    assert Name(KoboExample) == "Book.kepub";
    BookKepubName();
  }

  /** The file of the example, "Author/Book.kepub". */
  const KoboExample: Entry := ["Author", "Book.kepub"]

  /** The one-file library of the example scans to that single book. */
  lemma KepubExampleScan()
    ensures Scan(Library(true, [KoboExample], {})) == [MakeBook(1, KoboExample, {})]
  {
    var lib := Library(true, [KoboExample], {});
    assert Name(lib.files[0]) == "Book.kepub";
    BookKepubName();
    assert Select(lib.files) == [KoboExample];
    assert Ordered(lib.files) == [KoboExample];
  }

  /** `get_epub_path` as evidently intended: the scanned file itself. */
  function EpubPath(root: Paths.Path, book: Book, existing: set<Paths.Path>): (r: Result<Paths.Path, Paths.Path>)
    ensures r.Ok? ==> r.value in existing
    ensures r.Err? ==> r.error !in existing
  {
    var p := Paths.Join(root + book.path, book.fileName);
    if p in existing then Ok(p) else Err(p)
  }

  /** Every scanned book, of either format, leads back to the file it was scanned from. */
  lemma EpubPathFindsScanned(root: Paths.Path, lib: Library, i: nat)
    requires lib.present && i < |Select(lib.files)|
    requires forall e | e in lib.files :: WellFormed(e)
    ensures i < |Scan(lib)| && i < |Ordered(lib.files)|
    ensures var e := Ordered(lib.files)[i];
      EpubPath(root, Scan(lib)[i], {root + e}) == Ok(root + e)
  {
    ScanAt(lib, i);
    var e := Ordered(lib.files)[i];
    assert e in multiset(Select(lib.files));
    SelectMembers(lib.files, e);
    NameJoin(root, e);
  }
}

=== FILE: health.dfy ===
/**
 * narrator/health.py: the health record, its overall verdict, the report
 * `to_dict` renders, and the three checks the monitor loop repeats. What the
 * checks observe (the voices endpoint, the file system, the clock) is given
 * as input.
 */
module Health {
  import opened Wrappers

  /** `HealthState` without the timestamps, which only feed the uptime. */
  datatype HealthState = HealthState(
    kokoroConnected: bool,
    kokoroVoices: nat,
    libraryAccessible: bool,
    outputWritable: bool,
    workerRunning: bool,
    queuePaused: bool)

  /** The state at start-up: every flag false and no voices. */
  const Initial := HealthState(false, 0, false, false, false, false)

  /** `overall`: "healthy" needs all three checks; a readable library alone gives "degraded". */
  function Overall(h: HealthState): (r: string)
    ensures r == "healthy" || r == "degraded" || r == "unhealthy"
  {
    if h.kokoroConnected && h.libraryAccessible && h.outputWritable then "healthy"
    else if h.libraryAccessible then "degraded"
    else "unhealthy"
  }

  /** Each verdict, characterised by the checks alone. */
  lemma OverallCases(h: HealthState)
    ensures Overall(h) == "healthy" <==> h.kokoroConnected && h.libraryAccessible && h.outputWritable
    ensures Overall(h) == "degraded" <==> h.libraryAccessible && !(h.kokoroConnected && h.outputWritable)
    ensures Overall(h) == "unhealthy" <==> !h.libraryAccessible
  {
    assert "healthy"[0] != "degraded"[0] && "healthy"[0] != "unhealthy"[0] && "degraded"[0] != "unhealthy"[0];
  }

  /** The verdict ignores the voice count and the worker flags. */
  lemma OverallIgnoresWorker(h: HealthState, voices: nat, running: bool, paused: bool)
    ensures Overall(h.(kokoroVoices := voices, workerRunning := running, queuePaused := paused)) == Overall(h)
  {
  }

  /** `int(x)` for a duration in milliseconds, rounding toward zero as Python's `int` does. */
  function TruncSeconds(ms: int): (r: int)
    ensures ms >= 0 ==> 0 <= r && r * 1000 <= ms < (r + 1) * 1000
    ensures ms < 0 ==> r <= 0 && (r - 1) * 1000 < ms <= r * 1000
  {
    if ms >= 0 then ms / 1000 else -((-ms) / 1000)
  }

  /** The report of `to_dict`. */
  datatype Report = Report(
    status: string,
    uptimeSeconds: int,
    kokoroConnected: bool,
    kokoroVoices: nat,
    libraryAccessible: bool,
    outputWritable: bool,
    workerRunning: bool,
    queuePaused: bool)

  /** `to_dict`, with the monotonic clock read at start-up and now, in milliseconds. */
  function ToDict(h: HealthState, startMs: int, nowMs: int): (r: Report)
    ensures r.status == Overall(h)
    ensures nowMs >= startMs ==> r.uptimeSeconds >= 0 && r.uptimeSeconds * 1000 <= nowMs - startMs < (r.uptimeSeconds + 1) * 1000
  {
    Report(Overall(h), TruncSeconds(nowMs - startMs), h.kokoroConnected, h.kokoroVoices,
           h.libraryAccessible, h.outputWritable, h.workerRunning, h.queuePaused)
  }

  /** The report reads back the state it was made from. */
  lemma ReportReadsBack(h: HealthState, startMs: int, nowMs: int)
    ensures var r := ToDict(h, startMs, nowMs);
      HealthState(r.kokoroConnected, r.kokoroVoices, r.libraryAccessible, r.outputWritable,
                  r.workerRunning, r.queuePaused) == h
  {
  }

  /** What `GET /v1/audio/voices` gave: a failure, a JSON list of some length, or other JSON. */
  datatype VoicesReply = RequestFailed | VoiceList(count: nat) | OtherJson

  /** `_check_kokoro`: connected on any successful reply; the voice count only for a list. */
  function CheckKokoro(h: HealthState, reply: VoicesReply): (r: HealthState)
    ensures r.kokoroConnected <==> !reply.RequestFailed?
    ensures r.kokoroVoices == (if reply.VoiceList? then reply.count else 0)
    ensures r.(kokoroConnected := h.kokoroConnected, kokoroVoices := h.kokoroVoices) == h
  {
    match reply
    case RequestFailed => h.(kokoroConnected := false, kokoroVoices := 0)
    case VoiceList(n) => h.(kokoroConnected := true, kokoroVoices := n)
    case OtherJson => h.(kokoroConnected := true, kokoroVoices := 0)
  }

  /**
   * The answer to one file-system query (`exists`, `is_dir`), or the
   * `OSError` it raised instead: a `PermissionError` for a path below a
   * directory the process may not search.
   */
  datatype Probe = Answer(holds: bool) | Raised

  /**
   * `_check_library`: accessible when the path exists and is a directory;
   * None when a query raised, which leaves the flag as it was. `is_dir` is
   * asked only when the path exists.
   */
  function CheckLibrary(h: HealthState, present: Probe, isDir: Probe): (r: Option<HealthState>)
    ensures r.None? <==> present.Raised? || (present == Answer(true) && isDir.Raised?)
    ensures r.Some? ==> (r.value.libraryAccessible <==> present == Answer(true) && isDir == Answer(true))
    ensures r.Some? ==> r.value.(libraryAccessible := h.libraryAccessible) == h
  {
    match present
    case Raised => None
    case Answer(false) => Some(h.(libraryAccessible := false))
    case Answer(true) =>
      match isDir
      case Raised => None
      case Answer(d) => Some(h.(libraryAccessible := d))
  }

  /** The file system as `_check_output` sees it. */
  datatype OutputDir = OutputDir(
    present: Probe,      // whether the path exists before the check
    mkdirOk: bool,       // `mkdir(parents=True)` succeeds when it does not
    isDir: Probe,        // whether it is a directory afterwards
    probeOk: bool)       // writing and removing `.narrator_write_test` succeeds

  /**
   * `_check_output`: create the directory when missing, then probe it with a
   * test file; None when `exists` or `is_dir` raised, which leaves the flag as
   * it was. A failed `mkdir` is caught; the probe runs only on a directory.
   */
  function CheckOutput(h: HealthState, d: OutputDir): (r: Option<HealthState>)
    ensures r.None? <==> d.present.Raised? || ((d.present == Answer(true) || d.mkdirOk) && d.isDir.Raised?)
    ensures r.Some? ==> (r.value.outputWritable <==> (d.present == Answer(true) || d.mkdirOk) && d.isDir == Answer(true) && d.probeOk)
    ensures r.Some? ==> r.value.(outputWritable := h.outputWritable) == h
  {
    match d.present
    case Raised => None
    case Answer(p) =>
      if !p && !d.mkdirOk then Some(h.(outputWritable := false))
      else
        match d.isDir
        case Raised => None
        case Answer(dir) => Some(h.(outputWritable := dir && d.probeOk))
  }

  /**
   * One round of `health_monitor`: the three checks in order, inside one
   * `try`. A check that raises ends the round; the exception is logged and
   * the checks after it do not run.
   */
  function Round(h: HealthState, reply: VoicesReply, libPresent: Probe, libIsDir: Probe, out: OutputDir): HealthState {
    var k := CheckKokoro(h, reply);
    match CheckLibrary(k, libPresent, libIsDir)
    case None => k
    case Some(l) =>
      match CheckOutput(l, out)
      case None => l
      case Some(o) => o
  }

  /** No query of the library check raises. */
  predicate LibraryAnswers(present: Probe, isDir: Probe) {
    present.Answer? && (present.holds ==> isDir.Answer?)
  }

  /** No query of the output check raises. */
  predicate OutputAnswers(d: OutputDir) {
    d.present.Answer? && ((d.present.holds || d.mkdirOk) ==> d.isDir.Answer?)
  }

  /**
   * When no query raises, the verdict after a round depends only on what the
   * checks observed, not on the previous state; the worker flags are kept.
   */
  lemma RoundVerdict(h: HealthState, reply: VoicesReply, libPresent: Probe, libIsDir: Probe, out: OutputDir)
    ensures var lib := libPresent == Answer(true) && libIsDir == Answer(true);
      var w := (out.present == Answer(true) || out.mkdirOk) && out.isDir == Answer(true) && out.probeOk;
      LibraryAnswers(libPresent, libIsDir) && OutputAnswers(out) ==>
        Overall(Round(h, reply, libPresent, libIsDir, out)) ==
          if !reply.RequestFailed? && lib && w then "healthy" else if lib then "degraded" else "unhealthy"
    ensures Round(h, reply, libPresent, libIsDir, out).workerRunning == h.workerRunning
    ensures Round(h, reply, libPresent, libIsDir, out).queuePaused == h.queuePaused
  {
    var k := CheckKokoro(h, reply);
    var l := CheckLibrary(k, libPresent, libIsDir);
    if l.Some? {
      var o := CheckOutput(l.value, out);
      if o.Some? {
        assert o.value.kokoroConnected == k.kokoroConnected && o.value.libraryAccessible == l.value.libraryAccessible;
      }
    }
  }

  /**
   * When a library query raises, the round skips the output check: both
   * file-system flags keep their previous values, so the verdict then
   * depends on the state before the round.
   */
  lemma RoundLibraryRaised(h: HealthState, reply: VoicesReply, libPresent: Probe, libIsDir: Probe, out: OutputDir)
    requires !LibraryAnswers(libPresent, libIsDir)
    ensures var r := Round(h, reply, libPresent, libIsDir, out);
      r.libraryAccessible == h.libraryAccessible && r.outputWritable == h.outputWritable
    ensures Overall(Round(h, reply, libPresent, libIsDir, out)) ==
      Overall(h.(kokoroConnected := !reply.RequestFailed?))
  {
  }

  /** When an output query raises, the output flag keeps its previous value. */
  lemma RoundOutputRaised(h: HealthState, reply: VoicesReply, libPresent: Probe, libIsDir: Probe, out: OutputDir)
    requires LibraryAnswers(libPresent, libIsDir) && !OutputAnswers(out)
    ensures Round(h, reply, libPresent, libIsDir, out).outputWritable == h.outputWritable
    ensures Round(h, reply, libPresent, libIsDir, out).libraryAccessible <==> libPresent == Answer(true) && libIsDir == Answer(true)
  {
  }

  /** The initial state is unhealthy until a round finds the library. */
  lemma InitialUnhealthy()
    ensures Overall(Initial) == "unhealthy"
  {
  }
}

=== FILE: heuristics.dfy ===
/**
 * Per-chapter clean-up and skip rules of narrator/core/epub_extractor.py:
 * `_strip_title_from_text`, `_looks_like_toc` and `_is_skippable`.
 * Word tokens are `\w+` runs over ASCII letters, digits and "_".
 */
module Heuristics {
  import opened Text
  import Config

  /** A `\w+` token of a string, by position. */
  datatype Token = Token(start: nat, end: nat)

  /** The first position from `p` whose character is (`word`) or is not (`!word`) a word character. */
  function Until(s: string, p: nat, word: bool): (q: nat)
    requires p <= |s|
    ensures p <= q <= |s|
    ensures q < |s| ==> IsWordChar(s[q]) == word
    decreases |s| - p
  {
    if p == |s| || IsWordChar(s[p]) == word then p else Until(s, p + 1, word)
  }

  /** Searching past a prefix is searching the rest, shifted. */
  lemma {:induction false} UntilShift(a: string, b: string, q: nat, word: bool)
    requires q <= |b|
    ensures Until(a + b, |a| + q, word) == |a| + Until(b, q, word)
    decreases |b| - q
  {
    if q < |b| {
      assert (a + b)[|a| + q] == b[q];
      if IsWordChar(b[q]) != word {
        UntilShift(a, b, q + 1, word);
      }
    }
  }

  /** A search that stops inside a string stops at the same place in any extension of it. */
  lemma {:induction false} UntilPrefix(a: string, b: string, p: nat, word: bool)
    requires p <= |a|
    ensures Until(a, p, word) < |a| ==> Until(a + b, p, word) == Until(a, p, word)
    ensures Until(a, p, word) == |a| ==> Until(a + b, p, word) == Until(a + b, |a|, word)
    decreases |a| - p
  {
    if p < |a| {
      assert (a + b)[p] == a[p];
      if IsWordChar(a[p]) != word {
        UntilPrefix(a, b, p + 1, word);
      }
    }
  }

  /** `re.finditer(r"\w+", s)` from position `p`. */
  function Tokens(s: string, p: nat): (r: seq<Token>)
    requires p <= |s|
    ensures forall i | 0 <= i < |r| :: p <= r[i].start < r[i].end <= |s|
    decreases |s| - p
  {
    var a := Until(s, p, true);
    if a == |s| then []
    else
      var e := Until(s, a, false);
      [Token(a, e)] + Tokens(s, e)
  }

  /** The matched texts of a token list. */
  function TokenTexts(s: string, ts: seq<Token>): (r: seq<string>)
    requires forall i | 0 <= i < |ts| :: ts[i].start <= ts[i].end <= |s|
    ensures |r| == |ts|
  {
    seq(|ts|, i requires 0 <= i < |ts| => s[ts[i].start..ts[i].end])
  }

  function Shift(ts: seq<Token>, k: nat): (r: seq<Token>)
    ensures |r| == |ts|
  {
    seq(|ts|, i requires 0 <= i < |ts| => Token(ts[i].start + k, ts[i].end + k))
  }

  lemma ShiftCons(t: Token, rest: seq<Token>, k: nat)
    ensures Shift([t] + rest, k) == [Token(t.start + k, t.end + k)] + Shift(rest, k)
  {
    var l := Shift([t] + rest, k);
    var r := [Token(t.start + k, t.end + k)] + Shift(rest, k);
    forall i | 1 <= i < |l|
      ensures l[i] == r[i]
    {
      assert ([t] + rest)[i] == rest[i - 1];
    }
  }

  lemma TokensUnfold(s: string, p: nat)
    requires p <= |s|
    ensures Until(s, p, true) == |s| ==> Tokens(s, p) == []
    ensures Until(s, p, true) < |s| ==>
      Tokens(s, p) == [Token(Until(s, p, true), Until(s, Until(s, p, true), false))] + Tokens(s, Until(s, Until(s, p, true), false))
  {
  }

  /** A shifted head in front of a shifted tail is the shift of the whole list. */
  lemma ShiftStep(l: seq<Token>, x: nat, y: nat, lt: seq<Token>, r: seq<Token>, rt: seq<Token>, k: nat)
    requires l == [Token(k + x, k + y)] + lt
    requires lt == Shift(rt, k)
    requires r == [Token(x, y)] + rt
    ensures l == Shift(r, k)
  {
    ShiftCons(Token(x, y), rt, k);
  }

  /** The token list when the next word starts at x < |s| and ends at y. */
  lemma TokensAt(s: string, p: nat, x: nat, y: nat)
    requires p <= |s| && x == Until(s, p, true) && x < |s| && y == Until(s, x, false)
    ensures Tokens(s, p) == [Token(x, y)] + Tokens(s, y)
  {
  }

  /** No word from p on: no tokens. */
  lemma TokensNone(s: string, p: nat)
    requires p <= |s| && Until(s, p, true) == |s|
    ensures Tokens(s, p) == []
  {
  }

  /** One word of the suffix, found at the shifted positions in the whole, extends the shifted token list. */
  lemma ShiftedWord(a: string, b: string, q: nat, x: nat, y: nat)
    requires q <= |b| && x == Until(b, q, true) && x < |b| && y == Until(b, x, false)
    requires Until(a + b, |a| + q, true) == |a| + x && Until(a + b, |a| + x, false) == |a| + y
    requires Tokens(a + b, |a| + y) == Shift(Tokens(b, y), |a|)
    ensures Tokens(a + b, |a| + q) == Shift(Tokens(b, q), |a|)
  {
    TokensAt(b, q, x, y);
    TokensAt(a + b, |a| + q, |a| + x, |a| + y);
    ShiftStep(Tokens(a + b, |a| + q), x, y, Tokens(a + b, |a| + y), Tokens(b, q), Tokens(b, y), |a|);
  }

  /** Tokens after a prefix are the tokens of the suffix, shifted. */
  lemma {:induction false} TokensShift(a: string, b: string, q: nat)
    requires q <= |b|
    ensures Tokens(a + b, |a| + q) == Shift(Tokens(b, q), |a|)
    decreases |b| - q
  {
    var s := a + b;
    var x := Until(b, q, true);
    UntilShift(a, b, q, true);
    if x < |b| {
      var y := Until(b, x, false);
      UntilShift(a, b, x, false);
      TokensShift(a, b, y);
      ShiftedWord(a, b, q, x, y);
    } else {
      TokensNone(b, q);
      TokensNone(s, |a| + q);
    }
  }

  /** Two starting points with the same next word character give the same tokens. */
  lemma TokensFromNextWord(s: string, p: nat, q: nat)
    requires p <= |s| && q <= |s| && Until(s, p, true) == Until(s, q, true)
    ensures Tokens(s, p) == Tokens(s, q)
  {
  }

  /**
   * Tokens of a string whose continuation does not start with a word
   * character: those of the string, then those of the continuation.
   */
  lemma {:induction false} TokensAppend(a: string, b: string, p: nat)
    requires p <= |a|
    requires b == [] || !IsWordChar(b[0])
    ensures Tokens(a + b, p) == Tokens(a, p) + Shift(Tokens(b, 0), |a|)
    decreases |a| - p
  {
    var s := a + b;
    var x := Until(a, p, true);
    UntilPrefix(a, b, p, true);
    if x == |a| {
      UntilShift(a, b, 0, true);
      assert |a| + 0 == |a|;
      TokensFromNextWord(s, p, |a|);
      TokensShift(a, b, 0);
      assert Tokens(a, p) == [];
    } else {
      var e := Until(a, x, false);
      UntilPrefix(a, b, x, false);
      if e == |a| {
        UntilShift(a, b, 0, false);
        assert |a| + 0 == |a|;
      }
      assert Until(s, x, false) == e;
      TokensAppend(a, b, e);
      assert Tokens(s, p) == [Token(x, e)] + Tokens(s, e);
      assert Tokens(a, p) == [Token(x, e)] + Tokens(a, e);
      Assoc([Token(x, e)], Tokens(a, e), Shift(Tokens(b, 0), |a|));
    }
  }

  /** Lower-casing keeps every character's word class, so searches stop at the same places. */
  lemma {:induction false} UntilLower(s: string, p: nat, word: bool)
    requires p <= |s|
    ensures Until(Lower(s), p, word) == Until(s, p, word)
    decreases |s| - p
  {
    if p < |s| {
      assert IsWordChar(Lower(s)[p]) == IsWordChar(s[p]);
      if IsWordChar(s[p]) != word {
        UntilLower(s, p + 1, word);
      }
    }
  }

  /** Lower-casing keeps the tokens. */
  lemma {:induction false} TokensLower(s: string, p: nat)
    requires p <= |s|
    ensures Tokens(Lower(s), p) == Tokens(s, p)
    decreases |s| - p
  {
    var x := Until(s, p, true);
    UntilLower(s, p, true);
    if x < |s| {
      var e := Until(s, x, false);
      UntilLower(s, x, false);
      TokensLower(s, e);
    }
  }

  /** A search stops no later than the first position it is looking for. */
  lemma {:induction false} UntilBound(s: string, p: nat, j: nat, word: bool)
    requires p <= j < |s| && IsWordChar(s[j]) == word
    ensures Until(s, p, word) <= j
    decreases j - p
  {
    if IsWordChar(s[p]) != word {
      UntilBound(s, p + 1, j, word);
    }
  }

  /** A string ending in a word character has a last token that ends with it. */
  lemma {:induction false} TokensLastEnd(s: string, p: nat)
    requires p < |s| && IsWordChar(s[|s| - 1])
    ensures Tokens(s, p) != [] && Tokens(s, p)[|Tokens(s, p)| - 1].end == |s|
    decreases |s| - p
  {
    UntilBound(s, p, |s| - 1, true);
    var x := Until(s, p, true);
    var e := Until(s, x, false);
    TokensUnfold(s, p);
    if e < |s| {
      TokensLastEnd(s, e);
    } else {
      TokensUnfold(s, e);
    }
  }

  /** The lower-cased title's words, `re.findall(r"\w+", title.lower())`. */
  function TitleWords(title: string): seq<string> {
    var l := Lower(title);
    TokenTexts(l, Tokens(l, 0))
  }

  /** The search region: the first three title-lengths of the text. */
  function Region(title: string, text: string): (r: string)
    ensures |r| <= |text| && r == text[..|r|]
  {
    text[..if 3 * |title| < |text| then 3 * |title| else |text|]
  }

  /** The region's first tokens are, case-insensitively, the title's words. */
  predicate TitleMatches(region: string, tm: seq<Token>, tw: seq<string>)
    requires forall i | 0 <= i < |tm| :: tm[i].start <= tm[i].end <= |region|
  {
    |tm| >= |tw| && forall i | 0 <= i < |tw| :: Lower(region[tm[i].start..tm[i].end]) == tw[i]
  }

  /**
   * `_strip_title_from_text`: when the first word tokens within the first
   * three title-lengths of the text are, case-insensitively, the title's
   * words, cut the text after the last of them and strip it.
   */
  function StripTitle(title: string, text: string): (r: string)
    ensures r == text || exists e | 0 <= e <= |text| && e <= 3 * |title| :: r == Strip(text[e..])
  {
    var tw := TitleWords(title);
    var region := Region(title, text);
    var tm := Tokens(region, 0);
    if tw != [] && TitleMatches(region, tm, tw) then Strip(text[tm[|tw| - 1].end..])
    else text
  }

  /** A title without words leaves the text alone. */
  lemma StripTitleNoWords(title: string, text: string)
    requires TitleWords(title) == []
    ensures StripTitle(title, text) == text
  {
  }

  lemma LowerSlice(s: string, a: nat, b: nat)
    requires a <= b <= |s|
    ensures Lower(s[a..b]) == Lower(s)[a..b]
  {
  }

  /** The title's words are the lower-cased texts of the title's own tokens. */
  lemma TitleWordsOfTokens(title: string)
    ensures var tt := Tokens(title, 0);
      TitleWords(title) == TokenTexts(Lower(title), tt)
  {
    TokensLower(title, 0);
  }

  /** The tokens of a continuation that does not run into another word begin with the title's tokens. */
  lemma TokensLead(title: string, more: string)
    requires more == [] || !IsWordChar(more[0])
    ensures var tt := Tokens(title, 0); var tm := Tokens(title + more, 0);
      |tt| <= |tm| && tm[..|tt|] == tt
  {
    TokensAppend(title, more, 0);
  }

  /** Tokens shared by a string and its extension have the same lower-cased texts in both. */
  lemma SharedTokenTexts(title: string, region: string, tt: seq<Token>, tm: seq<Token>)
    requires |title| <= |region| && region[..|title|] == title
    requires forall i | 0 <= i < |tt| :: tt[i].start <= tt[i].end <= |title|
    requires |tt| <= |tm| && tm[..|tt|] == tt
    ensures forall i | 0 <= i < |tt| :: Lower(region[tm[i].start..tm[i].end]) == TokenTexts(Lower(title), tt)[i]
  {
    forall i | 0 <= i < |tt|
      ensures Lower(region[tm[i].start..tm[i].end]) == TokenTexts(Lower(title), tt)[i]
    {
      assert tm[i] == tm[..|tt|][i];
      var a, b := tt[i].start, tt[i].end;
      assert region[a..b] == title[a..b] by {
        forall k | 0 <= k < b - a
          ensures region[a..b][k] == title[a..b][k]
        {
          assert region[a + k] == region[..|title|][a + k];
        }
      }
      LowerSlice(title, tt[i].start, tt[i].end);
    }
  }

  /** The title's own tokens open any continuation that does not run into another word. */
  lemma TitleTokensLead(title: string, more: string)
    requires title != [] && IsWordChar(title[|title| - 1])
    requires more == [] || !IsWordChar(more[0])
    ensures var tw := TitleWords(title); var tm := Tokens(title + more, 0);
      tw != [] && TitleMatches(title + more, tm, tw) && tm[|tw| - 1].end == |title|
  {
    var region := title + more;
    var tt := Tokens(title, 0);
    var tm := Tokens(region, 0);
    TitleWordsOfTokens(title);
    TokensLastEnd(title, 0);
    TokensLead(title, more);
    assert region[..|title|] == title;
    SharedTokenTexts(title, region, tt, tm);
    assert tm[|tt| - 1] == tm[..|tt|][|tt| - 1];
  }

  /**
   * A text that opens with its title (ending on a word character, and not
   * running straight into another word) loses exactly that title.
   */
  lemma StripLeadingTitle(title: string, rest: string)
    requires title != [] && IsWordChar(title[|title| - 1])
    requires rest == [] || !IsWordChar(rest[0])
    ensures StripTitle(title, title + rest) == Strip(rest)
  {
    var text := title + rest;
    var region := Region(title, text);
    var more := rest[..|region| - |title|];
    assert region == title + more;
    TitleTokensLead(title, more);
    var tw, tm := TitleWords(title), Tokens(region, 0);
    assert tw != [] && TitleMatches(region, tm, tw) && tm[|tw| - 1].end == |title|;
    assert StripTitle(title, text) == Strip(text[|title|..]);
    assert text[|title|..] == rest;
  }

  /** The words a table-of-contents line may open with. */
  const TocWords: seq<string> :=
    ["chapter", "part", "section", "appendix", "introduction", "foreword", "preface", "prologue", "epilogue"]

  /** `^word\b` under IGNORECASE. */
  predicate OpensWith(line: string, w: string) {
    StartsWith(Lower(line), w) && (|line| == |w| || !IsWordChar(line[|w|]))
  }

  /** Length of the run of ASCII digits at the start of `s`. */
  function Digits(s: string): (n: nat)
    ensures n <= |s|
    ensures forall i | 0 <= i < n :: IsDigit(s[i])
    ensures n < |s| ==> !IsDigit(s[n])
  {
    if s != [] && IsDigit(s[0]) then 1 + Digits(s[1..]) else 0
  }

  /** `^\d+[\.\)]\s`. */
  predicate Numbered(line: string) {
    var d := Digits(line);
    d >= 1 && d + 1 < |line| && (line[d] == '.' || line[d] == ')') && IsSpace(line[d + 1])
  }

  predicate ChapterLike(line: string) {
    (exists w | w in TocWords :: OpensWith(line, w)) || Numbered(line)
  }

  /** Number of chapter-like lines. */
  function CountLike(lines: seq<string>): (n: nat)
    ensures n <= |lines|
  {
    if lines == [] then 0
    else CountLike(lines[..|lines| - 1]) + (if ChapterLike(lines[|lines| - 1]) then 1 else 0)
  }

  /** The table-of-contents shape test on the non-blank lines. */
  predicate TocShaped(lines: seq<string>) {
    |lines| >= 5 && CountLike(lines) >= 4 && 10 * CountLike(lines) > 3 * |lines|
  }

  /** `_looks_like_toc`. */
  predicate LooksLikeToc(text: string) {
    TocShaped(NonBlank(Split(Strip(text), "\n")))
  }

  /** Another chapter-like line keeps a table-of-contents shape. */
  lemma TocShapedGrows(lines: seq<string>, line: string)
    requires TocShaped(lines) && ChapterLike(line)
    ensures TocShaped(lines + [line])
  {
    assert (lines + [line])[..|lines|] == lines;
  }

  /** Fewer than five non-blank lines never look like a table of contents. */
  lemma ShortTextNotToc(text: string)
    requires |NonBlank(Split(Strip(text), "\n"))| < 5
    ensures !LooksLikeToc(text)
  {
  }

  /** The length below which front-matter signatures are checked. */
  const FrontMatterWords: nat := 500

  /**
   * `_is_skippable`. The front-matter signature search is a regular
   * expression with a bounded wildcard; it is a parameter here.
   */
  predicate IsSkippable(title: string, text: string, frontMatter: string -> bool) {
    Config.IsSkipTitle(title) || (WordCount(text) < FrontMatterWords && frontMatter(text)) || LooksLikeToc(text)
  }

  /** A long text is judged by its title and its shape alone, whatever the signature search says. */
  lemma LongTextIgnoresSignatures(title: string, text: string, f: string -> bool, g: string -> bool)
    requires WordCount(text) >= FrontMatterWords
    ensures IsSkippable(title, text, f) == IsSkippable(title, text, g)
    ensures IsSkippable(title, text, f) <==> Config.IsSkipTitle(title) || LooksLikeToc(text)
  {
  }
}

=== FILE: jobs.dfy ===
/**
 * narrator/job_queue.py over the `jobs` table of narrator/db/migrations.py:
 * the table is a map from job id to `Job`, ids come from an AUTOINCREMENT
 * counter, and the book id column is UNIQUE. Timestamps are the caller's
 * clock reading, passed in as strings.
 */
module Jobs {
  import opened Wrappers
  import opened Text

  /** The six values of `JobStatus`; the table's CHECK constraint admits no other. */
  datatype Status = Pending | Extracting | Synthesizing | Building | Complete | Failed

  /** The stored spelling of a status. */
  function StatusName(s: Status): (r: string)
    ensures r != []
  {
    match s
    case Pending => "pending"
    case Extracting => "extracting"
    case Synthesizing => "synthesizing"
    case Building => "building"
    case Complete => "complete"
    case Failed => "failed"
  }

  /** Distinct statuses are stored under distinct names. */
  lemma StatusNameInjective(a: Status, b: Status)
    ensures StatusName(a) == StatusName(b) <==> a == b
  {
  }

  /** The statuses `get_resumable_jobs` selects: work that was in progress. */
  predicate InProgress(s: Status) {
    s == Extracting || s == Synthesizing || s == Building
  }

  /** One row of the table (`series_index` and `created_at` are not modelled). */
  datatype Job = Job(
    id: nat,
    bookId: int,
    title: string,
    author: string,
    voice: string,
    status: Status,
    series: Option<string>,
    chaptersTotal: int,
    chaptersDone: int,
    errorMessage: Option<string>,
    epubPath: Option<string>,
    outputPath: Option<string>,
    startedAt: Option<string>,
    completedAt: Option<string>)

  /** The table and its AUTOINCREMENT counter: the next id to hand out. */
  datatype Queue = Queue(jobs: map<nat, Job>, nextId: nat)

  /** An empty table. */
  function EmptyQueue(): Queue {
    Queue(map[], 1)
  }

  /** Table invariant: every key is a handed-out id stored in its row, and book ids are unique. */
  predicate Valid(q: Queue) {
    (forall id | id in q.jobs :: id < q.nextId && q.jobs[id].id == id) &&
    (forall a, b | a in q.jobs && b in q.jobs && q.jobs[a].bookId == q.jobs[b].bookId :: a == b)
  }

  lemma EmptyValid()
    ensures Valid(EmptyQueue())
  {
  }

  // ----- Field-level framing -----

  /** The columns of a row. */
  datatype Field = IdF | BookF | TitleF | AuthorF | VoiceF | StatusF | SeriesF
                 | TotalF | DoneF | ErrorF | EpubF | OutputF | StartedF | CompletedF

  /** A column's value, whatever its type. */
  datatype Value = IntV(i: int) | StrV(s: string) | OptV(o: Option<string>) | StatusV(st: Status)

  /** Reads one column of a row. */
  function Get(j: Job, f: Field): Value {
    match f
    case IdF => IntV(j.id)
    case BookF => IntV(j.bookId)
    case TitleF => StrV(j.title)
    case AuthorF => StrV(j.author)
    case VoiceF => StrV(j.voice)
    case StatusF => StatusV(j.status)
    case SeriesF => OptV(j.series)
    case TotalF => IntV(j.chaptersTotal)
    case DoneF => IntV(j.chaptersDone)
    case ErrorF => OptV(j.errorMessage)
    case EpubF => OptV(j.epubPath)
    case OutputF => OptV(j.outputPath)
    case StartedF => OptV(j.startedAt)
    case CompletedF => OptV(j.completedAt)
  }

  /** `a` and `b` agree on every column outside `fs`. */
  predicate Differ(a: Job, b: Job, fs: set<Field>) {
    forall f: Field :: f !in fs ==> Get(a, f) == Get(b, f)
  }

  /** The columns cover the whole row: rows that agree on every column are equal. */
  lemma DifferNothing(a: Job, b: Job)
    requires Differ(a, b, {})
    ensures a == b
  {
    assert Get(a, IdF) == Get(b, IdF) && Get(a, BookF) == Get(b, BookF);
    assert Get(a, TitleF) == Get(b, TitleF) && Get(a, AuthorF) == Get(b, AuthorF);
    assert Get(a, VoiceF) == Get(b, VoiceF) && Get(a, StatusF) == Get(b, StatusF);
    assert Get(a, SeriesF) == Get(b, SeriesF) && Get(a, TotalF) == Get(b, TotalF);
    assert Get(a, DoneF) == Get(b, DoneF) && Get(a, ErrorF) == Get(b, ErrorF);
    assert Get(a, EpubF) == Get(b, EpubF) && Get(a, OutputF) == Get(b, OutputF);
    assert Get(a, StartedF) == Get(b, StartedF) && Get(a, CompletedF) == Get(b, CompletedF);
  }

  /**
   * `r` is `q` after an UPDATE ... WHERE id = `id` that may write only the
   * columns `fs`: same ids and counter, every other row as it was, and the
   * table unchanged when `id` is unknown.
   */
  predicate Touched(q: Queue, r: Queue, id: nat, fs: set<Field>) {
    r.nextId == q.nextId &&
    r.jobs.Keys == q.jobs.Keys &&
    (forall k | k in q.jobs && k != id :: r.jobs[k] == q.jobs[k]) &&
    (id in q.jobs ==> Differ(q.jobs[id], r.jobs[id], fs)) &&
    (id !in q.jobs ==> r == q)
  }

  /** An update that leaves the id and book id columns alone keeps the invariant. */
  lemma TouchedValid(q: Queue, r: Queue, id: nat, fs: set<Field>)
    requires Valid(q) && Touched(q, r, id, fs)
    requires IdF !in fs && BookF !in fs
    ensures Valid(r)
  {
    if id in q.jobs {
      assert Get(q.jobs[id], IdF) == Get(r.jobs[id], IdF);
      assert Get(q.jobs[id], BookF) == Get(r.jobs[id], BookF);
    }
  }

  // ----- Operations -----

  /** The errors the queue raises. */
  datatype QueueError =
    | DuplicateBook(bookId: int)  // the UNIQUE constraint on calibre_book_id
    | JobNotFound(id: nat)        // ValueError from get_job

  /** The message of the ValueError `get_job` raises. */
  function NotFoundMessage(id: nat): (r: string)
    ensures StartsWith(r, "Job ")
  {
    "Job " + NatToString(id) + " not found"
  }

  /** `is_duplicate`: some job, of any status, is for this book. */
  predicate IsDuplicate(q: Queue, bookId: int) {
    exists id | id in q.jobs :: q.jobs[id].bookId == bookId
  }

  /** What `enqueue` returns: the new table and the stored job. */
  datatype Enqueued = Enqueued(queue: Queue, job: Job)

  /** `enqueue`: insert a pending job under the next id, unless the book already has one. */
  function Enqueue(q: Queue, bookId: int, title: string, author: string, voice: string,
                   epubPath: string, series: Option<string>): (r: Result<Enqueued, QueueError>)
    ensures r.Err? <==> IsDuplicate(q, bookId)
    ensures r.Err? ==> r.error == DuplicateBook(bookId)
    ensures r.Ok? ==> r.value.job.id == q.nextId
    ensures r.Ok? ==> r.value.job.status == Pending
    ensures r.Ok? ==> r.value.job.chaptersTotal == 0 && r.value.job.chaptersDone == 0
    ensures r.Ok? ==> r.value.job.bookId == bookId && r.value.job.epubPath == Some(epubPath)
  {
    if IsDuplicate(q, bookId) then Err(DuplicateBook(bookId))
    else
      var job := Job(q.nextId, bookId, title, author, voice, Pending, series, 0, 0,
                     None, Some(epubPath), None, None, None);
      Ok(Enqueued(Queue(q.jobs[q.nextId := job], q.nextId + 1), job))
  }

  /** `get_job`. */
  function GetJob(q: Queue, id: nat): (r: Result<Job, QueueError>)
    ensures r.Ok? <==> id in q.jobs
    ensures r.Ok? ==> r.value == q.jobs[id]
    ensures r.Err? ==> r.error == JobNotFound(id)
  {
    if id in q.jobs then Ok(q.jobs[id]) else Err(JobNotFound(id))
  }

  /** `start_job`: writes status, started_at and chapters_total (0 unless given). */
  function StartJob(q: Queue, id: nat, status: Status, total: int, now: string): (r: Queue)
    ensures Touched(q, r, id, {StatusF, StartedF, TotalF})
    ensures id in q.jobs ==> r.jobs[id].status == status && r.jobs[id].startedAt == Some(now)
                             && r.jobs[id].chaptersTotal == total
  {
    if id in q.jobs
    then Queue(q.jobs[id := q.jobs[id].(status := status, startedAt := Some(now), chaptersTotal := total)], q.nextId)
    else q
  }

  /** `update_progress`: writes status and chapters_done. */
  function UpdateProgress(q: Queue, id: nat, status: Status, done: int): (r: Queue)
    ensures Touched(q, r, id, {StatusF, DoneF})
    ensures id in q.jobs ==> r.jobs[id].status == status && r.jobs[id].chaptersDone == done
  {
    if id in q.jobs
    then Queue(q.jobs[id := q.jobs[id].(status := status, chaptersDone := done)], q.nextId)
    else q
  }

  /** `complete_job`: writes status complete, output_path and completed_at. */
  function CompleteJob(q: Queue, id: nat, outputPath: string, now: string): (r: Queue)
    ensures Touched(q, r, id, {StatusF, OutputF, CompletedF})
    ensures id in q.jobs ==> r.jobs[id].status == Complete && r.jobs[id].outputPath == Some(outputPath)
                             && r.jobs[id].completedAt == Some(now)
  {
    if id in q.jobs
    then Queue(q.jobs[id := q.jobs[id].(status := Complete, outputPath := Some(outputPath), completedAt := Some(now))], q.nextId)
    else q
  }

  /** `fail_job`: writes status failed, error_message and completed_at. */
  function FailJob(q: Queue, id: nat, message: string, now: string): (r: Queue)
    ensures Touched(q, r, id, {StatusF, ErrorF, CompletedF})
    ensures id in q.jobs ==> r.jobs[id].status == Failed && r.jobs[id].errorMessage == Some(message)
                             && r.jobs[id].completedAt == Some(now)
  {
    if id in q.jobs
    then Queue(q.jobs[id := q.jobs[id].(status := Failed, errorMessage := Some(message), completedAt := Some(now))], q.nextId)
    else q
  }

  // ----- Ordered selections -----

  /** The WHERE clause of a listing query. */
  datatype Selection = AnyStatus | OnlyStatus(status: Status) | Resumable

  predicate Selects(sel: Selection, j: Job) {
    match sel
    case AnyStatus => true
    case OnlyStatus(s) => j.status == s
    case Resumable => InProgress(j.status)
  }

  /** The selected rows with id ≥ i, ORDER BY id. */
  function Scan(q: Queue, sel: Selection, i: nat): seq<Job>
    decreases q.nextId - i
  {
    if i >= q.nextId then []
    else (if i in q.jobs && Selects(sel, q.jobs[i]) then [q.jobs[i]] else []) + Scan(q, sel, i + 1)
  }

  /** A scan holds exactly the selected stored rows with id ≥ i. */
  lemma {:induction false} ScanMembers(q: Queue, sel: Selection, i: nat, j: Job)
    requires Valid(q)
    ensures j in Scan(q, sel, i) <==> j.id in q.jobs && q.jobs[j.id] == j && i <= j.id && Selects(sel, j)
    decreases q.nextId - i
  {
    if i < q.nextId {
      ScanMembers(q, sel, i + 1, j);
    }
  }

  /** A scan is ascending by id, starting at i. */
  lemma {:induction false} ScanAscending(q: Queue, sel: Selection, i: nat)
    requires Valid(q)
    ensures forall a | 0 <= a < |Scan(q, sel, i)| :: i <= Scan(q, sel, i)[a].id
    ensures forall a, b | 0 <= a < b < |Scan(q, sel, i)| :: Scan(q, sel, i)[a].id < Scan(q, sel, i)[b].id
    decreases q.nextId - i
  {
    if i < q.nextId {
      ScanAscending(q, sel, i + 1);
    }
  }

  /** A selection no stored row meets scans to nothing. */
  lemma {:induction false} ScanNone(q: Queue, sel: Selection, i: nat)
    requires forall id | id in q.jobs :: !Selects(sel, q.jobs[id])
    ensures Scan(q, sel, i) == []
    decreases q.nextId - i
  {
    if i < q.nextId {
      ScanNone(q, sel, i + 1);
    }
  }

  /** `list_jobs`: every job, or the jobs of one status, ascending by id. */
  function ListJobs(q: Queue, status: Option<Status>): seq<Job> {
    match status
    case None => Scan(q, AnyStatus, 0)
    case Some(s) => Scan(q, OnlyStatus(s), 0)
  }

  /** `get_resumable_jobs`: the extracting, synthesizing and building jobs, ascending by id. */
  function ResumableJobs(q: Queue): seq<Job> {
    Scan(q, Resumable, 0)
  }

  /** `next_pending`: the first pending job in id order. */
  function NextPending(q: Queue): Option<Job> {
    var ps := Scan(q, OnlyStatus(Pending), 0);
    if ps == [] then None else Some(ps[0])
  }

  /** `list_jobs` lists exactly the stored jobs of the requested status, strictly ascending by id. */
  lemma ListJobsSpec(q: Queue, status: Option<Status>)
    requires Valid(q)
    ensures forall j :: j in ListJobs(q, status) <==>
      j.id in q.jobs && q.jobs[j.id] == j && (status.Some? ==> j.status == status.value)
    ensures forall a, b | 0 <= a < b < |ListJobs(q, status)| :: ListJobs(q, status)[a].id < ListJobs(q, status)[b].id
  {
    var sel := if status.Some? then OnlyStatus(status.value) else AnyStatus;
    forall j
      ensures j in ListJobs(q, status) <==>
        j.id in q.jobs && q.jobs[j.id] == j && (status.Some? ==> j.status == status.value)
    {
      ScanMembers(q, sel, 0, j);
    }
    ScanAscending(q, sel, 0);
  }

  /** `get_resumable_jobs` lists exactly the in-progress jobs, strictly ascending by id. */
  lemma ResumableJobsSpec(q: Queue)
    requires Valid(q)
    ensures forall j :: j in ResumableJobs(q) <==> j.id in q.jobs && q.jobs[j.id] == j && InProgress(j.status)
    ensures forall a, b | 0 <= a < b < |ResumableJobs(q)| :: ResumableJobs(q)[a].id < ResumableJobs(q)[b].id
  {
    forall j
      ensures j in ResumableJobs(q) <==> j.id in q.jobs && q.jobs[j.id] == j && InProgress(j.status)
    {
      ScanMembers(q, Resumable, 0, j);
    }
    ScanAscending(q, Resumable, 0);
  }

  /** `next_pending` is the pending job with the smallest id, and None exactly when nothing is pending. */
  lemma NextPendingSpec(q: Queue)
    requires Valid(q)
    ensures NextPending(q).None? <==> forall id | id in q.jobs :: q.jobs[id].status != Pending
    ensures NextPending(q).Some? ==>
      var j := NextPending(q).value;
      j.id in q.jobs && q.jobs[j.id] == j && j.status == Pending &&
      forall id | id in q.jobs && q.jobs[id].status == Pending :: j.id <= id
  {
    var ps := Scan(q, OnlyStatus(Pending), 0);
    ScanAscending(q, OnlyStatus(Pending), 0);
    forall id | id in q.jobs && q.jobs[id].status == Pending
      ensures ps != [] && ps[0].id <= id
    {
      ScanMembers(q, OnlyStatus(Pending), 0, q.jobs[id]);
      var k :| 0 <= k < |ps| && ps[k] == q.jobs[id];
    }
    if ps != [] {
      ScanMembers(q, OnlyStatus(Pending), 0, ps[0]);
    }
  }

  /** A scan of a table with one more row appended at the counter ends with that row when selected. */
  lemma {:induction false} ScanAppend(q: Queue, sel: Selection, i: nat, job: Job)
    requires Valid(q) && i <= q.nextId
    ensures Scan(Queue(q.jobs[q.nextId := job], q.nextId + 1), sel, i)
         == Scan(q, sel, i) + (if Selects(sel, job) then [job] else [])
    decreases q.nextId - i
  {
    var r := Queue(q.jobs[q.nextId := job], q.nextId + 1);
    if i < q.nextId {
      ScanAppend(q, sel, i + 1, job);
      assert (i in r.jobs) == (i in q.jobs);
    } else {
      assert Scan(r, sel, i + 1) == [];
    }
  }

  /** `enqueue` keeps the invariant, and the new job comes last in `list_jobs` and can be read back. */
  lemma EnqueueSpec(q: Queue, bookId: int, title: string, author: string, voice: string,
                    epubPath: string, series: Option<string>)
    requires Valid(q)
    ensures var r := Enqueue(q, bookId, title, author, voice, epubPath, series);
      r.Ok? ==> r.value.job.id !in q.jobs && Valid(r.value.queue) &&
                GetJob(r.value.queue, r.value.job.id) == Ok(r.value.job) &&
                ListJobs(r.value.queue, None) == ListJobs(q, None) + [r.value.job] &&
                (forall id | id in q.jobs :: id in r.value.queue.jobs && r.value.queue.jobs[id] == q.jobs[id])
  {
    var r := Enqueue(q, bookId, title, author, voice, epubPath, series);
    if r.Ok? {
      ScanAppend(q, AnyStatus, 0, r.value.job);
    }
  }

  /** The four updates keep the invariant. */
  lemma UpdatesValid(q: Queue, id: nat, status: Status, n: int, text: string, now: string)
    requires Valid(q)
    ensures Valid(StartJob(q, id, status, n, now))
    ensures Valid(UpdateProgress(q, id, status, n))
    ensures Valid(CompleteJob(q, id, text, now))
    ensures Valid(FailJob(q, id, text, now))
  {
    TouchedValid(q, StartJob(q, id, status, n, now), id, {StatusF, StartedF, TotalF});
    TouchedValid(q, UpdateProgress(q, id, status, n), id, {StatusF, DoneF});
    TouchedValid(q, CompleteJob(q, id, text, now), id, {StatusF, OutputF, CompletedF});
    TouchedValid(q, FailJob(q, id, text, now), id, {StatusF, ErrorF, CompletedF});
  }
}

=== FILE: m4b.dfy ===
/**
 * The text side of narrator/core/m4b_builder.py: the chapter timeline and
 * the ffmetadata file `build` writes, the output file name, the duration
 * string and the error rule of `validate`. The encoding, concatenation and
 * probing with ffmpeg/ffprobe are not modelled; each chapter's measured
 * duration in milliseconds is an input.
 */
module M4b {
  import opened Text
  import opened Wrappers
  import Config
  import Paths

  /** One converted chapter: its title and its measured duration in milliseconds. */
  datatype Track = Track(title: string, durationMs: nat)

  /** A `[CHAPTER]` entry: START and END in milliseconds (TIMEBASE 1/1000) and the title. */
  datatype Mark = Mark(start: nat, end: nat, title: string)

  /** The total duration of a list of tracks. */
  function Total(ts: seq<Track>): nat {
    if ts == [] then 0 else Total(ts[..|ts| - 1]) + ts[|ts| - 1].durationMs
  }

  /** Reference timeline: chapter i spans the durations of the tracks before it. */
  function Timeline(ts: seq<Track>): (r: seq<Mark>)
    ensures |r| == |ts|
  {
    seq(|ts|, i requires 0 <= i < |ts| => Mark(Total(ts[..i]), Total(ts[..i + 1]), ts[i].title))
  }

  /** The offset loop of `build`: START is the running offset, END adds the chapter's duration. */
  method ChapterMarks(ts: seq<Track>) returns (marks: seq<Mark>)
    ensures marks == Timeline(ts)
  {
    var offset := 0;
    marks := [];
    for i := 0 to |ts|
      invariant offset == Total(ts[..i])
      invariant marks == Timeline(ts)[..i]
    {
      TotalSnoc(ts, i);
      var end := offset + ts[i].durationMs;
      TimelineSnoc(Timeline(ts), i, Mark(offset, end, ts[i].title));
      marks := marks + [Mark(offset, end, ts[i].title)];
      offset := end;
    }
    assert Timeline(ts)[..|ts|] == Timeline(ts);
  }

  lemma TimelineSnoc(t: seq<Mark>, i: nat, m: Mark)
    requires i < |t| && t[i] == m
    ensures t[..i + 1] == t[..i] + [m]
  {
  }

  lemma TotalSnoc(ts: seq<Track>, i: nat)
    requires i < |ts|
    ensures Total(ts[..i + 1]) == Total(ts[..i]) + ts[i].durationMs
  {
    assert ts[..i + 1][..i] == ts[..i];
  }

  /** Each chapter lasts its own track's duration and carries its track's title. */
  lemma TimelineSpans(ts: seq<Track>, i: nat)
    requires i < |ts|
    ensures Timeline(ts)[i].end == Timeline(ts)[i].start + ts[i].durationMs
    ensures Timeline(ts)[i].title == ts[i].title
  {
    assert ts[..i + 1][..i] == ts[..i];
  }

  /** Each chapter ends where the next begins. */
  lemma TimelineContiguous(ts: seq<Track>, i: nat)
    requires i + 1 < |ts|
    ensures Timeline(ts)[i].end == Timeline(ts)[i + 1].start
  {
  }

  /** Chapter 1 starts at 0 and the last chapter ends at the total duration. */
  lemma TimelineBounds(ts: seq<Track>)
    requires ts != []
    ensures Timeline(ts)[0].start == 0
    ensures Timeline(ts)[|ts| - 1].end == Total(ts)
  {
    assert ts[..|ts|] == ts;
  }

  /** The total of a prefix never exceeds the total of a longer prefix, and is smaller when the tracks between have positive durations. */
  lemma {:induction false} TotalMonotone(ts: seq<Track>, i: nat, j: nat)
    requires i <= j <= |ts|
    ensures Total(ts[..i]) <= Total(ts[..j])
    ensures i < j && (forall k | i <= k < j :: ts[k].durationMs > 0) ==> Total(ts[..i]) < Total(ts[..j])
    decreases j - i
  {
    if i < j {
      TotalMonotone(ts, i, j - 1);
      assert ts[..j][..j - 1] == ts[..j - 1];
    }
  }

  /** STARTs never decrease, and strictly increase when every duration is positive. */
  lemma StartsOrdered(ts: seq<Track>, i: nat, j: nat)
    requires i <= j < |ts|
    ensures Timeline(ts)[i].start <= Timeline(ts)[j].start
    ensures i < j && (forall k | 0 <= k < |ts| :: ts[k].durationMs > 0) ==> Timeline(ts)[i].start < Timeline(ts)[j].start
  {
    TotalMonotone(ts, i, j);
  }

  // ---------------------------------------------------------------------
  // The ffmetadata file, as its lines
  // ---------------------------------------------------------------------

  /** The header: title, artist, album and genre, and the date only when it is non-empty. */
  function HeaderLines(title: string, author: string, date: string): (r: seq<string>)
    ensures |r| == if date == [] then 5 else 6
  {
    [";FFMETADATA1", "title=" + title, "artist=" + author, "album=" + title, "genre=Audiobook"]
    + (if date == [] then [] else ["date=" + date])
  }

  /** The lines of one `[CHAPTER]` block, with its closing blank line. */
  function BlockLines(m: Mark): (r: seq<string>)
    ensures |r| == 6
  {
    ["[CHAPTER]", "TIMEBASE=1/1000", "START=" + NatToString(m.start), "END=" + NatToString(m.end), "title=" + m.title, ""]
  }

  function Blocks(marks: seq<Mark>): seq<string> {
    if marks == [] then [] else BlockLines(marks[0]) + Blocks(marks[1..])
  }

  /** The whole file: header, a blank line, then one block per chapter. */
  function MetadataLines(title: string, author: string, date: string, marks: seq<Mark>): seq<string> {
    HeaderLines(title, author, date) + [""] + Blocks(marks)
  }

  /** The digits after a `key=` prefix, read as a number; 0 when the line is shorter. */
  function NumberAfter(line: string, k: nat): nat {
    if k <= |line| && forall i | k <= i < |line| :: IsDigit(line[i]) then ParseNat(line[k..]) else 0
  }

  /** The text after a `key=` prefix. */
  function TextAfter(line: string, k: nat): string {
    if k <= |line| then line[k..] else []
  }

  /**
   * How a reader of the file recovers the chapters: every `[CHAPTER]` line
   * opens an entry whose START, END and title are on the third, fourth and
   * fifth lines of the block.
   */
  function ReadMarks(lines: seq<string>): seq<Mark>
    decreases |lines|
  {
    if |lines| < 5 then []
    else if lines[0] == "[CHAPTER]" then
      [Mark(NumberAfter(lines[2], 6), NumberAfter(lines[3], 4), TextAfter(lines[4], 6))] + ReadMarks(lines[5..])
    else ReadMarks(lines[1..])
  }

  lemma NumberAfterRender(key: string, n: nat)
    ensures NumberAfter(key + NatToString(n), |key|) == n
  {
    var line := key + NatToString(n);
    assert line[|key|..] == NatToString(n);
    ParseNatToString(n);
  }

  lemma {:induction false} ReadBlocks(marks: seq<Mark>)
    ensures ReadMarks(Blocks(marks)) == marks
  {
    if marks != [] {
      var m := marks[0];
      var b := BlockLines(m);
      var rest := Blocks(marks[1..]);
      var lines := b + rest;
      assert lines[0] == "[CHAPTER]";
      NumberAfterRender("START=", m.start);
      NumberAfterRender("END=", m.end);
      assert ("title=" + m.title)[6..] == m.title;
      assert lines[2] == "START=" + NatToString(m.start);
      assert lines[3] == "END=" + NatToString(m.end);
      assert lines[4] == "title=" + m.title;
      assert lines[5..] == [""] + rest;
      ReadBlocks(marks[1..]);
      assert ReadMarks([""] + rest) == ReadMarks(rest) by {
        if |[""] + rest| >= 5 {
          assert ([""] + rest)[1..] == rest;
        } else {
          assert |rest| < 5;
        }
      }
    }
  }

  /** Lines none of which is a `[CHAPTER]` line contribute no chapter. */
  lemma {:induction false} ReadSkips(pre: seq<string>, rest: seq<string>)
    requires forall i | 0 <= i < |pre| :: pre[i] != "[CHAPTER]"
    requires rest == [] || rest[0] == "[CHAPTER]"
    requires rest == [] || |rest| >= 5
    ensures ReadMarks(pre + rest) == ReadMarks(rest)
    decreases |pre|
  {
    if pre != [] {
      var s := pre + rest;
      assert s[0] == pre[0];
      assert s[1..] == pre[1..] + rest;
      ReadSkips(pre[1..], rest);
    } else {
      assert pre + rest == rest;
    }
  }

  lemma {:induction false} BlocksShape(marks: seq<Mark>)
    ensures marks == [] ==> Blocks(marks) == []
    ensures marks != [] ==> |Blocks(marks)| >= 6 && Blocks(marks)[0] == "[CHAPTER]"
  {
  }

  /**
   * The file carries exactly one `[CHAPTER]` block per chapter, in order:
   * reading it back gives the chapter marks it was written from.
   */
  lemma MetadataRoundTrip(title: string, author: string, date: string, marks: seq<Mark>)
    ensures ReadMarks(MetadataLines(title, author, date, marks)) == marks
  {
    var pre := HeaderLines(title, author, date) + [""];
    forall i | 0 <= i < |pre|
      ensures pre[i] != "[CHAPTER]"
    {
      assert pre[i] == [] || pre[i][0] != '[';
    }
    BlocksShape(marks);
    ReadSkips(pre, Blocks(marks));
    ReadBlocks(marks);
  }

  // ---------------------------------------------------------------------
  // The ffmetadata file, as text
  // ---------------------------------------------------------------------

  /** The text `build` writes: every line followed by a newline, with no escaping. */
  function FileText(lines: seq<string>): string {
    Join(Newline, lines + [""])
  }

  /** The lines of a newline-terminated text: the pieces between newlines, without the empty piece after the last one. */
  function FileLines(text: string): seq<string> {
    var p := Split(text, Newline);
    p[..|p| - 1]
  }

  /** Lines none of which holds a newline are read back from the text as written. */
  lemma FileLinesText(lines: seq<string>)
    requires forall i | 0 <= i < |lines| :: OneLine(lines[i])
    ensures FileLines(FileText(lines)) == lines
  {
    var xs := lines + [""];
    forall i | 0 <= i < |xs|
      ensures '\n' !in xs[i]
    {
      if i < |lines| {
        assert xs[i] == lines[i];
      }
    }
    SplitJoin(xs, '\n');
  }

  lemma DigitsOneLine(n: nat)
    ensures OneLine(NatToString(n))
  {
    var r := NatToString(n);
    forall i | 0 <= i < |r|
      ensures r[i] != '\n'
    {
      assert IsDigit(r[i]);
    }
  }

  lemma {:induction false} BlocksOneLine(marks: seq<Mark>)
    requires forall i | 0 <= i < |marks| :: OneLine(marks[i].title)
    ensures forall i | 0 <= i < |Blocks(marks)| :: OneLine(Blocks(marks)[i])
  {
    if marks != [] {
      var m := marks[0];
      DigitsOneLine(m.start);
      DigitsOneLine(m.end);
      assert OneLine(m.title);
      BlocksOneLine(marks[1..]);
      var b := BlockLines(m);
      assert forall i | 0 <= i < |b| :: OneLine(b[i]);
    }
  }

  /** Every line of the file is a single line when the fields it embeds are. */
  lemma MetadataOneLine(title: string, author: string, date: string, marks: seq<Mark>)
    requires OneLine(title) && OneLine(author) && OneLine(date)
    requires forall i | 0 <= i < |marks| :: OneLine(marks[i].title)
    ensures forall i | 0 <= i < |MetadataLines(title, author, date, marks)| :: OneLine(MetadataLines(title, author, date, marks)[i])
  {
    var h := HeaderLines(title, author, date) + [""];
    assert forall i | 0 <= i < |h| :: OneLine(h[i]);
    BlocksOneLine(marks);
  }

  /**
   * Read back from the text of the file, the chapter marks are the ones it
   * was written from, as long as no title, author or date holds a newline.
   */
  lemma MetadataFileRoundTrip(title: string, author: string, date: string, marks: seq<Mark>)
    requires OneLine(title) && OneLine(author) && OneLine(date)
    requires forall i | 0 <= i < |marks| :: OneLine(marks[i].title)
    ensures ReadMarks(FileLines(FileText(MetadataLines(title, author, date, marks)))) == marks
  {
    MetadataOneLine(title, author, date, marks);
    FileLinesText(MetadataLines(title, author, date, marks));
    MetadataRoundTrip(title, author, date, marks);
  }

  /**
   * Titles go into the file unescaped: a chapter title holding a newline is
   * read back cut at the newline, and what follows becomes a line of its own.
   */
  lemma NewlineCutsTitle(m: Mark, x: string, y: string)
    requires m.title == x + Newline + y && OneLine(x) && OneLine(y)
    ensures ReadMarks(FileLines(FileText(BlockLines(m)))) == [Mark(m.start, m.end, x)]
  {
    CutBlockText(m, x, y);
    DigitsOneLine(m.start);
    DigitsOneLine(m.end);
    var lines := CutBlock(m, x, y);
    assert forall i | 0 <= i < |lines| :: OneLine(lines[i]);
    FileLinesText(lines);
    ReadCutBlock(m, x, y);
  }

  /** The lines of a block whose title line has been cut in two. */
  function CutBlock(m: Mark, x: string, y: string): (r: seq<string>)
    ensures |r| == 7
  {
    ["[CHAPTER]", "TIMEBASE=1/1000", "START=" + NatToString(m.start), "END=" + NatToString(m.end), "title=" + x, y, ""]
  }

  lemma CutBlockText(m: Mark, x: string, y: string)
    requires m.title == x + Newline + y
    ensures FileText(BlockLines(m)) == FileText(CutBlock(m, x, y))
  {
    var head := ["[CHAPTER]", "TIMEBASE=1/1000", "START=" + NatToString(m.start), "END=" + NatToString(m.end)];
    assert "title=" + m.title == ("title=" + x) + Newline + y;
    assert BlockLines(m) + [""] == head + [("title=" + x) + Newline + y] + ["", ""];
    JoinSplitPiece(Newline, head, "title=" + x, y, ["", ""]);
    assert head + ["title=" + x, y] + ["", ""] == CutBlock(m, x, y) + [""];
  }

  lemma ReadCutBlock(m: Mark, x: string, y: string)
    ensures ReadMarks(CutBlock(m, x, y)) == [Mark(m.start, m.end, x)]
  {
    var lines := CutBlock(m, x, y);
    NumberAfterRender("START=", m.start);
    NumberAfterRender("END=", m.end);
    assert ("title=" + x)[6..] == x;
    assert lines[5..] == [y, ""];
  }

  /** The date line is written exactly when the date is non-empty. */
  lemma DateLine(title: string, author: string, date: string)
    ensures ("date=" + date) in HeaderLines(title, author, date) <==> date != []
  {
    var h := HeaderLines(title, author, date);
    if date == [] {
      forall i | 0 <= i < |h|
        ensures h[i] != "date="
      {
        assert h[i][0] != 'd' || |h[i]| > 5;
      }
    }
  }

  // ---------------------------------------------------------------------
  // Output file, duration, validation
  // ---------------------------------------------------------------------

  /** `tmp / f"{sanitize_filename(title)}.m4b"`. */
  function OutputFile(tmp: Paths.Path, title: string): Paths.Path {
    Paths.Join(tmp, Config.SanitizeFilename(title) + ".m4b")
  }

  /** The output is one file directly inside the work directory, named after the sanitized title. */
  lemma OutputFileName(tmp: Paths.Path, title: string)
    ensures OutputFile(tmp, title) == tmp + [Config.SanitizeFilename(title) + ".m4b"]
  {
    var name := Config.SanitizeFilename(title) + ".m4b";
    assert name[|name| - 1] == 'b';
    assert '/' !in name by {
      forall i | 0 <= i < |name| ensures name[i] != '/' {
        if i < |Config.SanitizeFilename(title)| {
          assert !Config.Forbidden(name[i]);
        }
      }
    }
    Paths.PartsSingle(name);
  }

  /** Hours, minutes and seconds of a duration, `divmod` of the whole seconds. */
  datatype Hms = Hms(hours: nat, minutes: nat, seconds: nat)

  /** `int(duration_ms / 1000)` split by `divmod` into 3600 and 60. */
  function Decompose(durationMs: nat): (r: Hms)
    ensures r.minutes < 60 && r.seconds < 60
  {
    var t := durationMs / 1000;
    Hms(t / 3600, t % 3600 / 60, t % 60)
  }

  /** The parts add up to the whole seconds of the duration. */
  lemma DecomposeSums(durationMs: nat)
    ensures var r := Decompose(durationMs);
      3600 * r.hours + 60 * r.minutes + r.seconds == durationMs / 1000
  {
    var t := durationMs / 1000;
    assert t % 3600 == 60 * (t % 3600 / 60) + t % 3600 % 60;
    assert t % 3600 % 60 == t % 60;
  }

  /** `duration_str`: "{h}h {m}m {s}s". */
  function DurationStr(durationMs: nat): string {
    var r := Decompose(durationMs);
    NatToString(r.hours) + "h " + NatToString(r.minutes) + "m " + NatToString(r.seconds) + "s"
  }

  /** What `validate` records. */
  datatype Validation = Validation(sizeBytes: nat, durationMs: nat, actualChapters: nat, expectedChapters: nat)

  datatype BuildError = MissingOrEmpty

  /**
   * `validate`: fails when the file is missing or empty; otherwise records
   * the probed chapter count next to the expected one without comparing them.
   */
  function Validate(present: bool, sizeBytes: nat, durationMs: nat, actualChapters: nat, expectedChapters: nat): (r: Result<Validation, BuildError>)
    ensures r.Err? <==> !present || sizeBytes == 0
    ensures r.Ok? ==> r.value.actualChapters == actualChapters && r.value.expectedChapters == expectedChapters
  {
    if !present || sizeBytes == 0 then Err(MissingOrEmpty)
    else Ok(Validation(sizeBytes, durationMs, actualChapters, expectedChapters))
  }

  /**
   * A book built from one-line fields validates, and the chapter count it
   * records equals the expected one, when the probe counts the chapters read
   * back from the metadata file `build` wrote for the tracks.
   */
  lemma BuiltBookValidates(title: string, author: string, date: string, ts: seq<Track>, sizeBytes: nat, durationMs: nat)
    requires sizeBytes > 0
    requires OneLine(title) && OneLine(author) && OneLine(date)
    requires forall i | 0 <= i < |ts| :: OneLine(ts[i].title)
    ensures var probed := |ReadMarks(FileLines(FileText(MetadataLines(title, author, date, Timeline(ts)))))|;
      var v := Validate(true, sizeBytes, durationMs, probed, |ts|);
      v.Ok? && v.value.actualChapters == v.value.expectedChapters
  {
    var marks := Timeline(ts);
    forall i | 0 <= i < |marks|
      ensures OneLine(marks[i].title)
    {
      TimelineSpans(ts, i);
    }
    MetadataFileRoundTrip(title, author, date, marks);
  }

  /** A chapter-count mismatch is never an error. */
  lemma MismatchRecorded(sizeBytes: nat, durationMs: nat, actual: nat, expected: nat)
    requires sizeBytes > 0 && actual != expected
    ensures Validate(true, sizeBytes, durationMs, actual, expected).Ok?
  {
  }
}

=== FILE: markers.dfy ===
/**
 * The regex fallback of narrator/core/epub_extractor.py
 * (`_detect_chapters_regex`): a scan for "Chapter N", "CHAPTER N",
 * "Part X" and "PART X" markers at line starts, and the slicing of the
 * concatenated book text between them.
 */
module Markers {
  import opened Text
  import opened Wrappers
  import opened Sections

  /** Character classes of the pattern: `\s`, `\d` and `\w` (ASCII digits and letters). */
  datatype Class = Space | Digit | Word

  predicate InClass(c: char, k: Class) {
    match k
    case Space => IsSpace(c)
    case Digit => IsDigit(c)
    case Word => IsWordChar(c)
  }

  /** Length of the longest run of class `k` starting at `p`: what a greedy `+` consumes. */
  function Run(s: string, p: nat, k: Class): (n: nat)
    requires p <= |s|
    ensures p + n <= |s|
    ensures forall i | p <= i < p + n :: InClass(s[i], k)
    ensures p + n < |s| ==> !InClass(s[p + n], k)
    decreases |s| - p
  {
    if p < |s| && InClass(s[p], k) then 1 + Run(s, p + 1, k) else 0
  }

  /** `^` under MULTILINE: the start of the text or just after a newline. */
  predicate LineStart(s: string, p: nat) {
    p == 0 || (p <= |s| && s[p - 1] == '\n')
  }

  /**
   * Where the marker pattern's match starting at `p` ends, if one starts
   * there. The keyword is followed by whitespace and then digits (for
   * "Chapter"/"CHAPTER") or word characters (for "Part"/"PART"); since
   * whitespace is neither, backtracking cannot find any other match.
   */
  function MarkerEnd(s: string, p: nat): (r: Option<nat>)
    requires p <= |s|
    ensures r.Some? ==> p < r.value <= |s|
  {
    var kw: Option<(nat, Class)> :=
      if OccursAt(s, "Chapter", p) || OccursAt(s, "CHAPTER", p) then Some((7, Digit))
      else if OccursAt(s, "Part", p) || OccursAt(s, "PART", p) then Some((4, Word))
      else None;
    match kw
    case None => None
    case Some((n, k)) =>
      var gap := Run(s, p + n, Space);
      if gap == 0 then None
      else
        var tail := Run(s, p + n + gap, k);
        if tail == 0 then None else Some(p + n + gap + tail)
  }

  /** A match of the marker pattern at a line start. */
  datatype Span = Span(start: nat, end: nat)

  predicate IsMatch(s: string, m: Span) {
    m.start <= |s| && LineStart(s, m.start) && MarkerEnd(s, m.start) == Some(m.end)
  }

  /** `finditer` from position `p`: leftmost match, resume at its end. */
  function Scan(s: string, p: nat): (r: seq<Span>)
    requires p <= |s|
    ensures forall i | 0 <= i < |r| :: p <= r[i].start < r[i].end <= |s|
    ensures forall i | 0 <= i < |r| - 1 :: r[i].end <= r[i + 1].start
    decreases |s| - p
  {
    if p == |s| then []
    else
      var m := MarkerEnd(s, p);
      if LineStart(s, p) && m.Some? then [Span(p, m.value)] + Scan(s, m.value)
      else Scan(s, p + 1)
  }

  lemma ScanUnfold(s: string, p: nat)
    requires p < |s|
    ensures LineStart(s, p) && MarkerEnd(s, p).Some? ==> Scan(s, p) == [Span(p, MarkerEnd(s, p).value)] + Scan(s, MarkerEnd(s, p).value)
    ensures !(LineStart(s, p) && MarkerEnd(s, p).Some?) ==> Scan(s, p) == Scan(s, p + 1)
  {
  }

  /** Every reported span is a match of the pattern at a line start. */
  lemma {:induction false} ScanSound(s: string, p: nat)
    requires p <= |s|
    ensures forall i | 0 <= i < |Scan(s, p)| :: IsMatch(s, Scan(s, p)[i])
    decreases |s| - p
  {
    if p < |s| {
      var n, jumped := ScanStep(s, p);
      ScanSound(s, n);
      if jumped {
        var r, t := Scan(s, p), Scan(s, n);
        forall i | 0 <= i < |r|
          ensures IsMatch(s, r[i])
        {
          if i > 0 {
            assert r[i] == t[i - 1];
          }
        }
      }
    }
  }

  /** Some span of `r` contains position `q`. */
  predicate Covers(r: seq<Span>, q: nat) {
    exists i | 0 <= i < |r| :: r[i].start <= q < r[i].end
  }

  /** Putting a span in front keeps a covered position covered, and covers its own positions. */
  lemma CoversCons(m: Span, r: seq<Span>, q: nat)
    requires Covers(r, q) || m.start <= q < m.end
    ensures Covers([m] + r, q)
  {
    if m.start <= q < m.end {
      assert ([m] + r)[0] == m;
    } else {
      var i :| 0 <= i < |r| && r[i].start <= q < r[i].end;
      assert ([m] + r)[i + 1] == r[i];
    }
  }

  /**
   * Nothing is missed: every marker at a line start from `p` on is a
   * reported match or lies inside one.
   */
  lemma {:induction false} ScanComplete(s: string, p: nat, q: nat)
    requires p <= q < |s| && LineStart(s, q) && MarkerEnd(s, q).Some?
    ensures Covers(Scan(s, p), q)
    decreases |s| - p
  {
    if p == q {
      CoverAtMatch(s, p, q);
    } else {
      var n, jumped := ScanStep(s, p);
      if jumped && q < n {
        CoversCons(Span(p, n), Scan(s, n), q);
      } else {
        ScanComplete(s, n, q);
        if jumped {
          CoversCons(Span(p, n), Scan(s, n), q);
        }
      }
    }
  }

  /** A match at `p` covers what it spans and passes on what the rest of the scan covers. */
  lemma CoverAtMatch(s: string, p: nat, q: nat)
    requires p < |s| && LineStart(s, p) && MarkerEnd(s, p).Some?
    requires var e := MarkerEnd(s, p).value; p <= q < e || Covers(Scan(s, e), q)
    ensures Covers(Scan(s, p), q)
  {
    var e := MarkerEnd(s, p).value;
    ScanUnfold(s, p);
    CoversCons(Span(p, e), Scan(s, e), q);
  }

  /** One step of the scan at `p`: where it resumes, and whether it reported a match first. */
  lemma ScanStep(s: string, p: nat) returns (n: nat, jumped: bool)
    requires p < |s|
    ensures p < n <= |s|
    ensures jumped ==> IsMatch(s, Span(p, n)) && Scan(s, p) == [Span(p, n)] + Scan(s, n)
    ensures !jumped ==> n == p + 1 && Scan(s, p) == Scan(s, n)
  {
    var m := MarkerEnd(s, p);
    jumped := LineStart(s, p) && m.Some?;
    if jumped {
      n := m.value;
      ScanJump(s, p, n);
    } else {
      n := p + 1;
      ScanSkip(s, p);
    }
  }

  lemma ScanJump(s: string, p: nat, e: nat)
    requires p < |s| && LineStart(s, p) && MarkerEnd(s, p) == Some(e)
    ensures IsMatch(s, Span(p, e)) && Scan(s, p) == [Span(p, e)] + Scan(s, e)
  {
    ScanUnfold(s, p);
  }

  lemma ScanSkip(s: string, p: nat)
    requires p < |s| && !(LineStart(s, p) && MarkerEnd(s, p).Some?)
    ensures Scan(s, p) == Scan(s, p + 1)
  {
    ScanUnfold(s, p);
  }

  /** Where slice `i` ends: the next match's start, or the end of the text. */
  function SliceEnd(ms: seq<Span>, i: nat, n: nat): nat
    requires i < |ms|
  {
    if i + 1 < |ms| then ms[i + 1].start else n
  }

  /** Everything after the marker line, or the whole slice when it is a single line. */
  function Body(slice: string): string {
    var t := Strip(slice);
    AfterLine(t, Find(t, Newline))
  }

  /** The stripped text after the newline at `k` of `t`, or `t` when `k` is negative (no newline). */
  function AfterLine(t: string, k: int): (r: string)
    requires k < |t|
    ensures k >= 0 ==> r == Strip(t[k + 1..])
  {
    if k < 0 then t else Strip(t[k + 1..])
  }

  /** `_detect_chapters_regex` over the concatenated text. */
  function RegexSections(full: string): (r: seq<Section>)
    ensures |r| == |Scan(full, 0)|
  {
    var ms := Scan(full, 0);
    seq(|ms|, i requires 0 <= i < |ms| =>
      Section(Strip(full[ms[i].start..ms[i].end]), Body(full[ms[i].start..SliceEnd(ms, i, |full|)])))
  }

  /** No sections exactly when no line starts with a marker. */
  lemma RegexEmpty(full: string)
    ensures RegexSections(full) == [] <==>
      forall q | 0 <= q < |full| :: !(LineStart(full, q) && MarkerEnd(full, q).Some?)
  {
    if q :| 0 <= q < |full| && LineStart(full, q) && MarkerEnd(full, q).Some? {
      ScanComplete(full, 0, q);
    }
    if Scan(full, 0) != [] {
      ScanSound(full, 0);
      assert IsMatch(full, Scan(full, 0)[0]);
    }
  }

  /** A match starts with its keyword's capital and ends on a digit or word character. */
  lemma MarkerShape(s: string, p: nat)
    requires p <= |s| && MarkerEnd(s, p).Some?
    ensures var e := MarkerEnd(s, p).value;
      (s[p] == 'C' || s[p] == 'P') && !IsSpace(s[e - 1])
  {
    var e := MarkerEnd(s, p).value;
    assert s[p] == s[p..p + 4][0];
  }

  /** A matched text is its own strip. */
  lemma MatchedText(s: string, m: Span)
    requires IsMatch(s, m)
    ensures m.start < m.end <= |s|
    ensures Strip(s[m.start..m.end]) == s[m.start..m.end]
  {
    var t := s[m.start..m.end];
    MarkerShape(s, m.start);
    assert t[0] == s[m.start] && t[|t| - 1] == s[m.end - 1];
    StripNoop(t);
  }

  /** The title is exactly the matched marker text. */
  lemma RegexTitle(full: string, i: nat)
    requires i < |RegexSections(full)|
    ensures var m := Scan(full, 0)[i];
      IsMatch(full, m) && RegexSections(full)[i].title == full[m.start..m.end]
  {
    var m := Scan(full, 0)[i];
    ScanSound(full, 0);
    MatchedText(full, m);
    assert RegexSections(full)[i].title == Strip(full[m.start..m.end]);
  }

  /** The raw slices from match `i` on. */
  function Pieces(full: string, ms: seq<Span>, i: nat): seq<string>
    requires forall j | 0 <= j < |ms| :: ms[j].start <= |full|
    requires forall j | 0 <= j < |ms| - 1 :: ms[j].start <= ms[j + 1].start
    decreases |ms| - i
  {
    if i >= |ms| then []
    else
      var e := SliceEnd(ms, i, |full|);
      [full[ms[i].start..e]] + Pieces(full, ms, i + 1)
  }

  /** Consecutive slices tile the text from match `i` on. */
  lemma {:induction false} SlicesTile(full: string, ms: seq<Span>, i: nat)
    requires forall j | 0 <= j < |ms| :: ms[j].start <= |full|
    requires forall j | 0 <= j < |ms| - 1 :: ms[j].start <= ms[j + 1].start
    requires i < |ms|
    ensures Concat(Pieces(full, ms, i)) == full[ms[i].start..]
    decreases |ms| - i
  {
    if i + 1 == |ms| {
      ConcatSingle(full[ms[i].start..]);
    } else {
      SlicesTile(full, ms, i + 1);
      assert full[ms[i].start..] == full[ms[i].start..ms[i + 1].start] + full[ms[i + 1].start..];
    }
  }

  /** The regex sections' raw slices cover the text from the first marker to the end. */
  lemma RegexCovers(full: string)
    requires Scan(full, 0) != []
    ensures Concat(Pieces(full, Scan(full, 0), 0)) == full[Scan(full, 0)[0].start..]
  {
    SlicesTile(full, Scan(full, 0), 0);
  }

  /** Cutting a stripped text at a newline keeps every non-blank character. */
  lemma CutAtNewline(t: string, k: nat)
    requires k < |t| && t[k] == '\n'
    ensures NoWs(t) == NoWs(t[..k]) + NoWs(AfterLine(t, k))
  {
    DropSpaceAt(t, k);
    StripKeepsNonBlank(t[k + 1..]);
  }

  /** Deleting whitespace removes a whitespace character wherever it sits. */
  lemma DropSpaceAt(t: string, k: nat)
    requires k < |t| && IsSpace(t[k])
    ensures NoWs(t) == NoWs(t[..k]) + NoWs(t[k + 1..])
  {
    var tail := t[k..];
    assert t == t[..k] + tail;
    NoWsAppend(t[..k], tail);
    assert tail[0] == t[k] && tail[1..] == t[k + 1..];
  }

  /**
   * Dropping the marker line loses nothing but that line: with whitespace
   * deleted, the stripped slice is its first line followed by the body.
   */
  lemma BodyKeepsRest(slice: string, k: int)
    requires k == Find(Strip(slice), Newline) && k >= 0
    ensures NoWs(Strip(slice)) == NoWs(Strip(slice)[..k]) + NoWs(Body(slice))
  {
    var t := Strip(slice);
    NewlineAt(t, k);
    CutAtNewline(t, k);
    assert Body(slice) == AfterLine(t, k);
  }

  /** A slice of one line is its own body. */
  lemma BodySingleLine(slice: string)
    requires Find(Strip(slice), Newline) < 0
    ensures Body(slice) == Strip(slice)
  {
  }

  /** A position `Find` reports for "\n" holds a newline. */
  lemma NewlineAt(t: string, k: int)
    requires k == Find(t, Newline) && k >= 0
    ensures k < |t| && t[k] == '\n'
  {
    assert OccursAt(t, Newline, k);
    assert t[k] == t[k..k + 1][0];
  }
}

=== FILE: output.dfy ===
/**
 * The naming side of narrator/core/output_manager.py: the author/[series/]title
 * directory layout under the output root, the audiobook file inside it, the
 * text files `write` leaves beside it, and the existence check of
 * `already_exists`. Moving the audio and converting the cover are not
 * modelled; the plain text of the HTML description is an input.
 */
module Output {
  import opened Text
  import opened Wrappers
  import Config
  import Paths

  /** The metadata fields `write` reads. */
  datatype Metadata = Metadata(title: string, author: string, description: string)

  /** The levels a name adds once sanitized: the name itself, or none when it comes out empty or ".". */
  function Component(name: string): (r: seq<string>)
    ensures var s := Config.SanitizeFilename(name); r == if s == [] || s == "." then [] else [s]
  {
    var s := Config.SanitizeFilename(name);
    PartsOfSlashFree(s);
    Paths.Parts(s)
  }

  /** A name without "/" contributes itself or, when empty or ".", nothing. */
  lemma PartsOfSlashFree(s: string)
    requires Clean(s)
    ensures Paths.Parts(s) == (if s == [] || s == "." then [] else [s])
  {
    assert Config.Forbidden('/');
    assert '/' !in s;
    Paths.SplitNoSlash(s);
    assert [s][1..] == [];
    assert Paths.Keep([s]) == (if s == [] || s == "." then [] else [s]) + Paths.Keep([]);
  }

  /** The book directory of `write` and `already_exists`: `root / a' [/ s'] / t'`. */
  function BookDir(root: Paths.Path, author: string, title: string, series: Option<string>): Paths.Path {
    root + Levels(author, title, series)
  }

  /** The levels below the root: a', then s' when the series is non-empty, then t'. */
  function Levels(author: string, title: string, series: Option<string>): seq<string> {
    Component(author) + (if series.Some? && series.value != [] then Component(series.value) else []) + Component(title)
  }

  /** The audiobook's file name, `f"{t'}.m4b"`; it is clean and never "." or empty. */
  function M4bName(title: string): (r: string)
    ensures Clean(r) && |r| >= 4
  {
    var t := Config.SanitizeFilename(title);
    FileNameClean(t);
    t + ".m4b"
  }

  /** The audiobook inside the book directory: `book_dir / (t' + ".m4b")`. */
  function M4bPath(root: Paths.Path, author: string, title: string, series: Option<string>): Paths.Path {
    BookDir(root, author, title, series) + Paths.Parts(M4bName(title))
  }

  /** The name of the audiobook file is a single component. */
  lemma M4bFileName(root: Paths.Path, author: string, title: string, series: Option<string>)
    ensures M4bPath(root, author, title, series)
         == BookDir(root, author, title, series) + [Config.SanitizeFilename(title) + ".m4b"]
  {
    PartsOfSlashFree(M4bName(title));
  }

  /** The book directory is the root joined, as `pathlib` joins, with a', then s' when there is a series, then t'. */
  lemma BookDirJoins(root: Paths.Path, author: string, title: string, series: Option<string>)
    ensures var a, t := Config.SanitizeFilename(author), Config.SanitizeFilename(title);
      BookDir(root, author, title, series) ==
        if series.Some? && series.value != [] then Paths.Join(Paths.Join(Paths.Join(root, a), Config.SanitizeFilename(series.value)), t)
        else Paths.Join(Paths.Join(root, a), t)
  {
    if series.Some? && series.value != [] {
      JoinsWithSeries(root, author, title, series.value);
    } else {
      JoinsWithoutSeries(root, author, title, series);
    }
  }

  lemma JoinsWithSeries(root: Paths.Path, author: string, title: string, series: string)
    requires series != []
    ensures BookDir(root, author, title, Some(series)) == Paths.Join(Paths.Join(Paths.Join(root,
      Config.SanitizeFilename(author)), Config.SanitizeFilename(series)), Config.SanitizeFilename(title))
  {
    var pa, ps, pt := Component(author), Component(series), Component(title);
    ComponentIsParts(author);
    ComponentIsParts(series);
    ComponentIsParts(title);
    assert Levels(author, title, Some(series)) == pa + ps + pt;
    Regroup(root, pa, ps, pt);
  }

  lemma JoinsWithoutSeries(root: Paths.Path, author: string, title: string, series: Option<string>)
    requires !(series.Some? && series.value != [])
    ensures BookDir(root, author, title, series) ==
      Paths.Join(Paths.Join(root, Config.SanitizeFilename(author)), Config.SanitizeFilename(title))
  {
    var pa, pt := Component(author), Component(title);
    ComponentIsParts(author);
    ComponentIsParts(title);
    assert pa + [] == pa;
    assert Levels(author, title, series) == pa + pt;
    RegroupPair(root, pa, pt);
  }

  /** Without a series the book directory is the root, then a', then t'. */
  lemma BookDirNoSeries(root: Paths.Path, author: string, title: string)
    ensures BookDir(root, author, title, None) == root + Component(author) + Component(title)
  {
    var pa, pt := Component(author), Component(title);
    assert pa + [] == pa;
    assert Levels(author, title, None) == pa + pt;
    RegroupPair(root, pa, pt);
  }

  lemma RegroupPair(root: Paths.Path, a: Paths.Path, t: Paths.Path)
    ensures root + (a + t) == root + a + t
  {
  }

  lemma Regroup(root: Paths.Path, a: Paths.Path, s: Paths.Path, t: Paths.Path)
    ensures root + (a + s + t) == root + a + s + t
  {
  }

  /** A name adds the levels `pathlib` makes of its sanitized form. */
  lemma ComponentIsParts(name: string)
    ensures Component(name) == Paths.Parts(Config.SanitizeFilename(name))
  {
  }

  /** A sanitized name that makes one directory level: neither empty nor ".". */
  predicate IsLevel(name: string) {
    var s := Config.SanitizeFilename(name);
    s != [] && s != "."
  }

  lemma ComponentLevel(name: string)
    requires IsLevel(name)
    ensures Component(name) == [Config.SanitizeFilename(name)]
  {
  }

  /** The layout: output/a'/s'/t' with a series, output/a'/t' without. */
  lemma Layout(root: Paths.Path, author: string, title: string, series: Option<string>)
    requires IsLevel(author) && IsLevel(title)
    requires series.Some? && series.value != [] ==> IsLevel(series.value)
    ensures var a, t := Config.SanitizeFilename(author), Config.SanitizeFilename(title);
      BookDir(root, author, title, series) ==
        if series.Some? && series.value != [] then root + [a, Config.SanitizeFilename(series.value), t]
        else root + [a, t]
  {
    if series.Some? && series.value != [] {
      LayoutWithSeries(root, author, title, series.value);
    } else {
      LayoutWithoutSeries(root, author, title, series);
    }
  }

  lemma LayoutWithSeries(root: Paths.Path, author: string, title: string, series: string)
    requires IsLevel(author) && IsLevel(title) && IsLevel(series) && series != []
    ensures BookDir(root, author, title, Some(series)) ==
      root + [Config.SanitizeFilename(author), Config.SanitizeFilename(series), Config.SanitizeFilename(title)]
  {
    ComponentLevel(author);
    ComponentLevel(series);
    ComponentLevel(title);
    Triple(root, Config.SanitizeFilename(author), Config.SanitizeFilename(series), Config.SanitizeFilename(title));
  }

  lemma LayoutWithoutSeries(root: Paths.Path, author: string, title: string, series: Option<string>)
    requires IsLevel(author) && IsLevel(title) && !(series.Some? && series.value != [])
    ensures BookDir(root, author, title, series) == root + [Config.SanitizeFilename(author), Config.SanitizeFilename(title)]
  {
    LevelsWithoutSeries(author, title, series);
    ComponentLevel(author);
    ComponentLevel(title);
    AppendPair(root, Component(author), Component(title), Config.SanitizeFilename(author), Config.SanitizeFilename(title));
  }

  lemma AppendPair<T>(root: seq<T>, x: seq<T>, y: seq<T>, a: T, t: T)
    requires x == [a] && y == [t]
    ensures root + (x + y) == root + [a, t]
  {
    assert x + y == [a, t];
  }

  lemma LevelsWithoutSeries(author: string, title: string, series: Option<string>)
    requires !(series.Some? && series.value != [])
    ensures Levels(author, title, series) == Component(author) + Component(title)
  {
    assert Component(author) + [] == Component(author);
  }

  lemma Triple(root: Paths.Path, a: string, s: string, t: string)
    ensures root + ([a] + [s] + [t]) == root + [a, s, t]
  {
  }

  /** A string free of the characters `SANITIZE_CHARS` matches. */
  predicate Clean(s: string) {
    forall k | 0 <= k < |s| :: !Config.Forbidden(s[k])
  }

  /** Sanitized levels are clean. */
  lemma LevelsClean(author: string, title: string, series: Option<string>)
    ensures forall x | x in Levels(author, title, series) :: Clean(x)
  {
    ComponentClean(author);
    ComponentClean(title);
    if series.Some? && series.value != [] {
      ComponentClean(series.value);
    }
  }

  lemma ComponentClean(name: string)
    ensures forall x | x in Component(name) :: Clean(x)
  {
  }

  /** A clean name stays clean with ".m4b" appended. */
  lemma FileNameClean(t: string)
    requires Clean(t)
    ensures Clean(t + ".m4b")
  {
    var f := t + ".m4b";
    forall k | 0 <= k < |f|
      ensures !Config.Forbidden(f[k])
    {
      if k < |t| { assert f[k] == t[k]; } else { assert f[k] == ".m4b"[k - |t|]; }
    }
  }

  /** Every level `write` adds below the root is free of "/", "\\" and the other forbidden characters. */
  lemma ComponentsClean(root: Paths.Path, author: string, title: string, series: Option<string>)
    ensures var p := M4bPath(root, author, title, series);
      |p| > |root| && p[..|root|] == root && forall i | |root| <= i < |p| :: Clean(p[i])
  {
    var f := M4bName(title);
    PartsOfSlashFree(f);
    assert Paths.Parts(f) == [f];
    var levels := Levels(author, title, series);
    LevelsClean(author, title, series);
    assert M4bPath(root, author, title, series) == root + levels + [f];
    CleanBelow(root, levels, f);
  }

  /** Clean levels and a clean file name stay clean once appended to a root. */
  lemma CleanBelow(root: Paths.Path, levels: seq<string>, f: string)
    requires forall x | x in levels :: Clean(x)
    requires Clean(f)
    ensures var p := root + levels + [f];
      |p| > |root| && p[..|root|] == root && forall i | |root| <= i < |p| :: Clean(p[i])
  {
    var p := root + levels + [f];
    forall i | |root| <= i < |p|
      ensures Clean(p[i])
    {
      if i < |root| + |levels| {
        assert p[i] == levels[i - |root|];
        assert levels[i - |root|] in levels;
      }
    }
  }

  /** A file `write` leaves in the book directory. */
  datatype OutFile =
    | Audio(path: Paths.Path)                   // the moved .m4b
    | Cover(path: Paths.Path)                   // cover.jpg, converted from the cover image
    | TextFile(path: Paths.Path, text: string)  // desc.txt or reader.txt

  /** The text of reader.txt. */
  function ReaderText(voice: string): string {
    "AI Narration (" + voice + ")"
  }

  /** The files `write` leaves in `dir`, in the order it writes them. */
  function Files(dir: Paths.Path, m4b: Paths.Path, hasCover: bool, hasDesc: bool, descText: string, voice: string): (r: seq<OutFile>)
    ensures |r| >= 2 && r[0] == Audio(m4b)
    ensures r[|r| - 1] == TextFile(dir + ["reader.txt"], ReaderText(voice))
  {
    [Audio(m4b)] +
    (if hasCover then [Cover(dir + ["cover.jpg"])] else []) +
    (if hasDesc then [TextFile(dir + ["desc.txt"], descText)] else []) +
    [TextFile(dir + ["reader.txt"], ReaderText(voice))]
  }

  /**
   * `OutputManager.write`: the files it writes and the book directory it
   * returns. `descText` is the stripped plain text of the HTML description.
   */
  function Write(root: Paths.Path, meta: Metadata, hasCover: bool, voice: string,
                 series: Option<string>, descText: string): (r: (Paths.Path, seq<OutFile>))
    ensures r.0 == BookDir(root, meta.author, meta.title, series)
    ensures |r.1| >= 2 && r.1[0] == Audio(M4bPath(root, meta.author, meta.title, series))
    ensures r.1[|r.1| - 1] == TextFile(r.0 + ["reader.txt"], ReaderText(voice))
  {
    var dir := BookDir(root, meta.author, meta.title, series);
    var files := Files(dir, M4bPath(root, meta.author, meta.title, series), hasCover, meta.description != [], descText, voice);
    assert files[|files| - 1] == TextFile(dir + ["reader.txt"], ReaderText(voice));
    (dir, files)
  }

  /** `already_exists`: whether the .m4b path `write` would produce is among the existing files. */
  predicate AlreadyExists(existing: set<Paths.Path>, root: Paths.Path, meta: Metadata, series: Option<string>) {
    M4bPath(root, meta.author, meta.title, series) in existing
  }

  /** After `write`, `already_exists` with the same author, title and series holds, and it checks the file `write` moved. */
  lemma WriteThenExists(root: Paths.Path, meta: Metadata, hasCover: bool, voice: string,
                        series: Option<string>, descText: string, existing: set<Paths.Path>)
    ensures var files := Write(root, meta, hasCover, voice, series, descText).1;
      AlreadyExists(existing + set f | f in files && f.Audio? :: f.path, root, meta, series)
  {
    var files := Write(root, meta, hasCover, voice, series, descText).1;
    assert files[0] in files;
  }

  /** desc.txt is among the files exactly when it is asked for. */
  lemma FilesDesc(dir: Paths.Path, m4b: Paths.Path, hasCover: bool, hasDesc: bool, descText: string, voice: string)
    ensures TextFile(dir + ["desc.txt"], descText) in Files(dir, m4b, hasCover, hasDesc, descText, voice) <==> hasDesc
  {
    var desc := TextFile(dir + ["desc.txt"], descText);
    var reader := TextFile(dir + ["reader.txt"], ReaderText(voice));
    assert (dir + ["desc.txt"])[|dir|] != (dir + ["reader.txt"])[|dir|];
    assert reader != desc;
  }

  /** desc.txt is written exactly when the description is non-empty. */
  lemma DescOnlyWhenGiven(root: Paths.Path, meta: Metadata, hasCover: bool, voice: string,
                          series: Option<string>, descText: string)
    ensures var (dir, files) := Write(root, meta, hasCover, voice, series, descText);
      TextFile(dir + ["desc.txt"], descText) in files <==> meta.description != []
  {
    var dir := BookDir(root, meta.author, meta.title, series);
    FilesDesc(dir, M4bPath(root, meta.author, meta.title, series), hasCover, meta.description != [], descText, voice);
  }

  /** reader.txt names the voice inside "AI Narration (...)". */
  lemma ReaderNamesVoice(voice: string)
    ensures StartsWith(ReaderText(voice), "AI Narration (")
    ensures EndsWith(ReaderText(voice), ")")
    ensures Contains(ReaderText(voice), voice)
  {
    var r := ReaderText(voice);
    assert r[|"AI Narration ("|..|"AI Narration ("| + |voice|] == voice;
    assert OccursAt(r, voice, |"AI Narration ("|);
  }
}

=== FILE: paths.dfy ===
/**
 * The slice of `pathlib` the naming code relies on: a path is the sequence
 * of its components, and `/` appends the "/"-separated parts of a name,
 * dropping empty and "." parts as `pathlib` does.
 */
module Paths {
  import opened Text

  /** A path as its components. */
  type Path = seq<string>

  /** The components `pathlib` keeps of a list of "/"-separated parts. */
  function Keep(parts: seq<string>): (r: seq<string>)
    ensures forall i | 0 <= i < |r| :: r[i] != [] && r[i] != "."
  {
    if parts == [] then []
    else (if parts[0] == [] || parts[0] == "." then [] else [parts[0]]) + Keep(parts[1..])
  }

  /** The components a name contributes when joined onto a path. */
  function Parts(name: string): seq<string> {
    Keep(Split(name, "/"))
  }

  /** `p / name`. */
  function Join(p: Path, name: string): Path {
    p + Parts(name)
  }

  /** A name without "/" splits into itself. */
  lemma SplitNoSlash(name: string)
    requires '/' !in name
    ensures Split(name, "/") == [name]
  {
    forall i | 0 <= i < |name|
      ensures !OccursAt(name, "/", i)
    {
      assert name[i..i + 1][0] == name[i];
    }
  }

  /** A name without "/" that is neither empty nor "." is exactly one component. */
  lemma PartsSingle(name: string)
    requires '/' !in name && name != [] && name != "."
    ensures Parts(name) == [name]
  {
    SplitNoSlash(name);
    assert [name][1..] == [];
    assert Keep([name]) == [name] + Keep([]);
  }

  /** Joining an empty name leaves the path as it is. */
  lemma JoinEmpty(p: Path)
    ensures Join(p, "") == p
  {
    SplitNoSlash("");
  }
}

=== FILE: poc.dfy ===
/**
 * poc.py, the single-file prototype the narrator service grew out of. Its
 * chunker, chapter detection and filter, metadata file and output layout
 * are the narrator's with the constants written in; what differs is how
 * it drives them: chapters already rendered are reused, chapters before
 * `--start-chapter` are skipped, a failed request ends the process, and
 * the output has no series level.
 */
module Poc {
  import opened Text
  import opened Wrappers
  import Config
  import Chunker
  import TtsClient
  import Extract
  import Toc
  import M4b
  import Output
  import Paths

  // ---------------------------------------------------------------------
  // Constants and the chunker
  // ---------------------------------------------------------------------

  const TokenLimit: nat := 250
  const TokenFloor: nat := 80
  /** CHARS_PER_TOKEN, 3.5. */
  const CharsPerToken := Config.Ratio(7, 2)
  const MinChapterWords: nat := 50
  const MaxRetries: nat := 5
  const RestInterval: nat := 10
  /** The voice `main` passes when none is given. */
  const DefaultVoice := "af_heart"

  /** The prototype's constants are the narrator's defaults. */
  lemma SameConstants()
    ensures var d := Config.Defaults();
      && TokenLimit == d.tokenLimit && TokenFloor == d.tokenFloor && CharsPerToken == d.charsPerToken
      && MinChapterWords == Extract.MinChapterWords && MaxRetries == d.maxRetries && RestInterval == d.restInterval
  {
  }

  /** The character thresholds of the prototype's estimate: 875 per request, 280 at the floor, cuts within 787. */
  function Limits(): (r: Chunker.Limits)
    ensures Chunker.ValidLimits(r)
    ensures r == Chunker.Limits(875, 280, 787)
  {
    Chunker.DefaultLimits();
    Chunker.LimitsOf(TokenLimit, TokenFloor, CharsPerToken)
  }

  /**
   * `chunk_text` of the prototype: the narrator's packing with the default
   * limits. Whitespace aside it spells the sentences, and it is empty only
   * when there is no sentence.
   */
  function ChunkText(sentences: seq<string>): (r: seq<string>)
    ensures NoWs(Concat(r)) == NoWs(Concat(sentences))
    ensures r == [] <==> sentences == []
  {
    Chunker.ChunkTextLossless(sentences, Limits());
    Chunker.ChunkTextEmpty(sentences, Limits());
    Chunker.ChunkText(sentences, Limits())
  }

  /** `_split_long_sentence` of the prototype: every part within 875 characters, all but the last within 787, nothing lost. */
  function SplitLongSentence(sentence: string): (parts: seq<string>)
    ensures forall i | 0 <= i < |parts| :: |parts[i]| <= 875
    ensures forall i | 0 <= i < |parts| - 1 :: |parts[i]| <= 787
    ensures NoWs(Concat(parts)) == NoWs(sentence)
    ensures |sentence| > 875 ==> parts != []
  {
    Chunker.SplitLongFits(sentence, Limits());
    Chunker.SplitLongLossless(sentence, Limits());
    Chunker.SplitLong(sentence, Limits())
  }

  /** The prototype chunks exactly as the narrator does with its default settings. */
  lemma ChunkTextMatchesNarrator(sentences: seq<string>)
    ensures var d := Config.Defaults();
      ChunkText(sentences) == Chunker.ChunkText(sentences, Chunker.LimitsOf(d.tokenLimit, d.tokenFloor, d.charsPerToken))
  {
    SameConstants();
  }

  // ---------------------------------------------------------------------
  // parse_epub and the start of main
  // ---------------------------------------------------------------------

  /**
   * The chapters `parse_epub` returns: the narrator's detection chain and
   * filter, but an empty list where the narrator raises.
   */
  function ParseChapters(toc: seq<Toc.TocNode>, spine: seq<Toc.SpineItem>, anchor: Toc.AnchorWalk,
                         views: seq<Extract.HeadingView>, frontMatter: string -> bool): (r: seq<Extract.Chapter>)
    ensures var x := Extract.ExtractChapters(true, true, toc, spine, anchor, views, frontMatter);
      && (r == [] <==> x == Err(Extract.NoChapters))
      && (r != [] ==> x == Ok(r))
  {
    Extract.ExtractOutcome(true, true, toc, spine, anchor, views, frontMatter);
    Extract.Filter(Extract.Detect(toc, spine, anchor, views), frontMatter)
  }

  /**
   * How `main` gets past parsing: the file is missing, `read_epub` raised on
   * a corrupt file (nothing catches it, so the run ends with a traceback), no
   * chapter survived, or conversion starts.
   */
  datatype Start = FileMissing | ParseCrashed | NoChapters | Convert(chapters: seq<Extract.Chapter>)

  function MainStart(present: bool, parsed: bool, toc: seq<Toc.TocNode>, spine: seq<Toc.SpineItem>, anchor: Toc.AnchorWalk,
                     views: seq<Extract.HeadingView>, frontMatter: string -> bool): (r: Start)
    ensures r.Convert? ==> r.chapters != []
    ensures var x := Extract.ExtractChapters(present, parsed, toc, spine, anchor, views, frontMatter);
      && (r == FileMissing <==> x == Err(Extract.FileNotFound))
      && (r == ParseCrashed <==> x == Err(Extract.ParseFailed))
      && (r == NoChapters <==> x == Err(Extract.NoChapters))
      && (r.Convert? <==> x.Ok?)
      && (r.Convert? ==> x.value == r.chapters)
  {
    if !present then FileMissing
    else if !parsed then ParseCrashed
    else
      var chapters := ParseChapters(toc, spine, anchor, views, frontMatter);
      if chapters == [] then NoChapters else Convert(chapters)
  }

  // ---------------------------------------------------------------------
  // synthesize_chapters and _collect_existing_wavs
  // ---------------------------------------------------------------------

  /** An entry of `wav_paths`: a chapter's title and the number in its chapter_NNN.wav. */
  datatype Wav = Wav(title: string, index: nat)

  /** A chapter appears in `wav_paths`: its wav exists already, or it is not before the start chapter. */
  predicate Kept(index: nat, cached: set<nat>, start: int) {
    index in cached || index >= start
  }

  /** What `synthesize_chapters` does with chapter `index`. */
  datatype ChapterStep = Cached | Skipped | Synthesized(requests: seq<string>)

  /**
   * The branch taken for one chapter; a synthesized chapter's requests are
   * the spoken title with a full stop followed by its chunks, where
   * `sentences` stands for the sentence tokenizer.
   */
  function StepOf(index: nat, c: Extract.Chapter, cached: set<nat>, start: int,
                  sentences: string -> seq<string>): (r: ChapterStep)
    ensures r.Cached? <==> index in cached
    ensures r.Skipped? <==> !Kept(index, cached, start)
    ensures r.Synthesized? ==>
      && r.requests != []
      && r.requests[0] == TtsClient.SpokenTitle(c.title) + "."
      && NoWs(Concat(r.requests[1..])) == NoWs(Concat(sentences(c.text)))
  {
    if index in cached then Cached
    else if index < start then Skipped
    else
      TtsClient.ChapterRequestsLossless(c.title, sentences(c.text), Limits());
      Synthesized(TtsClient.ChapterRequests(c.title, sentences(c.text), Limits()))
  }

  /**
   * The `wav_paths` of `synthesize_chapters`, chapters numbered from 1. A
   * synthesized chapter always has at least its title request, so the
   * "no segments" branch never drops one.
   */
  function Synthesize(chapters: seq<Extract.Chapter>, cached: set<nat>, start: int): (r: seq<Wav>)
    ensures |r| <= |chapters|
  {
    if chapters == [] then []
    else
      var n := |chapters|;
      Synthesize(chapters[..n - 1], cached, start) + (if Kept(n, cached, start) then [Wav(chapters[n - 1].title, n)] else [])
  }

  /** A chapter is in `wav_paths` exactly when it is kept, under its own title and number. */
  lemma {:induction false} SynthesizeMembers(chapters: seq<Extract.Chapter>, cached: set<nat>, start: int, w: Wav)
    ensures w in Synthesize(chapters, cached, start) <==>
      1 <= w.index <= |chapters| && w.title == chapters[w.index - 1].title && Kept(w.index, cached, start)
  {
    if chapters != [] {
      var n := |chapters|;
      var front := chapters[..n - 1];
      SynthesizeMembers(front, cached, start, w);
      if 1 <= w.index < n {
        assert front[w.index - 1] == chapters[w.index - 1];
      }
    }
  }

  /** Chapter numbers from 1 to `n`, strictly increasing. */
  predicate InOrder(ws: seq<Wav>, n: nat) {
    && (forall i | 0 <= i < |ws| :: 1 <= ws[i].index <= n)
    && (forall i, j | 0 <= i < j < |ws| :: ws[i].index < ws[j].index)
  }

  /** `wav_paths` follows chapter order: the numbers strictly increase and never pass the chapter count. */
  lemma {:induction false} SynthesizeOrdered(chapters: seq<Extract.Chapter>, cached: set<nat>, start: int)
    ensures InOrder(Synthesize(chapters, cached, start), |chapters|)
  {
    if chapters != [] {
      var n := |chapters|;
      var prev := Synthesize(chapters[..n - 1], cached, start);
      SynthesizeOrdered(chapters[..n - 1], cached, start);
      assert InOrder(prev, n - 1);
      var tail := if Kept(n, cached, start) then [Wav(chapters[n - 1].title, n)] else [];
      var r := Synthesize(chapters, cached, start);
      assert r == prev + tail;
      forall i | 0 <= i < |r|
        ensures 1 <= r[i].index <= n
        ensures i < |prev| ==> r[i].index < n
      {
        if i < |prev| { assert r[i] == prev[i]; } else { assert r[i] == tail[i - |prev|]; }
      }
      forall i, j | 0 <= i < j < |r|
        ensures r[i].index < r[j].index
      {
        if j < |prev| { assert r[i] == prev[i] && r[j] == prev[j]; }
      }
    }
  }

  /** From the first chapter on (the default start), every chapter is in `wav_paths`, in order. */
  lemma {:induction false} SynthesizeFromFirst(chapters: seq<Extract.Chapter>, cached: set<nat>, start: int)
    requires start <= 1
    ensures var r := Synthesize(chapters, cached, start);
      |r| == |chapters| && forall i | 0 <= i < |r| :: r[i] == Wav(chapters[i].title, i + 1)
  {
    if chapters != [] {
      var n := |chapters|;
      SynthesizeFromFirst(chapters[..n - 1], cached, start);
    }
  }

  /** `_collect_existing_wavs`: the chapters whose chapter_NNN.wav exists, in order. */
  function CollectExisting(chapters: seq<Extract.Chapter>, cached: set<nat>): (r: seq<Wav>)
    ensures |r| <= |chapters|
  {
    if chapters == [] then []
    else
      var n := |chapters|;
      CollectExisting(chapters[..n - 1], cached) + (if n in cached then [Wav(chapters[n - 1].title, n)] else [])
  }

  /** Collecting is synthesizing with a start chapter past the end: only the cached chapters remain. */
  lemma {:induction false} CollectIsCachedOnly(chapters: seq<Extract.Chapter>, cached: set<nat>, start: int)
    requires start > |chapters|
    ensures CollectExisting(chapters, cached) == Synthesize(chapters, cached, start)
  {
    if chapters != [] {
      CollectIsCachedOnly(chapters[..|chapters| - 1], cached, start);
    }
  }

  /** A chapter is collected exactly when its wav exists, and the list keeps chapter order. */
  lemma CollectMembers(chapters: seq<Extract.Chapter>, cached: set<nat>, w: Wav)
    ensures w in CollectExisting(chapters, cached) <==>
      1 <= w.index <= |chapters| && w.title == chapters[w.index - 1].title && w.index in cached
    ensures InOrder(CollectExisting(chapters, cached), |chapters|)
  {
    CollectIsCachedOnly(chapters, cached, |chapters| + 1);
    SynthesizeMembers(chapters, cached, |chapters| + 1, w);
    SynthesizeOrdered(chapters, cached, |chapters| + 1);
  }

  // ---------------------------------------------------------------------
  // Pacing and _tts_request
  // ---------------------------------------------------------------------

  /**
   * The request loop of one chapter: slot i holds request k = i + 1, which
   * is preceded by a rest when k > 1 and k - 1 is a multiple of 10, and
   * followed by a cooldown unless it is the last.
   */
  method PaceChapter(requests: seq<string>) returns (slots: seq<TtsClient.Slot>)
    ensures |slots| == |requests|
    ensures forall i | 0 <= i < |slots| :: slots[i].text == requests[i]
    ensures forall i | 0 <= i < |slots| :: slots[i].restBefore <==> i > 0 && i % RestInterval == 0
    ensures forall i | 0 <= i < |slots| :: slots[i].cooldownAfter <==> i + 1 < |requests|
  {
    var err;
    slots, err := TtsClient.PaceRequests(requests, RestInterval);
  }

  /**
   * `_tts_request`: at most five POSTs. After a failed attempt that is not
   * the last, `_wait_for_tts` runs and either returns or ends the process;
   * the fifth failure ends it too. `delivered(a)` and `recovers(a)` say how
   * attempt `a` and the wait after it went; `None` is the process exiting.
   */
  method TtsRequest(delivered: nat -> bool, recovers: nat -> bool) returns (audio: Option<nat>, posts: nat)
    ensures 1 <= posts <= MaxRetries
    ensures audio.Some? ==> posts == audio.value + 1 && delivered(audio.value)
    ensures audio.None? ==> !delivered(posts - 1) && (posts == MaxRetries || !recovers(posts - 1))
    ensures forall a | 0 <= a < posts - 1 :: !delivered(a) && recovers(a)
  {
    var out;
    out, posts := TtsClient.Request(MaxRetries, delivered, recovers);
    if out.Audio? {
      audio := Some(out.attempt);
    } else {
      audio := None;
    }
  }

  // ---------------------------------------------------------------------
  // build_m4b offsets
  // ---------------------------------------------------------------------

  /** The tracks of `build_m4b`: each wav's title with the measured duration of its m4a. */
  function Tracks(wavs: seq<Wav>, durations: seq<nat>): (r: seq<M4b.Track>)
    requires |durations| == |wavs|
    ensures |r| == |wavs|
  {
    seq(|wavs|, i requires 0 <= i < |wavs| => M4b.Track(wavs[i].title, durations[i]))
  }

  /** The `[CHAPTER]` entries of `build_m4b`: the first starts at 0, each lasts its duration, and each ends where the next starts. */
  lemma ChapterOffsets(wavs: seq<Wav>, durations: seq<nat>)
    requires |durations| == |wavs|
    ensures var m := M4b.Timeline(Tracks(wavs, durations));
      && (wavs != [] ==> m[0].start == 0)
      && (forall i | 0 <= i < |m| :: m[i].end == m[i].start + durations[i] && m[i].title == wavs[i].title)
      && (forall i | 0 <= i < |m| - 1 :: m[i].end == m[i + 1].start)
  {
    var ts := Tracks(wavs, durations);
    if wavs != [] {
      M4b.TimelineBounds(ts);
    }
    forall i | 0 <= i < |ts|
      ensures M4b.Timeline(ts)[i].end == M4b.Timeline(ts)[i].start + durations[i]
      ensures M4b.Timeline(ts)[i].title == wavs[i].title
    {
      M4b.TimelineSpans(ts, i);
    }
    forall i | 0 <= i < |ts| - 1
      ensures M4b.Timeline(ts)[i].end == M4b.Timeline(ts)[i + 1].start
    {
      M4b.TimelineContiguous(ts, i);
    }
  }

  // ---------------------------------------------------------------------
  // write_output
  // ---------------------------------------------------------------------

  /**
   * `write_output`: output/a'/t'/t'.m4b with cover.jpg, desc.txt and
   * reader.txt beside it, and no series level. `voice` is the metadata's
   * voice entry, "af_heart" when absent.
   */
  function WriteOutput(root: Paths.Path, meta: Output.Metadata, hasCover: bool, voice: Option<string>,
                       descText: string): (r: (Paths.Path, seq<Output.OutFile>))
    ensures r.0 == root + Output.Component(meta.author) + Output.Component(meta.title)
    ensures |r.1| >= 2 && r.1[0] == Output.Audio(r.0 + [Config.SanitizeFilename(meta.title) + ".m4b"])
    ensures r.1[|r.1| - 1] == Output.TextFile(r.0 + ["reader.txt"], Output.ReaderText(voice.GetOr(DefaultVoice)))
  {
    Output.M4bFileName(root, meta.author, meta.title, None);
    Output.BookDirNoSeries(root, meta.author, meta.title);
    Output.Write(root, meta, hasCover, voice.GetOr(DefaultVoice), None, descText)
  }

  /** With a usable author and title, the book directory is exactly two levels below the root. */
  lemma WriteOutputLayout(root: Paths.Path, meta: Output.Metadata, hasCover: bool, voice: Option<string>, descText: string)
    requires Output.IsLevel(meta.author) && Output.IsLevel(meta.title)
    ensures WriteOutput(root, meta, hasCover, voice, descText).0
         == root + [Config.SanitizeFilename(meta.author), Config.SanitizeFilename(meta.title)]
  {
    var r := WriteOutput(root, meta, hasCover, voice, descText);
    Output.ComponentLevel(meta.author);
    Output.ComponentLevel(meta.title);
    TwoLevels(root, Output.Component(meta.author), Output.Component(meta.title),
              Config.SanitizeFilename(meta.author), Config.SanitizeFilename(meta.title));
  }

  lemma TwoLevels(root: Paths.Path, ca: seq<string>, ct: seq<string>, a: string, t: string)
    requires ca == [a] && ct == [t]
    ensures root + ca + ct == root + [a, t]
  {
  }

  /** The narrator's `already_exists` without a series finds the audiobook the prototype wrote. */
  lemma PrototypeOutputRecognised(root: Paths.Path, meta: Output.Metadata, hasCover: bool, voice: Option<string>,
                                  descText: string, existing: set<Paths.Path>)
    ensures var files := WriteOutput(root, meta, hasCover, voice, descText).1;
      Output.AlreadyExists(existing + set f | f in files && f.Audio? :: f.path, root, meta, None)
  {
    Output.WriteThenExists(root, meta, hasCover, voice.GetOr(DefaultVoice), None, descText, existing);
  }
}

=== FILE: post_process.dfy ===
/**
 * The text clean-up at the end of `_html_to_text` in
 * narrator/core/epub_extractor.py: runs of three or more newlines collapse
 * to two, a lone capital on its own line is joined to the lower-case line
 * after it (a split drop cap), and the result is stripped. The soup's text
 * is the input.
 */
module PostProcess {
  import opened Text

  /** No three newlines in a row. */
  predicate NoTriple(s: string) {
    forall i | 0 <= i < |s| - 2 :: !(s[i] == '\n' && s[i + 1] == '\n' && s[i + 2] == '\n')
  }

  /** Length of the newline run `s` starts with. */
  function RunLen(s: string): (n: nat)
    ensures n <= |s|
    ensures forall i | 0 <= i < n :: s[i] == '\n'
    ensures n < |s| ==> s[n] != '\n'
  {
    if s != [] && s[0] == '\n' then 1 + RunLen(s[1..]) else 0
  }

  /** `re.sub(r"\n{3,}", "\n\n", s)`: every maximal newline run of length three or more becomes two newlines. */
  function Collapse(s: string): (r: string)
    ensures s != [] && s[0] != '\n' ==> r != [] && r[0] == s[0]
    decreases |s|
  {
    if s == [] then []
    else if s[0] == '\n' then
      var n := RunLen(s);
      (if n >= 3 then "\n\n" else s[..n]) + Collapse(s[n..])
    else [s[0]] + Collapse(s[1..])
  }

  lemma NoTripleCons(c: char, t: string)
    requires NoTriple(t)
    requires !(c == '\n' && |t| >= 2 && t[0] == '\n' && t[1] == '\n')
    ensures NoTriple([c] + t)
  {
    var s := [c] + t;
    forall i | 1 <= i < |s| - 2
      ensures !(s[i] == '\n' && s[i + 1] == '\n' && s[i + 2] == '\n')
    {
      assert s[i] == t[i - 1] && s[i + 1] == t[i] && s[i + 2] == t[i + 1];
    }
  }

  /** A run of at most two newlines followed by text that does not start with a newline. */
  lemma NoTripleRun(run: string, t: string)
    requires |run| <= 2 && forall i | 0 <= i < |run| :: run[i] == '\n'
    requires NoTriple(t) && (t == [] || t[0] != '\n')
    ensures NoTriple(run + t)
  {
    if |run| == 0 {
      assert run + t == t;
    } else if |run| == 1 {
      assert run + t == [run[0]] + t;
      NoTripleCons(run[0], t);
    } else {
      NoTripleCons(run[1], t);
      assert run + t == [run[0]] + ([run[1]] + t);
      NoTripleCons(run[0], [run[1]] + t);
    }
  }

  /** After collapsing, no three newlines follow each other. */
  lemma {:induction false} CollapseNoTriple(s: string)
    ensures NoTriple(Collapse(s))
    decreases |s|
  {
    if s == [] {
    } else if s[0] == '\n' {
      var n := RunLen(s);
      var rest := s[n..];
      CollapseNoTriple(rest);
      var run := if n >= 3 then "\n\n" else s[..n];
      NoTripleRun(run, Collapse(rest));
    } else {
      CollapseNoTriple(s[1..]);
      NoTripleCons(s[0], Collapse(s[1..]));
    }
  }

  /** Collapsing deletes newlines only. */
  lemma {:induction false} CollapseKeepsNonBlank(s: string)
    ensures NoWs(Collapse(s)) == NoWs(s)
    decreases |s|
  {
    if s != [] {
      if s[0] == '\n' {
        CollapseKeepsNonBlank(s[RunLen(s)..]);
        CollapseRunStep(s);
      } else {
        CollapseKeepsNonBlank(s[1..]);
        CollapseCharStep(s);
      }
    }
  }

  lemma CollapseRunStep(s: string)
    requires s != [] && s[0] == '\n'
    requires NoWs(Collapse(s[RunLen(s)..])) == NoWs(s[RunLen(s)..])
    ensures NoWs(Collapse(s)) == NoWs(s)
  {
    var n := RunLen(s);
    NoWsRun(s, n, if n >= 3 then "\n\n" else s[..n], Collapse(s[n..]));
  }

  /** A newline run, shortened or not, in front of a text with the rest's non-blank characters. */
  lemma NoWsRun(s: string, n: nat, run: string, c: string)
    requires n <= |s| && forall i | 0 <= i < n :: s[i] == '\n'
    requires run == "\n\n" || run == s[..n]
    requires NoWs(c) == NoWs(s[n..])
    ensures NoWs(run + c) == NoWs(s)
  {
    NoWsAppend(run, c);
    NoWsAllSpace(run);
    NoWsAllSpace(s[..n]);
    assert s == s[..n] + s[n..];
    NoWsAppend(s[..n], s[n..]);
  }

  lemma CollapseCharStep(s: string)
    requires s != [] && s[0] != '\n'
    requires NoWs(Collapse(s[1..])) == NoWs(s[1..])
    ensures NoWs(Collapse(s)) == NoWs(s)
  {
    assert [s[0]] + s[1..] == s;
    NoWsAppend([s[0]], s[1..]);
    NoWsAppend([s[0]], Collapse(s[1..]));
  }

  /** A drop cap split from its word: a capital, a newline, a lower-case letter. */
  predicate DropCapAt(s: string) {
    |s| >= 3 && IsUpperAscii(s[0]) && s[1] == '\n' && IsLowerAscii(s[2])
  }

  /**
   * `re.sub(r"(?m)^([A-Z])\n([a-z])", r"\1\2", s)`: scanning left to right,
   * a match at a line start drops its newline; `lineStart` says whether the
   * scan position is at a line start of the original string.
   */
  function JoinDropCaps(s: string, lineStart: bool): (r: string)
    ensures s != [] ==> r != [] && r[0] == s[0]
    ensures |r| <= |s|
    decreases |s|
  {
    if s == [] then []
    else if lineStart && DropCapAt(s) then [s[0], s[2]] + JoinDropCaps(s[3..], false)
    else [s[0]] + JoinDropCaps(s[1..], s[0] == '\n')
  }

  /** A joined text starts with two newlines only if the original did. */
  lemma JoinStartsWithNewlines(s: string, lineStart: bool)
    requires |JoinDropCaps(s, lineStart)| >= 2
    requires JoinDropCaps(s, lineStart)[0] == '\n' && JoinDropCaps(s, lineStart)[1] == '\n'
    ensures |s| >= 2 && s[0] == '\n' && s[1] == '\n'
  {
  }

  lemma {:induction false} JoinNoTriple(s: string, lineStart: bool)
    requires NoTriple(s)
    ensures NoTriple(JoinDropCaps(s, lineStart))
    decreases |s|
  {
    if s == [] {
    } else if lineStart && DropCapAt(s) {
      var t := s[3..];
      assert NoTriple(t) by {
        forall i | 0 <= i < |t| - 2
          ensures !(t[i] == '\n' && t[i + 1] == '\n' && t[i + 2] == '\n')
        {
          assert t[i] == s[i + 3];
        }
      }
      JoinNoTriple(t, false);
      var j := JoinDropCaps(t, false);
      NoTripleCons(s[2], j);
      NoTripleCons(s[0], [s[2]] + j);
      assert [s[0], s[2]] + j == [s[0]] + ([s[2]] + j);
    } else {
      var t := s[1..];
      assert NoTriple(t) by {
        forall i | 0 <= i < |t| - 2
          ensures !(t[i] == '\n' && t[i + 1] == '\n' && t[i + 2] == '\n')
        {
          assert t[i] == s[i + 1];
        }
      }
      JoinNoTriple(t, s[0] == '\n');
      var j := JoinDropCaps(t, s[0] == '\n');
      if s[0] == '\n' && |j| >= 2 && j[0] == '\n' && j[1] == '\n' {
        JoinStartsWithNewlines(t, s[0] == '\n');
        assert false;
      }
      NoTripleCons(s[0], j);
    }
  }

  /** Joining deletes newlines only. */
  lemma {:induction false} JoinKeepsNonBlank(s: string, lineStart: bool)
    ensures NoWs(JoinDropCaps(s, lineStart)) == NoWs(s)
    decreases |s|
  {
    if s != [] {
      if lineStart && DropCapAt(s) {
        var j := JoinDropCaps(s[3..], false);
        var r := [s[0], s[2]] + j;
        JoinKeepsNonBlank(s[3..], false);
        assert r[1..] == [s[2]] + j && r[1..][1..] == j;
        assert s[1..][1..] == s[2..] && s[2..][1..] == s[3..];
        assert NoWs(s[2..]) == [s[2]] + NoWs(s[3..]);
        assert NoWs(s[1..]) == NoWs(s[2..]);
      } else {
        JoinKeepsNonBlank(s[1..], s[0] == '\n');
        assert s == [s[0]] + s[1..];
      }
    }
  }

  /** Whether position i of `s` is at a line start (`lineStart` tells for position 0). */
  predicate StartsLine(s: string, lineStart: bool, i: nat)
    requires i <= |s|
  {
    if i == 0 then lineStart else s[i - 1] == '\n'
  }

  /** No split drop cap begins at any line start of `s`. */
  predicate NoDropCap(s: string, lineStart: bool) {
    forall i | 0 <= i < |s| :: !(StartsLine(s, lineStart, i) && DropCapAt(s[i..]))
  }

  /** Without a split drop cap, joining changes nothing. */
  lemma {:induction false} JoinIdentity(s: string, lineStart: bool)
    requires NoDropCap(s, lineStart)
    ensures JoinDropCaps(s, lineStart) == s
    decreases |s|
  {
    if s != [] {
      assert !(StartsLine(s, lineStart, 0) && DropCapAt(s[0..]));
      assert s[0..] == s;
      var t := s[1..];
      forall i | 0 <= i < |t|
        ensures !(StartsLine(t, s[0] == '\n', i) && DropCapAt(t[i..]))
      {
        assert !(StartsLine(s, lineStart, i + 1) && DropCapAt(s[i + 1..]));
        assert t[i..] == s[i + 1..];
      }
      JoinIdentity(t, s[0] == '\n');
    }
  }

  /** A split drop cap at a line start makes the joined text shorter. */
  lemma {:induction false} JoinShortens(s: string, lineStart: bool, i: nat)
    requires i < |s| && StartsLine(s, lineStart, i) && DropCapAt(s[i..])
    ensures |JoinDropCaps(s, lineStart)| < |s|
    decreases |s|
  {
    if !(lineStart && DropCapAt(s)) && i > 0 {
      var t := s[1..];
      assert t[i - 1..] == s[i..];
      JoinShortens(t, s[0] == '\n', i - 1);
    }
  }

  /** Joining leaves the text unchanged exactly when no line starts with a split drop cap. */
  lemma JoinUnchangedIff(s: string, lineStart: bool)
    ensures JoinDropCaps(s, lineStart) == s <==> NoDropCap(s, lineStart)
  {
    if NoDropCap(s, lineStart) {
      JoinIdentity(s, lineStart);
    } else {
      var i :| 0 <= i < |s| && StartsLine(s, lineStart, i) && DropCapAt(s[i..]);
      JoinShortens(s, lineStart, i);
    }
  }

  /** The clean-up tail of `_html_to_text`. */
  function CleanText(raw: string): string {
    Strip(JoinDropCaps(Collapse(raw), true))
  }

  /** A slice of a text without triple newlines has none either. */
  lemma NoTripleSlice(s: string, a: nat, b: nat)
    requires a <= b <= |s| && NoTriple(s)
    ensures NoTriple(s[a..b])
  {
    var t := s[a..b];
    forall i | 0 <= i < |t| - 2
      ensures !(t[i] == '\n' && t[i + 1] == '\n' && t[i + 2] == '\n')
    {
      assert t[i] == s[a + i] && t[i + 1] == s[a + i + 1] && t[i + 2] == s[a + i + 2];
    }
  }

  /** The cleaned text has no run of three newlines. */
  lemma CleanTextNoTriple(raw: string)
    ensures NoTriple(CleanText(raw))
  {
    var c := Collapse(raw);
    var j := JoinDropCaps(c, true);
    CollapseNoTriple(raw);
    JoinNoTriple(c, true);
    var a, b := StripIsSlice(j);
    NoTripleSlice(j, a, b);
  }

  /** Cleaning deletes whitespace only: the non-blank characters are those of the soup's text. */
  lemma CleanTextKeepsNonBlank(raw: string)
    ensures NoWs(CleanText(raw)) == NoWs(raw)
  {
    var c := Collapse(raw);
    CollapseKeepsNonBlank(raw);
    JoinKeepsNonBlank(c, true);
    StripKeepsNonBlank(JoinDropCaps(c, true));
  }

  /** The drop-cap example: a capital on its own line is joined to the rest of its word. */
  lemma DropCapExample()
    ensures JoinDropCaps("T\nhe", true) == "The"
  {
    assert DropCapAt("T\nhe");
    assert "T\nhe"[3..] == "e";
  }
}

=== FILE: sections.dfy ===
/**
 * The (title, text) pairs every chapter detector in
 * narrator/core/epub_extractor.py produces, the book text the two
 * fallbacks scan, and the "keep the filled slots in order" step.
 */
module Sections {
  import opened Wrappers

  /** A detected (title, text) pair, before filtering. */
  datatype Section = Section(title: string, text: string)

  /** Every spine text followed by a blank line, as both fallbacks build `full_text`. */
  function FullText(texts: seq<string>): string {
    if texts == [] then [] else FullText(texts[..|texts| - 1]) + texts[|texts| - 1] + "\n\n"
  }

  /** The texts of a list of sections. */
  function Texts(ss: seq<Section>): (r: seq<string>)
    ensures |r| == |ss|
  {
    seq(|ss|, i requires 0 <= i < |ss| => ss[i].text)
  }

  /** `[c for c in slots if c is not None]`. */
  function Keep<T>(slots: seq<Option<T>>): (r: seq<T>)
    ensures |r| <= |slots|
  {
    if slots == [] then []
    else (if slots[0].Some? then [slots[0].value] else []) + Keep(slots[1..])
  }

  /** Keeping distributes over concatenation, so the kept values stay in slot order. */
  lemma {:induction false} KeepAppend<T>(a: seq<Option<T>>, b: seq<Option<T>>)
    ensures Keep(a + b) == Keep(a) + Keep(b)
  {
    if a == [] {
      assert a + b == b;
    } else {
      var h := if a[0].Some? then [a[0].value] else [];
      assert (a + b)[0] == a[0];
      assert (a + b)[1..] == a[1..] + b;
      assert Keep(a + b) == h + Keep(a[1..] + b);
      KeepAppend(a[1..], b);
      assert Keep(a) == h + Keep(a[1..]);
      assert h + (Keep(a[1..]) + Keep(b)) == (h + Keep(a[1..])) + Keep(b);
    }
  }

  /** A value is kept exactly when some slot holds it. */
  lemma {:induction false} KeepMembers<T>(slots: seq<Option<T>>, x: T)
    ensures x in Keep(slots) <==> Some(x) in slots
  {
    if slots != [] {
      KeepMembers(slots[1..], x);
      assert slots == [slots[0]] + slots[1..];
    }
  }

  /** Nothing is kept exactly when every slot is empty. */
  lemma {:induction false} KeepEmpty<T>(slots: seq<Option<T>>)
    ensures Keep(slots) == [] <==> forall i | 0 <= i < |slots| :: slots[i].None?
  {
    if slots != [] {
      KeepEmpty(slots[1..]);
      assert forall i | 1 <= i < |slots| :: slots[i] == slots[1..][i - 1];
    }
  }
}

=== FILE: text.dfy ===
/**
 * ASCII approximations of Python's string helpers: `strip`, `split`,
 * `join`, `lower`, `in`, `startswith`/`endswith`, `rfind`, decimal rendering
 * and code-point ordering. Strings are sequences of code points. Whitespace
 * is Python's full `str.isspace` set, but letters, digits, word characters
 * and case mapping cover the ASCII range only: `lower`, `upper` and the
 * letter tests leave every other character unchanged or unmatched.
 */
module Text {

  /** Python's `str.isspace` (the characters `strip()` and `split()` treat as whitespace). */
  predicate IsSpace(c: char) {
    || ('\t' <= c <= '\r')
    || ('\U{1C}' <= c <= ' ')
    || c == '\U{85}' || c == '\U{A0}' || c == '\U{1680}'
    || ('\U{2000}' <= c <= '\U{200A}')
    || c == '\U{2028}' || c == '\U{2029}' || c == '\U{202F}' || c == '\U{205F}' || c == '\U{3000}'
  }

  predicate IsUpperAscii(c: char) { 'A' <= c <= 'Z' }
  predicate IsLowerAscii(c: char) { 'a' <= c <= 'z' }
  predicate IsLetter(c: char) { IsUpperAscii(c) || IsLowerAscii(c) }
  predicate IsDigit(c: char) { '0' <= c <= '9' }

  /** The characters of a regular-expression `\w` token (ASCII letters, digits, underscore). */
  predicate IsWordChar(c: char) { IsLetter(c) || IsDigit(c) || c == '_' }

  function LowerChar(c: char): (r: char)
    ensures IsUpperAscii(c) ==> IsLowerAscii(r)
    ensures !IsUpperAscii(c) ==> r == c
  {
    if IsUpperAscii(c) then (c as int + 32) as char else c
  }

  function UpperChar(c: char): (r: char)
    ensures IsLowerAscii(c) ==> IsUpperAscii(r)
    ensures !IsLowerAscii(c) ==> r == c
  {
    if IsLowerAscii(c) then (c as int - 32) as char else c
  }

  /** `str.lower()` on the ASCII range. */
  function Lower(s: string): (r: string)
    ensures |r| == |s|
    ensures forall i :: 0 <= i < |s| ==> r[i] == LowerChar(s[i])
  {
    seq(|s|, i requires 0 <= i < |s| => LowerChar(s[i]))
  }

  lemma LowerAppend(a: string, b: string)
    ensures Lower(a + b) == Lower(a) + Lower(b)
  {
  }

  /** The string with every whitespace character deleted. */
  function NoWs(s: string): (r: string)
    ensures |r| <= |s|
  {
    if s == [] then []
    else if IsSpace(s[0]) then NoWs(s[1..])
    else [s[0]] + NoWs(s[1..])
  }

  lemma {:induction false} NoWsAppend(a: string, b: string)
    ensures NoWs(a + b) == NoWs(a) + NoWs(b)
  {
    if a == [] {
      assert a + b == b;
    } else {
      assert (a + b)[1..] == a[1..] + b;
      NoWsAppend(a[1..], b);
    }
  }

  lemma NoWsAllSpace(s: string)
    requires forall i :: 0 <= i < |s| ==> IsSpace(s[i])
    ensures NoWs(s) == []
  {
    if s != [] {
      NoWsAllSpace(s[1..]);
    }
  }

  /** Deleting whitespace leaves nothing exactly when the string is all whitespace. */
  lemma {:induction false} NoWsEmpty(s: string)
    ensures NoWs(s) == [] <==> forall i | 0 <= i < |s| :: IsSpace(s[i])
  {
    if s != [] {
      NoWsEmpty(s[1..]);
      assert forall i | 1 <= i < |s| :: s[i] == s[1..][i - 1];
    }
  }

  /** `str.lstrip()`: drops the leading whitespace and nothing else. */
  function TrimStart(s: string): (r: string)
    ensures |r| <= |s| && r == s[|s| - |r|..]
  {
    if s != [] && IsSpace(s[0]) then TrimStart(s[1..]) else s
  }

  lemma {:induction false} TrimStartFront(s: string)
    ensures TrimStart(s) == [] || !IsSpace(TrimStart(s)[0])
    decreases |s|
  {
    if s != [] && IsSpace(s[0]) {
      TrimStartFront(s[1..]);
    }
  }

  /** `str.rstrip()`: drops the trailing whitespace and nothing else. */
  function TrimEnd(s: string): (r: string)
    ensures |r| <= |s| && r == s[..|r|]
  {
    if s != [] && IsSpace(s[|s| - 1]) then TrimEnd(s[..|s| - 1]) else s
  }

  lemma {:induction false} TrimEndBack(s: string)
    ensures TrimEnd(s) == [] || !IsSpace(TrimEnd(s)[|TrimEnd(s)| - 1])
    decreases |s|
  {
    if s != [] && IsSpace(s[|s| - 1]) {
      TrimEndBack(s[..|s| - 1]);
    }
  }

  /** `str.strip()`. */
  function Strip(s: string): (r: string)
    ensures |r| <= |s|
  {
    TrimEnd(TrimStart(s))
  }

  /** A stripped string neither starts nor ends with whitespace. */
  lemma StripEnds(s: string)
    ensures var r := Strip(s); r == [] || (!IsSpace(r[0]) && !IsSpace(r[|r| - 1]))
  {
    var t := TrimStart(s);
    TrimStartFront(s);
    TrimEndBack(t);
    if TrimEnd(t) != [] {
      assert TrimEnd(t)[0] == t[0];
    }
  }

  lemma {:induction false} TrimStartKeepsNonBlank(s: string)
    ensures NoWs(TrimStart(s)) == NoWs(s)
    decreases |s|
  {
    if s != [] && IsSpace(s[0]) {
      TrimStartKeepsNonBlank(s[1..]);
    }
  }

  lemma {:induction false} TrimEndKeepsNonBlank(s: string)
    ensures NoWs(TrimEnd(s)) == NoWs(s)
    decreases |s|
  {
    if s != [] && IsSpace(s[|s| - 1]) {
      var t := s[..|s| - 1];
      TrimEndKeepsNonBlank(t);
      assert s == t + [s[|s| - 1]];
      NoWsAppend(t, [s[|s| - 1]]);
      assert NoWs([s[|s| - 1]]) == [];
    }
  }

  /** Stripping deletes only whitespace: the non-blank characters survive in order. */
  lemma StripKeepsNonBlank(s: string)
    ensures NoWs(Strip(s)) == NoWs(s)
  {
    TrimStartKeepsNonBlank(s);
    TrimEndKeepsNonBlank(TrimStart(s));
  }

  /** A string that neither starts nor ends with whitespace is its own strip. */
  lemma StripNoop(s: string)
    requires s == [] || (!IsSpace(s[0]) && !IsSpace(s[|s| - 1]))
    ensures Strip(s) == s
  {
  }

  /** The result of `strip()` is a contiguous piece of its input. */
  lemma StripIsSlice(s: string) returns (a: nat, b: nat)
    ensures a <= b <= |s| && Strip(s) == s[a..b]
  {
    var t := TrimStart(s);
    a := |s| - |t|;
    b := a + |TrimEnd(t)|;
    assert t == s[a..];
  }

  lemma StripIdempotent(s: string)
    ensures Strip(Strip(s)) == Strip(s)
  {
    var r := Strip(s);
    StripEnds(s);
    assert TrimStart(r) == r;
    assert TrimEnd(r) == r;
  }

  lemma Assoc<T>(a: seq<T>, b: seq<T>, c: seq<T>)
    ensures a + (b + c) == (a + b) + c
  {
  }

  /** Python's `"".join`: plain concatenation of the pieces. */
  function Concat(xs: seq<string>): (r: string)
  {
    if xs == [] then [] else xs[0] + Concat(xs[1..])
  }

  lemma {:induction false} ConcatAppend(xs: seq<string>, ys: seq<string>)
    ensures Concat(xs + ys) == Concat(xs) + Concat(ys)
  {
    if xs == [] {
      assert xs + ys == ys;
    } else {
      assert (xs + ys)[1..] == xs[1..] + ys;
      ConcatAppend(xs[1..], ys);
    }
  }

  lemma ConcatSingle(x: string)
    ensures Concat([x]) == x
  {
    assert Concat([x]) == x + Concat([]);
  }

  /** The pieces that are not blank once stripped, stripped, in order: `[p.strip() for p in ps if p.strip()]`. */
  function NonBlank(ps: seq<string>): (r: seq<string>)
  {
    if ps == [] then []
    else
      var p := Strip(ps[0]);
      (if p == [] then [] else [p]) + NonBlank(ps[1..])
  }

  /** Each kept piece is non-empty. */
  lemma {:induction false} NonBlankNonEmpty(ps: seq<string>)
    ensures forall i | 0 <= i < |NonBlank(ps)| :: NonBlank(ps)[i] != []
  {
    if ps != [] {
      NonBlankNonEmpty(ps[1..]);
      var rest := NonBlank(ps[1..]);
      var p := Strip(ps[0]);
      if p != [] {
        assert forall i | 1 <= i < |rest| + 1 :: ([p] + rest)[i] == rest[i - 1];
      } else {
        assert NonBlank(ps) == [] + rest;
      }
    }
  }

  /** Dropping blank pieces and stripping the others keeps every non-blank character. */
  lemma {:induction false} NonBlankKeepsText(ps: seq<string>)
    ensures NoWs(Concat(NonBlank(ps))) == NoWs(Concat(ps))
  {
    if ps != [] {
      NonBlankKeepsText(ps[1..]);
      var p := Strip(ps[0]);
      StripKeepsNonBlank(ps[0]);
      NoWsAppend(ps[0], Concat(ps[1..]));
      var head := if p == [] then [] else [p];
      ConcatAppend(head, NonBlank(ps[1..]));
      NoWsAppend(Concat(head), Concat(NonBlank(ps[1..])));
      if p != [] {
        ConcatSingle(p);
      }
    }
  }

  /** `sep.join(xs)`. */
  function Join(sep: string, xs: seq<string>): (r: string)
  {
    if xs == [] then []
    else if |xs| == 1 then xs[0]
    else xs[0] + sep + Join(sep, xs[1..])
  }

  lemma {:induction false} JoinSnoc(sep: string, xs: seq<string>, x: string)
    requires xs != []
    ensures Join(sep, xs + [x]) == Join(sep, xs) + sep + x
  {
    if |xs| == 1 {
      assert xs + [x] == [xs[0], x];
    } else {
      assert (xs + [x])[1..] == xs[1..] + [x];
      JoinSnoc(sep, xs[1..], x);
    }
  }

  /** Joining with a blank separator loses nothing but whitespace. */
  lemma {:induction false} NoWsJoin(sep: string, xs: seq<string>)
    requires NoWs(sep) == []
    ensures NoWs(Join(sep, xs)) == NoWs(Concat(xs))
  {
    if |xs| == 0 {
    } else if |xs| == 1 {
      assert xs[1..] == [];
      assert Concat(xs) == xs[0] + Concat(xs[1..]);
      assert Concat(xs) == xs[0];
    } else {
      NoWsJoin(sep, xs[1..]);
      NoWsAppend(xs[0] + sep, Join(sep, xs[1..]));
      NoWsAppend(xs[0], sep);
      NoWsAppend(xs[0], Concat(xs[1..]));
    }
  }

  predicate StartsWith(s: string, prefix: string) {
    |prefix| <= |s| && s[..|prefix|] == prefix
  }

  predicate EndsWith(s: string, suffix: string) {
    |suffix| <= |s| && s[|s| - |suffix|..] == suffix
  }

  /** Occurrence of `sub` at index `i` of `s`. */
  predicate OccursAt(s: string, sub: string, i: int) {
    0 <= i && i + |sub| <= |s| && s[i..i + |sub|] == sub
  }

  /** Python's `sub in s`. */
  predicate Contains(s: string, sub: string) {
    exists i | 0 <= i <= |s| - |sub| :: OccursAt(s, sub, i)
  }

  lemma OccursShift(s: string, sub: string, i: int)
    requires |s| >= 1 && i >= 0
    ensures OccursAt(s[1..], sub, i) <==> OccursAt(s, sub, i + 1)
  {
    if 0 <= i && i + |sub| <= |s| - 1 {
      assert s[1..][i..i + |sub|] == s[i + 1..i + 1 + |sub|];
    }
  }

  lemma OccursInPrefix(s: string, sub: string, n: nat, i: int)
    requires n <= |s|
    ensures OccursAt(s[..n], sub, i) <==> (OccursAt(s, sub, i) && i + |sub| <= n)
  {
    if 0 <= i && i + |sub| <= n {
      assert s[..n][i..i + |sub|] == s[i..i + |sub|];
    }
  }

  lemma FindStep(s: string, sub: string, k: int)
    requires sub != [] && |s| >= |sub| && s[..|sub|] != sub
    requires k == -1 || 0 <= k <= |s| - 1 - |sub|
    requires k == -1 ==> forall i :: !OccursAt(s[1..], sub, i)
    requires k >= 0 ==> OccursAt(s[1..], sub, k) && forall i :: 0 <= i < k ==> !OccursAt(s[1..], sub, i)
    ensures k == -1 ==> forall i :: !OccursAt(s, sub, i)
    ensures k >= 0 ==> OccursAt(s, sub, k + 1) && forall i :: 0 <= i < k + 1 ==> !OccursAt(s, sub, i)
  {
    assert !OccursAt(s, sub, 0) by {
      assert s[0..|sub|] == s[..|sub|];
    }
    forall i | i >= 1
      ensures OccursAt(s, sub, i) <==> OccursAt(s[1..], sub, i - 1)
    {
      OccursShift(s, sub, i - 1);
    }
  }

  /** `s.find(sub)`: the first occurrence of a non-empty `sub`, or -1. */
  function Find(s: string, sub: string): (r: int)
    requires sub != []
    ensures r == -1 || 0 <= r <= |s| - |sub|
    ensures r == -1 ==> forall i :: !OccursAt(s, sub, i)
    ensures r >= 0 ==> OccursAt(s, sub, r) && forall i :: 0 <= i < r ==> !OccursAt(s, sub, i)
  {
    if |s| < |sub| then -1
    else if s[..|sub|] == sub then
      assert s[0..|sub|] == s[..|sub|];
      0
    else
      var k := Find(s[1..], sub);
      FindStep(s, sub, k);
      if k == -1 then -1 else k + 1
  }

  lemma RFindStep(s: string, t: string, sub: string, k: int)
    requires sub != [] && |s| >= |sub| && s[|s| - |sub|..] != sub
    requires t == s[..|s| - 1]
    requires k == -1 || 0 <= k <= |s| - 1 - |sub|
    requires k == -1 ==> forall i :: !OccursAt(t, sub, i)
    requires k >= 0 ==> OccursAt(t, sub, k) && forall i :: k < i ==> !OccursAt(t, sub, i)
    ensures k == -1 ==> forall i :: !OccursAt(s, sub, i)
    ensures k >= 0 ==> OccursAt(s, sub, k) && forall i :: k < i ==> !OccursAt(s, sub, i)
  {
    assert !OccursAt(s, sub, |s| - |sub|) by {
      assert s[|s| - |sub|..|s|] == s[|s| - |sub|..];
    }
    forall i
      ensures OccursAt(s, sub, i) <==> OccursAt(s[..|s| - 1], sub, i)
    {
      OccursInPrefix(s, sub, |s| - 1, i);
    }
  }

  /** `s.rfind(sub)`: the last occurrence of a non-empty `sub`, or -1. */
  function RFind(s: string, sub: string): (r: int)
    requires sub != []
    ensures r == -1 || 0 <= r <= |s| - |sub|
    ensures r == -1 ==> forall i :: !OccursAt(s, sub, i)
    ensures r >= 0 ==> OccursAt(s, sub, r) && forall i :: r < i ==> !OccursAt(s, sub, i)
  {
    if |s| < |sub| then -1
    else if s[|s| - |sub|..] == sub then
      assert s[|s| - |sub|..|s|] == s[|s| - |sub|..];
      |s| - |sub|
    else
      var k := RFind(s[..|s| - 1], sub);
      RFindStep(s, s[..|s| - 1], sub, k);
      k
  }

  /** `s.split(sep)` for a non-empty separator: the pieces between non-overlapping occurrences, left to right. */
  function Split(s: string, sep: string): (r: seq<string>)
    requires sep != []
    ensures |r| >= 1
    decreases |s|
  {
    var i := Find(s, sep);
    if i < 0 then [s] else [s[..i]] + Split(s[i + |sep|..], sep)
  }

  lemma SplitUnfold(s: string, sep: string, i: int)
    requires sep != [] && i == Find(s, sep) && i >= 0
    ensures Split(s, sep) == [s[..i]] + Split(s[i + |sep|..], sep)
  {
  }

  lemma JoinCons(sep: string, x: string, xs: seq<string>)
    requires xs != []
    ensures Join(sep, [x] + xs) == x + sep + Join(sep, xs)
  {
    assert ([x] + xs)[1..] == xs;
  }

  /** Splitting and re-joining with the same separator gives back the original string. */
  lemma {:induction false} JoinSplit(s: string, sep: string)
    requires sep != []
    ensures Join(sep, Split(s, sep)) == s
    decreases |s|
  {
    var i := Find(s, sep);
    if i >= 0 {
      var head := s[..i];
      var rest := s[i + |sep|..];
      assert s == head + sep + rest by {
        assert OccursAt(s, sep, i);
        assert s == s[..i] + s[i..i + |sep|] + s[i + |sep|..];
      }
      JoinSplit(rest, sep);
      SplitUnfold(s, sep, i);
      JoinCons(sep, head, Split(rest, sep));
    } else {
      assert Split(s, sep) == [s];
    }
  }

  /** The line separator. */
  const Newline: string := "\n"

  /** A string that fits on one line. */
  predicate OneLine(s: string) {
    '\n' !in s
  }

  /** The first occurrence of a one-character separator is right after a piece without it. */
  lemma FindAfterPiece(x: string, c: char, rest: string)
    requires c !in x
    ensures Find(x + [c] + rest, [c]) == |x|
  {
    var s := x + [c] + rest;
    assert OccursAt(s, [c], |x|) by {
      assert s[|x|..|x| + 1] == [c];
    }
    forall i | 0 <= i < |x|
      ensures !OccursAt(s, [c], i)
    {
      assert s[i..i + 1] == [x[i]];
    }
  }

  /** A one-character separator found in no piece splits the joined string back into its pieces. */
  lemma {:induction false} SplitJoin(xs: seq<string>, c: char)
    requires xs != []
    requires forall i | 0 <= i < |xs| :: c !in xs[i]
    ensures Split(Join([c], xs), [c]) == xs
    decreases |xs|
  {
    var x := xs[0];
    if |xs| == 1 {
      forall i | 0 <= i <= |x| - 1
        ensures !OccursAt(x, [c], i)
      {
        assert x[i..i + 1] == [x[i]];
      }
    } else {
      var rest := Join([c], xs[1..]);
      var s := Join([c], xs);
      assert s == x + [c] + rest;
      FindAfterPiece(x, c, rest);
      SplitUnfold(s, [c], |x|);
      assert s[..|x|] == x && s[|x| + 1..] == rest;
      SplitJoin(xs[1..], c);
    }
  }

  /** Joining a piece that holds the separator is joining the two pieces around it. */
  lemma {:induction false} JoinSplitPiece(sep: string, a: seq<string>, u: string, v: string, b: seq<string>)
    ensures Join(sep, a + [u + sep + v] + b) == Join(sep, a + [u, v] + b)
    decreases |a|
  {
    if a == [] {
      assert a + [u + sep + v] + b == [u + sep + v] + b;
      assert a + [u, v] + b == [u] + ([v] + b);
      if b != [] {
        JoinCons(sep, u + sep + v, b);
        JoinCons(sep, v, b);
      } else {
        assert [u, v] == [u] + [v];
      }
      JoinCons(sep, u, [v] + b);
    } else {
      JoinSplitPiece(sep, a[1..], u, v, b);
      assert a + [u + sep + v] + b == [a[0]] + (a[1..] + [u + sep + v] + b);
      assert a + [u, v] + b == [a[0]] + (a[1..] + [u, v] + b);
      JoinCons(sep, a[0], a[1..] + [u + sep + v] + b);
      JoinCons(sep, a[0], a[1..] + [u, v] + b);
    }
  }

  /**
   * The last piece of `s.split(sep)` (Python's `s.split(sep)[-1]`): past
   * each first occurrence, the last piece of what follows.
   */
  function LastPiece(s: string, sep: string): (r: string)
    requires sep != []
    decreases |s|
  {
    var i := Find(s, sep);
    if i < 0 then s else LastPiece(s[i + |sep|..], sep)
  }

  /** The recursive definition agrees with the last element of the split. */
  lemma {:induction false} LastPieceOfSplit(s: string, sep: string)
    requires sep != []
    ensures var parts := Split(s, sep); LastPiece(s, sep) == parts[|parts| - 1]
    decreases |s|
  {
    var i := Find(s, sep);
    if i >= 0 {
      var rest := s[i + |sep|..];
      SplitUnfold(s, sep, i);
      LastOfCons(Split(s, sep), s[..i], Split(rest, sep));
      LastPieceOfSplit(rest, sep);
    }
  }

  lemma LastOfCons<T>(parts: seq<T>, x: T, p: seq<T>)
    requires p != [] && parts == [x] + p
    ensures parts[|parts| - 1] == p[|p| - 1]
  {
  }

  /** A suffix of a suffix is a suffix. */
  lemma SuffixOfSuffix(s: string, k: nat, x: string)
    requires k <= |s| && EndsWith(s[k..], x)
    ensures EndsWith(s, x)
  {
    assert s[|s| - |x|..] == s[k..][|s[k..]| - |x|..];
  }

  /** The last piece holds no separator and is a suffix of the string. */
  lemma LastPieceSpec(s: string, sep: string)
    requires sep != []
    ensures !Contains(LastPiece(s, sep), sep)
    ensures EndsWith(s, LastPiece(s, sep))
  {
    LastPieceClean(s, sep);
    LastPieceSuffix(s, sep);
  }

  lemma {:induction false} LastPieceClean(s: string, sep: string)
    requires sep != []
    ensures !Contains(LastPiece(s, sep), sep)
    decreases |s|
  {
    var i := Find(s, sep);
    if i < 0 {
      assert LastPiece(s, sep) == s;
      assert forall k :: !OccursAt(s, sep, k);
    } else {
      LastPieceClean(s[i + |sep|..], sep);
    }
  }

  lemma {:induction false} LastPieceSuffix(s: string, sep: string)
    requires sep != []
    ensures EndsWith(s, LastPiece(s, sep))
    decreases |s|
  {
    var i := Find(s, sep);
    if i >= 0 {
      LastPieceSuffix(s[i + |sep|..], sep);
      SuffixOfSuffix(s, i + |sep|, LastPiece(s, sep));
    }
  }

  function DigitChar(d: nat): (c: char)
    requires d < 10
    ensures IsDigit(c) && DigitValue(c) == d
  {
    ('0' as int + d) as char
  }

  /** Decimal rendering of a natural number, as Python's `str(n)` / f-string. */
  function NatToString(n: nat): (r: string)
    ensures r != []
    ensures forall i :: 0 <= i < |r| ==> IsDigit(r[i])
    decreases n
  {
    if n < 10 then [DigitChar(n)] else NatToString(n / 10) + [DigitChar(n % 10)]
  }

  /** Decimal parsing of a string of digits (`int(s)`). */
  function DigitValue(c: char): (d: nat)
    requires IsDigit(c)
    ensures d < 10
  {
    c as int - '0' as int
  }

  function ParseNat(s: string): (n: nat)
    requires forall i :: 0 <= i < |s| ==> IsDigit(s[i])
  {
    if s == [] then 0 else 10 * ParseNat(s[..|s| - 1]) + DigitValue(s[|s| - 1])
  }

  /** Rendering a number in decimal and reading it back yields the same number. */
  lemma {:induction false} ParseNatToString(n: nat)
    ensures ParseNat(NatToString(n)) == n
    decreases n
  {
    if n >= 10 {
      ParseNatToString(n / 10);
      var s := NatToString(n);
      assert s[..|s| - 1] == NatToString(n / 10);
    }
  }

  /** Python's string ordering `a <= b`: lexicographic on code points. */
  predicate LexLe(a: string, b: string)
    decreases |a|
  {
    if a == [] then true
    else if b == [] then false
    else if a[0] != b[0] then a[0] < b[0]
    else LexLe(a[1..], b[1..])
  }

  lemma {:induction false} LexLeTotal(a: string, b: string)
    ensures LexLe(a, b) || LexLe(b, a)
    decreases |a|
  {
    if a != [] && b != [] && a[0] == b[0] {
      LexLeTotal(a[1..], b[1..]);
    }
  }

  lemma {:induction false} LexLeTransitive(a: string, b: string, c: string)
    requires LexLe(a, b) && LexLe(b, c)
    ensures LexLe(a, c)
    decreases |a|
  {
    if a != [] && b != [] && c != [] && a[0] == b[0] && b[0] == c[0] {
      LexLeTransitive(a[1..], b[1..], c[1..]);
    }
  }

  lemma {:induction false} LexLeAntisymmetric(a: string, b: string)
    requires LexLe(a, b) && LexLe(b, a)
    ensures a == b
    decreases |a|
  {
    if a != [] && b != [] {
      LexLeAntisymmetric(a[1..], b[1..]);
      assert a == [a[0]] + a[1..];
      assert b == [b[0]] + b[1..];
    }
  }

  /** Number of whitespace-separated words, Python's `len(s.split())`. */
  function WordCount(s: string): nat
  {
    if s == [] then 0
    else WordCount(s[..|s| - 1]) + (if !IsSpace(s[|s| - 1]) && (|s| == 1 || IsSpace(s[|s| - 2])) then 1 else 0)
  }

  /** A string with a word has a non-whitespace character. */
  lemma {:induction false} WordHasChar(s: string)
    requires WordCount(s) > 0
    ensures exists i | 0 <= i < |s| :: !IsSpace(s[i])
  {
    var n := |s| - 1;
    if IsSpace(s[n]) || (n > 0 && !IsSpace(s[n - 1])) {
      if n == 0 || !IsSpace(s[n]) {
      } else {
        WordHasChar(s[..n]);
        var i :| 0 <= i < n && !IsSpace(s[..n][i]);
        assert s[i] == s[..n][i];
      }
    }
  }
}

=== FILE: toc.dfy ===
/**
 * Table-of-contents detection from narrator/core/epub_extractor.py:
 * `_flatten_toc` and the href keying and ordering of
 * `_detect_chapters_toc`. The spine item's soup text and the DOM walk
 * between anchors are inputs.
 */
module Toc {
  import opened Text
  import opened Wrappers
  import opened Sections
  import PostProcess

  /** A navigation entry that has both a title and an href. */
  datatype TocLink = TocLink(title: string, href: string)

  /**
   * An element of `book.toc`: a plain entry, or a (section, children) pair.
   * `None` stands for an object lacking a title or an href.
   */
  datatype TocNode =
    | Leaf(link: Option<TocLink>)
    | Group(section: Option<TocLink>, children: seq<TocNode>)

  function Own(l: Option<TocLink>): seq<TocLink> {
    if l.Some? then [l.value] else []
  }

  /** `_flatten_toc`: the links in pre-order, a section before its children. */
  function Flatten(nodes: seq<TocNode>): (r: seq<TocLink>)
    decreases nodes
  {
    if nodes == [] then []
    else
      (match nodes[0]
       case Leaf(l) => Own(l)
       case Group(s, kids) => Own(s) + Flatten(kids)) + Flatten(nodes[1..])
  }

  /** Number of nodes in the forest, the measure of the iterative walk. */
  function Size(nodes: seq<TocNode>): nat
    decreases nodes
  {
    if nodes == [] then 0
    else
      (match nodes[0]
       case Leaf(_) => 1
       case Group(_, kids) => 1 + Size(kids)) + Size(nodes[1..])
  }

  /** Siblings are flattened in order. */
  lemma {:induction false} FlattenAppend(a: seq<TocNode>, b: seq<TocNode>)
    ensures Flatten(a + b) == Flatten(a) + Flatten(b)
    ensures Size(a + b) == Size(a) + Size(b)
  {
    if a == [] {
      assert a + b == b;
    } else {
      assert (a + b)[0] == a[0] && (a + b)[1..] == a[1..] + b;
      FlattenAppend(a[1..], b);
    }
  }

  /** A section comes before all of its children. */
  lemma FlattenGroup(s: TocLink, kids: seq<TocNode>)
    ensures Flatten([Group(Some(s), kids)]) == [s] + Flatten(kids)
  {
    assert [Group(Some(s), kids)][1..] == [];
  }

  /** A node without title or href contributes only its children. */
  lemma FlattenUntitled(kids: seq<TocNode>)
    ensures Flatten([Leaf(None)]) == []
    ensures Flatten([Group(None, kids)]) == Flatten(kids)
  {
    assert [Leaf(None)][1..] == [];
    assert [Group(None, kids)][1..] == [];
  }

  /** The pre-order walk with an explicit work list; it yields `_flatten_toc`'s order. */
  method Walk(toc: seq<TocNode>) returns (entries: seq<TocLink>)
    ensures entries == Flatten(toc)
  {
    var todo := toc;
    entries := [];
    while todo != []
      invariant entries + Flatten(todo) == Flatten(toc)
      decreases Size(todo)
    {
      var n, rest := todo[0], todo[1..];
      assert todo == [n] + rest;
      WalkStep(n, rest);
      Assoc(entries, Own(Head(n)), Flatten(Kids(n) + rest));
      entries := entries + Own(Head(n));
      todo := Kids(n) + rest;
    }
  }

  /** The node's own entry, with or without title and href. */
  function Head(n: TocNode): Option<TocLink> {
    if n.Leaf? then n.link else n.section
  }

  /** The node's children; a plain entry has none. */
  function Kids(n: TocNode): seq<TocNode> {
    if n.Group? then n.children else []
  }

  /** One step of the walk: the node's own link, then its children ahead of its siblings. */
  lemma WalkStep(n: TocNode, rest: seq<TocNode>)
    ensures Flatten([n] + rest) == Own(Head(n)) + Flatten(Kids(n) + rest)
    ensures Size(Kids(n) + rest) < Size([n] + rest)
  {
    FlattenAppend([n], rest);
    FlattenAppend(Kids(n), rest);
    FlattenSingle(n);
    Assoc(Own(Head(n)), Flatten(Kids(n)), Flatten(rest));
  }

  /** A lone node flattens to its own link followed by its children's links. */
  lemma FlattenSingle(n: TocNode)
    ensures Flatten([n]) == Own(Head(n)) + Flatten(Kids(n))
    ensures Size([n]) == 1 + Size(Kids(n))
  {
    assert [n][1..] == [];
    if n.Leaf? {
      assert Flatten(Kids(n)) == [];
    }
  }

  /** A spine document: its file name and the text its soup yields. */
  datatype SpineItem = SpineItem(name: string, soupText: string)

  /** The last path component of a name, `name.split("/")[-1]`. */
  function Basename(name: string): string {
    LastPiece(name, "/")
  }

  /** The file an href points into: the last path component before the first "#". */
  function BaseHref(href: string): string {
    Basename(Split(href, "#")[0])
  }

  /** The piece after the first "#", when the href has one. */
  function Fragment(href: string): (r: Option<string>)
    ensures r.Some? <==> Contains(href, "#")
  {
    if Find(href, "#") < 0 then None
    else
      SplitUnfold(href, "#", Find(href, "#"));
      Some(Split(href, "#")[1])
  }

  /** The keying is on the last path component only: it holds no "/". */
  lemma BaseHrefIsComponent(href: string)
    ensures !Contains(BaseHref(href), "/")
  {
    LastPieceSpec(Split(href, "#")[0], "/");
  }

  /** Does spine item `it` answer to key `k` in the item map? */
  predicate Answers(it: SpineItem, k: string) {
    it.name == k || Basename(it.name) == k
  }

  /**
   * The item map's entry for key `k`: every item is stored under its full
   * name and its basename, so the last item answering to `k` wins.
   */
  function Lookup(spine: seq<SpineItem>, k: string): (r: Option<SpineItem>)
    ensures r.Some? ==> r.value in spine && Answers(r.value, k)
    ensures r.None? ==> forall i | 0 <= i < |spine| :: !Answers(spine[i], k)
  {
    if spine == [] then None
    else if Answers(spine[|spine| - 1], k) then Some(spine[|spine| - 1])
    else Lookup(spine[..|spine| - 1], k)
  }

  /** Builds the item map as the loop over the spine does. */
  method ItemMap(spine: seq<SpineItem>) returns (m: map<string, SpineItem>)
    ensures forall k :: Lookup(spine, k) == (if k in m then Some(m[k]) else None)
  {
    m := map[];
    var i := 0;
    while i < |spine|
      invariant 0 <= i <= |spine|
      invariant forall k :: Lookup(spine[..i], k) == (if k in m then Some(m[k]) else None)
    {
      var it := spine[i];
      m := m[it.name := it][Basename(it.name) := it];
      assert spine[..i + 1][..i] == spine[..i];
      i := i + 1;
    }
    assert spine[..i] == spine;
  }

  /** A flattened entry as the grouping loop sees it: title, file key and fragment. */
  datatype Ref = Ref(title: string, file: string, fragment: Option<string>)

  function ParseRef(l: TocLink): Ref {
    Ref(l.title, BaseHref(l.href), Fragment(l.href))
  }

  function Refs(entries: seq<TocLink>): (r: seq<Ref>)
    ensures |r| == |entries|
    ensures forall i | 0 <= i < |entries| :: r[i] == ParseRef(entries[i])
  {
    seq(|entries|, i requires 0 <= i < |entries| => ParseRef(entries[i]))
  }

  /** The file key of every entry. */
  function Files(refs: seq<Ref>): (r: seq<string>)
    ensures |r| == |refs|
    ensures forall i | 0 <= i < |refs| :: r[i] == refs[i].file
  {
    seq(|refs|, i requires 0 <= i < |refs| => refs[i].file)
  }

  /** Indices of the entries keyed `b`, in order: the group `entries_by_file[b]`. */
  function GroupOf(keys: seq<string>, b: string): (r: seq<nat>)
    ensures forall k | 0 <= k < |r| :: r[k] < |keys| && keys[r[k]] == b
  {
    if keys == [] then []
    else
      var n := |keys| - 1;
      var front := GroupOf(keys[..n], b);
      assert forall k | 0 <= k < |front| :: keys[front[k]] == keys[..n][front[k]];
      front + (if keys[n] == b then [n] else [])
  }

  lemma GroupOfSnoc(keys: seq<string>, i: nat, b: string)
    requires i < |keys|
    ensures GroupOf(keys[..i + 1], b) == GroupOf(keys[..i], b) + (if keys[i] == b then [i] else [])
  {
    assert keys[..i + 1][..i] == keys[..i];
  }

  /** Every entry belongs to the group of its own key. */
  lemma {:induction false} InOwnGroup(keys: seq<string>, j: nat)
    requires j < |keys|
    ensures j in GroupOf(keys, keys[j])
  {
    var n := |keys| - 1;
    if j < n {
      assert keys[..n][j] == keys[j];
      InOwnGroup(keys[..n], j);
    }
  }

  /** `any(f is not None ...)` over a group. */
  predicate HasFragment(refs: seq<Ref>, group: seq<nat>) {
    exists k | 0 <= k < |group| :: group[k] < |refs| && refs[group[k]].fragment.Some?
  }

  /**
   * The walk from an anchor element to the next anchor found in the same
   * file: `None` when no element carries the entry's fragment id, otherwise
   * the joined text before the newline collapse. Arguments are the file
   * key and the entry's index.
   */
  type AnchorWalk = (string, nat) -> Option<string>

  /** `_html_to_text` of a spine item. */
  function WholeText(it: SpineItem): string {
    PostProcess.CleanText(it.soupText)
  }

  /**
   * The text entry `i` receives once its file is found: the whole file
   * when its group has no fragment or only one entry; otherwise the walk
   * from its anchor, or the whole file when it has no usable anchor.
   */
  function EntryText(refs: seq<Ref>, i: nat, it: SpineItem, anchor: AnchorWalk): string
    requires i < |refs|
  {
    var group := GroupOf(Files(refs), refs[i].file);
    if !HasFragment(refs, group) || |group| == 1 then WholeText(it)
    else if refs[i].fragment.None? || refs[i].fragment.value == [] then WholeText(it)
    else
      match anchor(refs[i].file, i)
      case None => WholeText(it)
      case Some(raw) => Strip(PostProcess.Collapse(raw))
  }

  /** What a found file stores in slot `i`: nothing when its text is empty. */
  function Filled(refs: seq<Ref>, i: nat, it: SpineItem, anchor: AnchorWalk): Option<Section>
    requires i < |refs|
  {
    var text := EntryText(refs, i, it, anchor);
    if text == [] then None else Some(Section(refs[i].title, text))
  }

  /** The slot `chapters[i]` after assembly. */
  function Slot(refs: seq<Ref>, i: nat, spine: seq<SpineItem>, anchor: AnchorWalk): Option<Section>
    requires i < |refs|
  {
    match Lookup(spine, refs[i].file)
    case None => None
    case Some(it) => Filled(refs, i, it, anchor)
  }

  function Slots(refs: seq<Ref>, spine: seq<SpineItem>, anchor: AnchorWalk): (r: seq<Option<Section>>)
    ensures |r| == |refs|
  {
    seq(|refs|, i requires 0 <= i < |refs| => Slot(refs, i, spine, anchor))
  }

  /** `_detect_chapters_toc`: the filled slots in table-of-contents order. */
  function TocSections(toc: seq<TocNode>, spine: seq<SpineItem>, anchor: AnchorWalk): seq<Section> {
    Keep(Slots(Refs(Flatten(toc)), spine, anchor))
  }

  /**
   * A section comes out exactly for an entry whose file is in the spine
   * and whose text is non-empty; it carries that entry's title.
   */
  lemma SectionMembers(refs: seq<Ref>, spine: seq<SpineItem>, anchor: AnchorWalk, c: Section)
    ensures c in Keep(Slots(refs, spine, anchor)) <==> exists i | 0 <= i < |refs| :: Slot(refs, i, spine, anchor) == Some(c)
  {
    var slots := Slots(refs, spine, anchor);
    KeepMembers(slots, c);
    if i :| 0 <= i < |refs| && Slot(refs, i, spine, anchor) == Some(c) {
      assert slots[i] == Some(c);
    }
  }

  /** An entry whose file is not in the spine, or whose text is empty, yields nothing; a kept one keeps its title. */
  lemma TocDropped(refs: seq<Ref>, i: nat, spine: seq<SpineItem>, anchor: AnchorWalk)
    requires i < |refs|
    ensures Slot(refs, i, spine, anchor).Some? <==>
      Lookup(spine, refs[i].file).Some? && EntryText(refs, i, Lookup(spine, refs[i].file).value, anchor) != []
    ensures Slot(refs, i, spine, anchor).Some? ==> Slot(refs, i, spine, anchor).value.title == refs[i].title
  {
  }

  /** `entries_by_file`: the groups, and the keys in order of first appearance. */
  method GroupEntries(keys: seq<string>) returns (order: seq<string>, groups: map<string, seq<nat>>)
    ensures forall b :: GroupOf(keys, b) == (if b in groups then groups[b] else [])
    ensures forall b :: b in groups <==> b in order
    ensures FirstsBelow(order, groups, |keys|)
  {
    order := [];
    groups := map[];
    var i := 0;
    while i < |keys|
      invariant 0 <= i <= |keys|
      invariant forall b :: GroupOf(keys[..i], b) == (if b in groups then groups[b] else [])
      invariant forall b :: b in groups <==> b in order
      invariant FirstsBelow(order, groups, i)
    {
      var b := keys[i];
      ghost var order0, groups0 := order, groups;
      if b !in groups {
        groups := groups[b := [i]];
        order := order + [b];
      } else {
        groups := groups[b := groups[b] + [i]];
      }
      FirstsKept(order0, groups0, order, groups, b, i);
      GroupsGrow(keys, i, groups0, groups);
      i := i + 1;
    }
    assert keys[..i] == keys;
  }

  /** Filing entry `i` under its key extends the groups of `keys[..i]` to those of `keys[..i + 1]`. */
  lemma GroupsGrow(keys: seq<string>, i: nat, before: map<string, seq<nat>>, groups: map<string, seq<nat>>)
    requires i < |keys|
    requires forall x :: GroupOf(keys[..i], x) == (if x in before then before[x] else [])
    requires keys[i] in before ==> groups == before[keys[i] := before[keys[i]] + [i]]
    requires keys[i] !in before ==> groups == before[keys[i] := [i]]
    ensures forall x :: GroupOf(keys[..i + 1], x) == (if x in groups then groups[x] else [])
  {
    forall x
      ensures GroupOf(keys[..i + 1], x) == (if x in groups then groups[x] else [])
    {
      GroupOfSnoc(keys, i, x);
      assert GroupOf(keys[..i], x) == (if x in before then before[x] else []);
    }
  }

  /** Firsts of the groups, taken in `order`, ascending and all below `i`. */
  predicate FirstsBelow(order: seq<string>, groups: map<string, seq<nat>>, i: nat) {
    && (forall x | x in groups :: groups[x] != [] && groups[x][0] < i)
    && (forall a, c | 0 <= a < c < |order| && order[a] in groups && order[c] in groups ::
          groups[order[a]][0] < groups[order[c]][0])
  }

  /** Adding entry `i` under key `b` keeps the groups' first entries ascending in visiting order. */
  lemma FirstsKept(order0: seq<string>, groups0: map<string, seq<nat>>,
                   order: seq<string>, groups: map<string, seq<nat>>, b: string, i: nat)
    requires FirstsBelow(order0, groups0, i)
    requires forall x :: x in groups0 <==> x in order0
    requires b in groups0 ==> order == order0 && groups == groups0[b := groups0[b] + [i]]
    requires b !in groups0 ==> order == order0 + [b] && groups == groups0[b := [i]]
    ensures FirstsBelow(order, groups, i + 1)
  {
    if b !in groups0 {
      forall a, c | 0 <= a < c < |order| && order[a] in groups && order[c] in groups
        ensures groups[order[a]][0] < groups[order[c]][0]
      {
        if c < |order0| {
          assert order[a] == order0[a] && order[c] == order0[c];
          assert order0[a] in groups0 && order0[c] in groups0;
        } else {
          assert order[a] == order0[a] && order0[a] in groups0;
        }
      }
    }
  }

  /** Stores `value(j)` in the slot of every member of key `b`'s group, leaving the others alone. */
  method FillGroup<V>(keys: seq<string>, ghost b: string, members: seq<nat>, value: nat -> V, slots: seq<V>)
    returns (out: seq<V>)
    requires |slots| == |keys|
    requires members == GroupOf(keys, b)
    ensures |out| == |keys|
    ensures forall j | 0 <= j < |keys| :: out[j] == (if keys[j] == b then value(j) else slots[j])
  {
    out := slots;
    var m := 0;
    while m < |members|
      invariant 0 <= m <= |members|
      invariant |out| == |keys|
      invariant forall j | 0 <= j < |keys| :: out[j] == (if j in members[..m] then value(j) else slots[j])
    {
      var idx := members[m];
      out := out[idx := value(idx)];
      assert members[..m + 1] == members[..m] + [idx];
      m := m + 1;
    }
    assert members[..m] == members;
    forall j | 0 <= j < |keys| && keys[j] == b
      ensures j in members
    {
      InOwnGroup(keys, j);
    }
  }

  /**
   * Group the entries by key in order of first appearance, then fill the
   * slots group by group, skipping keys that are not `found`. Filling by
   * group leaves every slot where its entry stands.
   */
  method FillByGroups<V>(keys: seq<string>, found: string -> bool, value: nat -> V, empty: V) returns (slots: seq<V>)
    ensures |slots| == |keys|
    ensures forall j | 0 <= j < |keys| :: slots[j] == (if found(keys[j]) then value(j) else empty)
  {
    var order, groups := GroupEntries(keys);
    slots := FillInOrder(keys, order, groups, found, value, empty);
  }

  /** The loop over the groups, given only what it needs of the grouping. */
  method FillInOrder<V>(keys: seq<string>, order: seq<string>, groups: map<string, seq<nat>>,
                        found: string -> bool, value: nat -> V, empty: V) returns (slots: seq<V>)
    requires forall b :: GroupOf(keys, b) == (if b in groups then groups[b] else [])
    requires forall b :: b in groups <==> b in order
    ensures |slots| == |keys|
    ensures forall j | 0 <= j < |keys| :: slots[j] == (if found(keys[j]) then value(j) else empty)
  {
    slots := seq(|keys|, _ => empty);
    ghost var done: set<string> := {};
    var g := 0;
    while g < |order|
      invariant 0 <= g <= |order|
      invariant SlotsFor(keys, done, found, value, empty, slots)
      invariant forall k | 0 <= k < g :: order[k] in done
    {
      var b := order[g];
      GroupAt(keys, order, groups, g);
      var next := FillIfFound(keys, b, groups[b], found, value, slots);
      FillStep(keys, done, b, found, value, empty, slots, next);
      slots, done := next, done + {b};
      g := g + 1;
    }
    AllDone(keys, order, groups, done);
  }

  /** `if b in items`: the group of `b` is filled only when its key is found. */
  method FillIfFound<V>(keys: seq<string>, b: string, members: seq<nat>, found: string -> bool, value: nat -> V, slots: seq<V>)
    returns (next: seq<V>)
    requires |slots| == |keys|
    requires members == GroupOf(keys, b)
    ensures |next| == |keys|
    ensures forall j | 0 <= j < |keys| :: next[j] == (if found(b) && keys[j] == b then value(j) else slots[j])
  {
    next := slots;
    if found(b) {
      next := FillGroup(keys, b, members, value, slots);
    }
  }

  /** A key in the visiting order has its group in the map. */
  lemma GroupAt(keys: seq<string>, order: seq<string>, groups: map<string, seq<nat>>, g: nat)
    requires forall b :: GroupOf(keys, b) == (if b in groups then groups[b] else [])
    requires forall b :: b in groups <==> b in order
    requires g < |order|
    ensures order[g] in groups && groups[order[g]] == GroupOf(keys, order[g])
  {
    assert order[g] in order;
  }

  /** Once every key in the visiting order is done, every entry's key is. */
  lemma AllDone(keys: seq<string>, order: seq<string>, groups: map<string, seq<nat>>, done: set<string>)
    requires forall b :: GroupOf(keys, b) == (if b in groups then groups[b] else [])
    requires forall b :: b in groups <==> b in order
    requires forall k | 0 <= k < |order| :: order[k] in done
    ensures forall j | 0 <= j < |keys| :: keys[j] in done
  {
    forall j | 0 <= j < |keys|
      ensures keys[j] in done
    {
      InOwnGroup(keys, j);
      var k :| 0 <= k < |order| && order[k] == keys[j];
    }
  }

  /** Slot `j` holds its entry's value when its key is `done` and `found`, and `empty` otherwise. */
  ghost predicate SlotsFor<V>(keys: seq<string>, done: set<string>, found: string -> bool, value: nat -> V, empty: V, slots: seq<V>) {
    |slots| == |keys| &&
    forall j | 0 <= j < |keys| :: slots[j] == (if keys[j] in done && found(keys[j]) then value(j) else empty)
  }

  /** Filling the group of `b`, when `b` is found, adds `b` to the keys done. */
  lemma FillStep<V>(keys: seq<string>, done: set<string>, b: string, found: string -> bool, value: nat -> V, empty: V,
                    slots: seq<V>, next: seq<V>)
    requires SlotsFor(keys, done, found, value, empty, slots)
    requires |next| == |keys|
    requires forall j | 0 <= j < |keys| :: next[j] == (if found(b) && keys[j] == b then value(j) else slots[j])
    ensures SlotsFor(keys, done + {b}, found, value, empty, next)
  {
  }

  /**
   * The assembly as the source performs it: items looked up in the item
   * map, entries filled file by file, the filled slots kept. The result is
   * the slots in table-of-contents order.
   */
  method AssembleToc(refs: seq<Ref>, spine: seq<SpineItem>, anchor: AnchorWalk) returns (r: seq<Section>)
    ensures r == Keep(Slots(refs, spine, anchor))
  {
    var items := ItemMap(spine);
    var keys := Files(refs);
    var slots := FillByGroups(keys, k => k in items,
      (j: nat) => if j < |refs| && refs[j].file in items then Filled(refs, j, items[refs[j].file], anchor) else None, None);
    forall j | 0 <= j < |refs|
      ensures slots[j] == Slot(refs, j, spine, anchor)
    {
      assert Lookup(spine, refs[j].file) == (if refs[j].file in items then Some(items[refs[j].file]) else None);
    }
    assert slots == Slots(refs, spine, anchor);
    r := Keep(slots);
  }
}

=== FILE: tts_client.dfy ===
/**
 * `TTSClient.synthesize_chapter` and `_request` of narrator/core/tts_client.py
 * without the network, the clock and the audio library: the list of request
 * texts for a chapter, the rest/cooldown schedule around them, and the retry
 * bound of one request, whose attempt outcomes are parameters.
 */
module TtsClient {
  import opened Text
  import opened Chunker
  import opened Wrappers

  /** `str.isupper()` on ASCII: some letter, and no lower-case letter. */
  predicate IsUpperText(s: string) {
    (exists i | 0 <= i < |s| :: IsLetter(s[i])) && forall i | 0 <= i < |s| :: !IsLowerAscii(s[i])
  }

  /** `str.title()` on ASCII: a letter is upper-cased after a non-letter and lower-cased after a letter. */
  function TitleCase(s: string): (r: string)
    ensures |r| == |s|
  {
    seq(|s|, i requires 0 <= i < |s| =>
      if i == 0 || !IsLetter(s[i - 1]) then UpperChar(s[i]) else LowerChar(s[i]))
  }

  /** The title as it is read aloud: title-cased when it is all capitals. */
  function SpokenTitle(title: string): string {
    if IsUpperText(title) then TitleCase(title) else title
  }

  lemma CaseChar(c: char)
    ensures LowerChar(UpperChar(c)) == LowerChar(c) && LowerChar(LowerChar(c)) == LowerChar(c)
    ensures IsLetter(UpperChar(c)) <==> IsLetter(c)
    ensures IsLetter(LowerChar(c)) <==> IsLetter(c)
    ensures IsLetter(c) ==> IsUpperAscii(UpperChar(c)) && !IsUpperAscii(LowerChar(c))
  {
  }

  lemma TitleCaseAt(s: string, i: nat)
    requires i < |s|
    ensures LowerChar(TitleCase(s)[i]) == LowerChar(s[i])
    ensures IsLetter(TitleCase(s)[i]) <==> IsLetter(s[i])
    ensures IsLetter(s[i]) ==> (IsUpperAscii(TitleCase(s)[i]) <==> (i == 0 || !IsLetter(s[i - 1])))
  {
    CaseChar(s[i]);
  }

  /** Title-casing changes letter case only, and capitalises exactly the letters that start a word. */
  lemma TitleCaseSpec(s: string)
    ensures Lower(TitleCase(s)) == Lower(s)
    ensures forall i | 0 <= i < |s| && IsLetter(s[i]) ::
      IsUpperAscii(TitleCase(s)[i]) <==> (i == 0 || !IsLetter(s[i - 1]))
  {
    forall i | 0 <= i < |s|
      ensures LowerChar(TitleCase(s)[i]) == LowerChar(s[i])
      ensures IsLetter(s[i]) ==> (IsUpperAscii(TitleCase(s)[i]) <==> (i == 0 || !IsLetter(s[i - 1])))
    {
      TitleCaseAt(s, i);
    }
  }

  /**
   * The spoken title differs from the title only in letter case; a title in
   * capitals is read with a capital at the start of each word only, any
   * other title as it is.
   */
  lemma SpokenTitleCase(title: string)
    ensures |SpokenTitle(title)| == |title|
    ensures Lower(SpokenTitle(title)) == Lower(title)
    ensures IsUpperText(title) ==> forall i | 0 <= i < |title| && IsLetter(title[i]) ::
      IsUpperAscii(SpokenTitle(title)[i]) <==> (i == 0 || !IsLetter(title[i - 1]))
    ensures !IsUpperText(title) ==> SpokenTitle(title) == title
  {
    TitleCaseSpec(title);
  }

  /** `chunks` of `synthesize_chapter`: the spoken title with a full stop, then the chapter's chunks. */
  function ChapterRequests(title: string, sentences: seq<string>, lim: Limits): (r: seq<string>)
    requires ValidLimits(lim)
    ensures |r| >= 1
  {
    [SpokenTitle(title) + "."] + ChunkText(sentences, lim)
  }

  /**
   * The request list starts with the spoken title and, whitespace aside,
   * spells the chapter text after it; it is never empty, so the source's
   * "no audio segments" error cannot be reached.
   */
  lemma ChapterRequestsLossless(title: string, sentences: seq<string>, lim: Limits)
    requires ValidLimits(lim)
    ensures var r := ChapterRequests(title, sentences, lim);
      && r[0] == SpokenTitle(title) + "."
      && NoWs(Concat(r[1..])) == NoWs(Concat(sentences))
      && (|r| == 1 <==> sentences == [])
  {
    var r := ChapterRequests(title, sentences, lim);
    assert r[1..] == ChunkText(sentences, lim);
    ChunkTextLossless(sentences, lim);
    ChunkTextEmpty(sentences, lim);
  }

  /** One request of a chapter with what surrounds it: a rest before it, a cooldown after it. */
  datatype Slot = Slot(restBefore: bool, text: string, cooldownAfter: bool)

  datatype PaceError = ZeroRestInterval

  /**
   * The loop of `synthesize_chapter` over its requests (numbered from 1): a
   * rest precedes request k when k > 1 and (k - 1) is a multiple of the rest
   * interval, a cooldown follows every request but the last. A rest interval
   * of 0 makes the modulo fail at the second request.
   */
  method PaceRequests(chunks: seq<string>, restInterval: nat) returns (slots: seq<Slot>, err: Option<PaceError>)
    ensures err.Some? <==> restInterval == 0 && |chunks| >= 2
    ensures err.None? ==> |slots| == |chunks|
    ensures err.Some? ==> |slots| == 1
    ensures |slots| <= |chunks|
    ensures forall i :: 0 <= i < |slots| ==> slots[i].text == chunks[i]
    ensures forall i :: 0 <= i < |slots| ==> (slots[i].cooldownAfter <==> i < |chunks| - 1)
    ensures forall i :: 0 <= i < |slots| ==>
      (slots[i].restBefore <==> i > 0 && restInterval > 0 && i % restInterval == 0)
  {
    slots := [];
    err := None;
    var k := 1;
    while k <= |chunks|
      invariant 1 <= k <= |chunks| + 1
      invariant |slots| == k - 1
      invariant forall i :: 0 <= i < |slots| ==> slots[i].text == chunks[i]
      invariant forall i :: 0 <= i < |slots| ==> (slots[i].cooldownAfter <==> i < |chunks| - 1)
      invariant forall i :: 0 <= i < |slots| ==>
        (slots[i].restBefore <==> i > 0 && restInterval > 0 && i % restInterval == 0)
      invariant restInterval == 0 ==> k <= 2
    {
      var rest := false;
      if k > 1 {
        if restInterval == 0 {
          err := Some(ZeroRestInterval);
          return;
        }
        rest := (k - 1) % restInterval == 0;
      }
      slots := slots + [Slot(rest, chunks[k - 1], k < |chunks|)];
      k := k + 1;
    }
  }

  /** Number of slots with a rest before them. */
  function Rests(slots: seq<Slot>): nat {
    if slots == [] then 0
    else Rests(slots[..|slots| - 1]) + (if slots[|slots| - 1].restBefore then 1 else 0)
  }

  /** Number of slots with a cooldown after them. */
  function Cooldowns(slots: seq<Slot>): nat {
    if slots == [] then 0
    else Cooldowns(slots[..|slots| - 1]) + (if slots[|slots| - 1].cooldownAfter then 1 else 0)
  }

  lemma MulAtLeast(x: int, d: int)
    requires x >= 1 && d > 0
    ensures x * d >= d
  {
    assert x * d == d + (x - 1) * d;
  }

  lemma DivUnique(k: int, d: int, q: int, r: int)
    requires d > 0 && 0 <= r < d && k == q * d + r
    ensures k / d == q && k % d == r
  {
    var q' := k / d;
    var r' := k % d;
    assert (q - q') * d == r' - r;
    if q - q' >= 1 {
      MulAtLeast(q - q', d);
    } else if q' - q >= 1 {
      MulAtLeast(q' - q, d);
    }
  }

  /** Crossing a multiple of `d` bumps the quotient by one. */
  lemma DivStep(k: nat, d: nat)
    requires d > 0 && k >= 1
    ensures k / d == (k - 1) / d + (if k % d == 0 then 1 else 0)
  {
    var q := (k - 1) / d;
    var r := (k - 1) % d;
    if r + 1 == d {
      DivUnique(k, d, q + 1, 0);
    } else {
      DivUnique(k, d, q, r + 1);
    }
  }

  lemma {:induction false} RestsCount(slots: seq<Slot>, d: nat)
    requires d > 0 && slots != []
    requires forall i :: 0 <= i < |slots| ==> (slots[i].restBefore <==> i > 0 && i % d == 0)
    ensures Rests(slots) == (|slots| - 1) / d
  {
    var n := |slots| - 1;
    if n > 0 {
      RestsCount(slots[..n], d);
      DivStep(n, d);
    }
  }

  lemma {:induction false} CooldownsCount(slots: seq<Slot>, total: nat)
    requires |slots| <= total
    requires forall i :: 0 <= i < |slots| ==> (slots[i].cooldownAfter <==> i < total - 1)
    ensures Cooldowns(slots) == if |slots| == total && total > 0 then total - 1 else |slots|
  {
    if slots != [] {
      CooldownsCount(slots[..|slots| - 1], total);
    }
  }

  /** For n requests the chapter takes n - 1 cooldowns and (n - 1) / rest_interval rests. */
  method PaceCounts(chunks: seq<string>, restInterval: nat) returns (rests: nat, cooldowns: nat)
    requires restInterval > 0 && chunks != []
    ensures rests == (|chunks| - 1) / restInterval
    ensures cooldowns == |chunks| - 1
  {
    var slots, err := PaceRequests(chunks, restInterval);
    assert err.None?;
    RestsCount(slots, restInterval);
    CooldownsCount(slots, |chunks|);
    rests := Rests(slots);
    cooldowns := Cooldowns(slots);
  }

  /** How one POST attempt and, after a failure, the readiness wait went. */
  datatype Outcome =
    | Audio(attempt: nat)           // the response of this attempt is returned
    | SynthesisFailed(attempts: nat) // TTSSynthesisError after the last attempt
    | ConnectionLost(attempt: nat)  // wait_until_ready raised TTSConnectionError after this failed attempt
    | NoAttempt                     // max_retries is 0: "failed unexpectedly"

  /**
   * `_request`: up to `maxRetries` POSTs; after a failed attempt that is not
   * the last, the readiness wait runs and may itself give up. `delivered(a)`
   * and `recovers(a)` say how attempt `a` and the wait after it went.
   */
  method Request(maxRetries: nat, delivered: nat -> bool, recovers: nat -> bool) returns (out: Outcome, posts: nat)
    ensures posts <= maxRetries
    ensures out == NoAttempt <==> maxRetries == 0
    ensures out.Audio? ==> posts == out.attempt + 1 && delivered(out.attempt)
    ensures out.SynthesisFailed? ==> posts == maxRetries == out.attempts && !delivered(maxRetries - 1)
    ensures out.ConnectionLost? ==>
      posts == out.attempt + 1 < maxRetries && !delivered(out.attempt) && !recovers(out.attempt)
    ensures forall a :: 0 <= a < posts - 1 ==> !delivered(a) && recovers(a)
  {
    posts := 0;
    while posts < maxRetries
      invariant posts <= maxRetries
      invariant maxRetries > 0 ==> posts < maxRetries
      invariant forall a :: 0 <= a < posts ==> !delivered(a) && recovers(a)
    {
      var a := posts;
      posts := posts + 1;
      if delivered(a) {
        return Audio(a), posts;
      }
      if a < maxRetries - 1 {
        if !recovers(a) {
          return ConnectionLost(a), posts;
        }
      } else {
        return SynthesisFailed(maxRetries), posts;
      }
    }
    return NoAttempt, posts;
  }
}

=== FILE: worker.dfy ===
/**
 * narrator/worker.py as a sequential step function: the quiet-hours
 * predicate, the startup reset of interrupted jobs, the selection step of
 * the main loop and the transitions of `_process_job`. Everything the
 * worker waits on (extraction, the TTS server, synthesis, building and
 * writing the audiobook, the pause and stop flags, the clock) is an input.
 */
module Worker {
  import opened Wrappers
  import opened Text
  import opened Jobs
  import Paths
  import Extract

  // ----- Quiet hours -----

  /**
   * `_in_quiet_hours` with the clock reading `now` formatted "%H:%M". An
   * unset or empty bound switches quiet hours off; the bounds are compared
   * as strings, inclusively, wrapping past midnight when start > end.
   */
  function InQuietHours(start: Option<string>, end: Option<string>, now: string): (r: bool)
    ensures start.None? || end.None? || start.value == [] || end.value == [] ==> !r
  {
    if start.None? || end.None? || start.value == [] || end.value == [] then false
    else if LexLe(start.value, end.value) then LexLe(start.value, now) && LexLe(now, end.value)
    else LexLe(start.value, now) || LexLe(now, end.value)
  }

  /** A zero-padded "HH:MM" reading with minutes below 60. */
  predicate IsClock(s: string) {
    |s| == 5 && IsDigit(s[0]) && IsDigit(s[1]) && s[2] == ':' && '0' <= s[3] <= '5' && IsDigit(s[4])
  }

  function Hour(s: string): nat
    requires IsClock(s)
  {
    10 * DigitValue(s[0]) + DigitValue(s[1])
  }

  function Minute(s: string): (r: nat)
    requires IsClock(s)
    ensures r < 60
  {
    10 * DigitValue(s[3]) + DigitValue(s[4])
  }

  /** Minute of the day of an "HH:MM" reading. */
  function Minutes(s: string): nat
    requires IsClock(s)
  {
    60 * Hour(s) + Minute(s)
  }

  /** Reference quiet-hours rule on minute-of-day integers. */
  predicate InQuietMinutes(start: int, end: int, now: int) {
    if start <= end then start <= now <= end else now >= start || now <= end
  }

  /** One step of Python's string comparison: equal first characters defer to the rest. */
  lemma LexLeStep(a: string, b: string)
    requires a != [] && b != [] && a[0] == b[0]
    ensures LexLe(a, b) == LexLe(a[1..], b[1..])
  {
  }

  /** Comparing two "HH:MM" readings compares the digits from the left, skipping the colon. */
  lemma ClockLex(a: string, b: string)
    requires IsClock(a) && IsClock(b)
    ensures LexLe(a, b) <==>
      a[0] < b[0] || (a[0] == b[0] && (a[1] < b[1] || (a[1] == b[1] &&
      (a[3] < b[3] || (a[3] == b[3] && a[4] <= b[4])))))
  {
    if a[0] == b[0] {
      LexLeStep(a, b);
      var a1, b1 := a[1..], b[1..];
      if a1[0] == b1[0] {
        LexLeStep(a1, b1);
        var a2, b2 := a1[1..], b1[1..];
        LexLeStep(a2, b2);
        var a3, b3 := a2[1..], b2[1..];
        if a3[0] == b3[0] {
          LexLeStep(a3, b3);
          var a4, b4 := a3[1..], b3[1..];
          if a4[0] == b4[0] {
            LexLeStep(a4, b4);
            assert a4[1..] == [];
          }
        }
      }
    }
  }

  /** Minute-of-day order is the lexicographic order of the four digits. */
  lemma ClockArith(a: string, b: string)
    requires IsClock(a) && IsClock(b)
    ensures Minutes(a) <= Minutes(b) <==>
      a[0] < b[0] || (a[0] == b[0] && (a[1] < b[1] || (a[1] == b[1] &&
      (a[3] < b[3] || (a[3] == b[3] && a[4] <= b[4])))))
  {
    var ha, hb, ma, mb := Hour(a), Hour(b), Minute(a), Minute(b);
    assert Hour(a) < Hour(b) <==> a[0] < b[0] || (a[0] == b[0] && a[1] < b[1]);
    assert Hour(a) == Hour(b) <==> a[0] == b[0] && a[1] == b[1];
    assert Minute(a) <= Minute(b) <==> a[3] < b[3] || (a[3] == b[3] && a[4] <= b[4]);
    if ha < hb {
      assert 60 * ha + ma < 60 * ha + 60 <= 60 * hb;
    } else if hb < ha {
      assert 60 * hb + mb < 60 * hb + 60 <= 60 * ha;
    }
  }

  /** On zero-padded readings, string order is minute-of-day order. */
  lemma ClockOrder(a: string, b: string)
    requires IsClock(a) && IsClock(b)
    ensures LexLe(a, b) <==> Minutes(a) <= Minutes(b)
  {
    ClockLex(a, b);
    ClockArith(a, b);
  }

  /** The string comparison of `_in_quiet_hours` decides the minute-of-day rule. */
  lemma QuietHoursByMinutes(start: string, end: string, now: string)
    requires IsClock(start) && IsClock(end) && IsClock(now)
    ensures InQuietHours(Some(start), Some(end), now) == InQuietMinutes(Minutes(start), Minutes(end), now := Minutes(now))
  {
    ClockOrder(start, end);
    ClockOrder(start, now);
    ClockOrder(now, end);
  }

  // ----- Startup: resetting interrupted jobs -----

  /** `_resume_interrupted`: every in-progress job goes back to pending with no chapters done. */
  method ResumeInterrupted(q: Queue) returns (r: Queue)
    requires Valid(q)
    ensures Valid(r) && r.nextId == q.nextId && r.jobs.Keys == q.jobs.Keys
    ensures forall id | id in q.jobs && InProgress(q.jobs[id].status) ::
      r.jobs[id].status == Pending && r.jobs[id].chaptersDone == 0 && Differ(q.jobs[id], r.jobs[id], {StatusF, DoneF})
    ensures forall id | id in q.jobs && !InProgress(q.jobs[id].status) :: r.jobs[id] == q.jobs[id]
    ensures ResumableJobs(r) == []
  {
    var js := ResumableJobs(q);
    r := q;
    ghost var seen: set<nat> := {};
    for i := 0 to |js|
      invariant r.nextId == q.nextId && r.jobs.Keys == q.jobs.Keys
      invariant seen == set a | 0 <= a < i :: js[a].id
      invariant forall id | id in q.jobs :: r.jobs[id] == Reset(q.jobs[id], id in seen)
    {
      r := UpdateProgress(r, js[i].id, Pending, 0);
      seen := seen + {js[i].id};
    }
    ResetCovers(q, js, seen);
    ResetOutcome(q, r, seen);
  }

  /** A row as the reset leaves it: reset when visited, untouched otherwise. */
  function Reset(j: Job, visited: bool): Job {
    if visited then j.(status := Pending, chaptersDone := 0) else j
  }

  /** Resetting exactly the in-progress rows keeps the invariant and leaves nothing in progress. */
  lemma ResetOutcome(q: Queue, r: Queue, seen: set<nat>)
    requires Valid(q) && r.nextId == q.nextId && r.jobs.Keys == q.jobs.Keys
    requires forall id | id in q.jobs :: id in seen <==> InProgress(q.jobs[id].status)
    requires forall id | id in q.jobs :: r.jobs[id] == Reset(q.jobs[id], id in seen)
    ensures Valid(r)
    ensures forall id | id in q.jobs && InProgress(q.jobs[id].status) ::
      r.jobs[id].status == Pending && r.jobs[id].chaptersDone == 0 && Differ(q.jobs[id], r.jobs[id], {StatusF, DoneF})
    ensures forall id | id in q.jobs && !InProgress(q.jobs[id].status) :: r.jobs[id] == q.jobs[id]
    ensures ResumableJobs(r) == []
  {
    ResetValid(q, r, seen);
    ResetChanges(q, r, seen);
    forall id | id in r.jobs
      ensures !InProgress(r.jobs[id].status)
    {
      assert r.jobs[id] == Reset(q.jobs[id], id in seen);
    }
    NothingResumable(r);
  }

  lemma ResetValid(q: Queue, r: Queue, seen: set<nat>)
    requires Valid(q) && r.nextId == q.nextId && r.jobs.Keys == q.jobs.Keys
    requires forall id | id in q.jobs :: r.jobs[id] == Reset(q.jobs[id], id in seen)
    ensures Valid(r)
  {
    forall id | id in r.jobs
      ensures r.jobs[id].id == q.jobs[id].id && r.jobs[id].bookId == q.jobs[id].bookId
    {
      assert r.jobs[id] == Reset(q.jobs[id], id in seen);
    }
  }

  lemma ResetChanges(q: Queue, r: Queue, seen: set<nat>)
    requires r.jobs.Keys == q.jobs.Keys
    requires forall id | id in q.jobs :: id in seen <==> InProgress(q.jobs[id].status)
    requires forall id | id in q.jobs :: r.jobs[id] == Reset(q.jobs[id], id in seen)
    ensures forall id | id in q.jobs && InProgress(q.jobs[id].status) ::
      r.jobs[id].status == Pending && r.jobs[id].chaptersDone == 0 && Differ(q.jobs[id], r.jobs[id], {StatusF, DoneF})
    ensures forall id | id in q.jobs && !InProgress(q.jobs[id].status) :: r.jobs[id] == q.jobs[id]
  {
    forall id | id in q.jobs && InProgress(q.jobs[id].status)
      ensures Differ(q.jobs[id], r.jobs[id], {StatusF, DoneF})
    {
      assert r.jobs[id] == q.jobs[id].(status := Pending, chaptersDone := 0);
    }
  }

  /** The ids the reset loop visits are exactly the in-progress jobs. */
  lemma ResetCovers(q: Queue, js: seq<Job>, seen: set<nat>)
    requires Valid(q) && js == ResumableJobs(q)
    requires seen == set a | 0 <= a < |js| :: js[a].id
    ensures forall id | id in q.jobs :: id in seen <==> InProgress(q.jobs[id].status)
  {
    ResumableJobsSpec(q);
    forall id | id in q.jobs
      ensures id in seen <==> InProgress(q.jobs[id].status)
    {
      if InProgress(q.jobs[id].status) {
        assert q.jobs[id] in js;
        var a :| 0 <= a < |js| && js[a] == q.jobs[id];
      }
      if id in seen {
        var a :| 0 <= a < |js| && js[a].id == id;
        assert js[a] in js;
      }
    }
  }

  /** With no job in progress, `get_resumable_jobs` is empty. */
  lemma NothingResumable(r: Queue)
    requires forall id | id in r.jobs :: !InProgress(r.jobs[id].status)
    ensures ResumableJobs(r) == []
  {
    ScanNone(r, Resumable, 0);
  }

  // ----- The selection step of `run` -----

  /** What one turn of the main loop does. */
  datatype Step =
    | Exit                          // `_running` is false: the loop ends
    | Sleep(seconds: nat)           // paused (5 s), quiet hours (60 s) or nothing pending (5 s)
    | Take(jobId: nat, delay: nat)  // process this job after waiting `delay` seconds

  /** One turn of `run`; `delay` is the `delay_between_books` setting. */
  function SelectStep(q: Queue, running: bool, paused: bool, quiet: bool, delay: int): (r: Step)
    ensures r.Take? ==> running && !paused && !quiet
    ensures r.Take? ==> r.delay >= 0 && r.delay >= delay
  {
    if !running then Exit
    else if paused then Sleep(5)
    else if quiet then Sleep(60)
    else match NextPending(q)
      case None => Sleep(5)
      case Some(j) => Take(j.id, if delay > 0 then delay else 0)
  }

  /** The loop takes a job exactly when it may, and then the oldest pending one. */
  lemma SelectStepSpec(q: Queue, running: bool, paused: bool, quiet: bool, delay: int)
    requires Valid(q)
    ensures var r := SelectStep(q, running, paused, quiet, delay);
      (r.Take? <==> running && !paused && !quiet && exists id | id in q.jobs :: q.jobs[id].status == Pending) &&
      (r.Take? ==> r.jobId in q.jobs && q.jobs[r.jobId].status == Pending &&
                   forall id | id in q.jobs && q.jobs[id].status == Pending :: r.jobId <= id)
  {
    NextPendingSpec(q);
  }

  // ----- `_process_job` -----

  /** An event passed to `_publish`, with its payload. */
  datatype Event =
    | JobStarted(jobId: nat, title: string, author: string)
    | ChapterStarted(jobId: nat, chapter: nat, total: nat, title: string)
    | ChapterCompleted(jobId: nat, chapter: nat, total: nat)
    | JobCompleted(jobId: nat, title: string, outputPath: string)
    | JobFailed(jobId: nat, error: string)

  /** A call `_process_job` makes on the queue for its job. */
  datatype Write =
    | Started(status: Status, total: int)   // start_job
    | Progress(status: Status, done: int)   // update_progress
    | Completed(outputPath: string)         // complete_job
    | FailedWith(message: string)           // fail_job

  /** The effect of one write on the table. */
  function Apply(q: Queue, id: nat, w: Write, now: string): (r: Queue)
    ensures r.nextId == q.nextId && r.jobs.Keys == q.jobs.Keys
    ensures forall k | k in q.jobs && k != id :: r.jobs[k] == q.jobs[k]
  {
    match w
    case Started(s, n) => StartJob(q, id, s, n, now)
    case Progress(s, d) => UpdateProgress(q, id, s, d)
    case Completed(p) => CompleteJob(q, id, p, now)
    case FailedWith(m) => FailJob(q, id, m, now)
  }

  /** The table after a sequence of writes. */
  function ApplyAll(q: Queue, id: nat, ws: seq<Write>, now: string): (r: Queue)
    ensures r.nextId == q.nextId && r.jobs.Keys == q.jobs.Keys
    ensures forall k | k in q.jobs && k != id :: r.jobs[k] == q.jobs[k]
  {
    if ws == [] then q else Apply(ApplyAll(q, id, ws[..|ws| - 1], now), id, ws[|ws| - 1], now)
  }

  /** What `_process_job`'s collaborators do when it calls them. */
  datatype Env = Env(
    now: string,                                              // the clock reading stamped on the row
    extract: (string, bool) -> Result<seq<string>, string>,   // chapter titles of the book at a path, or the raised message
    ready: Option<string>,                                    // Some(message) when waiting for the TTS server raises
    running: nat -> bool,                                     // `_running` as seen before chapter k
    paused: nat -> bool,                                      // the queue-paused flag as seen before chapter k
    synth: nat -> Option<string>,                             // Some(message) when synthesizing chapter k raises
    output: Result<string, string>,                           // the book directory `write` returns, or the raised message
    noPath: string,                                           // the TypeError message of `Path(None)`; it varies by Python version
    callback: Option<Event -> bool>)                          // the event callback; true when it raises on an event

  /** What `_process_job` did: its queue writes, the events it published, and the callback errors it logged. */
  datatype Trace = Trace(writes: seq<Write>, events: seq<Event>, logged: nat)

  /** `_publish`: the event goes to the callback, whose exception is logged and swallowed. */
  function Publish(t: Trace, cb: Option<Event -> bool>, e: Event): (r: Trace)
    ensures r.writes == t.writes && r.events == t.events + [e]
    ensures r.logged >= t.logged
  {
    Trace(t.writes, t.events + [e], t.logged + if cb.Some? && cb.value(e) then 1 else 0)
  }

  function Record(t: Trace, w: Write): Trace {
    t.(writes := t.writes + [w])
  }

  /** The except branch: mark the job failed with the message, then publish `job_failed`. */
  function Fail(t: Trace, cb: Option<Event -> bool>, id: nat, message: string): Trace {
    Publish(Record(t, FailedWith(message)), cb, JobFailed(id, message))
  }

  /** How the chapter loop ended. */
  datatype Stage =
    | Finished(t: Trace)                  // every chapter synthesized
    | Stopped(t: Trace)                   // returned early: worker stopping or queue paused
    | Raised(t: Trace, message: string)   // synthesis of a chapter raised

  /** The chapter loop from chapter k on (chapters are numbered from 1). */
  function Chapters(id: nat, titles: seq<string>, k: nat, env: Env, t: Trace): Stage
    requires 1 <= k <= |titles| + 1
    decreases |titles| + 1 - k
  {
    if k > |titles| then Finished(t)
    else if !env.running(k) then Stopped(t)
    else if env.paused(k) then Stopped(Record(t, Progress(Pending, k - 1)))
    else
      var t1 := Publish(t, env.callback, ChapterStarted(id, k, |titles|, titles[k - 1]));
      match env.synth(k)
      case Some(msg) => Raised(t1, msg)
      case None =>
        var t2 := Publish(Record(t1, Progress(Synthesizing, k)), env.callback, ChapterCompleted(id, k, |titles|));
        Chapters(id, titles, k + 1, env, t2)
  }

  /** The last path component, as `Path.name`. */
  function FileName(path: string): string {
    var ps := Paths.Parts(path);
    if ps == [] then "" else ps[|ps| - 1]
  }

  /** The message of the TypeError raised by calling `complete_job` with four arguments. */
  const CompleteArityMessage: string := "JobQueue.complete_job() takes 3 positional arguments but 5 were given"

  /**
   * `_process_job` for job `id`. With `asWritten` the final call passes the
   * duration and size to `complete_job`, which takes only the output path,
   * so that call raises; otherwise `complete_job` receives the output path.
   */
  function Run(q: Queue, id: nat, env: Env, asWritten: bool): Trace {
    var t0 := Trace([], [], 0);
    match GetJob(q, id)
    case Err(_) => Fail(t0, env.callback, id, NotFoundMessage(id))
    case Ok(job) =>
      var t1 := Record(Publish(t0, env.callback, JobStarted(id, job.title, job.author)), Started(Extracting, 0));
      match job.epubPath
      case None => Fail(t1, env.callback, id, env.noPath)
      case Some(path) =>
        match env.extract(path, Extract.KepubDefault(FileName(path), None))
        case Err(msg) => Fail(t1, env.callback, id, msg)
        case Ok(titles) =>
          var t2 := Record(t1, Started(Synthesizing, |titles|));
          if env.ready.Some? then Fail(t2, env.callback, id, env.ready.value)
          else Finish(id, job.title, |titles|, env, asWritten, Chapters(id, titles, 1, env, t2))
  }

  /** What `_process_job` does once the chapter loop has ended: nothing, the failure, or building and completing. */
  function Finish(id: nat, title: string, n: nat, env: Env, asWritten: bool, s: Stage): Trace {
    match s
    case Stopped(t) => t
    case Raised(t, msg) => Fail(t, env.callback, id, msg)
    case Finished(t) =>
      var t3 := Record(t, Progress(Building, n));
      match env.output
      case Err(msg) => Fail(t3, env.callback, id, msg)
      case Ok(dir) =>
        if asWritten then Fail(t3, env.callback, id, CompleteArityMessage)
        else Publish(Record(t3, Completed(dir)), env.callback, JobCompleted(id, title, dir))
  }

  /** The worker's own state around `_process_job`. */
  datatype WorkerState = WorkerState(queue: Queue, current: Option<nat>)

  /** `_process_job` with the corrected `complete_job` call: the table after its writes, and no current job. */
  function ProcessJob(w: WorkerState, id: nat, env: Env): (r: WorkerState)
    ensures r.current == None
    ensures r.queue.nextId == w.queue.nextId && r.queue.jobs.Keys == w.queue.jobs.Keys
    ensures forall k | k in w.queue.jobs && k != id :: r.queue.jobs[k] == w.queue.jobs[k]
  {
    WorkerState(ApplyAll(w.queue, id, Run(w.queue, id, env, false).writes, env.now), None)
  }

  /** `_process_job` as written, with the four-argument `complete_job` call. */
  function ProcessJobAsWritten(w: WorkerState, id: nat, env: Env): (r: WorkerState)
    ensures r.current == None
    ensures r.queue.nextId == w.queue.nextId && r.queue.jobs.Keys == w.queue.jobs.Keys
  {
    WorkerState(ApplyAll(w.queue, id, Run(w.queue, id, env, true).writes, env.now), None)
  }

  /** The job's row once `_process_job` has run, with the corrected or the as-written final call. */
  function RowAfter(q: Queue, id: nat, env: Env, asWritten: bool): Job
    requires id in q.jobs
  {
    var w := WorkerState(q, Some(id));
    (if asWritten then ProcessJobAsWritten(w, id, env) else ProcessJob(w, id, env)).queue.jobs[id]
  }

  /** Both variants store the table their run's writes produce. */
  lemma RowAfterWrites(q: Queue, id: nat, env: Env, asWritten: bool)
    requires id in q.jobs
    ensures RowAfter(q, id, env, asWritten) == ApplyAll(q, id, Run(q, id, env, asWritten).writes, env.now).jobs[id]
  {
  }

  // ----- What the chapter loop does -----

  /** The chapter at which the loop leaves from chapter k on, or n + 1 when it runs to the end. */
  function StopAt(env: Env, n: nat, k: nat): (j: nat)
    requires 1 <= k <= n + 1
    ensures k <= j <= n + 1
    ensures j <= n ==> !env.running(j) || env.paused(j) || env.synth(j).Some?
    decreases n + 1 - k
  {
    if k > n || !env.running(k) || env.paused(k) || env.synth(k).Some? then k else StopAt(env, n, k + 1)
  }

  /** Every chapter before the stopping one was neither stopped, paused nor failed. */
  lemma {:induction false} StopAtClear(env: Env, n: nat, k: nat, c: nat)
    requires 1 <= k <= n + 1 && k <= c < StopAt(env, n, k)
    ensures env.running(c) && !env.paused(c) && env.synth(c).None?
    decreases n + 1 - k
  {
    if c > k {
      StopAtClear(env, n, k + 1, c);
    }
  }

  /** update_progress(SYNTHESIZING, c) for c = k .. j - 1. */
  function Progs(k: nat, j: nat): (r: seq<Write>)
    decreases j - k
  {
    if k >= j then [] else [Progress(Synthesizing, k)] + Progs(k + 1, j)
  }

  /** Progs counts chapters up from k. */
  lemma {:induction false} ProgsAt(k: nat, j: nat, i: nat)
    requires i < j - k
    ensures |Progs(k, j)| == j - k && Progs(k, j)[i] == Progress(Synthesizing, k + i)
    decreases j - k
  {
    if i > 0 {
      ProgsAt(k + 1, j, i - 1);
    } else if k + 1 < j {
      ProgsAt(k + 1, j, 0);
    }
  }

  /** chapter_started then chapter_completed for c = k .. j - 1. */
  function Pairs(id: nat, titles: seq<string>, k: nat, j: nat): seq<Event>
    requires 1 <= k && j <= |titles| + 1
    decreases j - k
  {
    if k >= j then []
    else [ChapterStarted(id, k, |titles|, titles[k - 1]), ChapterCompleted(id, k, |titles|)] + Pairs(id, titles, k + 1, j)
  }

  /** Chapter c is announced at position 2(c - k) and completed right after it: chapters go up from k, each started before it completes. */
  lemma {:induction false} PairsAt(id: nat, titles: seq<string>, k: nat, j: nat, c: nat)
    requires 1 <= k <= c < j <= |titles| + 1
    ensures |Pairs(id, titles, k, j)| == 2 * (j - k)
    ensures Pairs(id, titles, k, j)[2 * (c - k)] == ChapterStarted(id, c, |titles|, titles[c - 1])
    ensures Pairs(id, titles, k, j)[2 * (c - k) + 1] == ChapterCompleted(id, c, |titles|)
    decreases j - k
  {
    if c > k {
      PairsAt(id, titles, k + 1, j, c);
    } else if k + 1 < j {
      PairsAt(id, titles, k + 1, j, k + 1);
    }
  }

  /** Whether the loop stops at chapter j because the queue is paused. */
  predicate PausedAt(env: Env, n: nat, j: nat) {
    j <= n && env.running(j) && env.paused(j)
  }

  /** Whether the loop announces chapter j and its synthesis raises. */
  predicate FailsAt(env: Env, n: nat, j: nat) {
    j <= n && env.running(j) && !env.paused(j)
  }

  /** The checkpoint write when the loop stops at chapter j because the queue is paused. */
  function PauseWrite(env: Env, n: nat, j: nat): seq<Write> {
    if PausedAt(env, n, j) then [Progress(Pending, j - 1)] else []
  }

  /** The announcement of chapter j when its synthesis is what ends the loop. */
  function FailStart(id: nat, titles: seq<string>, env: Env, j: nat): seq<Event>
    requires 1 <= j <= |titles| + 1
  {
    if FailsAt(env, |titles|, j) then [ChapterStarted(id, j, |titles|, titles[j - 1])] else []
  }

  /**
   * What the chapter loop from chapter k does, with j the stopping chapter:
   * it completes chapters k .. j - 1, writing their progress and publishing
   * their pair of events, then ends according to what happened at j.
   */
  predicate Traced(id: nat, titles: seq<string>, k: nat, env: Env, t: Trace)
    requires 1 <= k <= |titles| + 1
  {
    var n, j, s := |titles|, StopAt(env, |titles|, k), Chapters(id, titles, k, env, t);
    (s.Finished? <==> j == n + 1) &&
    (s.Raised? <==> FailsAt(env, n, j)) &&
    (s.Raised? ==> env.synth(j) == Some(s.message)) &&
    s.t.writes == t.writes + Progs(k, j) + PauseWrite(env, n, j) &&
    s.t.events == t.events + Pairs(id, titles, k, j) + FailStart(id, titles, env, j)
  }

  /** The trace after chapter k is synthesized: started, progress written, completed. */
  function ChapterDone(id: nat, titles: seq<string>, k: nat, env: Env, t: Trace): Trace
    requires 1 <= k <= |titles|
  {
    Publish(Record(Publish(t, env.callback, ChapterStarted(id, k, |titles|, titles[k - 1])), Progress(Synthesizing, k)),
            env.callback, ChapterCompleted(id, k, |titles|))
  }

  /** The chapter loop from any chapter on does what `Traced` says. */
  lemma {:induction false} ChaptersTrace(id: nat, titles: seq<string>, k: nat, env: Env, t: Trace)
    requires 1 <= k <= |titles| + 1
    ensures Traced(id, titles, k, env, t)
    decreases |titles| + 1 - k
  {
    if k <= |titles| && env.running(k) && !env.paused(k) && env.synth(k).None? {
      ChaptersTrace(id, titles, k + 1, env, ChapterDone(id, titles, k, env, t));
      ChaptersStep(id, titles, k, env, t);
    } else {
      ChaptersEnd(id, titles, k, env, t);
    }
  }

  /** A completed chapter k puts its progress write and event pair in front of what the loop from k + 1 does. */
  lemma ChaptersStep(id: nat, titles: seq<string>, k: nat, env: Env, t: Trace)
    requires 1 <= k <= |titles| && env.running(k) && !env.paused(k) && env.synth(k).None?
    requires Traced(id, titles, k + 1, env, ChapterDone(id, titles, k, env, t))
    ensures Traced(id, titles, k, env, t)
  {
    var n, j, t2 := |titles|, StopAt(env, |titles|, k), ChapterDone(id, titles, k, env, t);
    assert j == StopAt(env, n, k + 1);
    assert Chapters(id, titles, k, env, t) == Chapters(id, titles, k + 1, env, t2);
    Regroup(t.writes, [Progress(Synthesizing, k)], Progs(k + 1, j), PauseWrite(env, n, j));
    Regroup(t.events, [ChapterStarted(id, k, n, titles[k - 1]), ChapterCompleted(id, k, n)],
            Pairs(id, titles, k + 1, j), FailStart(id, titles, env, j));
  }

  /** The loop ends at chapter k itself: nothing completed, only the ending at k. */
  lemma ChaptersEnd(id: nat, titles: seq<string>, k: nat, env: Env, t: Trace)
    requires 1 <= k <= |titles| + 1
    requires !(k <= |titles| && env.running(k) && !env.paused(k) && env.synth(k).None?)
    ensures StopAt(env, |titles|, k) == k
    ensures Traced(id, titles, k, env, t)
  {
    assert Progs(k, k) == [] && Pairs(id, titles, k, k) == [];
  }

  /** Moving a middle block from the front of one concatenation to the back of the other. */
  lemma Regroup<T>(a: seq<T>, x: seq<T>, b: seq<T>, c: seq<T>)
    ensures (a + x) + b + c == a + (x + b) + c
  {
  }

  // ----- What `_process_job` does -----

  /** The job exists, has an EPUB path, extracts to `titles`, and the TTS server comes up. */
  predicate Reaches(q: Queue, id: nat, env: Env, titles: seq<string>) {
    id in q.jobs && q.jobs[id].epubPath.Some? &&
    env.extract(q.jobs[id].epubPath.value,
                Extract.KepubDefault(FileName(q.jobs[id].epubPath.value), None)) == Ok(titles) &&
    env.ready.None?
  }

  /** The writes after the chapter loop stopped at chapter j. */
  function WriteTail(env: Env, n: nat, j: nat, asWritten: bool): seq<Write> {
    if j == n + 1 then
      [Progress(Building, n)] +
      match env.output
      case Err(m) => [FailedWith(m)]
      case Ok(dir) => if asWritten then [FailedWith(CompleteArityMessage)] else [Completed(dir)]
    else if PausedAt(env, n, j) then [Progress(Pending, j - 1)]
    else if FailsAt(env, n, j) && env.synth(j).Some? then [FailedWith(env.synth(j).value)]
    else []
  }

  /** The events after the chapter loop stopped at chapter j. */
  function EventTail(id: nat, title: string, titles: seq<string>, env: Env, j: nat, asWritten: bool): seq<Event>
    requires 1 <= j <= |titles| + 1
  {
    var n := |titles|;
    if j == n + 1 then
      match env.output
      case Err(m) => [JobFailed(id, m)]
      case Ok(dir) => if asWritten then [JobFailed(id, CompleteArityMessage)] else [JobCompleted(id, title, dir)]
    else if FailsAt(env, n, j) && env.synth(j).Some? then
      [ChapterStarted(id, j, n, titles[j - 1]), JobFailed(id, env.synth(j).value)]
    else []
  }

  /**
   * Status sequence of a job that reaches synthesis: extracting with total 0,
   * synthesizing with total n, one progress write per completed chapter
   * counting up from 1, then the ending at the stopping chapter j.
   */
  lemma RunTrace(q: Queue, id: nat, env: Env, asWritten: bool, titles: seq<string>)
    requires Reaches(q, id, env, titles)
    ensures Run(q, id, env, asWritten).writes ==
      [Started(Extracting, 0), Started(Synthesizing, |titles|)] + Progs(1, StopAt(env, |titles|, 1)) +
      WriteTail(env, |titles|, StopAt(env, |titles|, 1), asWritten)
    ensures Run(q, id, env, asWritten).events ==
      [JobStarted(id, q.jobs[id].title, q.jobs[id].author)] + Pairs(id, titles, 1, StopAt(env, |titles|, 1)) +
      EventTail(id, q.jobs[id].title, titles, env, StopAt(env, |titles|, 1), asWritten)
  {
    var job, n, j := q.jobs[id], |titles|, StopAt(env, |titles|, 1);
    var t2 := Opening(id, job, n, env.callback);
    RunIsFinish(q, id, env, asWritten, titles);
    ChaptersTrace(id, titles, 1, env, t2);
    FinishWrites(id, job.title, titles, env, asWritten, t2.writes, j, Chapters(id, titles, 1, env, t2));
    FinishEvents(id, job.title, titles, env, asWritten, t2.events, j, Chapters(id, titles, 1, env, t2));
  }

  /** What `_process_job` has done when the chapter loop begins: job_started published, then start_job twice. */
  function Opening(id: nat, job: Job, n: nat, cb: Option<Event -> bool>): (t: Trace)
    ensures t.writes == [Started(Extracting, 0), Started(Synthesizing, n)]
    ensures t.events == [JobStarted(id, job.title, job.author)]
  {
    Record(Record(Publish(Trace([], [], 0), cb, JobStarted(id, job.title, job.author)), Started(Extracting, 0)),
           Started(Synthesizing, n))
  }

  /** A job that reaches synthesis runs the chapter loop after its opening and then finishes. */
  lemma RunIsFinish(q: Queue, id: nat, env: Env, asWritten: bool, titles: seq<string>)
    requires Reaches(q, id, env, titles)
    ensures Run(q, id, env, asWritten) ==
      Finish(id, q.jobs[id].title, |titles|, env, asWritten,
             Chapters(id, titles, 1, env, Opening(id, q.jobs[id], |titles|, env.callback)))
  {
  }

  /** The writes after the loop: what it wrote, then the tail for its stopping chapter. */
  lemma FinishWrites(id: nat, title: string, titles: seq<string>, env: Env, asWritten: bool, w: seq<Write>, j: nat, s: Stage)
    requires 1 <= j <= |titles| + 1
    requires s.Finished? <==> j == |titles| + 1
    requires s.Raised? <==> FailsAt(env, |titles|, j)
    requires s.Raised? ==> env.synth(j) == Some(s.message)
    requires s.t.writes == w + Progs(1, j) + PauseWrite(env, |titles|, j)
    ensures Finish(id, title, |titles|, env, asWritten, s).writes == w + Progs(1, j) + WriteTail(env, |titles|, j, asWritten)
  {
    var n, p := |titles|, w + Progs(1, j);
    match s
    case Stopped(t) =>
      assert t.writes == p + WriteTail(env, n, j, asWritten);
    case Raised(t, msg) =>
      assert t.writes == p;
    case Finished(t) =>
      assert t.writes == p;
      var last := match env.output
        case Err(m) => [FailedWith(m)]
        case Ok(dir) => if asWritten then [FailedWith(CompleteArityMessage)] else [Completed(dir)];
      assert Finish(id, title, n, env, asWritten, s).writes == (p + [Progress(Building, n)]) + last;
      assert WriteTail(env, n, j, asWritten) == [Progress(Building, n)] + last;
  }

  /** The events after the loop: what it published, then the tail for its stopping chapter. */
  lemma FinishEvents(id: nat, title: string, titles: seq<string>, env: Env, asWritten: bool, e: seq<Event>, j: nat, s: Stage)
    requires 1 <= j <= |titles| + 1
    requires s.Finished? <==> j == |titles| + 1
    requires s.Raised? <==> FailsAt(env, |titles|, j)
    requires s.Raised? ==> env.synth(j) == Some(s.message)
    requires s.t.events == e + Pairs(id, titles, 1, j) + FailStart(id, titles, env, j)
    ensures Finish(id, title, |titles|, env, asWritten, s).events == e + Pairs(id, titles, 1, j) + EventTail(id, title, titles, env, j, asWritten)
  {
    var n, p := |titles|, e + Pairs(id, titles, 1, j);
    match s
    case Stopped(t) =>
      assert t.events == p;
    case Raised(t, msg) =>
      assert t.events == p + [ChapterStarted(id, j, n, titles[j - 1])];
      assert EventTail(id, title, titles, env, j, asWritten) == [ChapterStarted(id, j, n, titles[j - 1]), JobFailed(id, msg)];
    case Finished(t) =>
      assert t.events == p;
  }

  // ----- The row after the writes -----

  lemma ApplyAllSnoc(q: Queue, id: nat, ws: seq<Write>, w: Write, now: string)
    ensures ApplyAll(q, id, ws + [w], now) == Apply(ApplyAll(q, id, ws, now), id, w, now)
  {
    assert (ws + [w])[..|ws|] == ws;
  }

  lemma {:induction false} ApplyAllConcat(q: Queue, id: nat, a: seq<Write>, b: seq<Write>, now: string)
    ensures ApplyAll(q, id, a + b, now) == ApplyAll(ApplyAll(q, id, a, now), id, b, now)
    decreases |b|
  {
    if b == [] {
      assert a + b == a;
    } else {
      var b' := b[..|b| - 1];
      assert a + b == (a + b') + [b[|b| - 1]];
      ApplyAllSnoc(q, id, a + b', b[|b| - 1], now);
      ApplyAllConcat(q, id, a, b', now);
      ApplyAllSnoc(ApplyAll(q, id, a, now), id, b', b[|b| - 1], now);
      assert b == b' + [b[|b| - 1]];
    }
  }

  /** The columns the last write sets. */
  lemma ApplyLast(q: Queue, id: nat, ws: seq<Write>, w: Write, now: string)
    requires id in q.jobs
    ensures var r := ApplyAll(q, id, ws + [w], now).jobs[id];
      (w.Started? ==> r.status == w.status && r.chaptersTotal == w.total) &&
      (w.Progress? ==> r.status == w.status && r.chaptersDone == w.done) &&
      (w.Completed? ==> r.status == Complete && r.outputPath == Some(w.outputPath)) &&
      (w.FailedWith? ==> r.status == Failed && r.errorMessage == Some(w.message))
  {
    ApplyAllSnoc(q, id, ws, w, now);
  }

  /** Writes other than start_job leave chapters_total alone. */
  lemma {:induction false} TotalKept(q: Queue, id: nat, ws: seq<Write>, now: string)
    requires id in q.jobs
    requires forall i | 0 <= i < |ws| :: !ws[i].Started?
    ensures ApplyAll(q, id, ws, now).jobs[id].chaptersTotal == q.jobs[id].chaptersTotal
    decreases |ws|
  {
    if ws != [] {
      var p := ApplyAll(q, id, ws[..|ws| - 1], now);
      TotalKept(q, id, ws[..|ws| - 1], now);
      var w := ws[|ws| - 1];
      assert Get(p.jobs[id], TotalF) == Get(Apply(p, id, w, now).jobs[id], TotalF);
    }
  }

  /** Progs writes synthesizing progress for chapters k .. j - 1 only. */
  lemma {:induction false} ProgsBounded(k: nat, j: nat)
    ensures forall i | 0 <= i < |Progs(k, j)| ::
      Progs(k, j)[i].Progress? && Progs(k, j)[i].status == Synthesizing && k <= Progs(k, j)[i].done < j
    decreases j - k
  {
    if k < j {
      ProgsBounded(k + 1, j);
    }
  }

  lemma ProgsSnoc(k: nat, j: nat)
    requires k < j
    ensures Progs(k, j) == Progs(k, j - 1) + [Progress(Synthesizing, j - 1)]
    decreases j - k
  {
    if k < j - 1 {
      ProgsSnoc(k + 1, j);
    }
  }

  /** With no chapter stopped, paused or failed, the loop runs to the end. */
  lemma {:induction false} StopAtEnd(env: Env, n: nat, k: nat)
    requires 1 <= k <= n + 1
    requires forall c | k <= c <= n :: env.running(c) && !env.paused(c) && env.synth(c).None?
    ensures StopAt(env, n, k) == n + 1
    decreases n + 1 - k
  {
    if k <= n {
      StopAtEnd(env, n, k + 1);
    }
  }

  // ----- Properties of `_process_job` -----

  /** chapters_done is never written above the chapter count, nor chapters_total other than 0 or n. */
  lemma ProgressBounded(q: Queue, id: nat, env: Env, asWritten: bool, titles: seq<string>)
    requires Reaches(q, id, env, titles)
    ensures WritesBounded(Run(q, id, env, asWritten).writes, |titles|)
  {
    var n := |titles|;
    RunWritesAll(q, id, env, asWritten, titles, w => BoundedWrite(w, n));
  }

  /** Every `update_progress` count lies in 0..n, and every `start_job` total is 0 or n. */
  predicate WritesBounded(ws: seq<Write>, n: nat) {
    forall i | 0 <= i < |ws| :: BoundedWrite(ws[i], n)
  }

  predicate BoundedWrite(w: Write, n: nat) {
    (w.Progress? ==> 0 <= w.done <= n) && (w.Started? ==> w.total == 0 || w.total == n)
  }

  /** Every write satisfies `ok`. */
  predicate AllWrites(ws: seq<Write>, ok: Write -> bool) {
    forall i | 0 <= i < |ws| :: ok(ws[i])
  }

  /**
   * A property of single writes holds of every write of a run that reaches
   * synthesis when it holds of each write `_process_job` can make there:
   * the two `start_job` calls, the progress counts 0..n, the building
   * progress, any `fail_job`, and `complete_job` when it is really called.
   */
  lemma RunWritesAll(q: Queue, id: nat, env: Env, asWritten: bool, titles: seq<string>, ok: Write -> bool)
    requires Reaches(q, id, env, titles)
    requires ok(Started(Extracting, 0)) && ok(Started(Synthesizing, |titles|)) && ok(Progress(Building, |titles|))
    requires forall c | 0 <= c < |titles| :: ok(Progress(Pending, c))
    requires forall c | 1 <= c <= |titles| :: ok(Progress(Synthesizing, c))
    requires forall m :: ok(FailedWith(m))
    requires !asWritten ==> forall d :: ok(Completed(d))
    ensures AllWrites(Run(q, id, env, asWritten).writes, ok)
  {
    var n, job := |titles|, q.jobs[id];
    var t2 := Opening(id, job, n, env.callback);
    assert AllWrites(t2.writes, ok) by {
      assert t2.writes == [Started(Extracting, 0), Started(Synthesizing, n)];
    }
    RunIsFinish(q, id, env, asWritten, titles);
    ChaptersAll(id, titles, 1, env, t2, ok);
    FinishAll(id, job.title, n, env, asWritten, Chapters(id, titles, 1, env, t2), ok);
  }

  lemma RecordAll(t: Trace, w: Write, ok: Write -> bool)
    requires AllWrites(t.writes, ok) && ok(w)
    ensures AllWrites(Record(t, w).writes, ok)
  {
    var ws := Record(t, w).writes;
    assert ws == t.writes + [w];
    forall i | 0 <= i < |ws|
      ensures ok(ws[i])
    {
      if i < |t.writes| {
        assert ws[i] == t.writes[i];
      }
    }
  }

  /** The chapter loop writes only progress counts of its chapters. */
  lemma {:induction false} ChaptersAll(id: nat, titles: seq<string>, k: nat, env: Env, t: Trace, ok: Write -> bool)
    requires 1 <= k <= |titles| + 1 && AllWrites(t.writes, ok)
    requires forall c | 0 <= c < |titles| :: ok(Progress(Pending, c))
    requires forall c | 1 <= c <= |titles| :: ok(Progress(Synthesizing, c))
    ensures AllWrites(Chapters(id, titles, k, env, t).t.writes, ok)
    decreases |titles| + 1 - k
  {
    if k <= |titles| && env.running(k) {
      var n := |titles|;
      if env.paused(k) {
        RecordAll(t, Progress(Pending, k - 1), ok);
      } else {
        var t1 := Publish(t, env.callback, ChapterStarted(id, k, n, titles[k - 1]));
        if env.synth(k).None? {
          RecordAll(t1, Progress(Synthesizing, k), ok);
          var t2 := Publish(Record(t1, Progress(Synthesizing, k)), env.callback, ChapterCompleted(id, k, n));
          ChaptersAll(id, titles, k + 1, env, t2, ok);
        }
      }
    }
  }

  /** After the loop: the building progress, then `complete_job` or `fail_job`. */
  lemma FinishAll(id: nat, title: string, n: nat, env: Env, asWritten: bool, s: Stage, ok: Write -> bool)
    requires AllWrites(s.t.writes, ok) && ok(Progress(Building, n))
    requires forall m :: ok(FailedWith(m))
    requires !asWritten ==> forall d :: ok(Completed(d))
    ensures AllWrites(Finish(id, title, n, env, asWritten, s).writes, ok)
  {
    match s
    case Stopped(t) =>
    case Raised(t, msg) =>
      RecordAll(t, FailedWith(msg), ok);
    case Finished(t) =>
      RecordAll(t, Progress(Building, n), ok);
      var t3 := Record(t, Progress(Building, n));
      match env.output
      case Err(msg) =>
        RecordAll(t3, FailedWith(msg), ok);
      case Ok(dir) =>
        if asWritten {
          RecordAll(t3, FailedWith(CompleteArityMessage), ok);
        } else {
          RecordAll(t3, Completed(dir), ok);
        }
  }

  /** The writes of a job that runs to completion: the status sequence of `_process_job`. */
  function CompletionWrites(n: nat, dir: string): seq<Write> {
    [Started(Extracting, 0), Started(Synthesizing, n)] + Progs(1, n + 1) + [Progress(Building, n), Completed(dir)]
  }

  /** After the completion writes the row is complete, with all n chapters done out of n. */
  lemma CompletionRow(q: Queue, id: nat, n: nat, dir: string, now: string)
    requires id in q.jobs
    ensures CompleteRow(ApplyAll(q, id, CompletionWrites(n, dir), now).jobs[id], dir, n)
  {
    CompletionTotal(q, id, n, dir, now);
    CompletionDone(q, id, n, dir, now);
  }

  /** A row marked complete with that output path and all n of n chapters done. */
  predicate CompleteRow(r: Job, dir: string, n: nat) {
    r.status == Complete && r.outputPath == Some(dir) && r.chaptersDone == n && r.chaptersTotal == n
  }

  lemma CompletionTotal(q: Queue, id: nat, n: nat, dir: string, now: string)
    requires id in q.jobs
    ensures ApplyAll(q, id, CompletionWrites(n, dir), now).jobs[id].chaptersTotal == n
  {
    var a := [Started(Extracting, 0), Started(Synthesizing, n)] + Progs(1, n + 1);
    var b := [Progress(Building, n), Completed(dir)];
    assert CompletionWrites(n, dir) == a + b;
    StoppedTotal(q, id, n, n + 1, now);
    ApplyAllConcat(q, id, a, b, now);
    EndingKeepsTotal(ApplyAll(q, id, a, now), id, n, dir, now);
  }

  /** The building progress and complete_job leave chapters_total alone. */
  lemma EndingKeepsTotal(q: Queue, id: nat, n: nat, dir: string, now: string)
    requires id in q.jobs
    ensures ApplyAll(q, id, [Progress(Building, n), Completed(dir)], now).jobs[id].chaptersTotal == q.jobs[id].chaptersTotal
  {
    TotalKept(q, id, [Progress(Building, n), Completed(dir)], now);
  }

  lemma CompletionDone(q: Queue, id: nat, n: nat, dir: string, now: string)
    requires id in q.jobs
    ensures ApplyAll(q, id, CompletionWrites(n, dir), now).jobs[id].status == Complete
    ensures ApplyAll(q, id, CompletionWrites(n, dir), now).jobs[id].outputPath == Some(dir)
    ensures ApplyAll(q, id, CompletionWrites(n, dir), now).jobs[id].chaptersDone == n
  {
    var c := [Started(Extracting, 0), Started(Synthesizing, n)] + Progs(1, n + 1) + [Progress(Building, n)];
    assert CompletionWrites(n, dir) == c + [Completed(dir)];
    ApplyLast(q, id, c, Completed(dir), now);
    ApplyLast(q, id, c[..|c| - 1], Progress(Building, n), now);
    assert c == c[..|c| - 1] + [Progress(Building, n)];
    CompleteKeepsDone(ApplyAll(q, id, c, now), id, dir, now);
    ApplyAllSnoc(q, id, c, Completed(dir), now);
  }

  /** `complete_job` leaves chapters_done alone. */
  lemma CompleteKeepsDone(p: Queue, id: nat, dir: string, now: string)
    requires id in p.jobs
    ensures Apply(p, id, Completed(dir), now).jobs[id].chaptersDone == p.jobs[id].chaptersDone
  {
    assert Apply(p, id, Completed(dir), now) == CompleteJob(p, id, dir, now);
  }

  /** With every chapter synthesized and the book written, the job completes with all chapters done. */
  lemma HappyPath(q: Queue, id: nat, env: Env, titles: seq<string>, dir: string)
    requires Reaches(q, id, env, titles) && env.output == Ok(dir)
    requires forall c | 1 <= c <= |titles| :: env.running(c) && !env.paused(c) && env.synth(c).None?
    ensures Run(q, id, env, false).writes == CompletionWrites(|titles|, dir)
    ensures Run(q, id, env, false).events ==
      [JobStarted(id, q.jobs[id].title, q.jobs[id].author)] + Pairs(id, titles, 1, |titles| + 1) +
      [JobCompleted(id, q.jobs[id].title, dir)]
    ensures CompleteRow(ProcessJob(WorkerState(q, Some(id)), id, env).queue.jobs[id], dir, |titles|)
  {
    StopAtEnd(env, |titles|, 1);
    RunTrace(q, id, env, false, titles);
    CompletedRun(q, id, env, |titles|, dir);
  }

  /** A run whose writes are the completion writes leaves the row complete. */
  lemma CompletedRun(q: Queue, id: nat, env: Env, n: nat, dir: string)
    requires id in q.jobs && Run(q, id, env, false).writes == CompletionWrites(n, dir)
    ensures CompleteRow(ProcessJob(WorkerState(q, Some(id)), id, env).queue.jobs[id], dir, n)
  {
    CompletionRow(q, id, n, dir, env.now);
  }

  /** Paused before chapter j: the job goes back to pending with j - 1 chapters done, and nothing more is published. */
  lemma PauseCheckpoint(q: Queue, id: nat, env: Env, asWritten: bool, titles: seq<string>)
    requires Reaches(q, id, env, titles) && PausedAt(env, |titles|, StopAt(env, |titles|, 1))
    ensures Run(q, id, env, asWritten).events ==
      [JobStarted(id, q.jobs[id].title, q.jobs[id].author)] + Pairs(id, titles, 1, StopAt(env, |titles|, 1))
    ensures RowAfter(q, id, env, asWritten).status == Pending
    ensures RowAfter(q, id, env, asWritten).chaptersDone == StopAt(env, |titles|, 1) - 1
  {
    var n, j := |titles|, StopAt(env, |titles|, 1);
    RunTrace(q, id, env, asWritten, titles);
    LastWriteRow(q, id, env, asWritten, [Started(Extracting, 0), Started(Synthesizing, n)] + Progs(1, j), Progress(Pending, j - 1));
  }

  /** The row after a run is set by the run's last write as `ApplyLast` describes. */
  lemma LastWriteRow(q: Queue, id: nat, env: Env, asWritten: bool, ws: seq<Write>, w: Write)
    requires id in q.jobs && Run(q, id, env, asWritten).writes == ws + [w]
    ensures w.Started? ==> RowAfter(q, id, env, asWritten).status == w.status && RowAfter(q, id, env, asWritten).chaptersTotal == w.total
    ensures w.Progress? ==> RowAfter(q, id, env, asWritten).status == w.status && RowAfter(q, id, env, asWritten).chaptersDone == w.done
    ensures w.FailedWith? ==> RowAfter(q, id, env, asWritten).status == Failed && RowAfter(q, id, env, asWritten).errorMessage == Some(w.message)
  {
    RowAfterWrites(q, id, env, asWritten);
    ApplyLast(q, id, ws, w, env.now);
  }

  /** The writes and events of a run the stop flag ends before chapter j: nothing after the last completed chapter. */
  lemma StopTrace(q: Queue, id: nat, env: Env, asWritten: bool, titles: seq<string>)
    requires Reaches(q, id, env, titles)
    requires StopAt(env, |titles|, 1) <= |titles| && !env.running(StopAt(env, |titles|, 1))
    ensures var j, t := StopAt(env, |titles|, 1), Run(q, id, env, asWritten);
      t.writes == [Started(Extracting, 0), Started(Synthesizing, |titles|)] + Progs(1, j) &&
      t.events == [JobStarted(id, q.jobs[id].title, q.jobs[id].author)] + Pairs(id, titles, 1, j)
  {
    RunTrace(q, id, env, asWritten, titles);
  }

  /** Stopped before chapter j: the row stays synthesizing, with its total and j - 1 chapters done once any is. */
  lemma StopKeepsStatus(q: Queue, id: nat, env: Env, asWritten: bool, titles: seq<string>)
    requires Reaches(q, id, env, titles)
    requires StopAt(env, |titles|, 1) <= |titles| && !env.running(StopAt(env, |titles|, 1))
    ensures RowAfter(q, id, env, asWritten).status == Synthesizing
    ensures RowAfter(q, id, env, asWritten).chaptersTotal == |titles|
    ensures StopAt(env, |titles|, 1) > 1 ==> RowAfter(q, id, env, asWritten).chaptersDone == StopAt(env, |titles|, 1) - 1
  {
    var n, j := |titles|, StopAt(env, |titles|, 1);
    RowAfterWrites(q, id, env, asWritten);
    StopTrace(q, id, env, asWritten, titles);
    StoppedTotal(q, id, n, j, env.now);
    StoppedDone(q, id, n, j, env.now);
  }

  /** The writes up to the last completed chapter leave chapters_total at n. */
  lemma StoppedTotal(q: Queue, id: nat, n: nat, j: nat, now: string)
    requires id in q.jobs
    ensures ApplyAll(q, id, [Started(Extracting, 0), Started(Synthesizing, n)] + Progs(1, j), now).jobs[id].chaptersTotal == n
  {
    var a := [Started(Extracting, 0), Started(Synthesizing, n)];
    assert a == [Started(Extracting, 0)] + [Started(Synthesizing, n)];
    ApplyLast(q, id, [Started(Extracting, 0)], Started(Synthesizing, n), now);
    ApplyAllConcat(q, id, a, Progs(1, j), now);
    ProgsBounded(1, j);
    TotalKept(ApplyAll(q, id, a, now), id, Progs(1, j), now);
  }

  /** After the writes up to the last completed chapter the row is synthesizing, with j - 1 chapters done once any is. */
  lemma StoppedDone(q: Queue, id: nat, n: nat, j: nat, now: string)
    requires id in q.jobs
    ensures var r := ApplyAll(q, id, [Started(Extracting, 0), Started(Synthesizing, n)] + Progs(1, j), now).jobs[id];
      r.status == Synthesizing && (j > 1 ==> r.chaptersDone == j - 1)
  {
    var a := [Started(Extracting, 0), Started(Synthesizing, n)];
    if j > 1 {
      ProgsSnoc(1, j);
      assert a + Progs(1, j) == (a + Progs(1, j - 1)) + [Progress(Synthesizing, j - 1)];
      ApplyLast(q, id, a + Progs(1, j - 1), Progress(Synthesizing, j - 1), now);
    } else {
      assert a + Progs(1, j) == [Started(Extracting, 0)] + [Started(Synthesizing, n)];
      ApplyLast(q, id, [Started(Extracting, 0)], Started(Synthesizing, n), now);
    }
  }

  /**
   * The trace ends in agreement: it has an event and a write, and its last
   * event is `job_failed` exactly when its last write is `fail_job`, with
   * the same message.
   */
  predicate EndsAgree(t: Trace, id: nat) {
    && t.events != [] && t.writes != []
    && (t.events[|t.events| - 1].JobFailed? <==> t.writes[|t.writes| - 1].FailedWith?)
    && (t.events[|t.events| - 1].JobFailed? ==>
          t.events[|t.events| - 1] == JobFailed(id, t.writes[|t.writes| - 1].message))
  }

  /** The trace has an event and a write, and ends in neither `job_failed` nor `fail_job`. */
  predicate Calm(t: Trace) {
    && t.events != [] && t.writes != []
    && !t.events[|t.events| - 1].JobFailed? && !t.writes[|t.writes| - 1].FailedWith?
  }

  /** The last event of a run is `job_failed` exactly when its last write is `fail_job` with the same message. */
  lemma FailedEnding(q: Queue, id: nat, env: Env, asWritten: bool)
    ensures EndsAgree(Run(q, id, env, asWritten), id)
  {
    var t0 := Trace([], [], 0);
    match GetJob(q, id)
    case Err(_) =>
      FailAgrees(t0, env.callback, id, NotFoundMessage(id));
    case Ok(job) =>
      var t1 := Record(Publish(t0, env.callback, JobStarted(id, job.title, job.author)), Started(Extracting, 0));
      match job.epubPath
      case None =>
        FailAgrees(t1, env.callback, id, env.noPath);
      case Some(path) =>
        match env.extract(path, Extract.KepubDefault(FileName(path), None))
        case Err(msg) =>
          FailAgrees(t1, env.callback, id, msg);
        case Ok(titles) =>
          var t2 := Record(t1, Started(Synthesizing, |titles|));
          if env.ready.Some? {
            FailAgrees(t2, env.callback, id, env.ready.value);
          } else {
            var st := Chapters(id, titles, 1, env, t2);
            ChaptersCalm(id, titles, 1, env, t2);
            FinishAgrees(id, job.title, |titles|, env, asWritten, st);
          }
  }

  lemma FailAgrees(t: Trace, cb: Option<Event -> bool>, id: nat, message: string)
    ensures EndsAgree(Fail(t, cb, id, message), id)
  {
  }

  /** Whatever way the chapter loop ends, building and completing or failing leave the trace in agreement. */
  lemma FinishAgrees(id: nat, title: string, n: nat, env: Env, asWritten: bool, s: Stage)
    requires Calm(s.t)
    ensures EndsAgree(Finish(id, title, n, env, asWritten, s), id)
  {
    match s
    case Stopped(t) =>
    case Raised(t, msg) =>
      FailAgrees(t, env.callback, id, msg);
    case Finished(t) =>
      var t3 := Record(t, Progress(Building, n));
      match env.output
      case Err(msg) =>
        FailAgrees(t3, env.callback, id, msg);
      case Ok(dir) =>
        if asWritten {
          FailAgrees(t3, env.callback, id, CompleteArityMessage);
        }
  }

  /** The chapter loop neither fails the job nor publishes `job_failed`: a calm trace stays calm. */
  lemma {:induction false} ChaptersCalm(id: nat, titles: seq<string>, k: nat, env: Env, t: Trace)
    requires 1 <= k <= |titles| + 1 && Calm(t)
    ensures Calm(Chapters(id, titles, k, env, t).t)
    decreases |titles| + 1 - k
  {
    if k <= |titles| && env.running(k) && !env.paused(k) && env.synth(k).None? {
      var t1 := Publish(t, env.callback, ChapterStarted(id, k, |titles|, titles[k - 1]));
      var t2 := Publish(Record(t1, Progress(Synthesizing, k)), env.callback, ChapterCompleted(id, k, |titles|));
      ChaptersCalm(id, titles, k + 1, env, t2);
    }
  }

  /** Whenever a run ends by publishing `job_failed`, the stored job is failed with that message. */
  lemma FailureMarksFailed(q: Queue, id: nat, env: Env, asWritten: bool)
    requires id in q.jobs
    requires Run(q, id, env, asWritten).events != []
    requires Run(q, id, env, asWritten).events[|Run(q, id, env, asWritten).events| - 1].JobFailed?
    ensures RowAfter(q, id, env, asWritten).status == Failed
    ensures RowAfter(q, id, env, asWritten).errorMessage ==
      Some(Run(q, id, env, asWritten).events[|Run(q, id, env, asWritten).events| - 1].error)
  {
    FailedEnding(q, id, env, asWritten);
    var ws := Run(q, id, env, asWritten).writes;
    assert ws == ws[..|ws| - 1] + [ws[|ws| - 1]];
    LastWriteRow(q, id, env, asWritten, ws[..|ws| - 1], ws[|ws| - 1]);
  }

  /** An extraction error fails the job with its message. */
  lemma ExtractionFailure(q: Queue, id: nat, env: Env, asWritten: bool, message: string)
    requires id in q.jobs && q.jobs[id].epubPath.Some?
    requires env.extract(q.jobs[id].epubPath.value, Extract.KepubDefault(FileName(q.jobs[id].epubPath.value), None)) == Err(message)
    ensures var t := Run(q, id, env, asWritten);
      t.writes == [Started(Extracting, 0), FailedWith(message)] &&
      t.events == [JobStarted(id, q.jobs[id].title, q.jobs[id].author), JobFailed(id, message)]
  {
  }

  /** A stored chapters_done never influences a run: chapters always restart at 1. */
  lemma RunIgnoresDone(q: Queue, id: nat, env: Env, asWritten: bool, done: int)
    requires id in q.jobs
    ensures Run(Queue(q.jobs[id := q.jobs[id].(chaptersDone := done)], q.nextId), id, env, asWritten)
         == Run(q, id, env, asWritten)
  {
  }

  /** The callback, and whether it raises, never changes a run's writes or published events. */
  lemma RunIgnoresCallback(q: Queue, id: nat, env: Env, asWritten: bool, cb: Option<Event -> bool>)
    ensures Run(q, id, env.(callback := cb), asWritten).writes == Run(q, id, env, asWritten).writes
    ensures Run(q, id, env.(callback := cb), asWritten).events == Run(q, id, env, asWritten).events
  {
    var env' := env.(callback := cb);
    var t0 := Trace([], [], 0);
    match GetJob(q, id)
    case Err(_) =>
    case Ok(job) =>
      var t1 := Record(Publish(t0, env.callback, JobStarted(id, job.title, job.author)), Started(Extracting, 0));
      var t1' := Record(Publish(t0, cb, JobStarted(id, job.title, job.author)), Started(Extracting, 0));
      match job.epubPath
      case None =>
      case Some(path) =>
        match env.extract(path, Extract.KepubDefault(FileName(path), None))
        case Err(msg) =>
        case Ok(titles) =>
          if env.ready.None? {
            var t2, t2' := Record(t1, Started(Synthesizing, |titles|)), Record(t1', Started(Synthesizing, |titles|));
            var st, st' := Chapters(id, titles, 1, env, t2), Chapters(id, titles, 1, env', t2');
            ChaptersIgnoreCallback(id, titles, 1, env, env', t2, t2');
            FinishIgnoresCallback(id, job.title, |titles|, env, env', asWritten, st, st');
          }
  }

  /** Two loop outcomes that differ at most in the callback errors logged. */
  predicate SameStage(s: Stage, s': Stage) {
    && s.t.writes == s'.t.writes && s.t.events == s'.t.events
    && (s.Finished? <==> s'.Finished?) && (s.Stopped? <==> s'.Stopped?)
    && (s.Raised? ==> s'.Raised? && s.message == s'.message)
  }

  lemma {:induction false} ChaptersIgnoreCallback(id: nat, titles: seq<string>, k: nat, env: Env, env': Env, t: Trace, t': Trace)
    requires 1 <= k <= |titles| + 1
    requires env' == env.(callback := env'.callback)
    requires t.writes == t'.writes && t.events == t'.events
    ensures SameStage(Chapters(id, titles, k, env, t), Chapters(id, titles, k, env', t'))
    decreases |titles| + 1 - k
  {
    if k <= |titles| && env.running(k) && !env.paused(k) {
      var n := |titles|;
      var t1 := Publish(t, env.callback, ChapterStarted(id, k, n, titles[k - 1]));
      var t1' := Publish(t', env'.callback, ChapterStarted(id, k, n, titles[k - 1]));
      if env.synth(k).None? {
        var t2 := Publish(Record(t1, Progress(Synthesizing, k)), env.callback, ChapterCompleted(id, k, n));
        var t2' := Publish(Record(t1', Progress(Synthesizing, k)), env'.callback, ChapterCompleted(id, k, n));
        ChaptersIgnoreCallback(id, titles, k + 1, env, env', t2, t2');
      }
    }
  }

  lemma FinishIgnoresCallback(id: nat, title: string, n: nat, env: Env, env': Env, asWritten: bool, s: Stage, s': Stage)
    requires env' == env.(callback := env'.callback) && SameStage(s, s')
    ensures Finish(id, title, n, env', asWritten, s').writes == Finish(id, title, n, env, asWritten, s).writes
    ensures Finish(id, title, n, env', asWritten, s').events == Finish(id, title, n, env, asWritten, s).events
  {
  }

  /** As written, a job whose chapters all synthesize and whose book is written still ends failed. */
  lemma AsWrittenFailsAtEnd(q: Queue, id: nat, env: Env, titles: seq<string>, dir: string)
    requires Reaches(q, id, env, titles) && env.output == Ok(dir)
    requires forall c | 1 <= c <= |titles| :: env.running(c) && !env.paused(c) && env.synth(c).None?
    ensures RowAfter(q, id, env, true).status == Failed
    ensures RowAfter(q, id, env, true).errorMessage == Some(CompleteArityMessage)
    ensures var es := Run(q, id, env, true).events; es != [] && es[|es| - 1] == JobFailed(id, CompleteArityMessage)
  {
    var n := |titles|;
    StopAtEnd(env, n, 1);
    RunTrace(q, id, env, true, titles);
    var head := [Started(Extracting, 0), Started(Synthesizing, n)] + Progs(1, n + 1);
    TailsAtEnd(id, q.jobs[id].title, titles, env, dir);
    SnocPair(head, Progress(Building, n), FailedWith(CompleteArityMessage));
    EndsFailedWith(q, id, env, true, head + [Progress(Building, n)], CompleteArityMessage);
  }

  /** After the last chapter, as written: the building write, then the failure with the arity message. */
  lemma TailsAtEnd(id: nat, title: string, titles: seq<string>, env: Env, dir: string)
    requires env.output == Ok(dir)
    ensures WriteTail(env, |titles|, |titles| + 1, true) == [Progress(Building, |titles|), FailedWith(CompleteArityMessage)]
    ensures EventTail(id, title, titles, env, |titles| + 1, true) == [JobFailed(id, CompleteArityMessage)]
  {
  }

  lemma SnocPair<T>(head: seq<T>, x: T, y: T)
    ensures head + [x, y] == (head + [x]) + [y]
  {
  }

  /** A run whose last write is a failure leaves the row failed with that message. */
  lemma EndsFailedWith(q: Queue, id: nat, env: Env, asWritten: bool, c: seq<Write>, m: string)
    requires id in q.jobs && Run(q, id, env, asWritten).writes == c + [FailedWith(m)]
    ensures RowAfter(q, id, env, asWritten).status == Failed
    ensures RowAfter(q, id, env, asWritten).errorMessage == Some(m)
  {
    RowAfterWrites(q, id, env, asWritten);
    ApplyLast(q, id, c, FailedWith(m), env.now);
  }

  /** As written, no run ever marks its job complete. */
  lemma AsWrittenNeverCompletes(q: Queue, id: nat, env: Env)
    requires id in q.jobs
    ensures ProcessJobAsWritten(WorkerState(q, Some(id)), id, env).queue.jobs[id].status != Complete
  {
    var ws := Run(q, id, env, true).writes;
    AsWrittenWrites(q, id, env);
    assert ws == ws[..|ws| - 1] + [ws[|ws| - 1]];
    ApplyLast(q, id, ws[..|ws| - 1], ws[|ws| - 1], env.now);
  }

  /** As written, a run's writes never include complete_job, nor a start or progress write to the complete status. */
  lemma AsWrittenWrites(q: Queue, id: nat, env: Env)
    ensures Run(q, id, env, true).writes != []
    ensures forall i | 0 <= i < |Run(q, id, env, true).writes| :: NeverCompletes(Run(q, id, env, true).writes[i])
  {
    FailedEnding(q, id, env, true);
    var ok := w => NeverCompletes(w);
    if Stalls(q, id, env) {
      StallWritesAll(q, id, env, true, ok);
    } else {
      var path := q.jobs[id].epubPath.value;
      RunWritesAll(q, id, env, true, env.extract(path, Extract.KepubDefault(FileName(path), None)).value, ok);
    }
  }

  /** The run ends before the chapter loop: no job, no path, an extraction error, or the server not ready. */
  predicate Stalls(q: Queue, id: nat, env: Env) {
    !(id in q.jobs && q.jobs[id].epubPath.Some? &&
      env.extract(q.jobs[id].epubPath.value, Extract.KepubDefault(FileName(q.jobs[id].epubPath.value), None)).Ok? &&
      env.ready.None?)
  }

  /** A run that stalls writes at most the two `start_job` calls and then `fail_job`. */
  lemma StallWritesAll(q: Queue, id: nat, env: Env, asWritten: bool, ok: Write -> bool)
    requires Stalls(q, id, env)
    requires ok(Started(Extracting, 0)) && forall n: nat :: ok(Started(Synthesizing, n))
    requires forall m :: ok(FailedWith(m))
    ensures AllWrites(Run(q, id, env, asWritten).writes, ok)
  {
    var t0 := Trace([], [], 0);
    match GetJob(q, id)
    case Err(_) =>
      RecordAll(t0, FailedWith(NotFoundMessage(id)), ok);
    case Ok(job) =>
      var t1 := Record(Publish(t0, env.callback, JobStarted(id, job.title, job.author)), Started(Extracting, 0));
      RecordAll(Publish(t0, env.callback, JobStarted(id, job.title, job.author)), Started(Extracting, 0), ok);
      match job.epubPath
      case None =>
        RecordAll(t1, FailedWith(env.noPath), ok);
      case Some(path) =>
        match env.extract(path, Extract.KepubDefault(FileName(path), None))
        case Err(msg) =>
          RecordAll(t1, FailedWith(msg), ok);
        case Ok(titles) =>
          var t2 := Record(t1, Started(Synthesizing, |titles|));
          RecordAll(t1, Started(Synthesizing, |titles|), ok);
          RecordAll(t2, FailedWith(env.ready.value), ok);
  }

  /** A write that neither calls complete_job nor sets the complete status. */
  predicate NeverCompletes(w: Write) {
    !w.Completed? && (w.FailedWith? || w.status != Complete)
  }
}

=== FILE: wrappers.dfy ===
/** Failure-carrying result types shared by every module of the model. */
module Wrappers {

  /** A value that may be absent (Python's `None`). */
  datatype Option<+T> = None | Some(value: T) {
    function GetOr(default: T): T {
      match this
      case Some(v) => v
      case None => default
    }
  }

  /** The outcome of an operation that can raise: a value or the error it raised. */
  datatype Result<+R, +E> = Ok(value: R) | Err(error: E)
}
